=== FILE: README.md ===
# Search-engine coursework in Dafny

This project models the core of four information-retrieval assignments and
proves properties of the model:

- HW1 is a character 4-gram language identifier. It has three classes:
  Malaysian, Indonesian and Tamil.
- HW2 is a boolean search engine. Its index is built in ten blocks and its
  posting lists are linked lists with skip pointers. It parses queries with
  AND, OR, NOT and parentheses by the shunting-yard algorithm, and merges
  posting lists.
- HW3 is a ranked (lnc.ltc, cosine-normalised tf-idf) search engine. It
  writes the ten best documents per query.
- HW4 is a positional index over a CSV corpus. Its lists carry skip-pointer
  indices, and it answers phrase queries.

Everything is functional. Each Python loop is a recursive function whose
state is explicit. Each method that mutates pointers becomes a function on
sequences. The modules follow the programs:

| module | file | what it models |
|---|---|---|
| `Base` | base.dfy | `Option`/`Result`, sortedness, set algebra on sequences, integer square root, insertion-ordered dicts |
| `TermIds` | term_ids.dfy | the term to term-id dictionaries that all three indexers share |
| `BlockIndex` | block_index.dfy | HW2 linked-list merges, dict merges, skip pointers |
| `IndexBuild`, `IndexBuildFacts` | build_index.dfy, build_index_facts.dfy | HW2 `build_index` and what it guarantees |
| `BooleanQuery` | boolean_query.dfy | HW2 OR, AND and AND NOT merges, `remove_duplicates`, `exec_operation` |
| `QueryParser` | query_parser.dfy | HW2 `shunting_yard` |
| `Weights` | weights.dfy | tf, idf and cosine factors |
| `RankedIndex`, `RankedIndexFacts` | ranked_index.dfy, ranked_index_facts.dfy | HW3 `build_index` |
| `Ranking` | ranking.dfy | `TrackScore.__lt__`, heap pops, `write_results_to_file` (HW3 and HW4) |
| `RankedSearch`, `RankedPipeline` | ranked_search.dfy, ranked_pipeline.dfy | HW3 `run_search`, from a built index |
| `Grams` | ngrams.dfy | `create_ngram`, the n-gram comprehension |
| `PositionalIndex`, `PositionalIndexFacts`, `PositionalBuild` | positional_index.dfy, positional_index_facts.dfy, positional_build.dfy | HW4 indexer |
| `PhraseSearch` | phrase_search.dfy | HW4 `handle_boolean_query`, `phrase_intersection`, `handle_phrase_query` |
| `LanguageModel` | language_model.dfy | HW1 `build_LM` and `test_LM` |

Some things outside the programs become parameters:

- Reading and tokenising documents. A function from document id to its
  normalised tokens (`contents: int -> seq<string>`) stands for the
  file, `nltk` and the Porter stemmer. In HW4 a `Row` carries the
  already tokenised content.
- Floating-point library calls. `math.log10`, `math.sqrt` and `math.log`
  are functions from `real` to `real`, passed in as parameters. Scores
  are exact reals, so every statement about them holds for whatever
  functions are supplied.
- Python exceptions. They are the `Err` case of a `Result`, and the error
  string names the exception Python raises:
  - `KeyError`, for a missing dict key;
  - `IndexError`, for a list index past the end, a pop from an empty heap,
    or the first piece of a blank training line;
  - `ZeroDivisionError`, for a float or an integer division by zero;
  - `ValueError`, for the logarithm of a non-positive number;
  - `AttributeError`, for `and_not_merge` reading `doc_id` of `None`;
  - `TypeError`, for HW2's `raise "MismatchError"`, which raises a string,
    and Python 3 refuses that.

  One more string, "out of fuel", is the model's own and not Python's. It
  marks a bounded loop that ran out of passes, and it arises only in
  `BooleanQuery.AndNotAsWritten`.

Some behaviour of the code is modelled as written, where a reader might
expect otherwise:

- HW2's last block writes the reserved term `all_documents_combined` into
  the term dictionaries without checking whether it is known.
  - Its list is the sorted corpus, and its df is 0.
  - If a document contains that very token, its first id is overwritten.
    No document is lost by that: the reserved list is the whole sorted
    corpus, so it already holds every document.
  - If the corpus is empty, its list is empty. Converting an empty list
    reads `terms_postings[0]` and raises.
- HW3's query weight applies the damping `1 + log10` twice:
  `calculate_tf_idf(calculate_tf(count), idf)`. `RankedSearch.QueryWeight`
  keeps that.
- HW3's `write_results_to_file` compares with the literal 10, not with its
  parameter.
- HW4's `write_results_to_file` treats a count of 0 like a missing count
  and writes the whole heap.

## Model

| member | source | states |
|---|---|---|
| TermIds.Intern | HW2/index.py:239-244 | a token gets an id; a known token keeps its id and the counter; a new one gets the counter's value and the counter moves on; every other token keeps its id, and the two dictionaries stay inverse to each other |
| TermIds.InternAll | HW2/index.py:237-244 | after a token stream the dictionary knows exactly the old tokens plus the stream's, with old ids unchanged |
| TermIds.InternAllFirstSeenOrder | HW2/index.py:239-242 | new terms get consecutive ids in order of first appearance, and the counter ends just past the last one |
| TermIds.IdsFromOne | HW3/index.py:41-80 | from empty dictionaries, the k-th distinct token gets id k + 1 |
| BlockIndex.SortedMerge | HW2/index.py:53-73 | the merged list is a permutation of the two inputs together |
| BlockIndex.SortedMergeElements | HW2/index.py:53-73 | an id is in the merged list iff it is in either input |
| BlockIndex.SortedMergeIncreasing | HW2/index.py:53-58 | two increasing lists with no shared document merge into an increasing list, their union without duplicates, as the docstring promises for lists from different blocks |
| BlockIndex.SortedMergeNonDecreasing | HW2/index.py:53-73 | merging sorted lists keeps the result sorted |
| BlockIndex.MergeDict | HW2/index.py:154-163 | the keys are the union of both dicts; a shared term's frequency is the sum of both; any other term keeps its frequency |
| BlockIndex.MergeDictCommutes | HW2/index.py:154-163 | the order of the two frequency dicts does not matter |
| BlockIndex.MergeDictAssociates | HW2/index.py:154-163 | merging block dicts left to right gives the same result however they are grouped |
| BlockIndex.MergePostingDict | HW2/index.py:166-178 | the keys are the union; a shared term gets both lists' documents (as a multiset) and the sum of both lengths; other terms keep their list |
| BlockIndex.MergePostingDictWellFormed | HW2/index.py:171-177 | when blocks share no documents, every merged list is increasing, its length is its size, and it holds exactly the documents of both |
| BlockIndex.SeekFindsNextMultiple | HW2/index.py:87-96 | the looking-for-next mode of `add_skip_ptr` stops at the first later node whose index is a multiple of the distance, or at None past the end |
| BlockIndex.AddSkipPointers | HW2/index.py:75-104 | placing skip pointers leaves the list's documents as they are |
| BlockIndex.SkipRule | HW2/index.py:75-104 | for a distance d > 1, node i gets a pointer to node i + d exactly when i is a multiple of d and node i + d exists |
| BlockIndex.AddSkipPointersWellFormed | HW2/index.py:75-104 | every skip pointer leads forwards, to a node inside the list |
| BlockIndex.WithSkips | HW2/index.py:307-310 | the final skip stage keeps every list's documents |
| BlockIndex.WithSkipsWellFormed | HW2/index.py:307-310 | the final skip stage places forward pointers only |
| BlockIndex.WithSkipsRule | HW2/index.py:307-310 | with distance floor(L / sqrt L), the integer square root of L, pointers appear only in lists of four or more nodes, at the multiples of the distance |
| IndexBuild.Insort | HW2/index.py:254-256 | `bisect.insort` adds exactly the one document to the list |
| IndexBuild.InsortIncreasing | HW2/index.py:251-256 | inserting a document the increasing list lacks keeps it increasing |
| IndexBuild.InsortNonDecreasing | HW2/index.py:254-256 | insertion keeps a sorted list sorted |
| IndexBuild.SortDocs | HW2/index.py:218 | `sorted` returns a permutation of the documents |
| IndexBuild.SortDocsIncreasing | HW2/index.py:218 | the sorted list of distinct documents is strictly increasing |
| IndexBuild.AddOccurrence | HW2/index.py:246-256 | a new term starts with df 1 and the document; a known term gains the document (df + 1) only if its list lacks it; no other term changes; no document is lost and none but this one appears |
| IndexBuild.AddOccurrenceIdempotent | HW2/index.py:251-253 | a term occurring twice in a document is counted once |
| IndexBuild.AddOccurrenceKeepsCount | HW2/index.py:246-256 | df keeps counting the documents of an increasing, non-empty list |
| IndexBuild.ProcessDocument | HW2/index.py:237-256 | the block's frequency dict and posting dict keep the same term ids |
| IndexBuild.Reserve | HW2/index.py:210-219 | the reserved term gets the counter's id in both dictionaries unconditionally, and every other term keeps its id |
| IndexBuild.ReserveIsIntern | HW2/index.py:213-219 | unless a document produced the reserved token, reserving it is an ordinary first-seen assignment |
| IndexBuild.SlicesPartition | HW2/index.py:199-203 | the ten slices of size N/10 + 1 cover the documents exactly and in order |
| IndexBuild.SlicesDisjoint | HW2/index.py:202-203 | over distinct documents, different blocks share no document |
| IndexBuild.Convert | HW2/index.py:258-265 | converting a block fails exactly when some list is empty; otherwise each term's linked list holds the same documents, and its length is its size |
| IndexBuild.ConvertAll | HW2/index.py:258-265 | all blocks convert iff each does, one result per block |
| IndexBuild.BuildIndex | HW2/index.py:181-310 | `build_index` without the files: ten blocks each interned and indexed, the reserved list added in the last, every block converted (raising on an empty list), the blocks' lists and dicts merged, and skip pointers placed; what this yields is stated by the IndexBuildFacts lemmas below |
| IndexBuildFacts.MergeAllDocs | HW2/index.py:281-286 | after merging the blocks, a term is present iff some block has it, and its list holds exactly its documents from all blocks |
| IndexBuildFacts.MergeAllWellFormed | HW2/index.py:281-286 | merging blocks whose documents never meet keeps every list increasing, with the right length |
| IndexBuildFacts.MergeAllCounts | HW2/index.py:281-296 | the merged frequency dict has the same term ids as the merged postings, and counts each list's documents |
| IndexBuildFacts.BuildIndexFailsIffEmpty | HW2/index.py:197-265 | building raises exactly when the directory holds no documents: only then is a list (the reserved one) empty |
| IndexBuildFacts.BuildIndexWellFormed | HW2/index.py:195-310 | over distinct document ids, every list is increasing with forward skip pointers; the dictionary has the same term ids and counts each ordinary list; the reserved term has df 0 and the sorted corpus as its list; ids 1 to next - 1 are all in use and each term's id names that term back |
| IndexBuildFacts.ProcessDocsTable | HW2/index.py:221-242 | a block's document loop interns its documents' tokens in reading order |
| IndexBuildFacts.BuildIndexTable | HW2/index.py:193-242 | the built table is the first nine blocks' tokens interned from the empty table, then the reserved term written at the next id whatever it had before, then the last block's tokens |
| IndexBuildFacts.ReservedTableIds | HW2/index.py:213-219 | in a table built that way, the early terms get ids 1, 2, … in first-seen order, the reserved term the next id, and the last block's new terms the ids after it |
| IndexBuildFacts.BuildIndexIds | HW2/index.py:193-242 | the indexer numbers terms from 1 in the order they are first read: the k-th distinct token of the first nine blocks gets id k + 1, the reserved term the next id, and the k-th new token of the last block the ids after that; a document token equal to the reserved term and read earlier loses its id |
| IndexBuildFacts.BuildIndexSound | HW2/index.py:221-256 | every document in an ordinary term's list contains that term |
| IndexBuildFacts.BuildIndexComplete | HW2/index.py:221-256 | every document is in the list of every term it contains, the reserved token included |
| IndexBuildFacts.MergedReservedComplete | HW2/index.py:210-219 | after the merge the reserved term's list holds every document of the corpus |
| BooleanQuery.RemoveDuplicates | HW2/search.py:67-87 | `remove_duplicates`: a node whose id equals its predecessor's is unlinked, the first of each run stays; the lemmas below state what the result holds |
| BooleanQuery.OrMerge | HW2/search.py:41-65 | `or_merge` followed by `remove_duplicates`: the output is never longer than both inputs together; `OrMergeIsUnion` gives its contents |
| BooleanQuery.RemoveDuplicatesElements | HW2/search.py:67-87 | the head is kept, no id is lost or added, and the list does not grow |
| BooleanQuery.RemoveDuplicatesNoAdjacent | HW2/search.py:79-87 | no two neighbouring nodes keep the same id |
| BooleanQuery.RemoveDuplicatesIncreasing | HW2/search.py:67-72 | on a sorted list the result is strictly increasing |
| BooleanQuery.RemoveDuplicatesKeepsIncreasing | HW2/search.py:67-87 | a list without duplicates is left unchanged |
| BooleanQuery.OrMergeIsUnion | HW2/search.py:231-233 | the OR of two sorted lists is their union, strictly increasing |
| BooleanQuery.AndMerge | HW2/search.py:89-123 | the output nodes come from `a`; on sorted lists with forward skip pointers, the skip pointers lose nothing and the result is the intersection |
| BooleanQuery.AndNotAsWritten | HW2/search.py:125-192 | and_not_merge as written, pointer rewiring included; an empty `b` returns `a` unchanged |
| BooleanQuery.AndNotMissesLastPosting | HW2/search.py:140 | [1, 2] AND NOT [2] keeps 2, where the difference is [1] |
| BooleanQuery.AndNotKeepsMatchAfterAdvancingB | HW2/search.py:183-190 | [5, 6] AND NOT [3, 5] keeps 5, where the difference is [6] |
| BooleanQuery.AndNotCrashesOnShortB | HW2/search.py:141-145 | [1, 2, 3] AND NOT [1] raises, where the difference is [2, 3] |
| BooleanQuery.AndNot | HW2/search.py:125-131 | A AND NOT B as the docstring describes: on sorted lists, the postings of `a` whose id `b` lacks, in order; an empty `b` returns `a`'s ids |
| BooleanQuery.ExecOperation | HW2/search.py:220-242 | `exec_operation` as written: only ANDNOT and NOT can raise (through `and_not_merge`); AND is the intersection with every skip pointer cleared; OR is the union; ANDNOT and NOT give a sub-list of A when they succeed, and A itself when no id is shared; every result is strictly increasing on sorted inputs; an unknown operation yields an empty list |
| BooleanQuery.AndNotAsWrittenSubsequence | HW2/search.py:125-192 | whenever and_not_merge as written returns, it returns a sub-list of A, in order |
| BooleanQuery.AndNotAsWrittenDisjoint | HW2/search.py:125-192 | when A and B share no id, and_not_merge as written returns A unchanged |
| BooleanQuery.ExecOperationCorrected | HW2/search.py:220-242 | the dispatch with the corrected AND NOT: AND is the intersection with no skip pointer, OR the union, ANDNOT and NOT exactly A's ids that B lacks, each strictly increasing on sorted inputs |
| QueryParser.Classify | HW2/search.py:269-288 | exactly "(" and ")" are parentheses; the operator names are operators; anything else is a search term |
| QueryParser.Pad | HW2/search.py:261-262 | every "(" is followed by a space and every ")" is preceded by one; dropping those inserted spaces gives the query back |
| QueryParser.Split | HW2/search.py:264 | `split()` yields non-empty pieces without whitespace, and joined by single spaces they are the text with its whitespace runs squeezed and trimmed: exactly the maximal non-whitespace runs, in order |
| QueryParser.SplitBlank | HW2/search.py:264 | `split()` yields no piece exactly when the text is blank |
| QueryParser.PopBefore | HW2/search.py:271-275 | operators are popped from the top only; popping stops at a parenthesis or at an operator that need not come before the new one |
| QueryParser.PopToOpen | HW2/search.py:280-285 | a ")" pops down to and past the nearest "(" |
| QueryParser.ShuntingYard | HW2/search.py:254-295 | parsing the padded, split query fails iff its parentheses are unbalanced; otherwise the output holds the query's terms, normalised, in input order, and each of its operators exactly once, and no parenthesis |
| QueryParser.Run | HW2/search.py:269-294 | the loop over the tokens and the final drain of the stack, from a given queue and stack; the lemmas below state its outcome |
| QueryParser.RunOkIffBalanced | HW2/search.py:269-295 | parsing fails exactly on unbalanced parentheses |
| QueryParser.RunTerms | HW2/search.py:287-288 | the output holds the query's search terms in input order |
| QueryParser.RunOps | HW2/search.py:269-294 | every operator of the query is output exactly once |
| QueryParser.PushKeepsOrder | HW2/search.py:271-275 | between parentheses, operators on the stack rise in precedence, and only NOT repeats |
| QueryParser.ParenthesesKeepOrder | HW2/search.py:277-285 | pushing or closing a parenthesis keeps that stack order |
| QueryParser.BinaryPrecedence | HW2/search.py:271-274 | in `a o1 b o2 c` the tighter-binding operator applies first; equal operators associate to the left |
| QueryParser.DoubleNegation | HW2/search.py:273 | NOT is right-associative: NOT NOT a keeps both negations |
| QueryParser.NegationBeforeAnd | HW2/search.py:271-274 | NOT a AND b negates a before the conjunction |
| QueryParser.NegationAfterAnd | HW2/search.py:271-274 | a AND NOT b negates b before the conjunction |
| QueryParser.ParenthesesGroup | HW2/search.py:277-285 | parentheses override precedence |
| QueryParser.UnmatchedParentheses | HW2/search.py:280-294 | an unopened ")" and an unclosed "(" both fail |
| RankedIndex.BuildRanked | HW3/index.py:29-118 | `build_index` without the files: the sorted document ids processed one after another; `RankedIndexFacts.BuildRankedCorrect` states the result |
| RankedIndex.AddToken | HW3/index.py:74-111 | in the state the loop maintains a token never raises, and the term dictionary grows as interning says |
| RankedIndex.ProcessDocument | HW3/index.py:52-118 | a processed document has a recorded length |
| RankedIndexFacts.BuildRankedCorrect | HW3/index.py:41-118 | over distinct documents nothing raises; the term table is the one interning the corpus's tokens in reading order from the empty table, so every token read gets an id; its list has one (document, tf) posting per document containing it, ascending; df is the list's size; every document's length is the sum of (1 + log10 tf)^2 over its distinct terms |
| RankedIndexFacts.BuildRankedIds | HW3/index.py:41-78 | the indexer numbers terms from 1 in the order they are first read, document after document in ascending id order: the k-th distinct token gets id k + 1, and ids 1 to the number of terms are all used |
| RankedIndexFacts.DuplicateDocumentRaises | HW3/index.py:88-111 | a document id listed twice raises KeyError on its repeat token, because `doc_wt` starts empty |
| RankedIndexFacts.EmptyDocumentLength | HW3/index.py:114-118 | a document without tokens has length 0 |
| Weights.Tf | HW3/search.py:63-64 | `calculate_tf` is 1 + log10(tf) for the log10 supplied |
| Weights.TfIdf | HW3/search.py:71-72 | `calculate_tf_idf` damps the raw tf and multiplies by the idf |
| Weights.Idf | HW3/search.py:67-68 | the idf raises exactly on df 0, with the "division by zero" ZeroDivisionError of dividing two ints |
| Weights.CosineFactor | HW3/search.py:75-76 | the factor raises exactly on a zero root, and otherwise is its inverse |
| Ranking.Less | HW3/search.py:24-33 | `TrackScore.__lt__`; the two lemmas below state the order it defines |
| Ranking.PopMany | HW3/search.py:46 | popping `count` entries succeeds iff the heap holds at least that many (a non-positive count pops nothing) and then returns that many entries of the heap; otherwise it raises IndexError |
| Ranking.LessIsStrictTotalOrder | HW3/search.py:24-33 | `TrackScore.__lt__` (HW4 has the same) is a strict order, total on different documents |
| Ranking.LessRanksByScore | HW3/search.py:24-33 | a higher score comes first; the id decides only between equal scores, smaller first |
| Ranking.PopManyRanked | HW3/search.py:46 | the popped entries and those left make up the heap; popped ones come best first, and none left ranks above one popped |
| Ranking.PopAllSorts | HW3/search.py:46 | popping the whole heap yields every entry once, best first |
| Ranking.WriteResultsHw3 | HW3/search.py:42-46 | a heap of at most ten is written whole; above ten the count is used, and a count past the heap raises |
| Ranking.WriteResultsHw3TopTen | HW3/search.py:42-46 | with count 10 it writes min(10, heap size) documents, the ids of the first pops |
| Ranking.WriteResultsHw3Best | HW3/search.py:42-46 | with one entry per document, the written documents are distinct and best first, and none left out ranks above one written |
| Ranking.WriteResultsHw4 | HW4/search.py:192-200 | a missing or zero count writes the whole heap; a positive count caps it; a negative count writes nothing |
| Ranking.WriteResultsHw4Ranked | HW4/search.py:192-200 | what is written is the best of the heap, best first |
| RankedSearch.QueryWeight | HW3/search.py:152-156 | a query term's weight applies 1 + log10 twice before the idf, as the code does; `ScoreTermsMeaning` uses it |
| RankedSearch.ScoreTerms | HW3/search.py:136-179 | the loop over the query terms, stopping at the first error; `ScoreTermsMeaning` states its outcome |
| RankedSearch.Normalise | HW3/search.py:184-199 | the loop that puts each scored document into the heap with its cosine; `NormaliseFails` and `NormaliseScores` state its outcome |
| RankedSearch.Search | HW3/search.py:126-201 | one query: score, normalise, write the best ten; `SearchFails` and `SearchTopTen` state its outcome |
| RankedSearch.QueryIdf | HW3/search.py:139-149 | an unknown term has idf 0; a known term raises exactly when its df is 0 (ZeroDivisionError) or missing (KeyError) |
| RankedSearch.TermPostings | HW3/search.py:88-98 | an unknown term has no postings; a known one raises only when its list is missing |
| RankedSearch.AddPostingsMeaning | HW3/search.py:167-179 | adding a term's postings scores exactly its documents and adds weight times document tf to each, keeping the insertion order of earlier documents |
| RankedSearch.UnknownTermIgnored | HW3/search.py:139-167 | a term the index does not know changes neither the scores nor the query length |
| RankedSearch.ScoreTermsMeaning | HW3/search.py:136-179 | the query loop raises exactly when a term cannot be looked up; otherwise every document hit by a query term is scored once, with the reference raw score and query length |
| RankedSearch.NormaliseFails | HW3/search.py:184-193 | normalising raises exactly when some document is scored and the query length, or a scored document's length, has a zero root or is missing |
| RankedSearch.NormaliseScores | HW3/search.py:184-199 | otherwise each scored document gets one heap entry, in the dict's order, with score raw / sqrt(query) / sqrt(document): the cosine |
| RankedSearch.SearchAll | HW3/search.py:126-201 | one result line per query, and the run raises iff some query does |
| RankedSearch.SearchFails | HW3/search.py:126-201 | a search raises exactly on a failed lookup or on a zero root, as above |
| RankedSearch.SearchTopTen | HW3/search.py:126-201 | a successful search writes min(10, hits) distinct hit documents, best cosine first with ties by ascending id, and no hit left out ranks above one written |
| RankedSearch.ZeroWeightQueryRaises | HW3/search.py:192-193 | the one-document index of "a" with query "a" raises ZeroDivisionError |
| RankedSearch.SafeFactor | HW3/search.py:75-76 | the corrected factor is the inverse root, or 0 for a zero root |
| RankedSearch.NormaliseSafeMeaning | HW3/search.py:184-193 | the corrected normalisation fails only on a missing length, and agrees with the original wherever that succeeds |
| RankedSearch.SearchSafeMeaning | HW3/search.py:126-201 | the corrected search never divides by zero, and agrees with the original wherever that succeeds |
| RankedSearch.ZeroWeightQueryAnswered | HW3/search.py:192-193 | on the one-document index the corrected search returns the document |
| RankedPipeline.BuiltIndexAnswerable | HW3/search.py:139-179 | on an index the indexer built, every known query term has a positive df and a list, and every hit has a length |
| RankedPipeline.BuiltIndexSearch | HW3/search.py:126-201 | on a built index the search raises exactly on a zero root, and the corrected search always succeeds |
| Grams.NGrams | HW4/index.py:23 | the comprehension has one gram per start index in `range(len - n + 1)` (none when that range is empty); `NGramsWindows` says what each gram is |
| Grams.PySlice | HW4/index.py:23 | the slice within bounds is the Dafny subsequence |
| Grams.NGramsWindows | HW4/index.py:15-23 | for n >= 1, one gram per window start, each the n characters there, and none for text shorter than n; neighbouring grams overlap in n - 1 characters |
| Grams.NGramsNonPositive | HW4/index.py:23 | n = 0 gives len + 1 empty grams, and a negative n gives even more grams |
| Grams.NegativeN | HW4/index.py:23 | "abc" with n = -1 gives ["ab", "", "", "", ""] |
| Grams.ReassembleNGrams | HW4/index.py:15-23 | the n-grams of a text at least n long determine it |
| PositionalIndex.SkipDistance | HW4/index.py:35-36 | the skip distance L // isqrt(L); `SkipDistancePositive` bounds it |
| PositionalIndex.CreatePositionalIndex | HW4/index.py:69-114 | `create_positional_index` over one row; `CreatePositionalIndexCorrect` states its outcome |
| PositionalIndex.BuildPositional | HW4/index.py:126-187 | `build_index` without the files: the first twenty rows indexed, each weighted, then the lists written with skip pointers; `BuildPositionalCorrect` states its outcome |
| PositionalIndex.AddPosition | HW4/index.py:78-112 | a token interns its term and keeps every posting dict valid |
| PositionalIndexFacts.PositionsFacts | HW4/index.py:77-109 | the recorded 1-based positions are increasing, point at the term, include each occurrence, and there are as many as occurrences |
| PositionalIndexFacts.CreatePositionalIndexCorrect | HW4/index.py:69-114 | for a document no earlier row had: nothing raises; the returned id counter is the table after interning the row; each term of the row gets exactly its positions for the document, one more df, and a count equal to its number of positions; every other term is unchanged |
| PositionalIndex.CalculateDocumentWeight | HW4/index.py:117-123 | the document's length is stored and no other length changes |
| PositionalIndex.AddSkipPtrs | HW4/index.py:26-49 | a zero length divides by zero; otherwise there is one entry per document |
| PositionalBuild.SkipDistancePositive | HW4/index.py:35-36 | the skip distance lies between 1 and the length |
| PositionalBuild.SkipPtrsMeaning | HW4/index.py:26-49 | entries follow the dict's order with their positions and count; a pointer is set exactly at multiples of the distance that have an entry that far ahead, and leads exactly there; the `!= L - 1` test never decides anything |
| PositionalBuild.DistanceIsLength | HW4/index.py:35-36 | below four documents the distance is the whole length |
| PositionalBuild.SkipPointersIffFour | HW4/index.py:35-45 | a list gets a skip pointer iff it has at least four documents |
| PositionalBuild.ProcessRowsOk | HW4/index.py:151-163 | rows with distinct new ids never raise, and each row's length is its weighted length |
| PositionalBuild.OnlyTwentyRows | HW4/index.py:137 | rows after the twentieth change nothing |
| PositionalBuild.WriteListsOk | HW4/index.py:172-180 | writing the lists never raises, and each list is as long as its term's df |
| PositionalBuild.BuildPositionalCorrect | HW4/index.py:126-187 | with distinct ids in the first twenty rows nothing raises; the term ids, df and lists agree; each list's length is its df; the lengths are exactly those of the rows read |
| PositionalBuild.DuplicateDocumentRaises | HW4/index.py:97-112 | a repeated document id raises on a repeated term |
| PhraseSearch.MergeFrom | HW4/search.py:101-132 | the `while` loop of `handle_boolean_query`; with `save_both_docs` pairs are added, so an even output stays even |
| PhraseSearch.HandleBooleanQuery | HW4/search.py:83-132 | with `save_both_docs` the result holds pairs |
| PhraseSearch.MergeFromCorrect | HW4/search.py:101-132 | loop invariant: the output so far is the intersection of `a`'s entries passed, and `b`'s entries passed are below the current one |
| PhraseSearch.HandleBooleanQueryCorrect | HW4/search.py:83-132 | on increasing lists with forward pointers, the skip pointers lose nothing: the result is `a`'s matching entries, each followed by `b`'s when asked |
| PhraseSearch.PhraseIntersection | HW4/search.py:164-189 | the result carries no skip pointers |
| PhraseSearch.PhraseIntersectionMeaning | HW4/search.py:164-189 | the result is increasing; for every document its positions are exactly those of the second list that directly follow one of the first |
| PhraseSearch.SplitJoin | HW4/search.py:139 | `split('%')` loses nothing: the pieces hold no separator and joining them gives the text |
| PhraseSearch.SplitOnFirst | HW4/search.py:139 | the text before the first separator is the first piece |
| PhraseSearch.CmpTerm | HW4/search.py:149 | Python's tuple comparison of (df, postings): df first, the lists on a tie |
| PhraseSearch.CmpTermFlip | HW4/search.py:149 | tuple comparison is antisymmetric |
| PhraseSearch.SortTerms | HW4/search.py:149 | `sorted` of the (df, postings) tuples is a sorted permutation |
| PhraseSearch.SortedByDf | HW4/search.py:149 | after the sort, document frequencies never decrease |
| PhraseSearch.SortKeepsSorted | HW4/search.py:149 | tuples already in order stay in place |
| PhraseSearch.TermList | HW4/search.py:141-147 | one phrase word's lookup: a found entry is the word's df and its non-empty list from the files; an unknown word or an empty list ends the query |
| PhraseSearch.HandlePhraseQuery | HW4/search.py:135-161 | `handle_phrase_query` as written, sorting by df before intersecting; `PhraseQueryEmpty` and `PhraseOrderLost` state what it returns |
| PhraseSearch.Gather | HW4/search.py:139-147 | one tuple per phrase word, in order, each the word's entry |
| PhraseSearch.BuiltListsForward | HW4/index.py:172-177 | every list the indexer writes has forward pointers |
| PhraseSearch.PhraseQueryEmpty | HW4/search.py:139-161 | a phrase with an unknown word, or not of two or three words, finds nothing |
| PhraseSearch.AgreeWhenDfOrdered | HW4/search.py:149-157 | when the words already come in df order, the query as written and the corrected one agree |
| PhraseSearch.PhraseOrderLost | HW4/search.py:149-157 | "new%york" with df(york) < df(new) finds nothing, while document 1 holds the phrase |
| PhraseSearch.PhraseInOrderTwo | HW4/search.py:153-154 | the corrected two-word query keeps exactly the positions of the second word that directly follow the first |
| PhraseSearch.PhraseInOrderThree | HW4/search.py:155-157 | the corrected three-word query keeps exactly the positions where the three words end in the phrase's order |
| LanguageModel.LangOf | HW1/build_test_LM.py:48-74 | only "malaysian", "indonesian" and "tamil" name a language |
| LanguageModel.GramNotCounter | HW1/build_test_LM.py:34-36 | no 4-gram collides with a counter key |
| LanguageModel.AddGramTo | HW1/build_test_LM.py:47-74 | one 4-gram of a labelled line: whether it is new is decided by `malay_dict` alone; `AddGramTracks` states the outcome |
| LanguageModel.CountLines | HW1/build_test_LM.py:38-74 | the loop over the training lines; `CountLinesTracks` and `TrainCounts` state its outcome |
| LanguageModel.AddGramTracks | HW1/build_test_LM.py:46-74 | a 4-gram under any label never raises, and the dicts stay in step with the grams seen |
| LanguageModel.CountGramsTracks | HW1/build_test_LM.py:44-74 | a line's 4-grams never raise and keep the dicts in step |
| LanguageModel.CountLinesTracks | HW1/build_test_LM.py:38-74 | the training lines never raise and keep the dicts in step |
| LanguageModel.TrainCounts | HW1/build_test_LM.py:38-74 | each language's counter is its number of 4-grams; every dict knows exactly the 4-grams of all labelled lines, each counted as often as it occurs in that language's lines |
| LanguageModel.TrainSameKeys | HW1/build_test_LM.py:46-74 | after training the three dicts know the same 4-grams |
| LanguageModel.Smoothed | HW1/build_test_LM.py:80-93 | the reference smoothed dict keeps the dict's keys; `SmoothOverGrams` and `SmoothOverCounter` show the loop computes it |
| LanguageModel.SmoothKey | HW1/build_test_LM.py:80-83 | one smoothing step raises a gram and the counter by one and leaves the rest |
| LanguageModel.SmoothOverGrams | HW1/build_test_LM.py:80-93 | the loop raises each gram by one and keeps the keys |
| LanguageModel.SmoothOverCounter | HW1/build_test_LM.py:80-93 | the loop raises the counter once per gram |
| LanguageModel.SmoothingAnyOrder | HW1/build_test_LM.py:80-93 | whatever order the keys come in, the loop yields the smoothed dict |
| LanguageModel.SmoothedCounts | HW1/build_test_LM.py:80-93 | after smoothing, a gram counts its occurrences plus one, and the counter is the language's grams plus the known grams |
| LanguageModel.LogProbabilities | HW1/build_test_LM.py:99-112 | the log-probability table keeps the dict's keys |
| LanguageModel.LogProbabilitiesMeaning | HW1/build_test_LM.py:99-112 | the logs exist iff the counter is nonzero and every ratio positive; each gram maps to the log of count / counter, and the counter keeps its value; otherwise ZeroDivisionError or ValueError |
| LanguageModel.SmoothedLog | HW1/build_test_LM.py:99-112 | a known gram's log probability is log((count + 1) / (grams + known grams)) |
| LanguageModel.BuildFromCorrect | HW1/build_test_LM.py:80-114 | from trained dicts, smoothing and logs never raise, and each table keeps the counter and the known grams |
| LanguageModel.ParseLine | HW1/build_test_LM.py:26-33 | splitting a training line raises IndexError exactly when the line is blank; otherwise the label is a non-empty word, and the label, then one space and the sentence if there is one, is the line with its whitespace squeezed |
| LanguageModel.ParseLines | HW1/build_test_LM.py:24-27 | reading the training file raises exactly when some line is blank, with IndexError; otherwise one parsed line per input line, each that line's split |
| LanguageModel.BuildLM | HW1/build_test_LM.py:29-114 | `build_LM` on lines already split: count, smooth, take logs; `BuildLMCorrect` states its outcome |
| LanguageModel.BuildLMCorrect | HW1/build_test_LM.py:29-114 | once the lines are split into label and sentence, `build_LM` never raises, and each table holds its counter and exactly the known 4-grams |
| LanguageModel.BuildLMFromTextCorrect | HW1/build_test_LM.py:15-114 | `build_LM` from the file's lines raises exactly when some line is blank, with IndexError; otherwise each table holds its counter and exactly the 4-grams of the labelled sentences |
| LanguageModel.ChooseLabel | HW1/build_test_LM.py:151-163 | the label rule on the three scores; `ChooseLabelMeaning` states it without `max` |
| LanguageModel.Score | HW1/build_test_LM.py:144-149 | the loop over a test line's 4-grams adding log probabilities; `NoKnownGram` and `ScoreOk` state its outcome |
| LanguageModel.TestLM | HW1/build_test_LM.py:117-166 | `test_LM` without the files: one labelled output line per input line; `TestLMOk` states when it succeeds |
| LanguageModel.ChooseLabelMeaning | HW1/build_test_LM.py:151-163 | "other" iff the best score is 1; otherwise the first language, in Malay, Indonesian, Tamil order, that no other score exceeds; the last `else` never fires |
| LanguageModel.NoKnownGram | HW1/build_test_LM.py:144-149 | a line with no trained 4-gram keeps all three scores |
| LanguageModel.UnknownLineIsOther | HW1/build_test_LM.py:135-166 | such a line is labelled "other" |
| LanguageModel.ScoreOk | HW1/build_test_LM.py:144-149 | with tables that know the same 4-grams, scoring never raises |
| LanguageModel.TestLMOk | HW1/build_test_LM.py:135-166 | testing with such tables never raises |
| LanguageModel.TrainedModelTests | HW1/build_test_LM.py:117-166 | testing any lines with a model `build_LM` produced from split lines never raises |

## Left out

- File I/O, `pickle` and byte offsets. Offsets in the dictionaries are not
  modelled: a term's list is looked up directly.
- `nltk` sentence and word tokenising, `normalize_token` (case folding and
  the Porter stemmer), and HW4's `isalpha` filter. They are a parameter:
  a document arrives as its list of normalised tokens.
- `pandas`. The CSV is a sequence of rows (`document_id`, tokenised
  `content`); `nrows=20` is modelled as taking the first twenty rows.
- Floating point. `math.log`, `math.log10` and `math.sqrt` are parameters,
  and scores are exact reals. Rounding, and `inf`/`nan`, are not modelled.
- `heapq` internals. The heap is a multiset: `heappop` returns an entry
  that no other entry is `Less` than. The tie order among equal entries
  (same score, same id) is left open.
- HW2's `run_search` walk over the postfix query, `search_term` and
  `retrieve_postings_list`. They read files. `exec_operation`, which the
  walk calls, is modelled.
- HW4's `handle_query` and `run_search`. They read files and combine the
  modelled parts.
- HW3's `run_search` reading the query file. A query arrives as its list
  of normalised terms.
- The bodies of `__str__`, `__repr__`, `__eq__`, `usage`, and the
  progress printing.
- BooleanQuery.AndNotAsWritten: its `fuel` bounds the passes of the outer
  loop that the Python code runs without a bound, and the inner unlink walk
  gets as many steps as A has nodes. Running out reports "out of fuel". The
  counterexample lemmas use enough fuel to reach the result.
- BooleanQuery.ExecOperation: the model's OR and ANDNOT results carry no
  skip pointers, where the program reuses the input nodes and keeps their
  skips (only AND clears them). Only a later AND in the postfix walk, which
  is left out, would follow those pointers. The ANDNOT branch gets
  (|A| + 1) * (|A| + |B| + 1) passes; that this always suffices is not
  proved, so the "out of fuel" error is not excluded. The in-place
  rewiring of the caller's lists, and any sharing between them, is not
  modelled.
- BooleanQuery.AndMerge: the skip-pointer merge is proved equal to the
  intersection only for lists that are sorted and whose pointers lead
  forwards. That is what the indexer builds; on other lists it only states
  that the output nodes come from `a`.
- PhraseSearch.HandleBooleanQuery and PhraseSearch.PhraseIntersection are
  likewise characterised only for lists with increasing documents and
  forward pointers, as the indexer writes them.

## Findings

| source | as written | input that shows it | evidently intended | confidence | as-written member | corrected member |
|---|---|---|---|---|---|---|
| HW2/search.py:140 | the loop runs while `a.next is not None`, so the last posting of A is never compared | [1, 2] AND NOT [2] gives [1, 2] | postings of A not in B: [1] | not executed | BooleanQuery.AndNotMissesLastPosting | BooleanQuery.AndNot |
| HW2/search.py:183-190 | after an `a > b` step `prev_a` is the current node, so the unlink of the next match rewires nothing | [5, 6] AND NOT [3, 5] gives [5, 6] | [6] | not executed | BooleanQuery.AndNotKeepsMatchAfterAdvancingB | BooleanQuery.AndNot |
| HW2/search.py:141-145 | a match at the first postings moves `b` on even when B has no next node, and the next comparison reads `None.doc_id` | [1, 2, 3] AND NOT [1] raises AttributeError | [2, 3] | not executed | BooleanQuery.AndNotCrashesOnShortB | BooleanQuery.AndNot |
| HW3/search.py:192-193 | `cosine_normalize_factor(sum_weight_q)` divides by sqrt of a zero query length when every query term occurs in every document (idf 0) | one document "a", query "a" raises ZeroDivisionError | a zero-length query scores 0 | not executed | RankedSearch.ZeroWeightQueryRaises | RankedSearch.SearchSafeMeaning |
| HW4/search.py:149 | the phrase's lists are sorted by document frequency before the positional intersection, which loses the words' order | "new%york" over document 1 "new york" and document 2 "new": df(york) = 1 < df(new) = 2, so "york new" is searched and nothing is found | document 1 | not executed | PhraseSearch.PhraseOrderLost | PhraseSearch.PhraseInOrderTwo |

=== FILE: base.dfy ===
/** Shared vocabulary of the search-engine model: optional values and results,
    sorted doc-id sequences with the set algebra the query evaluators compute,
    insertion-ordered maps (the engine's dicts), and the integer square root
    that the skip-pointer rules are built on. */
module Base {

  datatype Option<+T> = None | Some(value: T)

  datatype Result<+T, +E> = Ok(value: T) | Err(error: E)

  /** Sorted without duplicates: the shape every posting list must keep. */
  predicate StrictlyIncreasing(s: seq<int>) {
    forall i, j :: 0 <= i < j < |s| ==> s[i] < s[j]
  }

  predicate NonDecreasing(s: seq<int>) {
    forall i, j :: 0 <= i < j < |s| ==> s[i] <= s[j]
  }

  /** No two neighbours are equal. */
  predicate NoAdjacentDuplicates(s: seq<int>) {
    forall i :: 0 <= i < |s| - 1 ==> s[i] != s[i + 1]
  }

  /** No value occurs twice. */
  predicate Distinct<T(==)>(s: seq<T>) {
    forall i, j :: 0 <= i < j < |s| ==> s[i] != s[j]
  }

  function Elements<T>(s: seq<T>): set<T> {
    set x | x in s
  }

  /** What Python raises for a missing dict key. */
  const KeyError: string := "KeyError"

  /** What Python raises for a list index past the end. */
  const IndexError: string := "IndexError: list index out of range"

  /** What Python raises for an integer division by zero. */
  const IntZeroDivision: string := "ZeroDivisionError: division by zero"

  /** Writing back the value a key already has changes nothing. */
  lemma UpdateSame<K, V>(m: map<K, V>, k: K, v: V)
    requires k in m && m[k] == v
    ensures m[k := v] == m
  {
  }

  /** Updating a key a map already has keeps its key set. */
  lemma KeysKept<K, V>(m: map<K, V>, k: K, v: V)
    requires k in m
    ensures m[k := v].Keys == m.Keys
  {
  }

  /** Moving the head of `rest` onto the end of `pre` keeps the whole. */
  lemma ShiftHead<T>(pre: seq<T>, rest: seq<T>)
    requires rest != []
    ensures pre + [rest[0]] + rest[1..] == pre + rest
  {
    assert rest == [rest[0]] + rest[1..];
  }

  lemma AppendAssoc<T>(a: seq<T>, b: seq<T>, c: seq<T>)
    ensures a + b + c == a + (b + c)
  {
  }

  /** Two sequences that are permutations of each other hold the same values. */
  lemma SameMultisetSameElements<T>(a: seq<T>, b: seq<T>)
    requires multiset(a) == multiset(b)
    ensures Elements(a) == Elements(b)
    ensures forall x :: x in a <==> x in b
  {
    forall x
      ensures x in a <==> x in b
    {
      assert x in a <==> x in multiset(a);
      assert x in b <==> x in multiset(b);
    }
  }

  /** Number of occurrences of x in s (Python's list.count). */
  function Count<T(==)>(s: seq<T>, x: T): nat {
    if s == [] then 0 else (if s[0] == x then 1 else 0) + Count(s[1..], x)
  }

  lemma {:induction false} CountPositiveIffMember<T>(s: seq<T>, x: T)
    ensures Count(s, x) > 0 <==> x in s
  {
    if s != [] {
      CountPositiveIffMember(s[1..], x);
      assert s == [s[0]] + s[1..];
    }
  }

  lemma {:induction false} CountAppend<T>(s: seq<T>, t: seq<T>, x: T)
    ensures Count(s + t, x) == Count(s, x) + Count(t, x)
  {
    if s == [] {
      assert s + t == t;
    } else {
      assert (s + t)[1..] == s[1..] + t;
      CountAppend(s[1..], t, x);
    }
  }

  /** r can be obtained from s by deleting elements (an in-order sub-list). */
  predicate IsSubsequence<T(==)>(r: seq<T>, s: seq<T>)
    decreases |s|
  {
    if s == [] then r == []
    else (r != [] && r[0] == s[0] && IsSubsequence(r[1..], s[1..])) || IsSubsequence(r, s[1..])
  }

  lemma {:induction false} SubsequenceElements<T>(r: seq<T>, s: seq<T>)
    requires IsSubsequence(r, s)
    ensures Elements(r) <= Elements(s)
    ensures |r| <= |s|
    decreases |s|
  {
    if s != [] {
      if r != [] && r[0] == s[0] && IsSubsequence(r[1..], s[1..]) {
        SubsequenceElements(r[1..], s[1..]);
        assert r == [r[0]] + r[1..];
        assert Elements(r) == {r[0]} + Elements(r[1..]);
      } else {
        SubsequenceElements(r, s[1..]);
      }
    }
  }

  /** A sub-list of a strictly increasing list is strictly increasing. */
  lemma {:induction false} SubsequenceIncreasing(r: seq<int>, s: seq<int>)
    requires IsSubsequence(r, s)
    requires StrictlyIncreasing(s)
    ensures StrictlyIncreasing(r)
    decreases |s|
  {
    if s != [] {
      if r != [] && r[0] == s[0] && IsSubsequence(r[1..], s[1..]) {
        SubsequenceIncreasing(r[1..], s[1..]);
        SubsequenceElements(r[1..], s[1..]);
        forall j | 0 < j < |r|
          ensures r[0] < r[j]
        {
          assert r[j] in Elements(r[1..]);
        }
      } else {
        SubsequenceIncreasing(r, s[1..]);
      }
    }
  }

  lemma {:induction false} SubsequenceOfSelf<T>(s: seq<T>)
    ensures IsSubsequence(s, s)
    decreases |s|
  {
    if s != [] {
      SubsequenceOfSelf(s[1..]);
    }
  }

  lemma {:induction false} EmptySubsequence<T>(s: seq<T>)
    ensures IsSubsequence([], s)
    decreases |s|
  {
    if s != [] {
      EmptySubsequence(s[1..]);
    }
  }

  /** A sub-list of a suffix is a sub-list of the whole. */
  lemma {:induction false} SubsequenceOfSuffix<T>(r: seq<T>, s: seq<T>, k: nat)
    requires k <= |s| && IsSubsequence(r, s[k..])
    ensures IsSubsequence(r, s)
    decreases k
  {
    if k > 0 {
      assert s[k..] == s[1..][k - 1..];
      SubsequenceOfSuffix(r, s[1..], k - 1);
    }
  }

  /** The doc ids of x that also occur in y, in x's order (the AND of two lists). */
  function Intersect(x: seq<int>, y: seq<int>): (r: seq<int>)
    ensures forall d :: d in r <==> d in x && d in y
    ensures IsSubsequence(r, x)
  {
    if x == [] then []
    else if x[0] in y then [x[0]] + Intersect(x[1..], y)
    else Intersect(x[1..], y)
  }

  /** The doc ids of x that do not occur in y, in x's order (A AND NOT B). */
  function Difference(x: seq<int>, y: seq<int>): (r: seq<int>)
    ensures forall d :: d in r <==> d in x && d !in y
    ensures IsSubsequence(r, x)
  {
    if x == [] then []
    else if x[0] !in y then [x[0]] + Difference(x[1..], y)
    else Difference(x[1..], y)
  }

  /** Intersection and difference split x: together they hold exactly x's ids,
      and no id is in both. */
  lemma {:induction false} IntersectDifferencePartition(x: seq<int>, y: seq<int>)
    ensures Elements(Intersect(x, y)) + Elements(Difference(x, y)) == Elements(x)
    ensures Elements(Intersect(x, y)) !! Elements(Difference(x, y))
    ensures |Intersect(x, y)| + |Difference(x, y)| == |x|
  {
    if x != [] {
      IntersectDifferencePartition(x[1..], y);
      assert x == [x[0]] + x[1..];
    }
  }

  /** Dropping leading ids of y that are below every id of x does not change
      the intersection. */
  lemma {:induction false} IntersectDropSmallPrefix(x: seq<int>, y: seq<int>, k: nat)
    requires k <= |y|
    requires forall i, j :: 0 <= i < k && 0 <= j < |x| ==> y[i] < x[j]
    ensures Intersect(x, y) == Intersect(x, y[k..])
  {
    if x != [] {
      assert y == y[..k] + y[k..];
      assert x[0] in y <==> x[0] in y[k..];
      IntersectDropSmallPrefix(x[1..], y, k);
    }
  }

  /** Dropping leading ids of x that do not occur in y does not change the
      intersection. */
  lemma {:induction false} IntersectDropMissingPrefix(x: seq<int>, y: seq<int>, k: nat)
    requires k <= |x|
    requires forall i :: 0 <= i < k ==> x[i] !in y
    ensures Intersect(x, y) == Intersect(x[k..], y)
  {
    if k > 0 {
      assert x[1..][k - 1..] == x[k..];
      IntersectDropMissingPrefix(x[1..], y, k - 1);
    }
  }

  /** Integer square root: the largest r with r * r <= n. */
  function ISqrt(n: nat): (r: nat)
    ensures r * r <= n < (r + 1) * (r + 1)
  {
    ISqrtFrom(n, 0)
  }

  function ISqrtFrom(n: nat, r: nat): (s: nat)
    requires r * r <= n
    ensures s * s <= n < (s + 1) * (s + 1)
    decreases n - r * r
  {
    assert (r + 1) * (r + 1) == r * r + 2 * r + 1;
    if (r + 1) * (r + 1) <= n then ISqrtFrom(n, r + 1) else r
  }

  lemma ISqrtAtLeastTwo(n: nat)
    ensures ISqrt(n) > 1 <==> n >= 4
  {
    var r := ISqrt(n);
    if r > 1 {
      assert r * r >= 2 * r >= 4;
    }
  }

  /** A Python dict with integer keys: the keys in insertion order and the
      key-to-value map. */
  datatype OrderedMap<V> = OrderedMap(keys: seq<int>, values: map<int, V>)

  ghost predicate ValidOrderedMap<V>(m: OrderedMap<V>) {
    && (forall i, j :: 0 <= i < j < |m.keys| ==> m.keys[i] != m.keys[j])
    && (forall k :: k in m.values <==> k in m.keys)
  }

  function EmptyOrderedMap<V>(): OrderedMap<V> {
    OrderedMap([], map[])
  }

  /** d[k] = v: a new key goes to the end of the iteration order, an existing
      key keeps its place. */
  function Put<V>(m: OrderedMap<V>, k: int, v: V): (r: OrderedMap<V>)
    ensures ValidOrderedMap(m) ==> ValidOrderedMap(r)
    ensures r.values == m.values[k := v]
    ensures k in m.values ==> r.keys == m.keys
    ensures k !in m.values ==> r.keys == m.keys + [k]
  {
    if k in m.values then OrderedMap(m.keys, m.values[k := v])
    else OrderedMap(m.keys + [k], m.values[k := v])
  }
}

=== FILE: block_index.dfy ===
/** The block-based indexer of HW2/index.py: documents are split into ten
    blocks, each block accumulates a document-frequency map and a sorted
    posting list per term id, the blocks are merged pairwise by sorted-list
    merge and dictionary merge, and finally skip pointers are attached to every
    merged list. Linked nodes become sequences; a skip pointer becomes the index
    of its target node. */
module BlockIndex {
  import opened Base
  import opened TermIds

  /** A node of a posting list: the document id and the index of the node its
      skip pointer targets, if any. */
  datatype Node = Node(doc: int, skip: Option<nat>)

  function Docs(s: seq<Node>): (r: seq<int>)
    ensures |r| == |s|
    ensures forall i :: 0 <= i < |s| ==> r[i] == s[i].doc
  {
    if s == [] then [] else [s[0].doc] + Docs(s[1..])
  }

  /** Every skip pointer targets a later node of the same list. */
  predicate WellFormedSkips(s: seq<Node>) {
    forall i :: 0 <= i < |s| && s[i].skip.Some? ==> i < s[i].skip.value < |s|
  }

  // ---------------------------------------------------------------------------
  // PostingList.sortedMerge

  /** Merge of two lists, taking from `a` while its head is not larger. */
  function SortedMerge(a: seq<int>, b: seq<int>): (r: seq<int>)
    ensures |r| == |a| + |b|
    ensures multiset(r) == multiset(a) + multiset(b)
    decreases |a| + |b|
  {
    if |a| == 0 then b
    else if |b| == 0 then a
    else if a[0] <= b[0] then
      assert a == [a[0]] + a[1..];
      [a[0]] + SortedMerge(a[1..], b)
    else
      assert b == [b[0]] + b[1..];
      [b[0]] + SortedMerge(a, b[1..])
  }

  lemma ConsIncreasing(h: int, s: seq<int>)
    requires StrictlyIncreasing(s)
    requires forall x :: x in s ==> h < x
    ensures StrictlyIncreasing([h] + s)
  {
    forall i, j | 0 <= i < j < |[h] + s|
      ensures ([h] + s)[i] < ([h] + s)[j]
    {
      if i > 0 {
        assert ([h] + s)[i] == s[i - 1];
      }
      assert ([h] + s)[j] == s[j - 1];
      assert s[j - 1] in s;
    }
  }

  lemma ConsNonDecreasing(h: int, s: seq<int>)
    requires NonDecreasing(s)
    requires forall x :: x in s ==> h <= x
    ensures NonDecreasing([h] + s)
  {
    forall i, j | 0 <= i < j < |[h] + s|
      ensures ([h] + s)[i] <= ([h] + s)[j]
    {
      if i > 0 {
        assert ([h] + s)[i] == s[i - 1];
      }
      assert ([h] + s)[j] == s[j - 1];
      assert s[j - 1] in s;
    }
  }

  /** The merged list holds exactly the ids of both inputs. */
  lemma SortedMergeElements(a: seq<int>, b: seq<int>)
    ensures forall x :: x in SortedMerge(a, b) <==> x in a || x in b
  {
    var r := SortedMerge(a, b);
    forall x
      ensures x in r <==> x in a || x in b
    {
      assert x in r <==> x in multiset(r);
      assert x in a <==> x in multiset(a);
      assert x in b <==> x in multiset(b);
    }
  }

  /** Merging two strictly increasing lists with no doc id in common gives a
      strictly increasing list (with SortedMergeElements: the union of both,
      without duplicates). */
  lemma {:induction false} SortedMergeIncreasing(a: seq<int>, b: seq<int>)
    requires StrictlyIncreasing(a) && StrictlyIncreasing(b)
    requires Elements(a) !! Elements(b)
    ensures StrictlyIncreasing(SortedMerge(a, b))
    decreases |a| + |b|
  {
    if |a| > 0 && |b| > 0 {
      if a[0] <= b[0] {
        assert a[0] in Elements(a);
        SortedMergeIncreasing(a[1..], b);
        HeadBelowMerge(a[0], a[1..], b);
        ConsIncreasing(a[0], SortedMerge(a[1..], b));
      } else {
        SortedMergeIncreasing(a, b[1..]);
        HeadBelowMerge(b[0], a, b[1..]);
        ConsIncreasing(b[0], SortedMerge(a, b[1..]));
      }
    }
  }

  /** A value below the heads of two sorted lists is below all of their merge. */
  lemma HeadBelowMerge(h: int, a: seq<int>, b: seq<int>)
    requires NonDecreasing(a) && NonDecreasing(b)
    requires forall x :: x in a ==> h < x
    requires b != [] ==> h < b[0]
    ensures forall x :: x in SortedMerge(a, b) ==> h < x
  {
    SortedMergeElements(a, b);
    forall x | x in b
      ensures h < x
    {
      var k :| 0 <= k < |b| && b[k] == x;
      assert b[0] <= b[k];
    }
  }

  /** Merging two sorted lists keeps them sorted (duplicates allowed). */
  lemma {:induction false} SortedMergeNonDecreasing(a: seq<int>, b: seq<int>)
    requires NonDecreasing(a) && NonDecreasing(b)
    ensures NonDecreasing(SortedMerge(a, b))
    decreases |a| + |b|
  {
    if |a| > 0 && |b| > 0 {
      if a[0] <= b[0] {
        SortedMergeNonDecreasing(a[1..], b);
        TailBound(a);
        HeadIsLeast(b, a[0]);
        MergeBound(a[0], a[1..], b);
        ConsNonDecreasing(a[0], SortedMerge(a[1..], b));
        assert SortedMerge(a, b) == [a[0]] + SortedMerge(a[1..], b);
      } else {
        SortedMergeNonDecreasing(a, b[1..]);
        TailBound(b);
        HeadIsLeast(a, b[0]);
        MergeBound(b[0], a, b[1..]);
        ConsNonDecreasing(b[0], SortedMerge(a, b[1..]));
        assert SortedMerge(a, b) == [b[0]] + SortedMerge(a, b[1..]);
      }
    }
  }

  /** Everything in a sorted list is at least its head, and so at least
      anything not above the head. */
  lemma HeadIsLeast(s: seq<int>, lo: int)
    requires NonDecreasing(s) && s != [] && lo <= s[0]
    ensures forall x :: x in s ==> lo <= x
  {
    forall x | x in s ensures lo <= x {
      var k :| 0 <= k < |s| && s[k] == x;
    }
  }

  /** Everything after the head of a sorted list is at least the head. */
  lemma TailBound(s: seq<int>)
    requires NonDecreasing(s) && s != []
    ensures forall x :: x in s[1..] ==> s[0] <= x
  {
    forall x | x in s[1..] ensures s[0] <= x {
      var k :| 0 <= k < |s| - 1 && s[1..][k] == x;
      assert s[k + 1] == x;
    }
  }

  /** A lower bound of both lists bounds their merge. */
  lemma MergeBound(lo: int, a: seq<int>, b: seq<int>)
    requires forall x :: x in a ==> lo <= x
    requires forall x :: x in b ==> lo <= x
    ensures forall x :: x in SortedMerge(a, b) ==> lo <= x
  {
    SortedMergeElements(a, b);
  }


  // ---------------------------------------------------------------------------
  // merge_dict and merge_posting_dict

  /** A posting list with its `length` field, which the merge maintains
      separately from the nodes. */
  datatype PostingList = PostingList(docs: seq<int>, length: int)

  /** {**prev, **next}, then the shared keys get the sum of both frequencies. */
  function MergeDict(prev: map<nat, int>, next: map<nat, int>): (r: map<nat, int>)
    ensures r.Keys == prev.Keys + next.Keys
    ensures forall k :: k in prev && k in next ==> r[k] == prev[k] + next[k]
    ensures forall k :: k in prev && k !in next ==> r[k] == prev[k]
    ensures forall k :: k !in prev && k in next ==> r[k] == next[k]
  {
    var merged := prev + next;
    map k | k in merged :: if k in prev && k in next then prev[k] + next[k] else merged[k]
  }

  /** Merge order does not matter for the dictionary. */
  lemma MergeDictCommutes(x: map<nat, int>, y: map<nat, int>)
    ensures MergeDict(x, y) == MergeDict(y, x)
  {
  }

  lemma MergeDictAssociates(x: map<nat, int>, y: map<nat, int>, z: map<nat, int>)
    ensures MergeDict(MergeDict(x, y), z) == MergeDict(x, MergeDict(y, z))
  {
  }

  function MergePostings(a: PostingList, b: PostingList, length: int): PostingList {
    PostingList(SortedMerge(a.docs, b.docs), length)
  }

  /** {**prev, **next}, then each shared term id gets the merge of both lists
      with length = the sum of both lengths. */
  function MergePostingDict(prev: map<nat, PostingList>, next: map<nat, PostingList>): (r: map<nat, PostingList>)
    ensures r.Keys == prev.Keys + next.Keys
    ensures forall k :: k in prev && k in next ==>
              && r[k].length == prev[k].length + next[k].length
              && multiset(r[k].docs) == multiset(prev[k].docs) + multiset(next[k].docs)
    ensures forall k :: k in prev && k !in next ==> r[k] == prev[k]
    ensures forall k :: k !in prev && k in next ==> r[k] == next[k]
  {
    var merged := prev + next;
    map k | k in merged ::
      if k in prev && k in next then MergePostings(prev[k], next[k], prev[k].length + next[k].length)
      else merged[k]
  }

  /** A list whose length field counts its nodes and whose ids increase. */
  predicate WellFormedList(p: PostingList) {
    p.length == |p.docs| && StrictlyIncreasing(p.docs)
  }

  /** When the lists of every shared term have no doc id in common (blocks
      never share documents), merging keeps each list strictly increasing with
      a correct length, and the merged list holds exactly the ids of both. */
  lemma MergePostingDictWellFormed(prev: map<nat, PostingList>, next: map<nat, PostingList>)
    requires forall k :: k in prev ==> WellFormedList(prev[k])
    requires forall k :: k in next ==> WellFormedList(next[k])
    requires forall k :: k in prev && k in next ==> Elements(prev[k].docs) !! Elements(next[k].docs)
    ensures var r := MergePostingDict(prev, next);
            forall k :: k in r ==>
              && WellFormedList(r[k])
              && Elements(r[k].docs) == (if k in prev then Elements(prev[k].docs) else {})
                                        + (if k in next then Elements(next[k].docs) else {})
  {
    var r := MergePostingDict(prev, next);
    forall k | k in r
      ensures WellFormedList(r[k])
      ensures Elements(r[k].docs) == (if k in prev then Elements(prev[k].docs) else {})
                                     + (if k in next then Elements(next[k].docs) else {})
    {
      if k in prev && k in next {
        MergedEntryWellFormed(prev[k], next[k]);
      }
    }
  }

  lemma MergedEntryWellFormed(a: PostingList, b: PostingList)
    requires WellFormedList(a) && WellFormedList(b)
    requires Elements(a.docs) !! Elements(b.docs)
    ensures var m := MergePostings(a, b, a.length + b.length);
            WellFormedList(m) && Elements(m.docs) == Elements(a.docs) + Elements(b.docs)
  {
    SortedMergeIncreasing(a.docs, b.docs);
    SortedMergeElements(a.docs, b.docs);
    var r := SortedMerge(a.docs, b.docs);
    forall x
      ensures x in Elements(r) <==> x in Elements(a.docs) + Elements(b.docs)
    {
      assert x in r <==> x in a.docs || x in b.docs;
    }
  }

  // ---------------------------------------------------------------------------
  // PostingList.add_skip_ptr

  /** The "looking for next" mode of add_skip_ptr, entered at node j (j == len
      stands for the missing node after the tail): the first node at or after j
      whose index is a multiple of d, or nothing once the list ends. */
  function SeekSkipTarget(len: nat, d: nat, j: nat): (r: Option<nat>)
    requires 0 < d && j <= len
    ensures r.Some? ==> j <= r.value < len && r.value % d == 0
    decreases len - j
  {
    if j % d == 0 then (if j < len then Some(j) else None)
    else if j + 1 >= len then None
    else SeekSkipTarget(len, d, j + 1)
  }

  /** The main traversal of add_skip_ptr from node idx onwards: a node whose
      index is a multiple of d gets the target found by the looking mode. */
  function PlaceSkips(len: nat, d: nat, idx: nat): (r: seq<Option<nat>>)
    requires 0 < d && idx < len
    ensures |r| == len - idx
    decreases len - idx
  {
    [if idx % d == 0 then SeekSkipTarget(len, d, idx + 1) else None]
      + (if idx + 1 < len then PlaceSkips(len, d, idx + 1) else [])
  }

  /** The nodes of a fresh list with skip pointers placed at distance d. */
  function AddSkipPointers(docs: seq<int>, d: nat): (r: seq<Node>)
    requires 0 < d
    ensures Docs(r) == docs
  {
    if docs == [] then []
    else
      var skips := PlaceSkips(|docs|, d, 0);
      seq(|docs|, i requires 0 <= i < |docs| => Node(docs[i], skips[i]))
  }

  lemma MulAtLeast(k: int, d: int)
    requires 1 <= k && 0 < d
    ensures k * d >= d
  {
  }

  /** Euclidean division is unique: x == q * d + r with 0 <= r < d fixes x % d. */
  lemma ModUnique(x: int, d: int, q: int, r: int)
    requires 0 < d && 0 <= r < d && x == q * d + r
    ensures x % d == r
  {
    var q', r' := x / d, x % d;
    assert x == q' * d + r';
    if q' > q {
      assert (q' - q) * d == r - r';
      MulAtLeast(q' - q, d);
    } else if q' < q {
      assert (q - q') * d == r' - r;
      MulAtLeast(q - q', d);
    }
  }

  lemma ModOfNextMultiple(q: nat, d: nat, t: nat)
    requires 0 < d && t < d
    ensures (q * d + t) % d == t
  {
    ModUnique(q * d + t, d, q, t);
  }

  /** The looking mode started at j finds the first multiple k of d at or after
      j, if that node exists. */
  lemma {:induction false} SeekFindsNextMultiple(len: nat, d: nat, j: nat, k: nat)
    requires 0 < d && j <= len && j <= k && k % d == 0
    requires forall i :: j <= i < k ==> i % d != 0
    ensures SeekSkipTarget(len, d, j) == (if k < len then Some(k) else None)
    decreases k - j
  {
    if j % d != 0 && j + 1 < len {
      SeekFindsNextMultiple(len, d, j + 1, k);
    }
  }

  lemma {:induction false} PlaceSkipsAt(len: nat, d: nat, idx: nat, i: nat)
    requires 1 < d && idx <= i < len
    ensures PlaceSkips(len, d, idx)[i - idx]
            == (if i % d == 0 && i + d < len then Some(i + d) else None)
    decreases len - idx
  {
    if i > idx {
      PlaceSkipsAt(len, d, idx + 1, i);
    } else if i % d == 0 {
      var q := i / d;
      assert i == q * d;
      forall m | i + 1 <= m < i + d
        ensures m % d != 0
      {
        ModOfNextMultiple(q, d, m - i);
      }
      assert (i + d) % d == 0 by { ModOfNextMultiple(q + 1, d, 0); assert (q + 1) * d == i + d; }
      if i + 1 <= len {
        SeekFindsNextMultiple(len, d, i + 1, i + d);
      }
    }
  }

  /** The skip rule of add_skip_ptr for a distance d > 1: node i gets a skip to
      node i + d exactly when i is a multiple of d and node i + d exists. */
  lemma SkipRule(docs: seq<int>, d: nat, i: nat)
    requires 1 < d && i < |docs|
    ensures AddSkipPointers(docs, d)[i].skip
            == (if i % d == 0 && i + d < |docs| then Some(i + d) else None)
  {
    var skips := PlaceSkips(|docs|, d, 0);
    assert AddSkipPointers(docs, d)[i] == Node(docs[i], skips[i]);
    PlaceSkipsAt(|docs|, d, 0, i);
  }

  lemma AddSkipPointersWellFormed(docs: seq<int>, d: nat)
    requires 1 < d
    ensures WellFormedSkips(AddSkipPointers(docs, d))
  {
    forall i | 0 <= i < |docs|
      ensures var n := AddSkipPointers(docs, d)[i];
              n.skip.Some? ==> i < n.skip.value < |docs|
    {
      SkipRule(docs, d, i);
    }
  }

  /** The skip stage of build_index: the distance floor(L / sqrt(L)) is the
      integer square root of L, and pointers are added only when it exceeds 1. */
  function WithSkips(p: PostingList): (r: seq<Node>)
    ensures Docs(r) == p.docs
  {
    var d := if p.length <= 0 then 0 else ISqrt(p.length);
    if d > 1 then AddSkipPointers(p.docs, d)
    else seq(|p.docs|, i requires 0 <= i < |p.docs| => Node(p.docs[i], None))
  }

  /** Every skip pointer the final stage places points forward within the list. */
  lemma WithSkipsWellFormed(p: PostingList)
    requires p.length == |p.docs|
    ensures WellFormedSkips(WithSkips(p))
  {
    var d := if p.length <= 0 then 0 else ISqrt(p.length);
    if d > 1 {
      AddSkipPointersWellFormed(p.docs, d);
    }
  }

  /** Skip pointers appear only on lists of at least four nodes, and there they
      follow the stride rule with stride ISqrt(L). */
  lemma WithSkipsRule(p: PostingList, i: nat)
    requires p.length == |p.docs| && i < |p.docs|
    ensures var d := ISqrt(|p.docs|);
            WithSkips(p)[i].skip
            == (if |p.docs| >= 4 && i % d == 0 && i + d < |p.docs| then Some(i + d) else None)
  {
    ISqrtAtLeastTwo(|p.docs|);
    var d := ISqrt(|p.docs|);
    if d > 1 {
      SkipRule(p.docs, d, i);
    }
  }
}

=== FILE: boolean_query.dfy ===
/** The posting-list operators of the HW2 Boolean search (HW2/search.py):
    OR as a sorted merge followed by duplicate removal, AND as a two-pointer
    intersection that follows skip pointers, AND NOT as a list difference, and
    the `exec_operation` dispatcher. Linked nodes become sequences of `Node`
    and a skip pointer is the index of its target. */
module BooleanQuery {
  import opened Base
  import opened BlockIndex

  // ---------------------------------------------------------------------------
  // remove_duplicates

  /** Drops every node whose document id equals that of the node before it,
      keeping the first node of each run. */
  function RemoveDuplicates(s: seq<int>): seq<int>
    decreases |s|
  {
    if |s| <= 1 then s
    else if s[0] == s[1] then RemoveDuplicates(s[1..])
    else [s[0]] + RemoveDuplicates(s[1..])
  }

  /** The first id survives and the set of ids is unchanged. */
  lemma {:induction false} RemoveDuplicatesElements(s: seq<int>)
    ensures var r := RemoveDuplicates(s);
            && |r| <= |s|
            && (s != [] ==> r != [] && r[0] == s[0])
            && forall x :: x in r <==> x in s
    decreases |s|
  {
    if |s| > 1 {
      RemoveDuplicatesElements(s[1..]);
      assert s == [s[0]] + s[1..];
    }
  }

  /** No two neighbours of the result are equal. */
  lemma {:induction false} RemoveDuplicatesNoAdjacent(s: seq<int>)
    ensures NoAdjacentDuplicates(RemoveDuplicates(s))
    decreases |s|
  {
    if |s| > 1 {
      RemoveDuplicatesNoAdjacent(s[1..]);
      RemoveDuplicatesElements(s[1..]);
    }
  }

  /** On a sorted list, removing adjacent duplicates leaves a strictly
      increasing list. */
  lemma {:induction false} RemoveDuplicatesIncreasing(s: seq<int>)
    requires NonDecreasing(s)
    ensures StrictlyIncreasing(RemoveDuplicates(s))
    decreases |s|
  {
    if |s| > 1 {
      RemoveDuplicatesIncreasing(s[1..]);
      RemoveDuplicatesElements(s[1..]);
      if s[0] != s[1] {
        forall x | x in RemoveDuplicates(s[1..])
          ensures s[0] < x
        {
          assert x in s[1..];
        }
        ConsIncreasing(s[0], RemoveDuplicates(s[1..]));
      }
    }
  }

  /** A list without duplicates is left as it is. */
  lemma {:induction false} RemoveDuplicatesKeepsIncreasing(s: seq<int>)
    requires StrictlyIncreasing(s)
    ensures RemoveDuplicates(s) == s
    decreases |s|
  {
    if |s| > 1 {
      RemoveDuplicatesKeepsIncreasing(s[1..]);
      assert s == [s[0]] + s[1..];
    }
  }

  // ---------------------------------------------------------------------------
  // or_merge + remove_duplicates

  /** The OR of two posting lists as exec_operation computes it: or_merge (the
      same merge as the indexer's, taking from `a` on ties) and then
      remove_duplicates. The model's nodes carry no skip pointers, where the
      program relinks the input nodes with theirs. */
  function OrMerge(a: seq<Node>, b: seq<Node>): (r: seq<Node>)
    ensures |r| <= |a| + |b|
  {
    var ids := RemoveDuplicates(SortedMerge(Docs(a), Docs(b)));
    RemoveDuplicatesElements(SortedMerge(Docs(a), Docs(b)));
    seq(|ids|, i requires 0 <= i < |ids| => Node(ids[i], None))
  }

  /** The OR of two sorted lists is their union, strictly increasing. */
  lemma OrMergeIsUnion(a: seq<Node>, b: seq<Node>)
    requires NonDecreasing(Docs(a)) && NonDecreasing(Docs(b))
    ensures var r := Docs(OrMerge(a, b));
            && StrictlyIncreasing(r)
            && forall x :: x in r <==> x in Docs(a) || x in Docs(b)
  {
    var m := SortedMerge(Docs(a), Docs(b));
    SortedMergeNonDecreasing(Docs(a), Docs(b));
    SortedMergeElements(Docs(a), Docs(b));
    RemoveDuplicatesIncreasing(m);
    RemoveDuplicatesElements(m);
    assert Docs(OrMerge(a, b)) == RemoveDuplicates(m);
  }

  // ---------------------------------------------------------------------------
  // and_merge

  /** Both lists strictly increasing. */
  ghost predicate Sorted2(a: seq<Node>, b: seq<Node>) {
    StrictlyIncreasing(Docs(a)) && StrictlyIncreasing(Docs(b))
  }

  /** The heads are equal: the common id is output and `a` moves on. */
  lemma AndStepEqual(x: seq<int>, y: seq<int>, i: nat, j: nat)
    requires i < |x| && j < |y| && x[i] == y[j]
    ensures Intersect(x[i..], y[j..]) == [x[i]] + Intersect(x[i + 1..], y[j..])
  {
    assert x[i..][1..] == x[i + 1..];
    assert y[j..][0] == y[j];
  }

  /** The ids x[i .. t) are all below y[j], so none of them is in y[j..]. */
  lemma AndStepDropX(x: seq<int>, y: seq<int>, i: nat, j: nat, t: nat)
    requires StrictlyIncreasing(y)
    requires i <= t <= |x| && j < |y|
    requires forall k :: i <= k < t ==> x[k] < y[j]
    ensures Intersect(x[i..], y[j..]) == Intersect(x[t..], y[j..])
  {
    forall k | 0 <= k < t - i
      ensures x[i..][k] !in y[j..]
    {
      assert x[i..][k] == x[i + k];
      forall m | 0 <= m < |y| - j ensures y[j..][m] != x[i + k] {
        assert y[j..][m] == y[j + m];
        if m > 0 {
          assert y[j] < y[j + m];
        }
      }
    }
    IntersectDropMissingPrefix(x[i..], y[j..], t - i);
    assert x[i..][t - i..] == x[t..];
  }

  /** The ids y[j .. t) are all below x[i], hence below all of x[i..]. */
  lemma AndStepDropY(x: seq<int>, y: seq<int>, i: nat, j: nat, t: nat)
    requires StrictlyIncreasing(x)
    requires i < |x| && j <= t <= |y|
    requires forall k :: j <= k < t ==> y[k] < x[i]
    ensures Intersect(x[i..], y[j..]) == Intersect(x[i..], y[t..])
  {
    forall k, m | 0 <= k < t - j && 0 <= m < |x| - i
      ensures y[j..][k] < x[i..][m]
    {
      assert y[j + k] < x[i] <= x[i + m];
    }
    IntersectDropSmallPrefix(x[i..], y[j..], t - j);
    assert y[j..][t - j..] == y[t..];
  }

  /** A step of `a` (one node, or a skip whose target does not pass b's
      current id) passes over no common id. */
  lemma AndAdvanceA(a: seq<Node>, b: seq<Node>, i: nat, j: nat, t: nat)
    requires Sorted2(a, b) && i < t <= |a| && j < |b|
    requires a[i].doc < b[j].doc
    requires t == i + 1 || (t < |a| && a[t].doc <= b[j].doc)
    ensures Intersect(Docs(a)[i..], Docs(b)[j..]) == Intersect(Docs(a)[t..], Docs(b)[j..])
  {
    var x, y := Docs(a), Docs(b);
    forall k | i <= k < t
      ensures x[k] < y[j]
    {
      if t != i + 1 {
        assert x[k] < x[t];
      }
    }
    AndStepDropX(x, y, i, j, t);
  }

  /** The same for a step of `b`. */
  lemma AndAdvanceB(a: seq<Node>, b: seq<Node>, i: nat, j: nat, t: nat)
    requires Sorted2(a, b) && i < |a| && j < t <= |b|
    requires b[j].doc < a[i].doc
    requires t == j + 1 || (t < |b| && b[t].doc <= a[i].doc)
    ensures Intersect(Docs(a)[i..], Docs(b)[j..]) == Intersect(Docs(a)[i..], Docs(b)[t..])
  {
    var x, y := Docs(a), Docs(b);
    forall k | j <= k < t
      ensures y[k] < x[i]
    {
      if t != j + 1 {
        assert y[k] < y[t];
      }
    }
    AndStepDropY(x, y, i, j, t);
  }

  lemma {:induction false} IntersectEmpty(x: seq<int>)
    ensures Intersect(x, []) == []
  {
    if x != [] {
      IntersectEmpty(x[1..]);
    }
  }

  /** The loop invariant of AndMerge: the output so far followed by the
      intersection of what remains is the intersection of the whole lists. */
  ghost predicate AndProgress(a: seq<Node>, b: seq<Node>, r: seq<Node>, i: nat, j: nat)
    requires i <= |a| && j <= |b|
  {
    Sorted2(a, b) ==> Docs(r) + Intersect(Docs(a)[i..], Docs(b)[j..]) == Intersect(Docs(a), Docs(b))
  }

  lemma AndProgressEqual(a: seq<Node>, b: seq<Node>, r: seq<Node>, i: nat, j: nat)
    requires i < |a| && j < |b| && a[i].doc == b[j].doc
    requires AndProgress(a, b, r, i, j)
    ensures AndProgress(a, b, r + [a[i]], i + 1, j)
  {
    if Sorted2(a, b) {
      var x, y := Docs(a), Docs(b);
      AndStepEqual(x, y, i, j);
      DocsSnoc(r, a[i]);
      assert Docs(r + [a[i]]) + Intersect(x[i + 1..], y[j..]) == Docs(r) + ([x[i]] + Intersect(x[i + 1..], y[j..]));
    }
  }

  lemma AndProgressA(a: seq<Node>, b: seq<Node>, r: seq<Node>, i: nat, j: nat, t: nat)
    requires i < t <= |a| && j < |b|
    requires a[i].doc < b[j].doc
    requires t == i + 1 || (t < |a| && a[t].doc <= b[j].doc)
    requires AndProgress(a, b, r, i, j)
    ensures AndProgress(a, b, r, t, j)
  {
    if Sorted2(a, b) {
      AndAdvanceA(a, b, i, j, t);
    }
  }

  lemma AndProgressB(a: seq<Node>, b: seq<Node>, r: seq<Node>, i: nat, j: nat, t: nat)
    requires i < |a| && j < t <= |b|
    requires b[j].doc < a[i].doc
    requires t == j + 1 || (t < |b| && b[t].doc <= a[i].doc)
    requires AndProgress(a, b, r, i, j)
    ensures AndProgress(a, b, r, i, t)
  {
    if Sorted2(a, b) {
      AndAdvanceB(a, b, i, j, t);
    }
  }

  /** Once either side is used up, the output is complete. */
  lemma AndProgressDone(a: seq<Node>, b: seq<Node>, r: seq<Node>, i: nat, j: nat)
    requires i <= |a| && j <= |b| && (i == |a| || j == |b|)
    requires AndProgress(a, b, r, i, j)
    ensures Sorted2(a, b) ==> Docs(r) == Intersect(Docs(a), Docs(b))
  {
    if j == |b| {
      IntersectEmpty(Docs(a)[i..]);
      assert Docs(b)[j..] == [];
    } else {
      assert Docs(a)[i..] == [];
    }
  }

  /** Where and_merge moves the side whose current id is the smaller: along
      node i's skip pointer when the target's id does not pass the other
      side's id `other`, and to the next node otherwise. */
  function SkipOrNext(nodes: seq<Node>, i: nat, other: int): (t: nat)
    requires WellFormedSkips(nodes) && i < |nodes|
    ensures i < t <= |nodes|
    ensures t == i + 1 || (t < |nodes| && nodes[t].doc <= other)
  {
    if i + 1 < |nodes| && nodes[i].skip.Some? && other - nodes[nodes[i].skip.value].doc >= 0 then nodes[i].skip.value
    else i + 1
  }

  /** and_merge: walks both lists, outputs `a`'s node on equal ids, and on a
      smaller id follows that side's skip pointer when its target's id does
      not pass the other side's current id. Reaching the last node of the side
      with the smaller id ends the walk. The output nodes are `a`'s nodes. */
  method AndMerge(a: seq<Node>, b: seq<Node>) returns (r: seq<Node>)
    requires WellFormedSkips(a) && WellFormedSkips(b)
    ensures forall k :: 0 <= k < |r| ==> r[k] in a
    ensures Sorted2(a, b) ==> Docs(r) == Intersect(Docs(a), Docs(b))
  {
    r := [];
    if |a| == 0 || |b| == 0 {
      AndProgressDone(a, b, r, 0, 0);
      return;
    }
    var i: nat, j: nat := 0, 0;
    while true
      invariant i < |a| && j < |b|
      invariant forall k :: 0 <= k < |r| ==> r[k] in a
      invariant AndProgress(a, b, r, i, j)
      decreases |a| - i + |b| - j
    {
      if a[i].doc == b[j].doc {
        AndProgressEqual(a, b, r, i, j);
        r := r + [a[i]];
        if i + 1 == |a| {
          AndProgressDone(a, b, r, i + 1, j);
          return;
        }
        i := i + 1;
      } else if a[i].doc < b[j].doc {
        var t := SkipOrNext(a, i, b[j].doc);
        AndProgressA(a, b, r, i, j, t);
        if i + 1 == |a| {
          AndProgressDone(a, b, r, t, j);
          return;
        }
        i := t;
      } else {
        var t := SkipOrNext(b, j, a[i].doc);
        AndProgressB(a, b, r, i, j, t);
        if j + 1 == |b| {
          AndProgressDone(a, b, r, i, t);
          return;
        }
        j := t;
      }
    }
  }

  lemma DocsSnoc(r: seq<Node>, n: Node)
    ensures Docs(r + [n]) == Docs(r) + [n.doc]
  {
  }

  // ---------------------------------------------------------------------------
  // and_not_merge, as written

  /** The state of and_not_merge's loop. `next` holds every node's current
      next pointer (the loop rewires them); the other fields are head_a, a,
      prev_a, prev_skip and the position in `b`. */
  datatype AndNotState = AndNotState(next: seq<Option<nat>>, head: Option<nat>, a: Option<nat>,
                                     prevA: Option<nat>, prevSkip: Option<nat>, b: Option<nat>)

  /** Every pointer of the state indexes the node sequence. */
  ghost predicate NodesInRange(n: nat, st: AndNotState) {
    && |st.next| == n
    && (forall i :: 0 <= i < n && st.next[i].Some? ==> st.next[i].value < n)
    && (st.head.Some? ==> st.head.value < n)
    && (st.a.Some? ==> st.a.value < n)
    && (st.prevA.Some? ==> st.prevA.value < n)
    && (st.prevSkip.Some? ==> st.prevSkip.value < n)
  }

  /** ... and the position in `b` indexes `b`. */
  ghost predicate StateInRange(n: nat, nb: nat, st: AndNotState) {
    NodesInRange(n, st) && (st.b.Some? ==> st.b.value < nb)
  }

  /** The list reached from `node` by following next pointers (at most
      `fuel` nodes). */
  function Walk(nodes: seq<Node>, next: seq<Option<nat>>, node: Option<nat>, fuel: nat): seq<int>
    requires |next| == |nodes|
    requires forall i :: 0 <= i < |nodes| && next[i].Some? ==> next[i].value < |nodes|
    requires node.Some? ==> node.value < |nodes|
    decreases fuel
  {
    if fuel == 0 || node.None? then []
    else [nodes[node.value].doc] + Walk(nodes, next, next[node.value], fuel - 1)
  }

  /** What Python raises when a loop reads `b.doc_id` after `b` ran off
      the end of its list. */
  const NoneAttribute := "AttributeError: 'NoneType' object has no attribute 'doc_id'"

  /** The model's own error, not Python's: the bound on the passes of a loop
      the program runs without one was reached. */
  const OutOfFuel := "out of fuel"

  /** The inner loop that runs after a skip: starting at prev_skip it looks
      for the node whose id equals b's current id, stopping at the last node,
      and unlinks it, resuming from its predecessor. */
  function UnlinkAfterSkip(nodes: seq<Node>, bid: int, st: AndNotState, c: nat, d: nat, fuel: nat): (r: AndNotState)
    requires NodesInRange(|nodes|, st) && c < |nodes| && d < |nodes|
    ensures NodesInRange(|nodes|, r)
    ensures r.head == st.head && r.prevA == st.prevA && r.prevSkip == st.prevSkip && r.b == st.b
    decreases fuel
  {
    if fuel == 0 || st.next[c].None? then st
    else if nodes[c].doc == bid then st.(next := st.next[d := st.next[c]], a := Some(d))
    else UnlinkAfterSkip(nodes, bid, st, st.next[c].value, c, fuel - 1)
  }

  /** One pass of the outer loop, with b's current node known to exist. */
  function AndNotStep(nodes: seq<Node>, b: seq<int>, st: AndNotState): (r: Result<AndNotState, string>)
    requires StateInRange(|nodes|, |b|, st) && st.a.Some? && st.b.Some?
    requires forall i :: 0 <= i < |nodes| && nodes[i].skip.Some? ==> nodes[i].skip.value < |nodes|
    ensures r.Ok? ==> StateInRange(|nodes|, |b|, r.value)
  {
    var a := st.a.value;
    var bj := st.b.value;
    if nodes[a].doc == b[bj] then
      var st1 := if st.prevA.None? then
                   st.(head := st.next[a], b := if bj + 1 < |b| then Some(bj + 1) else None)
                 else st;
      if st1.prevSkip.Some? then
        var ps := st1.prevSkip.value;
        if st1.next[ps].None? then Ok(st1)
        else if st1.b.None? then Err(NoneAttribute)
        else Ok(UnlinkAfterSkip(nodes, b[st1.b.value], st1, ps, ps, |nodes|))
      else if st1.prevA.None? then Ok(st1.(a := st1.head))
      else Ok(st1.(next := st1.next[st1.prevA.value := st1.next[a]], a := st1.next[a]))
    else if nodes[a].doc < b[bj] then
      var st1 := st.(prevSkip := None, prevA := Some(a));
      var sk := nodes[a].skip;
      if sk.Some? && b[bj] - nodes[sk.value].doc >= 0 then Ok(st1.(prevSkip := Some(a), a := sk))
      else Ok(st1.(a := st.next[a]))
    else
      var st1 := st.(prevSkip := None, prevA := Some(a));
      if bj + 1 == |b| then Ok(st1)
      else Ok(st1.(b := Some(bj + 1)))
  }

  /** The outer loop, run for at most `fuel` passes. */
  function AndNotLoop(nodes: seq<Node>, b: seq<int>, st: AndNotState, broke: bool, fuel: nat): Result<seq<int>, string>
    requires StateInRange(|nodes|, |b|, st)
    requires forall i :: 0 <= i < |nodes| && nodes[i].skip.Some? ==> nodes[i].skip.value < |nodes|
    decreases fuel
  {
    if broke || st.a.None? || st.next[st.a.value].None? then Ok(Walk(nodes, st.next, st.head, |nodes|))
    else if fuel == 0 then Err(OutOfFuel)
    else if st.b.None? then Err(NoneAttribute)
    else
      var bj := st.b.value;
      var a := st.a.value;
      var last := nodes[a].doc > b[bj] && bj + 1 == |b|;
      match AndNotStep(nodes, b, st)
      case Err(e) => Err(e)
      case Ok(st1) => AndNotLoop(nodes, b, st1, last, fuel - 1)
  }

  /** and_not_merge exactly as HW2/search.py writes it, with `fuel` bounding
      the passes of its loops; a crash on a missing node is an `Err`. */
  function AndNotAsWritten(a: seq<Node>, b: seq<int>, fuel: nat): (r: Result<seq<int>, string>)
    requires forall i :: 0 <= i < |a| && a[i].skip.Some? ==> a[i].skip.value < |a|
    ensures b == [] ==> r == Ok(Docs(a))
  {
    var next := InitialNext(|a|);
    if b == [] then
      WalkChain(a, next, 0);
      Ok(Walk(a, next, if |a| > 0 then Some(0) else None, |a|))
    else
      var head := if |a| > 0 then Some(0) else None;
      AndNotLoop(a, b, AndNotState(next, head, head, None, None, Some(0)), false, fuel)
  }

  /** Each node's next pointer before the loop runs. */
  function InitialNext(n: nat): (r: seq<Option<nat>>)
    ensures |r| == n
    ensures forall i :: 0 <= i < n ==> r[i] == if i + 1 < n then Some(i + 1) else None
  {
    seq(n, i requires 0 <= i < n => if i + 1 < n then Some(i + 1) else None)
  }

  /** Walking the untouched chain from node k lists the ids from k on. */
  lemma {:induction false} WalkChain(a: seq<Node>, next: seq<Option<nat>>, k: nat)
    requires |next| == |a| && k <= |a|
    requires forall i :: 0 <= i < |a| ==> next[i] == if i + 1 < |a| then Some(i + 1) else None
    ensures Walk(a, next, if k < |a| then Some(k) else None, |a| - k) == Docs(a)[k..]
    decreases |a| - k
  {
    if k < |a| {
      WalkChain(a, next, k + 1);
      assert Docs(a)[k..] == [a[k].doc] + Docs(a)[k + 1..];
    }
  }

  /** Nodes without skip pointers, for the concrete cases below. */
  function Plain(ids: seq<int>): (r: seq<Node>)
    ensures Docs(r) == ids
    ensures forall i :: 0 <= i < |r| ==> r[i].skip.None?
  {
    seq(|ids|, i requires 0 <= i < |ids| => Node(ids[i], None))
  }

  /** The loop stops while `a` still has a successor, so the last posting of A
      is never compared: [1, 2] AND NOT [2] keeps 2. */
  lemma AndNotMissesLastPosting()
    ensures AndNotAsWritten(Plain([1, 2]), [2], 10) == Ok([1, 2])
    ensures Difference([1, 2], [2]) == [1]
  {
    assert Plain([1, 2]) == [Node(1, None), Node(2, None)];
  }

  /** After an `a > b` step prev_a is the current node itself, so unlinking the
      next match rewires nothing: [5, 6] AND NOT [3, 5] keeps 5. */
  lemma AndNotKeepsMatchAfterAdvancingB()
    ensures AndNotAsWritten(Plain([5, 6]), [3, 5], 10) == Ok([5, 6])
    ensures Difference([5, 6], [3, 5]) == [6]
  {
    var a := Plain([5, 6]);
    assert a == [Node(5, None), Node(6, None)];
    var next: seq<Option<nat>> := [Some(1), None];
    assert InitialNext(2) == next;
    var s0 := AndNotState(next, Some(0), Some(0), None, None, Some(0));
    assert AndNotAsWritten(a, [3, 5], 10) == AndNotLoop(a, [3, 5], s0, false, 10);
    var s1 := s0.(prevA := Some(0), b := Some(1));
    assert AndNotStep(a, [3, 5], s0) == Ok(s1);
    assert next[0 := next[0]] == next;
    var s2 := s1.(a := Some(1));
    assert AndNotStep(a, [3, 5], s1) == Ok(s2);
    assert AndNotLoop(a, [3, 5], s2, false, 8) == Ok(Walk(a, next, Some(0), 2));
    assert Walk(a, next, Some(0), 2) == [5, 6];
  }

  /** A match at the very first postings advances b even past its end, and the
      next comparison reads the id of a missing node: [1, 2, 3] AND NOT [1]
      raises. */
  lemma AndNotCrashesOnShortB()
    ensures AndNotAsWritten(Plain([1, 2, 3]), [1], 10).Err?
    ensures Difference([1, 2, 3], [1]) == [2, 3]
  {
    assert Plain([1, 2, 3]) == [Node(1, None), Node(2, None), Node(3, None)];
  }

  // ---------------------------------------------------------------------------
  // and_not_merge, as written: what it still guarantees

  /** Every next pointer leads to a later node. */
  ghost predicate ForwardNext(next: seq<Option<nat>>) {
    forall i :: 0 <= i < |next| && next[i].Some? ==> i < next[i].value
  }

  /** What the loop keeps when skip pointers lead forward: next pointers
      lead forward, prev_a is never past a, and a node skipped from is
      prev_a. */
  ghost predicate AndNotInv(st: AndNotState) {
    && ForwardNext(st.next)
    && (st.prevA.Some? && st.a.Some? ==> st.prevA.value <= st.a.value)
    && (st.prevSkip.Some? ==> st.prevA == st.prevSkip)
  }

  /** The unlink after a skip only rewires a node to one past its successor,
      and moves `a` back no further than prev_a. */
  lemma {:induction false} UnlinkKeepsInv(nodes: seq<Node>, bid: int, st: AndNotState, c: nat, d: nat, fuel: nat)
    requires NodesInRange(|nodes|, st) && c < |nodes| && d < |nodes|
    requires ForwardNext(st.next) && d <= c
    requires st.prevA.Some? && st.prevA.value <= d
    ensures var r := UnlinkAfterSkip(nodes, bid, st, c, d, fuel);
            && ForwardNext(r.next)
            && (r.a == st.a || (r.a.Some? && st.prevA.value <= r.a.value))
    decreases fuel
  {
    if fuel > 0 && st.next[c].Some? && nodes[c].doc != bid {
      UnlinkKeepsInv(nodes, bid, st, st.next[c].value, c, fuel - 1);
    }
  }

  lemma AndNotStepKeepsInv(nodes: seq<Node>, b: seq<int>, st: AndNotState)
    requires StateInRange(|nodes|, |b|, st) && st.a.Some? && st.b.Some?
    requires WellFormedSkips(nodes) && st.next[st.a.value].Some?
    requires AndNotInv(st)
    ensures AndNotStep(nodes, b, st).Ok? ==> AndNotInv(AndNotStep(nodes, b, st).value)
  {
    var a := st.a.value;
    if nodes[a].doc == b[st.b.value] && st.prevSkip.Some? {
      var ps := st.prevSkip.value;
      if st.next[ps].Some? && st.b.Some? {
        UnlinkKeepsInv(nodes, b[st.b.value], st, ps, ps, |nodes|);
      }
    }
  }

  /** The list reached by forward next pointers from a node is an in-order
      selection of the nodes from there on. */
  lemma {:induction false} WalkSubsequence(nodes: seq<Node>, next: seq<Option<nat>>, h: nat, fuel: nat)
    requires |next| == |nodes| && h < |nodes|
    requires forall i :: 0 <= i < |nodes| && next[i].Some? ==> next[i].value < |nodes|
    requires ForwardNext(next)
    ensures IsSubsequence(Walk(nodes, next, Some(h), fuel), Docs(nodes)[h..])
    decreases fuel
  {
    var s := Docs(nodes)[h..];
    if fuel == 0 {
      EmptySubsequence(s);
    } else {
      var w := Walk(nodes, next, next[h], fuel - 1);
      assert s[1..] == Docs(nodes)[h + 1..];
      if next[h].None? {
        EmptySubsequence(s[1..]);
      } else {
        var t := next[h].value;
        WalkSubsequence(nodes, next, t, fuel - 1);
        assert Docs(nodes)[t..] == s[1..][t - h - 1..];
        SubsequenceOfSuffix(w, s[1..], t - h - 1);
      }
      assert ([s[0]] + w)[1..] == w;
    }
  }

  /** Whatever the loop returns, started in a state that keeps the
      invariant, is an in-order selection of the nodes. */
  lemma {:induction false} AndNotLoopSubsequence(nodes: seq<Node>, b: seq<int>, st: AndNotState, broke: bool, fuel: nat)
    requires StateInRange(|nodes|, |b|, st) && WellFormedSkips(nodes) && AndNotInv(st)
    ensures var r := AndNotLoop(nodes, b, st, broke, fuel);
            r.Ok? ==> IsSubsequence(r.value, Docs(nodes))
    decreases fuel
  {
    if broke || st.a.None? || st.next[st.a.value].None? {
      HeadWalkSubsequence(nodes, b, st);
    } else if fuel > 0 && st.b.Some? {
      AndNotStepKeepsInv(nodes, b, st);
      var r := AndNotStep(nodes, b, st);
      if r.Ok? {
        var bj, a := st.b.value, st.a.value;
        AndNotLoopSubsequence(nodes, b, r.value, nodes[a].doc > b[bj] && bj + 1 == |b|, fuel - 1);
      }
    }
  }

  /** The list the loop hands back when it stops, read from the head. */
  lemma HeadWalkSubsequence(nodes: seq<Node>, b: seq<int>, st: AndNotState)
    requires StateInRange(|nodes|, |b|, st) && AndNotInv(st)
    ensures IsSubsequence(Walk(nodes, st.next, st.head, |nodes|), Docs(nodes))
  {
    if st.head.Some? {
      WalkSubsequence(nodes, st.next, st.head.value, |nodes|);
      SubsequenceOfSuffix(Walk(nodes, st.next, st.head, |nodes|), Docs(nodes), st.head.value);
    } else {
      EmptySubsequence(Docs(nodes));
    }
  }

  /** and_not_merge only ever takes postings out of A: what it returns is
      A's ids with some of them dropped, in A's order. */
  lemma AndNotAsWrittenSubsequence(a: seq<Node>, b: seq<int>, fuel: nat)
    requires WellFormedSkips(a)
    ensures AndNotAsWritten(a, b, fuel).Ok? ==> IsSubsequence(AndNotAsWritten(a, b, fuel).value, Docs(a))
  {
    if b == [] {
      SubsequenceOfSelf(Docs(a));
    } else {
      var head := if |a| > 0 then Some(0) else None;
      AndNotLoopSubsequence(a, b, AndNotState(InitialNext(|a|), head, head, None, None, Some(0)), false, fuel);
    }
  }

  /** With no id of A in B nothing is unlinked: every pass moves `a` or `b`
      on, and the untouched list comes back. */
  lemma {:induction false} AndNotLoopDisjoint(nodes: seq<Node>, b: seq<int>, st: AndNotState, broke: bool, fuel: nat)
    requires StateInRange(|nodes|, |b|, st) && WellFormedSkips(nodes)
    requires st.next == InitialNext(|nodes|) && st.head == (if |nodes| > 0 then Some(0) else None)
    requires st.b.Some?
    requires forall i :: 0 <= i < |nodes| ==> nodes[i].doc !in b
    requires !broke && st.a.Some? ==> |nodes| - st.a.value + |b| - st.b.value <= fuel
    ensures AndNotLoop(nodes, b, st, broke, fuel) == Ok(Docs(nodes))
    decreases fuel
  {
    if broke || st.a.None? || st.next[st.a.value].None? {
      WalkChain(nodes, st.next, 0);
    } else {
      var a, bj := st.a.value, st.b.value;
      assert nodes[a].doc != b[bj];
      var st1 := AndNotStep(nodes, b, st).value;
      assert st1.next == st.next && st1.head == st.head && st1.b.Some?;
      AndNotLoopDisjoint(nodes, b, st1, nodes[a].doc > b[bj] && bj + 1 == |b|, fuel - 1);
    }
  }

  /** and_not_merge of lists with no id in common returns A unchanged, given
      one pass per node of A and B. */
  lemma AndNotAsWrittenDisjoint(a: seq<Node>, b: seq<int>, fuel: nat)
    requires WellFormedSkips(a)
    requires forall d :: d in Docs(a) ==> d !in b
    requires |a| + |b| <= fuel
    ensures AndNotAsWritten(a, b, fuel) == Ok(Docs(a))
  {
    if b != [] {
      forall i | 0 <= i < |a|
        ensures a[i].doc !in b
      {
        assert Docs(a)[i] in Docs(a);
      }
      var head := if |a| > 0 then Some(0) else None;
      AndNotLoopDisjoint(a, b, AndNotState(InitialNext(|a|), head, head, None, None, Some(0)), false, fuel);
    }
  }

  // ---------------------------------------------------------------------------
  // and_not_merge, as intended

  /** The loop invariant of AndNot. */
  ghost predicate DiffProgress(a: seq<Node>, b: seq<Node>, r: seq<Node>, i: nat, j: nat)
    requires i <= |a| && j <= |b|
  {
    && (b == [] ==> Docs(r) == Docs(a)[..i])
    && (Sorted2(a, b) ==> Docs(r) + Difference(Docs(a)[i..], Docs(b)[j..]) == Difference(Docs(a), Docs(b)))
  }

  lemma DiffProgressKeep(a: seq<Node>, b: seq<Node>, r: seq<Node>, i: nat, j: nat)
    requires i < |a| && j <= |b| && (j == |b| || a[i].doc < b[j].doc)
    requires DiffProgress(a, b, r, i, j)
    ensures DiffProgress(a, b, r + [Node(a[i].doc, None)], i + 1, j)
  {
    var n := Node(a[i].doc, None);
    DocsSnoc(r, n);
    if b == [] {
      assert Docs(a)[..i + 1] == Docs(a)[..i] + [Docs(a)[i]];
    }
    if Sorted2(a, b) {
      DiffKeepSorted(Docs(a), Docs(b), Docs(r), i, j);
    }
  }

  lemma DiffKeepSorted(x: seq<int>, y: seq<int>, done: seq<int>, i: nat, j: nat)
    requires StrictlyIncreasing(y)
    requires i < |x| && j <= |y| && (j == |y| || x[i] < y[j])
    requires done + Difference(x[i..], y[j..]) == Difference(x, y)
    ensures (done + [x[i]]) + Difference(x[i + 1..], y[j..]) == Difference(x, y)
  {
    DifferenceKeep(x, y, i, j);
    AppendAssoc(done, [x[i]], Difference(x[i + 1..], y[j..]));
  }

  lemma DiffProgressDrop(a: seq<Node>, b: seq<Node>, r: seq<Node>, i: nat, j: nat)
    requires i < |a| && j < |b| && a[i].doc == b[j].doc
    requires DiffProgress(a, b, r, i, j)
    ensures DiffProgress(a, b, r, i + 1, j)
  {
    if Sorted2(a, b) {
      DifferenceDrop(Docs(a), Docs(b), i, j);
    }
  }

  lemma DiffProgressSkipB(a: seq<Node>, b: seq<Node>, r: seq<Node>, i: nat, j: nat)
    requires i < |a| && j < |b| && b[j].doc < a[i].doc
    requires DiffProgress(a, b, r, i, j)
    ensures DiffProgress(a, b, r, i, j + 1)
  {
    if Sorted2(a, b) {
      DifferenceSkipB(Docs(a), Docs(b), i, j);
    }
  }

  lemma DiffProgressDone(a: seq<Node>, b: seq<Node>, r: seq<Node>, j: nat)
    requires j <= |b|
    requires DiffProgress(a, b, r, |a|, j)
    ensures b == [] ==> Docs(r) == Docs(a)
    ensures Sorted2(a, b) ==> Docs(r) == Difference(Docs(a), Docs(b))
  {
    assert Docs(a)[|a|..] == [];
    assert Docs(a)[..|a|] == Docs(a);
  }

  /** A AND NOT B as the docstring describes it: every posting of `a` whose id
      is not in `b`, in order. Walks both lists with two pointers; the output
      is a fresh list without skip pointers. */
  method AndNot(a: seq<Node>, b: seq<Node>) returns (r: seq<Node>)
    ensures forall k :: 0 <= k < |r| ==> r[k].skip.None?
    ensures b == [] ==> Docs(r) == Docs(a)
    ensures Sorted2(a, b) ==> Docs(r) == Difference(Docs(a), Docs(b))
  {
    r := [];
    var i: nat, j: nat := 0, 0;
    while i < |a|
      invariant i <= |a| && j <= |b|
      invariant forall k :: 0 <= k < |r| ==> r[k].skip.None?
      invariant DiffProgress(a, b, r, i, j)
      decreases |a| - i + |b| - j
    {
      if j == |b| || a[i].doc < b[j].doc {
        DiffProgressKeep(a, b, r, i, j);
        r := r + [Node(a[i].doc, None)];
        i := i + 1;
      } else if a[i].doc == b[j].doc {
        DiffProgressDrop(a, b, r, i, j);
        i := i + 1;
      } else {
        DiffProgressSkipB(a, b, r, i, j);
        j := j + 1;
      }
    }
    DiffProgressDone(a, b, r, j);
  }

  /** x[i] is below every remaining id of y (or y is exhausted): it is kept. */
  lemma DifferenceKeep(x: seq<int>, y: seq<int>, i: nat, j: nat)
    requires StrictlyIncreasing(y)
    requires i < |x| && j <= |y|
    requires j == |y| || x[i] < y[j]
    ensures Difference(x[i..], y[j..]) == [x[i]] + Difference(x[i + 1..], y[j..])
  {
    assert x[i..][1..] == x[i + 1..];
    assert forall m :: 0 <= m < |y| - j ==> x[i] < y[j..][m];
  }

  /** x[i] equals y[j]: it is dropped. */
  lemma DifferenceDrop(x: seq<int>, y: seq<int>, i: nat, j: nat)
    requires i < |x| && j < |y| && x[i] == y[j]
    ensures Difference(x[i..], y[j..]) == Difference(x[i + 1..], y[j..])
  {
    assert x[i..][1..] == x[i + 1..];
    assert y[j..][0] == y[j];
  }

  /** y[j] is below every remaining id of x: it can be passed. */
  lemma DifferenceSkipB(x: seq<int>, y: seq<int>, i: nat, j: nat)
    requires StrictlyIncreasing(x)
    requires i < |x| && j < |y| && y[j] < x[i]
    ensures Difference(x[i..], y[j..]) == Difference(x[i..], y[j + 1..])
  {
    assert y[j..] == [y[j]] + y[j + 1..];
    forall k | 0 <= k < |x| - i
      ensures x[i..][k] in y[j..] <==> x[i..][k] in y[j + 1..]
    {
      assert y[j] < x[i] <= x[i + k];
    }
    DifferenceIgnores(x[i..], y[j..], y[j + 1..]);
  }

  /** The difference only depends on which ids of x the second list holds. */
  lemma {:induction false} DifferenceIgnores(x: seq<int>, y: seq<int>, z: seq<int>)
    requires forall k :: 0 <= k < |x| ==> (x[k] in y <==> x[k] in z)
    ensures Difference(x, y) == Difference(x, z)
  {
    if x != [] {
      assert forall k :: 0 <= k < |x| - 1 ==> x[1..][k] == x[k + 1];
      DifferenceIgnores(x[1..], y, z);
    }
  }

  // ---------------------------------------------------------------------------
  // exec_operation

  /** The passes ExecOperation allows and_not_merge: one per node of A and B
      for each node A can lose. */
  function AndNotFuel(a: seq<Node>, b: seq<Node>): (r: nat)
    ensures |a| + |b| <= r
  {
    MulAtLeast(|a| + 1, |a| + |b| + 1);
    (|a| + 1) * (|a| + |b| + 1)
  }

  /** exec_operation: applies the named operation to two posting lists. AND
      clears every skip pointer of its result; OR is or_merge followed by
      remove_duplicates; ANDNOT and NOT (all documents AND NOT the term's
      list) both run and_not_merge as written, faults included, so they can
      raise; any other name gives an empty list. */
  method ExecOperation(a: seq<Node>, b: seq<Node>, op: string) returns (r: Result<seq<Node>, string>)
    requires op == "AND" ==> WellFormedSkips(b)
    requires op == "AND" || op == "ANDNOT" || op == "NOT" ==> WellFormedSkips(a)
    ensures r.Err? ==> op == "ANDNOT" || op == "NOT"
    ensures op != "AND" && op != "OR" && op != "ANDNOT" && op != "NOT" ==> r == Ok([])
    ensures op == "AND" ==> r.Ok? && forall k :: 0 <= k < |r.value| ==> r.value[k].skip.None?
    ensures op == "AND" && Sorted2(a, b) ==> r.Ok? && Docs(r.value) == Intersect(Docs(a), Docs(b))
    ensures op == "OR" && Sorted2(a, b) ==>
              r.Ok? && forall d :: d in Docs(r.value) <==> d in Docs(a) || d in Docs(b)
    ensures (op == "ANDNOT" || op == "NOT") && r.Ok? ==> IsSubsequence(Docs(r.value), Docs(a))
    ensures (op == "ANDNOT" || op == "NOT") && (forall d :: d in Docs(a) ==> d !in Docs(b)) ==>
              r.Ok? && Docs(r.value) == Docs(a)
    ensures Sorted2(a, b) && r.Ok? ==> StrictlyIncreasing(Docs(r.value))
  {
    if op == "AND" {
      var m := AndMerge(a, b);
      var nodes := seq(|m|, i requires 0 <= i < |m| => Node(m[i].doc, None));
      assert Docs(nodes) == Docs(m);
      if Sorted2(a, b) {
        SubsequenceIncreasing(Docs(nodes), Docs(a));
      }
      r := Ok(nodes);
    } else if op == "OR" {
      r := Ok(OrMerge(a, b));
      if Sorted2(a, b) {
        OrMergeIsUnion(a, b);
      }
    } else if op == "ANDNOT" || op == "NOT" {
      var fuel := AndNotFuel(a, b);
      var res := AndNotAsWritten(a, Docs(b), fuel);
      AndNotAsWrittenSubsequence(a, Docs(b), fuel);
      if forall d :: d in Docs(a) ==> d !in Docs(b) {
        AndNotAsWrittenDisjoint(a, Docs(b), fuel);
      }
      if res.Err? {
        r := Err(res.error);
      } else {
        r := Ok(Plain(res.value));
        if Sorted2(a, b) {
          SubsequenceIncreasing(res.value, Docs(a));
        }
      }
    } else {
      r := Ok([]);
    }
  }

  /** exec_operation with ANDNOT and NOT running the corrected AndNot: every
      operation then computes its set operation. */
  method ExecOperationCorrected(a: seq<Node>, b: seq<Node>, op: string) returns (r: seq<Node>)
    requires op == "AND" ==> WellFormedSkips(a) && WellFormedSkips(b)
    ensures op == "AND" || op == "OR" || op == "ANDNOT" || op == "NOT" || r == []
    ensures op == "AND" ==> forall k :: 0 <= k < |r| ==> r[k].skip.None?
    ensures Sorted2(a, b) ==> StrictlyIncreasing(Docs(r))
    ensures Sorted2(a, b) ==> forall d :: d in Docs(r) <==>
              if op == "AND" then d in Docs(a) && d in Docs(b)
              else if op == "OR" then d in Docs(a) || d in Docs(b)
              else if op == "ANDNOT" || op == "NOT" then d in Docs(a) && d !in Docs(b)
              else false
  {
    if op == "AND" {
      var m := AndMerge(a, b);
      r := seq(|m|, i requires 0 <= i < |m| => Node(m[i].doc, None));
      assert Docs(r) == Docs(m);
      if Sorted2(a, b) {
        SubsequenceIncreasing(Docs(r), Docs(a));
      }
    } else if op == "OR" {
      r := OrMerge(a, b);
      if Sorted2(a, b) {
        OrMergeIsUnion(a, b);
      }
    } else if op == "ANDNOT" || op == "NOT" {
      r := AndNot(a, b);
      if Sorted2(a, b) {
        SubsequenceIncreasing(Docs(r), Docs(a));
      }
    } else {
      r := [];
    }
  }
}

=== FILE: build_index.dfy ===
/** The block loop of build_index in HW2/index.py: the documents are cut into
    ten slices; each slice is indexed into a block (a document-frequency map
    and a sorted doc-id list per term id), the last block also carries the
    reserved term whose list holds every document; each block's lists become
    posting lists; the blocks are merged left to right and skip pointers are
    attached. Document texts are a parameter `contents` giving the normalised
    tokens of each document in reading order. */
module IndexBuild {
  import opened Base
  import opened TermIds
  import opened BlockIndex

  const NumberOfBlocks: nat := 10

  /** The term whose list is every document, used by NOT queries. */
  const Reserved: string := "all_documents_combined"

  // ---------------------------------------------------------------------------
  // bisect.insort and sorted()

  /** bisect.insort: x goes after every entry not larger than it. */
  function Insort(s: seq<int>, x: int): (r: seq<int>)
    ensures multiset(r) == multiset(s) + multiset{x}
    ensures |r| == |s| + 1
  {
    if s == [] then [x]
    else if x < s[0] then [x] + s
    else
      assert s == [s[0]] + s[1..];
      [s[0]] + Insort(s[1..], x)
  }

  lemma {:induction false} InsortIncreasing(s: seq<int>, x: int)
    requires StrictlyIncreasing(s) && x !in s
    ensures StrictlyIncreasing(Insort(s, x))
  {
    if s != [] {
      if x < s[0] {
        forall y | y in s
          ensures x < y
        {
          var k :| 0 <= k < |s| && s[k] == y;
          assert s[0] <= s[k];
        }
        ConsIncreasing(x, s);
      } else {
        assert s[0] in s;
        InsortIncreasing(s[1..], x);
        InsortHeadBelow(s, x);
        ConsIncreasing(s[0], Insort(s[1..], x));
      }
    }
  }

  lemma InsortHeadBelow(s: seq<int>, x: int)
    requires s != [] && StrictlyIncreasing(s) && s[0] < x
    ensures forall y :: y in Insort(s[1..], x) ==> s[0] < y
  {
    SameMultisetSameElements(Insort(s[1..], x), s[1..] + [x]);
    forall y | y in s[1..]
      ensures s[0] < y
    {
      var k :| 0 <= k < |s| - 1 && s[1..][k] == y;
      assert s[0] < s[k + 1];
    }
  }

  lemma {:induction false} InsortNonDecreasing(s: seq<int>, x: int)
    requires NonDecreasing(s)
    ensures NonDecreasing(Insort(s, x))
  {
    if s != [] {
      if x < s[0] {
        forall y | y in s
          ensures x <= y
        {
          var k :| 0 <= k < |s| && s[k] == y;
          assert s[0] <= s[k];
        }
        ConsNonDecreasing(x, s);
      } else {
        InsortNonDecreasing(s[1..], x);
        SameMultisetSameElements(Insort(s[1..], x), s[1..] + [x]);
        forall y | y in Insort(s[1..], x)
          ensures s[0] <= y
        {
          if y in s[1..] {
            var k :| 0 <= k < |s| - 1 && s[1..][k] == y;
            assert s[0] <= s[k + 1];
          }
        }
        ConsNonDecreasing(s[0], Insort(s[1..], x));
      }
    }
  }

  /** sorted(): repeated insertion. */
  function SortDocs(s: seq<int>): (r: seq<int>)
    ensures multiset(r) == multiset(s)
  {
    if s == [] then []
    else
      assert s == [s[0]] + s[1..];
      Insort(SortDocs(s[1..]), s[0])
  }

  /** sorted() returns a sorted list. */
  lemma {:induction false} SortDocsNonDecreasing(s: seq<int>)
    ensures NonDecreasing(SortDocs(s))
  {
    if s != [] {
      SortDocsNonDecreasing(s[1..]);
      InsortNonDecreasing(SortDocs(s[1..]), s[0]);
    }
  }

  /** On distinct ids sorted() is strictly increasing. */
  lemma {:induction false} SortDocsIncreasing(s: seq<int>)
    requires Distinct(s)
    ensures StrictlyIncreasing(SortDocs(s))
  {
    if s != [] {
      SortDocsIncreasing(s[1..]);
      SameMultisetSameElements(SortDocs(s[1..]), s[1..]);
      assert s[0] !in s[1..];
      InsortIncreasing(SortDocs(s[1..]), s[0]);
    }
  }

  // ---------------------------------------------------------------------------
  // One block

  /** block_dictionary (term id -> document frequency within the block) and
      block_postings (term id -> sorted doc ids) before conversion. */
  datatype Block = Block(df: map<nat, int>, postings: map<nat, seq<int>>)

  /** One occurrence of term `id` in document `doc`: a new term starts with
      df 1 and list [doc]; a known term gains `doc` (df + 1, sorted insert)
      only if the list does not already hold it. */
  function AddOccurrence(b: Block, id: nat, doc: int): (r: Block)
    requires b.df.Keys == b.postings.Keys
    ensures r.df.Keys == r.postings.Keys == b.df.Keys + {id}
    ensures doc in r.postings[id]
    ensures forall k :: k in b.postings && k != id ==> r.df[k] == b.df[k] && r.postings[k] == b.postings[k]
    ensures forall k, d :: k in b.postings && d in b.postings[k] ==> d in r.postings[k]
    ensures forall k, d :: k in r.postings && d in r.postings[k] ==> d == doc || (k in b.postings && d in b.postings[k])
    ensures id in b.postings ==> r.df[id] == b.df[id] + (if doc in b.postings[id] then 0 else 1)
    ensures id !in b.postings ==> r.df[id] == 1
  {
    if id !in b.df then Block(b.df[id := 1], b.postings[id := [doc]])
    else if doc !in b.postings[id] then
      var ins := Insort(b.postings[id], doc);
      SameMultisetSameElements(ins, b.postings[id] + [doc]);
      assert forall d :: d in ins <==> d in b.postings[id] || d == doc;
      Block(b.df[id := b.df[id] + 1], b.postings[id := ins])
    else b
  }

  /** A term occurring twice in one document is counted once. */
  lemma AddOccurrenceIdempotent(b: Block, id: nat, doc: int)
    requires b.df.Keys == b.postings.Keys
    ensures AddOccurrence(AddOccurrence(b, id, doc), id, doc) == AddOccurrence(b, id, doc)
  {
  }

  /** A list that counts its ids in df and is strictly increasing stays so. */
  lemma AddOccurrenceKeepsCount(b: Block, id: nat, doc: int)
    requires b.df.Keys == b.postings.Keys
    requires id in b.postings ==> b.df[id] == |b.postings[id]| && StrictlyIncreasing(b.postings[id])
    ensures var r := AddOccurrence(b, id, doc);
            r.df[id] == |r.postings[id]| && StrictlyIncreasing(r.postings[id]) && r.postings[id] != []
  {
    if id in b.postings && doc !in b.postings[id] {
      InsortIncreasing(b.postings[id], doc);
    }
  }

  /** The token loop for one document: intern each token, then record the
      occurrence under its id. */
  function ProcessDocument(t: TermTable, b: Block, doc: int, tokens: seq<string>): (r: (TermTable, Block))
    requires b.df.Keys == b.postings.Keys
    ensures r.1.df.Keys == r.1.postings.Keys
    decreases |tokens|
  {
    if tokens == [] then (t, b)
    else
      var t1 := Intern(t, tokens[0]);
      ProcessDocument(t1, AddOccurrence(b, t1.toId[tokens[0]], doc), doc, tokens[1..])
  }

  /** The document loop of one block. */
  function ProcessDocs(t: TermTable, b: Block, docs: seq<int>, contents: int -> seq<string>): (r: (TermTable, Block))
    requires b.df.Keys == b.postings.Keys
    ensures r.1.df.Keys == r.1.postings.Keys
    decreases |docs|
  {
    if docs == [] then (t, b)
    else
      var (t1, b1) := ProcessDocument(t, b, docs[0], contents(docs[0]));
      ProcessDocs(t1, b1, docs[1..], contents)
  }

  /** The reserved term is written into both maps without a membership test. */
  function Reserve(t: TermTable): (r: TermTable)
    ensures Reserved in r.toId && r.toId[Reserved] == t.next && r.next == t.next + 1
    ensures t.next in r.toTerm && r.toTerm[t.next] == Reserved
    ensures forall w :: w in t.toId && w != Reserved ==> w in r.toId && r.toId[w] == t.toId[w]
  {
    TermTable(t.toId[Reserved := t.next], t.toTerm[t.next := Reserved], t.next + 1)
  }

  /** Unless a document already produced the reserved term, reserving it is an
      ordinary first-seen assignment. */
  lemma ReserveIsIntern(t: TermTable)
    requires Reserved !in t.toId
    ensures Reserve(t) == Intern(t, Reserved)
  {
  }

  // ---------------------------------------------------------------------------
  // Partition into blocks

  function BlockSize(n: nat): nat {
    n / NumberOfBlocks + 1
  }

  /** Python slice bounds: both ends clamp to the list's length. */
  function SliceStart(n: nat, bn: nat): (r: nat)
    ensures r <= n
  {
    if bn * BlockSize(n) < n then bn * BlockSize(n) else n
  }

  function Slice(all: seq<int>, bn: nat): (r: seq<int>) {
    all[SliceStart(|all|, bn)..SliceStart(|all|, bn + 1)]
  }

  /** The slices of blocks 0 .. k-1 read back to back. */
  function Slices(all: seq<int>, k: nat): seq<int> {
    if k == 0 then [] else Slices(all, k - 1) + Slice(all, k - 1)
  }

  lemma {:induction false} SlicesPrefix(all: seq<int>, k: nat)
    ensures Slices(all, k) == all[..SliceStart(|all|, k)]
  {
    if k > 0 {
      SlicesPrefix(all, k - 1);
      assert SliceStart(|all|, k - 1) <= SliceStart(|all|, k);
    }
  }

  /** The ten slices of size N/10 + 1 cover the documents exactly, in order. */
  lemma SlicesPartition(all: seq<int>)
    ensures Slices(all, NumberOfBlocks) == all
  {
    SlicesPrefix(all, NumberOfBlocks);
    assert SliceStart(|all|, NumberOfBlocks) == |all|;
  }

  /** Every document falls in exactly one slice. */
  lemma SliceOf(all: seq<int>, p: nat)
    requires p < |all|
    ensures var bn := p / BlockSize(|all|);
            bn < NumberOfBlocks && SliceStart(|all|, bn) <= p < SliceStart(|all|, bn + 1)
  {
    var bs := BlockSize(|all|);
    var bn := p / bs;
    assert p == bn * bs + p % bs;
    assert (bn + 1) * bs == bn * bs + bs;
  }

  lemma MulMonotone(a: nat, b: nat, c: nat)
    requires a <= b
    ensures a * c <= b * c
  {
  }

  lemma SlicesDisjoint(all: seq<int>, i: nat, j: nat)
    requires Distinct(all) && i < j
    ensures Elements(Slice(all, i)) !! Elements(Slice(all, j))
  {
    var n := |all|;
    var bs := BlockSize(n);
    assert SliceStart(n, i + 1) <= SliceStart(n, j) by {
      MulMonotone(i + 1, j, bs);
    }
    forall x | x in Slice(all, i)
      ensures x !in Slice(all, j)
    {
      var p :| SliceStart(n, i) <= p < SliceStart(n, i + 1) && all[p] == x;
      forall q | SliceStart(n, j) <= q < SliceStart(n, j + 1)
        ensures all[q] != x
      {
        assert p < q;
      }
    }
  }

  // ---------------------------------------------------------------------------
  // The block loop

  /** The state a block starts from: the last block first reserves a term id
      whose list is every document, with document frequency 0. */
  function StartBlock(t: TermTable, all: seq<int>, bn: nat): (r: (TermTable, Block))
    ensures r.1.df.Keys == r.1.postings.Keys
  {
    if bn == NumberOfBlocks - 1 then
      (Reserve(t), Block(map[t.next := 0], map[t.next := SortDocs(all)]))
    else (t, Block(map[], map[]))
  }

  function BuildBlock(t: TermTable, all: seq<int>, contents: int -> seq<string>, bn: nat): (TermTable, Block) {
    var (t0, b0) := StartBlock(t, all, bn);
    ProcessDocs(t0, b0, Slice(all, bn), contents)
  }

  /** The first n blocks and the term table after them. */
  function Prefix(all: seq<int>, contents: int -> seq<string>, n: nat): (r: (TermTable, seq<Block>))
    ensures |r.1| == n
  {
    if n == 0 then (EmptyTable(), [])
    else
      var (t, bs) := Prefix(all, contents, n - 1);
      var (t2, b) := BuildBlock(t, all, contents, n - 1);
      (t2, bs + [b])
  }

  /** Turning a block's lists into posting lists reads each list's first
      element, so an empty list (only the reserved list of an empty corpus can
      be one) raises IndexError. The length is the list's size: the default 1
      is kept for one-element lists and overwritten otherwise. */
  function Convert(b: Block): (r: Result<map<nat, PostingList>, string>)
    ensures r.Ok? <==> forall k :: k in b.postings ==> b.postings[k] != []
    ensures r.Ok? ==> r.value.Keys == b.postings.Keys
    ensures r.Ok? ==> forall k :: k in r.value ==> r.value[k].docs == b.postings[k] && WellFormedList(r.value[k]) == StrictlyIncreasing(b.postings[k])
  {
    if exists k :: k in b.postings && b.postings[k] == [] then Err(IndexError)
    else Ok(map k | k in b.postings :: PostingList(b.postings[k], |b.postings[k]|))
  }

  function ConvertAll(bs: seq<Block>): (r: Result<seq<map<nat, PostingList>>, string>)
    ensures r.Ok? <==> forall i :: 0 <= i < |bs| ==> Convert(bs[i]).Ok?
    ensures r.Ok? ==> |r.value| == |bs| && forall i :: 0 <= i < |bs| ==> r.value[i] == Convert(bs[i]).value
  {
    if bs == [] then Ok([])
    else match Convert(bs[0])
      case Err(e) => Err(e)
      case Ok(m) =>
        match ConvertAll(bs[1..])
        case Err(e) => Err(e)
        case Ok(rest) => Ok([m] + rest)
  }

  /** The merge loop over the blocks' posting dictionaries, left to right. */
  function MergeAll(acc: map<nat, PostingList>, ls: seq<map<nat, PostingList>>): map<nat, PostingList>
    decreases |ls|
  {
    if ls == [] then acc else MergeAll(MergePostingDict(acc, ls[0]), ls[1..])
  }

  /** The merge loop over the blocks' frequency dictionaries. */
  function MergeAllDicts(acc: map<nat, int>, ds: seq<map<nat, int>>): map<nat, int>
    decreases |ds|
  {
    if ds == [] then acc else MergeAllDicts(MergeDict(acc, ds[0]), ds[1..])
  }

  function DfMaps(bs: seq<Block>): (r: seq<map<nat, int>>)
    ensures |r| == |bs| && forall i :: 0 <= i < |bs| ==> r[i] == bs[i].df
  {
    seq(|bs|, i requires 0 <= i < |bs| => bs[i].df)
  }

  /** The index: the term table, term id -> document frequency (the file
      offsets stored next to it are left out), term id -> posting list. */
  datatype Index = Index(table: TermTable, dictionary: map<nat, int>, postings: map<nat, seq<Node>>)

  function BuildIndex(all: seq<int>, contents: int -> seq<string>): Result<Index, string> {
    var (t, blocks) := Prefix(all, contents, NumberOfBlocks);
    match ConvertAll(blocks)
    case Err(e) => Err(e)
    case Ok(lists) =>
      var merged := MergeAll(map[], lists);
      var dictionary := MergeAllDicts(map[], DfMaps(blocks));
      Ok(Index(t, dictionary, map k | k in merged :: WithSkips(merged[k])))
  }
}

=== FILE: build_index_facts.dfy ===
/** What the block loop of HW2/index.py guarantees: inside a block, document
    frequency counts the documents of each list and lists stay strictly
    increasing; across blocks, the merged index lists exactly the documents
    that contain each term. */
module IndexBuildFacts {
  import opened Base
  import opened TermIds
  import opened BlockIndex
  import opened IndexBuild

  // ---------------------------------------------------------------------------
  // Invariants of the term table and the blocks

  /** The half of ValidTable that survives the reserved term's overwrite: ids
      are 1 .. next-1 and each known term's id names that term back. */
  ghost predicate NamesIds(t: TermTable) {
    && t.next >= 1
    && (forall id :: id in t.toTerm <==> 1 <= id < t.next)
    && (forall w :: w in t.toId ==> t.toId[w] in t.toTerm && t.toTerm[t.toId[w]] == w)
  }

  /** t2 keeps every id's term and never hands out a smaller id. */
  ghost predicate KeepsNames(t: TermTable, t2: TermTable) {
    && t.next <= t2.next
    && forall id :: id in t.toTerm ==> id in t2.toTerm && t2.toTerm[id] == t.toTerm[id]
  }

  /** t2 keeps every term's id. */
  ghost predicate KeepsIds(t: TermTable, t2: TermTable) {
    forall w :: w in t.toId ==> w in t2.toId && t2.toId[w] == t.toId[w]
  }

  /** t2 keeps every term's id except possibly the reserved term's. */
  ghost predicate KeepsOtherIds(t: TermTable, t2: TermTable) {
    forall w :: w in t.toId && w != Reserved ==> w in t2.toId && t2.toId[w] == t.toId[w]
  }

  /** b2 has every list of b, each holding at least the same documents. */
  ghost predicate Grows(b: Block, b2: Block) {
    && (forall k :: k in b.postings ==> k in b2.postings)
    && (forall k, d :: k in b.postings && d in b.postings[k] ==> d in b2.postings[k])
  }

  /** Frequencies and lists agree: every ordinary list is non-empty, strictly
      increasing and counted by df; the reserved list `rid`, if any, is the
      sorted corpus with df 0; every key is a known id. */
  ghost predicate Shape(t: TermTable, b: Block, rid: Option<nat>, all: seq<int>) {
    && b.df.Keys == b.postings.Keys
    && (forall k :: k in b.postings ==> k in t.toTerm)
    && (rid.Some? ==> rid.value in b.postings && b.df[rid.value] == 0 && b.postings[rid.value] == SortDocs(all))
    && (forall k :: k in b.postings && Some(k) != rid ==>
          b.df[k] == |b.postings[k]| && StrictlyIncreasing(b.postings[k]) && b.postings[k] != [])
  }

  /** Every document in an ordinary list is one of `seen` and contains the
      term the list's id names. */
  ghost predicate Sound(t: TermTable, b: Block, rid: Option<nat>, seen: set<int>, contents: int -> seq<string>) {
    forall k, d :: k in b.postings && Some(k) != rid && d in b.postings[k] ==>
      d in seen && k in t.toTerm && t.toTerm[k] in contents(d)
  }

  lemma SoundAt(t: TermTable, b: Block, rid: Option<nat>, seen: set<int>, contents: int -> seq<string>, k: nat, d: int)
    requires Sound(t, b, rid, seen, contents)
    requires k in b.postings && Some(k) != rid && d in b.postings[k]
    ensures d in seen && k in t.toTerm && t.toTerm[k] in contents(d)
  {
  }

  /** Document d is in the list of every term of ws (other than the reserved
      term, whose id the last block overwrites). */
  ghost predicate Recorded(t: TermTable, b: Block, d: int, ws: seq<string>) {
    forall w :: w in ws && w != Reserved ==> w in t.toId && t.toId[w] in b.postings && d in b.postings[t.toId[w]]
  }

  lemma InternKeeps(t: TermTable, w: string)
    requires NamesIds(t)
    ensures NamesIds(Intern(t, w)) && KeepsNames(t, Intern(t, w)) && KeepsIds(t, Intern(t, w))
  {
  }

  lemma RecordedPersists(t: TermTable, b: Block, t2: TermTable, b2: Block, d: int, ws: seq<string>)
    requires Recorded(t, b, d, ws) && KeepsOtherIds(t, t2) && Grows(b, b2)
    ensures Recorded(t2, b2, d, ws)
  {
    forall w | w in ws && w != Reserved
      ensures w in t2.toId && t2.toId[w] in b2.postings && d in b2.postings[t2.toId[w]]
    {
    }
  }

  // ---------------------------------------------------------------------------
  // One occurrence, one document, one block

  lemma OneOccurrence(t: TermTable, b: Block, rid: Option<nat>, all: seq<int>, seen: set<int>,
                      contents: int -> seq<string>, doc: int, w: string)
    requires NamesIds(t) && Shape(t, b, rid, all) && Sound(t, b, rid, seen, contents)
    requires doc in seen && doc in all && w in contents(doc)
    ensures var t1 := Intern(t, w);
            var b1 := AddOccurrence(b, t1.toId[w], doc);
            && NamesIds(t1) && Shape(t1, b1, rid, all) && Sound(t1, b1, rid, seen, contents)
            && KeepsNames(t, t1) && KeepsIds(t, t1) && Grows(b, b1)
            && t1.toId[w] in b1.postings && doc in b1.postings[t1.toId[w]]
  {
    InternKeeps(t, w);
    var t1 := Intern(t, w);
    OccurrenceShape(t, t1, b, rid, all, t1.toId[w], doc);
    OccurrenceSound(t, t1, b, rid, seen, contents, doc, w);
  }

  lemma OccurrenceShape(t: TermTable, t1: TermTable, b: Block, rid: Option<nat>, all: seq<int>, id: nat, doc: int)
    requires Shape(t, b, rid, all) && KeepsNames(t, t1) && id in t1.toTerm && doc in all
    ensures Shape(t1, AddOccurrence(b, id, doc), rid, all)
  {
    var b1 := AddOccurrence(b, id, doc);
    if rid == Some(id) {
      SameMultisetSameElements(SortDocs(all), all);
      assert b1 == b;
    } else {
      AddOccurrenceKeepsCount(b, id, doc);
    }
  }

  lemma OccurrenceSound(t: TermTable, t1: TermTable, b: Block, rid: Option<nat>, seen: set<int>,
                        contents: int -> seq<string>, doc: int, w: string)
    requires Sound(t, b, rid, seen, contents) && b.df.Keys == b.postings.Keys
    requires KeepsNames(t, t1) && w in t1.toId && t1.toId[w] in t1.toTerm && t1.toTerm[t1.toId[w]] == w
    requires doc in seen && w in contents(doc)
    ensures Sound(t1, AddOccurrence(b, t1.toId[w], doc), rid, seen, contents)
  {
    var id := t1.toId[w];
    var b1 := AddOccurrence(b, id, doc);
    forall k, d | k in b1.postings && Some(k) != rid && d in b1.postings[k]
      ensures d in seen && k in t1.toTerm && t1.toTerm[k] in contents(d)
    {
      if d != doc {
        assert k in b.postings && d in b.postings[k];
      }
    }
  }

  lemma {:induction false} ProcessDocumentInv(t: TermTable, b: Block, rid: Option<nat>, all: seq<int>, seen: set<int>,
                                             contents: int -> seq<string>, doc: int, tokens: seq<string>)
    requires NamesIds(t) && Shape(t, b, rid, all) && Sound(t, b, rid, seen, contents)
    requires doc in seen && doc in all
    requires forall w :: w in tokens ==> w in contents(doc)
    ensures var r := ProcessDocument(t, b, doc, tokens);
            && NamesIds(r.0) && Shape(r.0, r.1, rid, all) && Sound(r.0, r.1, rid, seen, contents)
            && KeepsNames(t, r.0) && KeepsIds(t, r.0) && Grows(b, r.1)
            && Recorded(r.0, r.1, doc, tokens)
    decreases |tokens|
  {
    if tokens != [] {
      var w := tokens[0];
      OneOccurrence(t, b, rid, all, seen, contents, doc, w);
      var t1 := Intern(t, w);
      var b1 := AddOccurrence(b, t1.toId[w], doc);
      ProcessDocumentInv(t1, b1, rid, all, seen, contents, doc, tokens[1..]);
      var r := ProcessDocument(t, b, doc, tokens);
      assert r == ProcessDocument(t1, b1, doc, tokens[1..]);
      assert Recorded(t1, b1, doc, [w]);
      RecordedPersists(t1, b1, r.0, r.1, doc, [w]);
      RecordedCons(r.0, r.1, doc, tokens);
    }
  }

  /** A document recorded under a list's first token and under the rest is
      recorded under the whole list. */
  lemma RecordedCons(t: TermTable, b: Block, d: int, ws: seq<string>)
    requires ws != [] && Recorded(t, b, d, [ws[0]]) && Recorded(t, b, d, ws[1..])
    ensures Recorded(t, b, d, ws)
  {
    forall v | v in ws && v != Reserved
      ensures v in t.toId && t.toId[v] in b.postings && d in b.postings[t.toId[v]]
    {
      if v != ws[0] {
        assert v in ws[1..];
      }
    }
  }

  lemma {:induction false} ProcessDocsInv(t: TermTable, b: Block, rid: Option<nat>, all: seq<int>, seen: set<int>,
                                         contents: int -> seq<string>, docs: seq<int>, done: set<int>)
    requires NamesIds(t) && Shape(t, b, rid, all) && Sound(t, b, rid, seen, contents)
    requires Elements(docs) <= seen <= Elements(all)
    requires forall d :: d in done ==> Recorded(t, b, d, contents(d))
    ensures var r := ProcessDocs(t, b, docs, contents);
            && NamesIds(r.0) && Shape(r.0, r.1, rid, all) && Sound(r.0, r.1, rid, seen, contents)
            && KeepsNames(t, r.0) && KeepsIds(t, r.0)
            && forall d :: d in done + Elements(docs) ==> Recorded(r.0, r.1, d, contents(d))
    decreases |docs|
  {
    if docs != [] {
      var doc := docs[0];
      assert doc in Elements(docs);
      ProcessDocumentInv(t, b, rid, all, seen, contents, doc, contents(doc));
      var (t1, b1) := ProcessDocument(t, b, doc, contents(doc));
      forall d | d in done
        ensures Recorded(t1, b1, d, contents(d))
      {
        RecordedPersists(t, b, t1, b1, d, contents(d));
      }
      assert Elements(docs[1..]) <= Elements(docs);
      ProcessDocsInv(t1, b1, rid, all, seen, contents, docs[1..], done + {doc});
      assert done + Elements(docs) == done + {doc} + Elements(docs[1..]) by {
        assert docs == [doc] + docs[1..];
      }
    }
  }

  /** The reserved term's overwrite keeps the table's ids-name-terms half. */
  lemma ReserveKeeps(t: TermTable)
    requires NamesIds(t)
    ensures NamesIds(Reserve(t)) && KeepsNames(t, Reserve(t)) && KeepsOtherIds(t, Reserve(t))
  {
  }

  lemma SliceInCorpus(all: seq<int>, bn: nat)
    ensures Elements(Slice(all, bn)) <= Elements(all)
  {
  }

  /** What one block guarantees once its documents are processed. */
  lemma BuildBlockInv(t: TermTable, all: seq<int>, contents: int -> seq<string>, bn: nat)
    requires NamesIds(t) && bn < NumberOfBlocks
    ensures var r := BuildBlock(t, all, contents, bn);
            var rid := if bn == NumberOfBlocks - 1 then Some(t.next) else None;
            && NamesIds(r.0) && Shape(r.0, r.1, rid, all)
            && Sound(r.0, r.1, rid, Elements(Slice(all, bn)), contents)
            && (forall d :: d in Slice(all, bn) ==> Recorded(r.0, r.1, d, contents(d)))
            && KeepsNames(t, r.0) && KeepsOtherIds(t, r.0)
            && (bn == NumberOfBlocks - 1 ==> Reserved in r.0.toId && r.0.toId[Reserved] == t.next)
  {
    var rid := if bn == NumberOfBlocks - 1 then Some(t.next) else None;
    var (t0, b0) := StartBlock(t, all, bn);
    var seen := Elements(Slice(all, bn));
    SliceInCorpus(all, bn);
    if bn == NumberOfBlocks - 1 {
      ReserveKeeps(t);
    }
    assert Shape(t0, b0, rid, all);
    ProcessDocsInv(t0, b0, rid, all, seen, contents, Slice(all, bn), {});
    var r := BuildBlock(t, all, contents, bn);
    forall d | d in Slice(all, bn)
      ensures Recorded(r.0, r.1, d, contents(d))
    {
      assert d in {} + Elements(Slice(all, bn));
    }
  }

  // ---------------------------------------------------------------------------
  // Across blocks

  /** The reserved id of block i: only the last block has one, and it is the
      id the reserved term keeps in the final table. */
  ghost function RidOf(t: TermTable, i: nat): Option<nat> {
    if i == NumberOfBlocks - 1 && Reserved in t.toId then Some(t.toId[Reserved]) else None
  }

  ghost predicate BlockFacts(t: TermTable, b: Block, i: nat, all: seq<int>, contents: int -> seq<string>) {
    && Shape(t, b, RidOf(t, i), all)
    && Sound(t, b, RidOf(t, i), Elements(Slice(all, i)), contents)
    && (forall d :: d in Slice(all, i) ==> Recorded(t, b, d, contents(d)))
  }

  lemma BlockFactsPersist(t: TermTable, t2: TermTable, b: Block, i: nat, all: seq<int>, contents: int -> seq<string>)
    requires i < NumberOfBlocks - 1
    requires BlockFacts(t, b, i, all, contents) && KeepsNames(t, t2) && KeepsOtherIds(t, t2)
    ensures BlockFacts(t2, b, i, all, contents)
  {
    forall d | d in Slice(all, i)
      ensures Recorded(t2, b, d, contents(d))
    {
      RecordedPersists(t, b, t2, b, d, contents(d));
    }
  }

  ghost predicate PrefixFacts(t: TermTable, bs: seq<Block>, all: seq<int>, contents: int -> seq<string>) {
    && NamesIds(t)
    && (forall i :: 0 <= i < |bs| ==> BlockFacts(t, bs[i], i, all, contents))
    && (|bs| == NumberOfBlocks ==>
          && Reserved in t.toId
          && forall i, k :: 0 <= i < |bs| - 1 && k in bs[i].postings ==> k < t.toId[Reserved])
  }

  /** The block loop's invariant after n blocks. */
  lemma {:induction false} PrefixInv(all: seq<int>, contents: int -> seq<string>, n: nat)
    requires n <= NumberOfBlocks
    ensures PrefixFacts(Prefix(all, contents, n).0, Prefix(all, contents, n).1, all, contents)
  {
    if n > 0 {
      PrefixInv(all, contents, n - 1);
      var r := Prefix(all, contents, n - 1);
      PrefixStep(r.0, r.1, all, contents);
    }
  }

  lemma PrefixStep(t: TermTable, bs: seq<Block>, all: seq<int>, contents: int -> seq<string>)
    requires |bs| < NumberOfBlocks && PrefixFacts(t, bs, all, contents)
    ensures var r := BuildBlock(t, all, contents, |bs|);
            PrefixFacts(r.0, bs + [r.1], all, contents)
  {
    var n := |bs| + 1;
    BuildBlockInv(t, all, contents, n - 1);
    var r := BuildBlock(t, all, contents, n - 1);
    var t2, b := r.0, r.1;
    forall i | 0 <= i < n
      ensures BlockFacts(t2, (bs + [b])[i], i, all, contents)
    {
      if i < n - 1 {
        BlockFactsPersist(t, t2, bs[i], i, all, contents);
      }
    }
    if n == NumberOfBlocks {
      forall i, k | 0 <= i < n - 1 && k in (bs + [b])[i].postings
        ensures k < t2.toId[Reserved]
      {
        assert k in bs[i].postings && k in t.toTerm;
      }
    }
  }

  // ---------------------------------------------------------------------------
  // The merge loop

  /** Keys and documents of a left-to-right merge: a term id is in the result
      iff some input has it, and its list holds exactly the documents of its
      lists in the inputs. */
  lemma {:induction false} MergeAllDocs(acc: map<nat, PostingList>, ls: seq<map<nat, PostingList>>, k: nat)
    ensures var r := MergeAll(acc, ls);
            && (k in r <==> k in acc || exists i :: 0 <= i < |ls| && k in ls[i])
            && (k in r ==> forall d :: d in r[k].docs <==>
                  (k in acc && d in acc[k].docs) || exists i :: 0 <= i < |ls| && k in ls[i] && d in ls[i][k].docs)
    decreases |ls|
  {
    if ls != [] {
      var acc1 := MergePostingDict(acc, ls[0]);
      MergeAllDocs(acc1, ls[1..], k);
      if k in acc && k in ls[0] {
        SameMultisetSameElements(acc1[k].docs, acc[k].docs + ls[0][k].docs);
      }
      var r := MergeAll(acc, ls);
      assert r == MergeAll(acc1, ls[1..]);
      if k in r {
        forall d
          ensures d in r[k].docs <==>
                  (k in acc && d in acc[k].docs) || exists i :: 0 <= i < |ls| && k in ls[i] && d in ls[i][k].docs
        {
          if exists i :: 0 <= i < |ls| && k in ls[i] && d in ls[i][k].docs {
            var i :| 0 <= i < |ls| && k in ls[i] && d in ls[i][k].docs;
            if i > 0 {
              assert ls[1..][i - 1] == ls[i];
            }
          }
          if exists i :: 0 <= i < |ls| - 1 && k in ls[1..][i] && d in ls[1..][i][k].docs {
            var i :| 0 <= i < |ls| - 1 && k in ls[1..][i] && d in ls[1..][i][k].docs;
            assert ls[i + 1] == ls[1..][i];
          }
        }
      }
      if exists i :: 0 <= i < |ls| && k in ls[i] {
        var i :| 0 <= i < |ls| && k in ls[i];
        if i > 0 {
          assert ls[1..][i - 1] == ls[i];
        }
      }
    }
  }

  /** Merging lists whose documents never meet keeps every list strictly
      increasing with a correct length. */
  lemma {:induction false} MergeAllWellFormed(acc: map<nat, PostingList>, ls: seq<map<nat, PostingList>>)
    requires forall k :: k in acc ==> WellFormedList(acc[k])
    requires forall i, k :: 0 <= i < |ls| && k in ls[i] ==> WellFormedList(ls[i][k])
    requires forall i, k :: 0 <= i < |ls| && k in acc && k in ls[i] ==> Elements(acc[k].docs) !! Elements(ls[i][k].docs)
    requires forall i, j, k :: 0 <= i < j < |ls| && k in ls[i] && k in ls[j] ==>
               Elements(ls[i][k].docs) !! Elements(ls[j][k].docs)
    ensures forall k :: k in MergeAll(acc, ls) ==> WellFormedList(MergeAll(acc, ls)[k])
    decreases |ls|
  {
    if ls != [] {
      var acc1 := MergePostingDict(acc, ls[0]);
      MergePostingDictWellFormed(acc, ls[0]);
      forall i, k | 0 <= i < |ls| - 1 && k in acc1 && k in ls[1..][i]
        ensures Elements(acc1[k].docs) !! Elements(ls[1..][i][k].docs)
      {
        assert ls[1..][i] == ls[i + 1];
        if k in ls[0] {
          assert Elements(ls[0][k].docs) !! Elements(ls[i + 1][k].docs);
        }
      }
      forall i, j, k | 0 <= i < j < |ls| - 1 && k in ls[1..][i] && k in ls[1..][j]
        ensures Elements(ls[1..][i][k].docs) !! Elements(ls[1..][j][k].docs)
      {
        assert ls[1..][i] == ls[i + 1] && ls[1..][j] == ls[j + 1];
      }
      MergeAllWellFormed(acc1, ls[1..]);
    }
  }

  /** The dictionary merge and the posting merge see the same keys, and where
      every input's df counts its list, so does the result's. */
  lemma {:induction false} MergeAllCounts(acc: map<nat, PostingList>, dacc: map<nat, int>,
                                         ls: seq<map<nat, PostingList>>, ds: seq<map<nat, int>>, exempt: nat)
    requires |ls| == |ds| && acc.Keys == dacc.Keys
    requires forall i :: 0 <= i < |ls| ==> ls[i].Keys == ds[i].Keys
    requires forall k :: k in acc && k != exempt ==> dacc[k] == acc[k].length
    requires forall i, k :: 0 <= i < |ls| && k in ls[i] && k != exempt ==> ds[i][k] == ls[i][k].length
    ensures MergeAll(acc, ls).Keys == MergeAllDicts(dacc, ds).Keys
    ensures forall k :: k in MergeAll(acc, ls) && k != exempt ==> MergeAllDicts(dacc, ds)[k] == MergeAll(acc, ls)[k].length
    decreases |ls|
  {
    if ls != [] {
      forall i, k | 0 <= i < |ls| - 1 && k in ls[1..][i] && k != exempt
        ensures ds[1..][i][k] == ls[1..][i][k].length
      {
        assert ls[1..][i] == ls[i + 1] && ds[1..][i] == ds[i + 1];
      }
      MergeAllCounts(MergePostingDict(acc, ls[0]), MergeDict(dacc, ds[0]), ls[1..], ds[1..], exempt);
    }
  }

  /** A key that only the last input has comes through unchanged. */
  lemma {:induction false} MergeAllSingle(acc: map<nat, PostingList>, dacc: map<nat, int>,
                                         ls: seq<map<nat, PostingList>>, ds: seq<map<nat, int>>, k: nat)
    requires |ls| == |ds| > 0 && k !in acc && k !in dacc
    requires forall i :: 0 <= i < |ls| - 1 ==> k !in ls[i] && k !in ds[i]
    requires k in ls[|ls| - 1] && k in ds[|ds| - 1]
    ensures k in MergeAll(acc, ls) && MergeAll(acc, ls)[k] == ls[|ls| - 1][k]
    ensures k in MergeAllDicts(dacc, ds) && MergeAllDicts(dacc, ds)[k] == ds[|ds| - 1][k]
    decreases |ls|
  {
    if |ls| > 1 {
      forall i | 0 <= i < |ls| - 2
        ensures k !in ls[1..][i] && k !in ds[1..][i]
      {
        assert ls[1..][i] == ls[i + 1] && ds[1..][i] == ds[i + 1];
      }
      MergeAllSingle(MergePostingDict(acc, ls[0]), MergeDict(dacc, ds[0]), ls[1..], ds[1..], k);
    }
  }

  // ---------------------------------------------------------------------------
  // The built index

  /** The table and the ten blocks once the block loop is done. */
  ghost function FinalTable(all: seq<int>, contents: int -> seq<string>): TermTable {
    Prefix(all, contents, NumberOfBlocks).0
  }

  ghost function FinalBlocks(all: seq<int>, contents: int -> seq<string>): (r: seq<Block>)
    ensures |r| == NumberOfBlocks
  {
    Prefix(all, contents, NumberOfBlocks).1
  }

  /** The id the reserved term ends up with. */
  ghost function FinalRid(all: seq<int>, contents: int -> seq<string>): (r: nat)
    ensures Reserved in FinalTable(all, contents).toId && FinalTable(all, contents).toId[Reserved] == r
  {
    PrefixInv(all, contents, NumberOfBlocks);
    FinalTable(all, contents).toId[Reserved]
  }

  lemma BlockFactsAt(all: seq<int>, contents: int -> seq<string>, i: nat)
    requires i < NumberOfBlocks
    ensures BlockFacts(FinalTable(all, contents), FinalBlocks(all, contents)[i], i, all, contents)
    ensures RidOf(FinalTable(all, contents), i) == if i == NumberOfBlocks - 1 then Some(FinalRid(all, contents)) else None
  {
    PrefixInv(all, contents, NumberOfBlocks);
  }

  /** Ids of the first nine blocks are all below the reserved id. */
  lemma EarlyKeysBelowRid(all: seq<int>, contents: int -> seq<string>, i: nat, k: nat)
    requires i < NumberOfBlocks - 1 && k in FinalBlocks(all, contents)[i].postings
    ensures k < FinalRid(all, contents)
  {
    PrefixInv(all, contents, NumberOfBlocks);
  }

  /** Only the reserved list of an empty corpus is empty, so building fails
      exactly when there are no documents. */
  lemma BuildIndexFailsIffEmpty(all: seq<int>, contents: int -> seq<string>)
    ensures BuildIndex(all, contents).Err? <==> |all| == 0
  {
    var bs := FinalBlocks(all, contents);
    var last := NumberOfBlocks - 1;
    BlockFactsAt(all, contents, last);
    assert |SortDocs(all)| == |all| by {
      assert |multiset(SortDocs(all))| == |multiset(all)|;
    }
    if |all| == 0 {
      assert !Convert(bs[last]).Ok?;
    } else {
      forall i | 0 <= i < |bs|
        ensures Convert(bs[i]).Ok?
      {
        BlockFactsAt(all, contents, i);
      }
    }
  }

  /** The converted lists of the ten blocks. */
  ghost function FinalLists(all: seq<int>, contents: int -> seq<string>): (r: seq<map<nat, PostingList>>)
    requires |all| > 0
    ensures |r| == NumberOfBlocks
  {
    BuildIndexFailsIffEmpty(all, contents);
    ConvertAll(FinalBlocks(all, contents)).value
  }

  ghost function Merged(all: seq<int>, contents: int -> seq<string>): map<nat, PostingList>
    requires |all| > 0
  {
    MergeAll(map[], FinalLists(all, contents))
  }

  /** The index built from a non-empty corpus, spelled out. */
  lemma BuildIndexValue(all: seq<int>, contents: int -> seq<string>)
    requires |all| > 0
    ensures var merged := Merged(all, contents);
            BuildIndex(all, contents)
              == Ok(Index(FinalTable(all, contents), MergeAllDicts(map[], DfMaps(FinalBlocks(all, contents))),
                          map k | k in merged :: WithSkips(merged[k])))
  {
    BuildIndexFailsIffEmpty(all, contents);
  }

  /** A converted list is its block's list, and its block knows the id. */
  lemma ListAt(all: seq<int>, contents: int -> seq<string>, i: nat, k: nat)
    requires |all| > 0 && i < NumberOfBlocks
    ensures var b := FinalBlocks(all, contents)[i];
            var l := FinalLists(all, contents)[i];
            && (k in l <==> k in b.postings)
            && (k in b.postings <==> k in b.df)
            && (k in l ==> l[k].docs == b.postings[k] && WellFormedList(l[k]) == StrictlyIncreasing(b.postings[k]))
  {
    BuildIndexFailsIffEmpty(all, contents);
    BlockFactsAt(all, contents, i);
  }

  /** What the merge proofs need of one converted list. */
  lemma ListFactsAt(all: seq<int>, contents: int -> seq<string>, i: nat, k: nat)
    requires |all| > 0 && Distinct(all) && i < NumberOfBlocks
    requires k in FinalLists(all, contents)[i]
    ensures var l := FinalLists(all, contents)[i];
            var rid := FinalRid(all, contents);
            && WellFormedList(l[k])
            && k in DfMaps(FinalBlocks(all, contents))[i]
            && (k != rid ==> DfMaps(FinalBlocks(all, contents))[i][k] == l[k].length)
            && (k == rid ==> i == NumberOfBlocks - 1 && l[k].docs == SortDocs(all)
                             && DfMaps(FinalBlocks(all, contents))[i][k] == 0)
            && (k != rid ==> Elements(l[k].docs) <= Elements(Slice(all, i)))
  {
    ListAt(all, contents, i, k);
    BlockFactsAt(all, contents, i);
    var rid := FinalRid(all, contents);
    var b := FinalBlocks(all, contents)[i];
    if k == rid {
      if i < NumberOfBlocks - 1 {
        EarlyKeysBelowRid(all, contents, i, k);
      }
      SortDocsIncreasing(all);
    } else {
      forall d | d in b.postings[k]
        ensures d in Elements(Slice(all, i))
      {
        SoundAt(FinalTable(all, contents), b, RidOf(FinalTable(all, contents), i), Elements(Slice(all, i)), contents, k, d);
      }
    }
  }

  lemma ListsKeys(all: seq<int>, contents: int -> seq<string>)
    requires |all| > 0
    ensures forall i :: 0 <= i < NumberOfBlocks ==>
              FinalLists(all, contents)[i].Keys == DfMaps(FinalBlocks(all, contents))[i].Keys
  {
    var lists := FinalLists(all, contents);
    var ds := DfMaps(FinalBlocks(all, contents));
    forall i | 0 <= i < NumberOfBlocks
      ensures lists[i].Keys == ds[i].Keys
    {
      forall k
        ensures k in lists[i] <==> k in ds[i]
      {
        ListAt(all, contents, i, k);
      }
    }
  }

  /** Only the last block has the reserved id. */
  lemma RidOnlyLast(all: seq<int>, contents: int -> seq<string>)
    requires |all| > 0 && Distinct(all)
    ensures var lists := FinalLists(all, contents);
            var ds := DfMaps(FinalBlocks(all, contents));
            var rid := FinalRid(all, contents);
            && (forall i :: 0 <= i < NumberOfBlocks - 1 ==> rid !in lists[i] && rid !in ds[i])
            && rid in lists[NumberOfBlocks - 1] && rid in ds[NumberOfBlocks - 1]
            && lists[NumberOfBlocks - 1][rid].docs == SortDocs(all) && ds[NumberOfBlocks - 1][rid] == 0
  {
    var lists := FinalLists(all, contents);
    var rid := FinalRid(all, contents);
    var last := NumberOfBlocks - 1;
    ListsKeys(all, contents);
    forall i | 0 <= i < last
      ensures rid !in lists[i]
    {
      if rid in lists[i] {
        ListFactsAt(all, contents, i, rid);
      }
    }
    BlockFactsAt(all, contents, last);
    ListAt(all, contents, last, rid);
    ListFactsAt(all, contents, last, rid);
  }

  /** Over distinct document ids the merged lists are strictly increasing. */
  lemma MergedListsWellFormed(all: seq<int>, contents: int -> seq<string>)
    requires |all| > 0 && Distinct(all)
    ensures forall k :: k in Merged(all, contents) ==> WellFormedList(Merged(all, contents)[k])
  {
    var lists := FinalLists(all, contents);
    forall i, k | 0 <= i < |lists| && k in lists[i]
      ensures WellFormedList(lists[i][k])
    {
      ListFactsAt(all, contents, i, k);
    }
    forall i, j, k | 0 <= i < j < |lists| && k in lists[i] && k in lists[j]
      ensures Elements(lists[i][k].docs) !! Elements(lists[j][k].docs)
    {
      ListFactsAt(all, contents, i, k);
      ListFactsAt(all, contents, j, k);
      SlicesDisjoint(all, i, j);
    }
    MergeAllWellFormed(map[], lists);
  }

  /** The merged dictionary counts each ordinary merged list. */
  lemma MergedCounts(all: seq<int>, contents: int -> seq<string>)
    requires |all| > 0 && Distinct(all)
    ensures var merged := Merged(all, contents);
            var dict := MergeAllDicts(map[], DfMaps(FinalBlocks(all, contents)));
            && dict.Keys == merged.Keys
            && forall k :: k in merged && k != FinalRid(all, contents) ==> dict[k] == merged[k].length
  {
    var lists: seq<map<nat, PostingList>> := FinalLists(all, contents);
    var ds: seq<map<nat, int>> := DfMaps(FinalBlocks(all, contents));
    var rid: nat := FinalRid(all, contents);
    ListsKeys(all, contents);
    forall i: nat, k: nat | i < |lists| && k in lists[i] && k != rid
      ensures ds[i][k] == lists[i][k].length
    {
      ListFactsAt(all, contents, i, k);
    }
    MergeAllCounts(map[], map[], lists, ds, rid);
  }

  /** The reserved list passes through the merge untouched. */
  lemma MergedReserved(all: seq<int>, contents: int -> seq<string>)
    requires |all| > 0 && Distinct(all)
    ensures var merged := Merged(all, contents);
            var dict := MergeAllDicts(map[], DfMaps(FinalBlocks(all, contents)));
            var rid := FinalRid(all, contents);
            rid in merged && rid in dict && dict[rid] == 0 && merged[rid].docs == SortDocs(all)
  {
    RidOnlyLast(all, contents);
    MergeAllSingle(map[], map[], FinalLists(all, contents), DfMaps(FinalBlocks(all, contents)), FinalRid(all, contents));
  }

  /** Over a corpus of distinct document ids, every list of the index is
      strictly increasing with forward skip pointers; the frequency dictionary
      has the same term ids and counts each ordinary list's documents; the
      reserved term has frequency 0 and the sorted corpus as its list. Every
      id 1 .. next-1 is in use and each term's id names it back. */
  lemma BuildIndexWellFormed(all: seq<int>, contents: int -> seq<string>)
    requires Distinct(all)
    ensures var r := BuildIndex(all, contents);
            r.Ok? ==>
              var ix := r.value;
              && Reserved in ix.table.toId
              && NamesIds(ix.table)
              && var rid := ix.table.toId[Reserved];
              && ix.dictionary.Keys == ix.postings.Keys
              && rid in ix.postings && ix.dictionary[rid] == 0 && Docs(ix.postings[rid]) == SortDocs(all)
              && forall k :: k in ix.postings ==>
                   && StrictlyIncreasing(Docs(ix.postings[k]))
                   && WellFormedSkips(ix.postings[k])
                   && (k != rid ==> ix.dictionary[k] == |ix.postings[k]|)
  {
    if |all| > 0 {
      PrefixInv(all, contents, NumberOfBlocks);
      BuildIndexValue(all, contents);
      MergedListsWellFormed(all, contents);
      MergedCounts(all, contents);
      MergedReserved(all, contents);
      var ix := BuildIndex(all, contents).value;
      var merged := Merged(all, contents);
      assert ix.table.toId[Reserved] == FinalRid(all, contents);
      assert ix.dictionary == MergeAllDicts(map[], DfMaps(FinalBlocks(all, contents)));
      assert ix.postings.Keys == merged.Keys;
      forall k | k in ix.postings
        ensures Docs(ix.postings[k]) == merged[k].docs
        ensures WellFormedSkips(ix.postings[k])
      {
        WithSkipsWellFormed(merged[k]);
      }
    } else {
      BuildIndexFailsIffEmpty(all, contents);
    }
  }

  lemma MergedSoundAt(all: seq<int>, contents: int -> seq<string>, k: nat, d: int)
    requires |all| > 0
    requires k in Merged(all, contents) && k != FinalRid(all, contents) && d in Merged(all, contents)[k].docs
    ensures var t := FinalTable(all, contents);
            d in all && k in t.toTerm && t.toTerm[k] in contents(d)
  {
    var lists := FinalLists(all, contents);
    MergeAllDocs(map[], lists, k);
    var i :| 0 <= i < |lists| && k in lists[i] && d in lists[i][k].docs;
    ListAt(all, contents, i, k);
    BlockFactsAt(all, contents, i);
    var t := FinalTable(all, contents);
    SoundAt(t, FinalBlocks(all, contents)[i], RidOf(t, i), Elements(Slice(all, i)), contents, k, d);
    SliceInCorpus(all, i);
  }

  lemma MergedCompleteAt(all: seq<int>, contents: int -> seq<string>, d: int, w: string)
    requires |all| > 0
    requires d in all && w in contents(d) && w != Reserved
    ensures var t := FinalTable(all, contents);
            w in t.toId && t.toId[w] in Merged(all, contents) && d in Merged(all, contents)[t.toId[w]].docs
  {
    var p :| 0 <= p < |all| && all[p] == d;
    SliceOf(all, p);
    var i := p / BlockSize(|all|);
    assert Slice(all, i)[p - SliceStart(|all|, i)] == d;
    BlockFactsAt(all, contents, i);
    var t := FinalTable(all, contents);
    var b := FinalBlocks(all, contents)[i];
    assert Recorded(t, b, d, contents(d));
    var id := t.toId[w];
    ListAt(all, contents, i, id);
    MergeAllDocs(map[], FinalLists(all, contents), id);
  }

  /** Every document an ordinary list of the index names contains the term
      the list's id stands for. */
  lemma BuildIndexSound(all: seq<int>, contents: int -> seq<string>)
    ensures var r := BuildIndex(all, contents);
            r.Ok? ==>
              var ix := r.value;
              && Reserved in ix.table.toId
              && forall k, d :: k in ix.postings && k != ix.table.toId[Reserved] && d in Docs(ix.postings[k]) ==>
                   d in all && k in ix.table.toTerm && ix.table.toTerm[k] in contents(d)
  {
    if |all| > 0 {
      BuildIndexValue(all, contents);
      var ix := BuildIndex(all, contents).value;
      var merged := Merged(all, contents);
      var rid := FinalRid(all, contents);
      assert ix.table == FinalTable(all, contents);
      forall k, d | k in ix.postings && k != FinalRid(all, contents) && d in Docs(ix.postings[k])
        ensures d in all && k in ix.table.toTerm && ix.table.toTerm[k] in contents(d)
      {
        assert Docs(ix.postings[k]) == merged[k].docs;
        MergedSoundAt(all, contents, k, d);
      }
    } else {
      BuildIndexFailsIffEmpty(all, contents);
    }
  }

  /** The reserved list holds the whole corpus: a document of the last
      block that contains the reserved token is already in it, so nothing is
      added to it. */
  lemma MergedReservedComplete(all: seq<int>, contents: int -> seq<string>, d: int)
    requires |all| > 0 && d in all
    ensures var rid := FinalRid(all, contents);
            rid in Merged(all, contents) && d in Merged(all, contents)[rid].docs
  {
    var last := NumberOfBlocks - 1;
    var rid := FinalRid(all, contents);
    BlockFactsAt(all, contents, last);
    ListAt(all, contents, last, rid);
    assert d in multiset(SortDocs(all));
    MergeAllDocs(map[], FinalLists(all, contents), rid);
  }

  /** Every document is in the index's list of every term it contains. */
  lemma BuildIndexComplete(all: seq<int>, contents: int -> seq<string>)
    ensures var r := BuildIndex(all, contents);
            r.Ok? ==>
              var ix := r.value;
              forall d, w :: d in all && w in contents(d) ==>
                w in ix.table.toId && ix.table.toId[w] in ix.postings && d in Docs(ix.postings[ix.table.toId[w]])
  {
    if |all| > 0 {
      BuildIndexValue(all, contents);
      var ix := BuildIndex(all, contents).value;
      var merged := Merged(all, contents);
      assert ix.table == FinalTable(all, contents);
      forall d, w | d in all && w in contents(d)
        ensures w in ix.table.toId && ix.table.toId[w] in ix.postings && d in Docs(ix.postings[ix.table.toId[w]])
      {
        if w == Reserved {
          MergedReservedComplete(all, contents, d);
        } else {
          MergedCompleteAt(all, contents, d, w);
        }
        assert Docs(ix.postings[ix.table.toId[w]]) == merged[ix.table.toId[w]].docs;
      }
    } else {
      BuildIndexFailsIffEmpty(all, contents);
    }
  }

  // ---------------------------------------------------------------------------
  // The term table

  /** One document's token loop interns its tokens in reading order. */
  lemma {:induction false} ProcessDocumentTable(t: TermTable, b: Block, doc: int, tokens: seq<string>)
    requires b.df.Keys == b.postings.Keys
    ensures ProcessDocument(t, b, doc, tokens).0 == InternAll(t, tokens)
    decreases |tokens|
  {
    if tokens != [] {
      var t1 := Intern(t, tokens[0]);
      ProcessDocumentTable(t1, AddOccurrence(b, t1.toId[tokens[0]], doc), doc, tokens[1..]);
    }
  }

  /** A block's document loop interns the tokens of its documents in turn. */
  lemma {:induction false} ProcessDocsTable(t: TermTable, b: Block, docs: seq<int>, contents: int -> seq<string>)
    requires b.df.Keys == b.postings.Keys
    ensures ProcessDocs(t, b, docs, contents).0 == InternAll(t, Flatten(docs, contents))
    decreases |docs|
  {
    if docs != [] {
      var r := ProcessDocument(t, b, docs[0], contents(docs[0]));
      ProcessDocumentTable(t, b, docs[0], contents(docs[0]));
      ProcessDocsTable(r.0, r.1, docs[1..], contents);
      assert docs == [docs[0]] + docs[1..];
      FlattenCons(docs[0], docs[1..], contents);
      InternAllAppend(t, contents(docs[0]), Flatten(docs[1..], contents));
    }
  }

  /** Before the last block the table is the corpus read so far, interned
      from the empty table. */
  lemma {:induction false} PrefixTable(all: seq<int>, contents: int -> seq<string>, n: nat)
    requires n < NumberOfBlocks
    ensures Prefix(all, contents, n).0 == InternAll(EmptyTable(), Flatten(Slices(all, n), contents))
  {
    if n > 0 {
      PrefixTable(all, contents, n - 1);
      var t := Prefix(all, contents, n - 1).0;
      ProcessDocsTable(t, Block(map[], map[]), Slice(all, n - 1), contents);
      InternAllAppend(EmptyTable(), Flatten(Slices(all, n - 1), contents), Flatten(Slice(all, n - 1), contents));
      FlattenAppend(Slices(all, n - 1), Slice(all, n - 1), contents);
    }
  }

  /** The built table: the first nine blocks' tokens interned in reading order
      from the empty table, then the reserved term written at the next id
      whatever it had before, then the last block's tokens. */
  lemma BuildIndexTable(all: seq<int>, contents: int -> seq<string>)
    ensures var r := BuildIndex(all, contents);
            var last := NumberOfBlocks - 1;
            r.Ok? ==>
              r.value.table
                == InternAll(Reserve(InternAll(EmptyTable(), Flatten(Slices(all, last), contents))), Flatten(Slice(all, last), contents))
  {
    var last := NumberOfBlocks - 1;
    PrefixTable(all, contents, last);
    var t := Prefix(all, contents, last).0;
    var s := StartBlock(t, all, last);
    ProcessDocsTable(s.0, s.1, Slice(all, last), contents);
    if |all| > 0 {
      BuildIndexValue(all, contents);
    }
  }

  /** Ids of a table built as the indexer builds it: `first` interned from
      the empty table, the reserved term written at the next id, then `rest`
      interned. */
  lemma ReservedTableIds(first: seq<string>, rest: seq<string>)
    ensures var early := NewTerms({}, first);
            var late := NewTerms(Elements(first) + {Reserved}, rest);
            var t := InternAll(Reserve(InternAll(EmptyTable(), first)), rest);
            && t.next == |early| + |late| + 2
            && Reserved in t.toId && t.toId[Reserved] == |early| + 1
            && (forall k :: 0 <= k < |early| && early[k] != Reserved ==> early[k] in t.toId && t.toId[early[k]] == k + 1)
            && forall k :: 0 <= k < |late| ==> late[k] in t.toId && t.toId[late[k]] == |early| + 2 + k
  {
    var t9 := InternAll(EmptyTable(), first);
    var t10 := Reserve(t9);
    IdsFromOne(first);
    assert t10.toId.Keys == Elements(first) + {Reserved};
    InternAllFirstSeenOrder(t10, rest);
  }

  /** Term ids in first-seen order: the k-th distinct token of the first nine
      blocks gets id k + 1, the reserved term the id after them, and the k-th
      new token of the last block the ids after that; ids 1 .. next-1 are all
      in use. A document token equal to the reserved term, read before the
      last block, loses its id to the reservation. */
  lemma BuildIndexIds(all: seq<int>, contents: int -> seq<string>)
    ensures var r := BuildIndex(all, contents);
            var last := NumberOfBlocks - 1;
            var early := NewTerms({}, Flatten(Slices(all, last), contents));
            var late := NewTerms(Elements(Flatten(Slices(all, last), contents)) + {Reserved}, Flatten(Slice(all, last), contents));
            r.Ok? ==>
              var t := r.value.table;
              && NamesIds(t)
              && t.next == |early| + |late| + 2
              && Reserved in t.toId && t.toId[Reserved] == |early| + 1
              && (forall k :: 0 <= k < |early| && early[k] != Reserved ==> early[k] in t.toId && t.toId[early[k]] == k + 1)
              && forall k :: 0 <= k < |late| ==> late[k] in t.toId && t.toId[late[k]] == |early| + 2 + k
  {
    var last := NumberOfBlocks - 1;
    BuildIndexTable(all, contents);
    PrefixInv(all, contents, NumberOfBlocks);
    if |all| > 0 {
      BuildIndexValue(all, contents);
    }
    ReservedTableIds(Flatten(Slices(all, last), contents), Flatten(Slice(all, last), contents));
  }
}

=== FILE: language_model.dfy ===
/** HW1's character 4-gram language identifier (HW1/build_test_LM.py).
    Training counts, per language, how often every 4-gram of its sentences
    occurs, in three dicts that each also hold a running counter under a key
    of their own; add-one smoothing then turns counts into log
    probabilities. Testing adds up, per language, the log probabilities of a
    line's known 4-grams, starting from 1, and picks the best language, or
    `other`. Reading files is outside the model: the training file arrives
    as its lines, each split into its label and its sentence as the program
    does. The logarithm is a parameter. */
module LanguageModel {
  import opened Base
  import opened Grams
  import QueryParser

  /** `n = 4`. */
  const GramSize: int := 4

  datatype Lang = Malay | Indonesian | Tamil

  /** The training label of each language. */
  function Label(l: Lang): string {
    match l
    case Malay => "malaysian"
    case Indonesian => "indonesian"
    case Tamil => "tamil"
  }

  /** The key under which each language's dict keeps its counter. */
  function CounterKey(l: Lang): string {
    match l
    case Malay => "malay_counter"
    case Indonesian => "indonesian_counter"
    case Tamil => "tamil_counter"
  }

  /** The language a training label names, if any. */
  function LangOf(tag: string): (r: Option<Lang>)
    ensures r.Some? ==> Label(r.value) == tag
    ensures r.None? ==> forall l :: Label(l) != tag
  {
    if tag == "malaysian" then Some(Malay)
    else if tag == "indonesian" then Some(Indonesian)
    else if tag == "tamil" then Some(Tamil)
    else None
  }

  /** A 4-gram is never one of the counter keys. */
  lemma GramNotCounter(g: string, l: Lang)
    requires |g| == GramSize
    ensures g != CounterKey(l)
  {
  }

  // ---------------------------------------------------------------------
  // Counting (build_LM, lines 34-74)
  // ---------------------------------------------------------------------

  /** `malay_dict`, `indonesian_dict` and `tamil_dict` while counting. */
  datatype Counts = Counts(malay: map<string, int>, indonesian: map<string, int>, tamil: map<string, int>)

  function Table(c: Counts, l: Lang): map<string, int> {
    match l
    case Malay => c.malay
    case Indonesian => c.indonesian
    case Tamil => c.tamil
  }

  function WithTable(c: Counts, l: Lang, t: map<string, int>): (r: Counts)
    ensures Table(r, l) == t
    ensures forall l2 :: l2 != l ==> Table(r, l2) == Table(c, l2)
  {
    match l
    case Malay => c.(malay := t)
    case Indonesian => c.(indonesian := t)
    case Tamil => c.(tamil := t)
  }

  /** Each dict starts with its counter at 0. */
  function InitialCounts(): Counts {
    Counts(map["malay_counter" := 0], map["indonesian_counter" := 0], map["tamil_counter" := 0])
  }

  /** `d[k] += 1`, which raises for a missing key. */
  function Incr(t: map<string, int>, k: string): (r: Result<map<string, int>, string>)
    ensures r.Ok? <==> k in t
  {
    if k in t then Ok(t[k := t[k] + 1]) else Err(KeyError)
  }

  /** The two dicts other than `l`'s get `gram` with count 0. */
  function ZeroOthers(c: Counts, l: Lang, gram: string): (r: Counts)
    ensures Table(r, l) == Table(c, l)
    ensures forall l2 :: l2 != l ==> Table(r, l2) == Table(c, l2)[gram := 0]
  {
    match l
    case Malay => c.(indonesian := c.indonesian[gram := 0], tamil := c.tamil[gram := 0])
    case Indonesian => c.(malay := c.malay[gram := 0], tamil := c.tamil[gram := 0])
    case Tamil => c.(malay := c.malay[gram := 0], indonesian := c.indonesian[gram := 0])
  }

  /** One 4-gram of a line of language `l` (lines 47-74). Whether the gram
      is new is decided by `malay_dict` alone. A known gram and the counter
      are incremented in `l`'s dict; a new gram gets 1 there and 0 in the
      other two. */
  function AddGramTo(c: Counts, l: Lang, gram: string): Result<Counts, string> {
    var t := Table(c, l);
    if gram in c.malay then
      match Incr(t, gram)
      case Err(e) => Err(e)
      case Ok(t1) =>
        match Incr(t1, CounterKey(l))
        case Err(e) => Err(e)
        case Ok(t2) => Ok(WithTable(c, l, t2))
    else
      match Incr(t[gram := 1], CounterKey(l))
      case Err(e) => Err(e)
      case Ok(t1) => Ok(ZeroOthers(WithTable(c, l, t1), l, gram))
  }

  /** One 4-gram of a line labelled `tag`; any label other than the three
      languages' changes nothing. */
  function AddGram(c: Counts, tag: string, gram: string): Result<Counts, string> {
    match LangOf(tag)
    case None => Ok(c)
    case Some(l) => AddGramTo(c, l, gram)
  }

  /** The loop over one line's 4-grams. */
  function CountGrams(c: Counts, tag: string, grams: seq<string>): Result<Counts, string>
    decreases |grams|
  {
    if grams == [] then Ok(c)
    else
      match AddGram(c, tag, grams[0])
      case Err(e) => Err(e)
      case Ok(c1) => CountGrams(c1, tag, grams[1..])
  }

  /** A training line: its label and its sentence with single spaces. */
  datatype TrainingLine = TrainingLine(tag: string, sentence: string)

  /** `line.split()` of one training line: the first piece is the label and
      the others, joined by single spaces, the sentence (lines 26-33). A line
      of whitespace only has no first piece, and `split_line[0]` raises. */
  function ParseLine(raw: string): (r: Result<TrainingLine, string>)
    ensures r.Err? <==> QueryParser.Blank(raw)
    ensures r.Err? ==> r.error == IndexError
    ensures r.Ok? ==> r.value.tag != [] && forall i :: 0 <= i < |r.value.tag| ==> !QueryParser.IsSpace(r.value.tag[i])
    ensures r.Ok? ==> r.value.tag + QueryParser.Gap(r.value.sentence) == QueryParser.Squeeze(raw, false, false)
  {
    var pieces := QueryParser.Split(raw);
    QueryParser.SplitBlank(raw);
    if pieces == [] then Err(IndexError)
    else
      var line := TrainingLine(pieces[0], QueryParser.Join(pieces[1..]));
      assert line.tag + QueryParser.Gap(line.sentence) == QueryParser.Join(pieces) by {
        if |pieces| > 1 {
          QueryParser.JoinNonEmpty(pieces[1..]);
        }
      }
      Ok(line)
  }

  /** The loop that reads the training file: every line is split, and the
      first line of whitespace only raises. */
  function ParseLines(raw: seq<string>): (r: Result<seq<TrainingLine>, string>)
    ensures r.Ok? <==> forall k :: 0 <= k < |raw| ==> !QueryParser.Blank(raw[k])
    ensures r.Err? ==> r.error == IndexError
    ensures r.Ok? ==> |r.value| == |raw| && forall k :: 0 <= k < |raw| ==> Ok(r.value[k]) == ParseLine(raw[k])
    decreases |raw|
  {
    if raw == [] then Ok([])
    else
      match ParseLine(raw[0])
      case Err(e) => Err(e)
      case Ok(line) =>
        match ParseLines(raw[1..])
        case Err(e) => Err(e)
        case Ok(rest) =>
          assert forall k :: 1 <= k < |raw| ==> raw[k] == raw[1..][k - 1];
          Ok([line] + rest)
  }

  /** The loop over the training lines. */
  function CountLines(c: Counts, lines: seq<TrainingLine>): Result<Counts, string>
    decreases |lines|
  {
    if lines == [] then Ok(c)
    else
      match CountGrams(c, lines[0].tag, NGrams(lines[0].sentence, GramSize))
      case Err(e) => Err(e)
      case Ok(c1) => CountLines(c1, lines[1..])
  }

  // ---------------------------------------------------------------------
  // What the counts mean
  // ---------------------------------------------------------------------

  /** A line's 4-grams if it carries `l`'s label, none otherwise. */
  function LineGrams(line: TrainingLine, l: Lang): seq<string> {
    if line.tag == Label(l) then NGrams(line.sentence, GramSize) else []
  }

  /** The 4-grams of every language's lines, in order. */
  function LangGrams(lines: seq<TrainingLine>, l: Lang): seq<string>
    decreases |lines|
  {
    if lines == [] then [] else LineGrams(lines[0], l) + LangGrams(lines[1..], l)
  }

  /** Every 4-gram of a line with one of the three labels. */
  function KnownGrams(lines: seq<TrainingLine>): set<string> {
    Elements(LangGrams(lines, Malay)) + Elements(LangGrams(lines, Indonesian)) + Elements(LangGrams(lines, Tamil))
  }

  /** The grams seen so far, per language. */
  datatype Seen = Seen(malay: seq<string>, indonesian: seq<string>, tamil: seq<string>)

  function SeenOf(s: Seen, l: Lang): seq<string> {
    match l
    case Malay => s.malay
    case Indonesian => s.indonesian
    case Tamil => s.tamil
  }

  function AllSeen(s: Seen): set<string> {
    Elements(s.malay) + Elements(s.indonesian) + Elements(s.tamil)
  }

  /** `grams` seen under `label`: appended to that language's grams, if it
      is one. */
  function SawAll(s: Seen, tag: string, grams: seq<string>): (r: Seen)
    ensures LangOf(tag).None? ==> r == s
    ensures LangOf(tag).Some? ==>
      forall l :: SeenOf(r, l) == if l == LangOf(tag).value then SeenOf(s, l) + grams else SeenOf(s, l)
  {
    match LangOf(tag)
    case None => s
    case Some(Malay) => s.(malay := s.malay + grams)
    case Some(Indonesian) => s.(indonesian := s.indonesian + grams)
    case Some(Tamil) => s.(tamil := s.tamil + grams)
  }

  /** `l`'s dict agrees with the grams seen: its counter is the number of
      grams seen under `l`, its keys are the counter and every gram seen
      under any language, and each gram's count is its number of
      occurrences under `l`. */
  ghost predicate TracksTable(t: map<string, int>, s: Seen, l: Lang) {
    && CounterKey(l) in t
    && t[CounterKey(l)] == |SeenOf(s, l)|
    && t.Keys == AllSeen(s) + {CounterKey(l)}
    && forall g :: g in AllSeen(s) ==> t[g] == Count(SeenOf(s, l), g)
  }

  ghost predicate TracksLang(c: Counts, s: Seen, l: Lang) {
    TracksTable(Table(c, l), s, l)
  }

  /** All seen grams are 4 characters long. */
  ghost predicate FourLong(s: Seen) {
    forall g :: g in AllSeen(s) ==> |g| == GramSize
  }

  /** The dict of `l` that the grams seen determine. */
  ghost function ExpectedTable(s: Seen, l: Lang): map<string, int> {
    map g | g in AllSeen(s) + {CounterKey(l)} :: if g == CounterKey(l) then |SeenOf(s, l)| else Count(SeenOf(s, l), g)
  }

  ghost function Expected(s: Seen): Counts {
    Counts(ExpectedTable(s, Malay), ExpectedTable(s, Indonesian), ExpectedTable(s, Tamil))
  }

  /** The dicts are in step with the grams seen: they are exactly the dicts
      those grams determine. */
  ghost predicate Tracks(c: Counts, s: Seen) {
    FourLong(s) && c == Expected(s)
  }

  /** With 4-character grams only, a dict agrees with the grams seen
      exactly when it is the dict they determine. */
  lemma TableTracks(t: map<string, int>, s: Seen, l: Lang)
    requires FourLong(s)
    ensures TracksTable(t, s, l) <==> t == ExpectedTable(s, l)
  {
    CounterUnseen(s, l);
    if TracksTable(t, s, l) {
      TracksIsExpected(t, s, l);
    } else {
      ExpectedTracks(s, l);
    }
  }

  /** No gram seen is a dict's counter key. */
  lemma CounterUnseen(s: Seen, l: Lang)
    requires FourLong(s)
    ensures CounterKey(l) !in AllSeen(s)
  {
    if CounterKey(l) in AllSeen(s) {
      GramNotCounter(CounterKey(l), l);
    }
  }

  lemma TracksIsExpected(t: map<string, int>, s: Seen, l: Lang)
    requires CounterKey(l) !in AllSeen(s) && TracksTable(t, s, l)
    ensures t == ExpectedTable(s, l)
  {
    var e := ExpectedTable(s, l);
    assert t.Keys == e.Keys;
    forall k | k in t ensures t[k] == e[k] {
    }
  }

  lemma ExpectedTracks(s: Seen, l: Lang)
    requires CounterKey(l) !in AllSeen(s)
    ensures TracksTable(ExpectedTable(s, l), s, l)
  {
  }

  lemma TracksLangOf(c: Counts, s: Seen, l: Lang)
    requires Tracks(c, s)
    ensures TracksLang(c, s, l)
  {
    TableTracks(Table(c, l), s, l);
  }

  lemma LangsTrack(c: Counts, s: Seen)
    requires FourLong(s) && TracksLang(c, s, Malay) && TracksLang(c, s, Indonesian) && TracksLang(c, s, Tamil)
    ensures Tracks(c, s)
  {
    TableTracks(c.malay, s, Malay);
    TableTracks(c.indonesian, s, Indonesian);
    TableTracks(c.tamil, s, Tamil);
  }

  lemma InitialTracks()
    ensures Tracks(InitialCounts(), NoneSeen())
  {
    var s := NoneSeen();
    assert AllSeen(s) == {};
    forall l ensures TracksLang(InitialCounts(), s, l) {
      assert Table(InitialCounts(), l).Keys == {CounterKey(l)};
    }
    LangsTrack(InitialCounts(), s);
  }

  lemma CountSnocGram(s: seq<string>, g: string, x: string)
    ensures Count(s + [g], x) == Count(s, x) + (if g == x then 1 else 0)
  {
    CountAppend(s, [g], x);
    assert [g][1..] == [];
  }

  /** When the dict of `l` holds its counter and every gram `malay_dict`
      holds, adding a 4-gram never raises: in `l`'s dict the gram goes up by
      one (or starts at 1) and so does the counter; the other dicts are
      kept, or get the new gram at 0. */
  lemma AddGramToShape(c: Counts, l: Lang, g: string)
    requires CounterKey(l) in Table(c, l) && (g in c.malay ==> g in Table(c, l)) && |g| == GramSize
    ensures AddGramTo(c, l, g).Ok?
    ensures var t := Table(c, l); var r := AddGramTo(c, l, g).value;
      && Table(r, l) == (if g in c.malay then t[g := t[g] + 1] else t[g := 1])[CounterKey(l) := t[CounterKey(l)] + 1]
      && forall l2 :: l2 != l ==> Table(r, l2) == if g in c.malay then Table(c, l2) else Table(c, l2)[g := 0]
  {
    GramNotCounter(g, l);
  }

  /** The dict of the gram's language: count and counter go up by one. */
  lemma BumpedTable(c: Counts, s: Seen, l: Lang, g: string, t: map<string, int>)
    requires FourLong(s) && |g| == GramSize && TracksLang(c, s, l)
    requires var old_ := Table(c, l);
      t == (if g in AllSeen(s) then old_[g := old_[g] + 1] else old_[g := 1])[CounterKey(l) := old_[CounterKey(l)] + 1]
    ensures TracksTable(t, Saw(s, l, g), l)
  {
    GramNotCounter(g, l);
    var s' := Saw(s, l, g);
    AllSeenSaw(s, l, g, s');
    forall x | x in AllSeen(s) + {g} ensures t[x] == Count(SeenOf(s, l) + [g], x) {
      BumpedCount(c, s, l, g, t, x);
    }
  }

  /** One gram's entry in the bumped dict. */
  lemma BumpedCount(c: Counts, s: Seen, l: Lang, g: string, t: map<string, int>, x: string)
    requires FourLong(s) && |g| == GramSize && TracksLang(c, s, l)
    requires var old_ := Table(c, l);
      t == (if g in AllSeen(s) then old_[g := old_[g] + 1] else old_[g := 1])[CounterKey(l) := old_[CounterKey(l)] + 1]
    requires x in AllSeen(s) + {g}
    ensures t[x] == Count(SeenOf(s, l) + [g], x)
  {
    GramNotCounter(x, l);
    CountSnocGram(SeenOf(s, l), g, x);
    if x == g && g !in AllSeen(s) {
      CountPositiveIffMember(SeenOf(s, l), g);
    }
  }

  /** Another dict: a new gram arrives with count 0. */
  lemma OtherTable(c: Counts, s: Seen, l: Lang, l2: Lang, g: string, t: map<string, int>)
    requires FourLong(s) && |g| == GramSize && TracksLang(c, s, l2) && l2 != l
    requires t == if g in AllSeen(s) then Table(c, l2) else Table(c, l2)[g := 0]
    ensures TracksTable(t, Saw(s, l, g), l2)
  {
    var s' := Saw(s, l, g);
    AllSeenSaw(s, l, g, s');
    assert SeenOf(s', l2) == SeenOf(s, l2);
    if g !in AllSeen(s) {
      GramNotCounter(g, l2);
      CountPositiveIffMember(SeenOf(s, l2), g);
      NewGramTable(Table(c, l2), s, s', l2, g);
    }
  }

  /** A gram that is new to every language enters a dict that did not change
      its grams at count 0. */
  lemma NewGramTable(t: map<string, int>, s: Seen, s': Seen, l2: Lang, g: string)
    requires TracksTable(t, s, l2) && g !in AllSeen(s) && g != CounterKey(l2)
    requires AllSeen(s') == AllSeen(s) + {g} && SeenOf(s', l2) == SeenOf(s, l2)
    requires Count(SeenOf(s, l2), g) == 0
    ensures TracksTable(t[g := 0], s', l2)
  {
  }

  /** The grams seen, with one more under `l`. */
  function Saw(s: Seen, l: Lang, g: string): (r: Seen)
    ensures forall l2 :: SeenOf(r, l2) == if l2 == l then SeenOf(s, l2) + [g] else SeenOf(s, l2)
  {
    match l
    case Malay => s.(malay := s.malay + [g])
    case Indonesian => s.(indonesian := s.indonesian + [g])
    case Tamil => s.(tamil := s.tamil + [g])
  }

  lemma AllSeenSaw(s: Seen, l: Lang, g: string, s': Seen)
    requires forall l2 :: SeenOf(s', l2) == if l2 == l then SeenOf(s, l2) + [g] else SeenOf(s, l2)
    ensures AllSeen(s') == AllSeen(s) + {g}
  {
    assert SeenOf(s', l) == SeenOf(s, l) + [g];
    assert Elements(SeenOf(s, l) + [g]) == Elements(SeenOf(s, l)) + {g};
    assert s'.malay == SeenOf(s', Malay) && s'.indonesian == SeenOf(s', Indonesian) && s'.tamil == SeenOf(s', Tamil);
  }

  /** A gram is in `malay_dict` exactly when it has been seen. */
  lemma KnownIffSeen(c: Counts, s: Seen, g: string)
    requires TracksLang(c, s, Malay) && |g| == GramSize
    ensures g in c.malay <==> g in AllSeen(s)
  {
    GramNotCounter(g, Malay);
  }

  /** After one 4-gram of language `l`, the dict of `l2` is in step. */
  lemma AddGramToTable(c: Counts, s: Seen, l: Lang, l2: Lang, g: string)
    requires Tracks(c, s) && |g| == GramSize
    ensures AddGramTo(c, l, g).Ok?
    ensures TracksLang(AddGramTo(c, l, g).value, Saw(s, l, g), l2)
  {
    TracksLangOf(c, s, Malay);
    TracksLangOf(c, s, l);
    TracksLangOf(c, s, l2);
    KnownIffSeen(c, s, g);
    AddGramToShape(c, l, g);
    var t := Table(AddGramTo(c, l, g).value, l2);
    if l2 == l {
      BumpedTable(c, s, l, g, t);
    } else {
      OtherTable(c, s, l, l2, g, t);
    }
  }

  /** One 4-gram of language `l` never raises and keeps the dicts in step
      with the grams seen, the gram now seen once more under `l`. */
  lemma AddGramToTracks(c: Counts, s: Seen, l: Lang, g: string)
    requires Tracks(c, s) && |g| == GramSize
    ensures AddGramTo(c, l, g).Ok?
    ensures Tracks(AddGramTo(c, l, g).value, Saw(s, l, g))
  {
    AddGramToTable(c, s, l, Malay, g);
    AddGramToTable(c, s, l, Indonesian, g);
    AddGramToTable(c, s, l, Tamil, g);
    FourLongSaw(s, l, g);
    LangsTrack(AddGramTo(c, l, g).value, Saw(s, l, g));
  }

  lemma FourLongSaw(s: Seen, l: Lang, g: string)
    requires FourLong(s) && |g| == GramSize
    ensures FourLong(Saw(s, l, g))
  {
    AllSeenSaw(s, l, g, Saw(s, l, g));
  }

  /** One 4-gram under any label never raises and keeps the dicts in step
      with the grams seen. */
  lemma AddGramTracks(c: Counts, s: Seen, tag: string, g: string)
    requires Tracks(c, s) && |g| == GramSize
    ensures AddGram(c, tag, g).Ok?
    ensures Tracks(AddGram(c, tag, g).value, SawAll(s, tag, [g]))
  {
    if LangOf(tag).Some? {
      var l := LangOf(tag).value;
      AddGramToTracks(c, s, l, g);
      SawOne(s, tag, l, g);
    }
  }

  lemma SawOne(s: Seen, tag: string, l: Lang, g: string)
    requires LangOf(tag) == Some(l)
    ensures SawAll(s, tag, [g]) == Saw(s, l, g)
  {
    var a := SawAll(s, tag, [g]);
    var b := Saw(s, l, g);
    assert SeenOf(a, Malay) == SeenOf(b, Malay);
    assert SeenOf(a, Indonesian) == SeenOf(b, Indonesian);
    assert SeenOf(a, Tamil) == SeenOf(b, Tamil);
  }

  /** Any other label changes nothing. */
  lemma {:induction false} CountGramsOtherLabel(c: Counts, tag: string, grams: seq<string>)
    requires LangOf(tag).None?
    ensures CountGrams(c, tag, grams) == Ok(c)
    decreases |grams|
  {
    if grams != [] {
      CountGramsOtherLabel(c, tag, grams[1..]);
    }
  }

  lemma SawNothing(s: Seen, tag: string)
    ensures SawAll(s, tag, []) == s
  {
    var r := SawAll(s, tag, []);
    assert s.malay + [] == s.malay && s.indonesian + [] == s.indonesian && s.tamil + [] == s.tamil;
    assert SeenOf(r, Malay) == SeenOf(s, Malay);
    assert SeenOf(r, Indonesian) == SeenOf(s, Indonesian);
    assert SeenOf(r, Tamil) == SeenOf(s, Tamil);
  }

  lemma SawInTurn(s: Seen, tag: string, grams: seq<string>)
    requires grams != []
    ensures SawAll(SawAll(s, tag, [grams[0]]), tag, grams[1..]) == SawAll(s, tag, grams)
  {
    var a := SawAll(SawAll(s, tag, [grams[0]]), tag, grams[1..]);
    var b := SawAll(s, tag, grams);
    assert grams == [grams[0]] + grams[1..];
    assert s.malay + [grams[0]] + grams[1..] == s.malay + grams;
    assert s.indonesian + [grams[0]] + grams[1..] == s.indonesian + grams;
    assert s.tamil + [grams[0]] + grams[1..] == s.tamil + grams;
    assert SeenOf(a, Malay) == SeenOf(b, Malay);
    assert SeenOf(a, Indonesian) == SeenOf(b, Indonesian);
    assert SeenOf(a, Tamil) == SeenOf(b, Tamil);
  }

  /** The 4-grams of one line never raise and keep the dicts in step. */
  lemma {:induction false} CountGramsTracks(c: Counts, s: Seen, tag: string, grams: seq<string>) returns (c': Counts, s': Seen)
    requires Tracks(c, s) && forall g :: g in grams ==> |g| == GramSize
    ensures CountGrams(c, tag, grams) == Ok(c') && s' == SawAll(s, tag, grams)
    ensures Tracks(c', s')
    decreases |grams|
  {
    if grams == [] {
      SawNothing(s, tag);
      c', s' := c, s;
    } else {
      var c1, s1 := FirstGramTracks(c, s, tag, grams);
      c', s' := CountGramsTracks(c1, s1, tag, grams[1..]);
    }
  }

  /** The first 4-gram of a line, counted: the rest of the line goes on
      from dicts still in step. */
  lemma FirstGramTracks(c: Counts, s: Seen, tag: string, grams: seq<string>) returns (c1: Counts, s1: Seen)
    requires Tracks(c, s) && grams != [] && |grams[0]| == GramSize
    ensures Tracks(c1, s1)
    ensures CountGrams(c, tag, grams) == CountGrams(c1, tag, grams[1..])
    ensures SawAll(s, tag, grams) == SawAll(s1, tag, grams[1..])
  {
    AddGramTracks(c, s, tag, grams[0]);
    c1 := AddGram(c, tag, grams[0]).value;
    s1 := SawAll(s, tag, [grams[0]]);
    CountGramsStep(c, tag, grams);
    SawInTurn(s, tag, grams);
  }

  lemma CountGramsStep(c: Counts, tag: string, grams: seq<string>)
    requires grams != [] && AddGram(c, tag, grams[0]).Ok?
    ensures CountGrams(c, tag, grams) == CountGrams(AddGram(c, tag, grams[0]).value, tag, grams[1..])
  {
  }

  /** The grams of all lines, front to back, added to `s`. */
  function SawLines(s: Seen, lines: seq<TrainingLine>): Seen
    decreases |lines|
  {
    if lines == [] then s
    else SawLines(SawAll(s, lines[0].tag, NGrams(lines[0].sentence, GramSize)), lines[1..])
  }

  lemma GramsAreFour(sentence: string)
    ensures forall g :: g in NGrams(sentence, GramSize) ==> |g| == GramSize
  {
    NGramsWindows(sentence, GramSize);
  }

  lemma {:induction false} CountLinesTracks(c: Counts, s: Seen, lines: seq<TrainingLine>)
    requires Tracks(c, s)
    ensures CountLines(c, lines).Ok?
    ensures Tracks(CountLines(c, lines).value, SawLines(s, lines))
    decreases |lines|
  {
    if lines != [] {
      var grams := NGrams(lines[0].sentence, GramSize);
      GramsAreFour(lines[0].sentence);
      var c1, s1 := CountGramsTracks(c, s, lines[0].tag, grams);
      CountLinesTracks(c1, s1, lines[1..]);
    }
  }

  /** A language's grams grow by a line's grams exactly when the line
      carries its label. */
  lemma SawLine(s: Seen, line: TrainingLine, l: Lang)
    ensures SeenOf(SawAll(s, line.tag, NGrams(line.sentence, GramSize)), l) == SeenOf(s, l) + LineGrams(line, l)
  {
    assert SeenOf(s, l) + [] == SeenOf(s, l);
    LabelNamesLang(l);
  }

  /** The grams gathered line by line are the per-language grams of the
      lines. */
  lemma {:induction false} SawLinesGrams(s: Seen, lines: seq<TrainingLine>, l: Lang)
    ensures SeenOf(SawLines(s, lines), l) == SeenOf(s, l) + LangGrams(lines, l)
    decreases |lines|
  {
    if lines == [] {
      assert SeenOf(s, l) + [] == SeenOf(s, l);
    } else {
      var s1 := SawAll(s, lines[0].tag, NGrams(lines[0].sentence, GramSize));
      SawLinesGrams(s1, lines[1..], l);
      SawFirstLine(s, lines, l);
    }
  }

  lemma SawFirstLine(s: Seen, lines: seq<TrainingLine>, l: Lang)
    requires lines != []
    ensures var s1 := SawAll(s, lines[0].tag, NGrams(lines[0].sentence, GramSize));
      SeenOf(s1, l) + LangGrams(lines[1..], l) == SeenOf(s, l) + LangGrams(lines, l)
  {
    SawLine(s, lines[0], l);
    AppendAssoc(SeenOf(s, l), LineGrams(lines[0], l), LangGrams(lines[1..], l));
  }

  /** Nothing seen yet. */
  function NoneSeen(): Seen {
    Seen([], [], [])
  }

  lemma TrainedSeen(lines: seq<TrainingLine>, l: Lang)
    ensures SeenOf(SawLines(NoneSeen(), lines), l) == LangGrams(lines, l)
  {
    SawLinesGrams(NoneSeen(), lines, l);
    assert SeenOf(NoneSeen(), l) == [];
    assert [] + LangGrams(lines, l) == LangGrams(lines, l);
  }

  lemma TrainedAllSeen(lines: seq<TrainingLine>)
    ensures AllSeen(SawLines(NoneSeen(), lines)) == KnownGrams(lines)
  {
    var s := SawLines(NoneSeen(), lines);
    TrainedSeen(lines, Malay);
    TrainedSeen(lines, Indonesian);
    TrainedSeen(lines, Tamil);
    assert s.malay == SeenOf(s, Malay) && s.indonesian == SeenOf(s, Indonesian) && s.tamil == SeenOf(s, Tamil);
  }

  /** After the training lines, a language's counter is the number of
      4-grams of its lines; its dict holds the counter and exactly the
      4-grams of all labelled lines; and each gram's count is its number of
      occurrences in that language's lines (0 if none), so the counter is
      the sum of the counts. Counting never raises. */
  lemma TrainCounts(lines: seq<TrainingLine>, l: Lang)
    ensures CountLines(InitialCounts(), lines).Ok?
    ensures var t := Table(CountLines(InitialCounts(), lines).value, l);
      && CounterKey(l) in t
      && t[CounterKey(l)] == |LangGrams(lines, l)|
      && t.Keys == KnownGrams(lines) + {CounterKey(l)}
      && forall g :: g in KnownGrams(lines) ==> t[g] == Count(LangGrams(lines, l), g)
  {
    InitialTracks();
    CountLinesTracks(InitialCounts(), NoneSeen(), lines);
    TracksLangOf(CountLines(InitialCounts(), lines).value, SawLines(NoneSeen(), lines), l);
    TrainedSeen(lines, l);
    TrainedAllSeen(lines);
  }

  /** After training, the three dicts know the same 4-grams. */
  lemma TrainSameKeys(lines: seq<TrainingLine>)
    ensures CountLines(InitialCounts(), lines).Ok?
    ensures SameKeys(CountLines(InitialCounts(), lines).value)
  {
    InitialTracks();
    CountLinesTracks(InitialCounts(), NoneSeen(), lines);
    TracksSameKeys(CountLines(InitialCounts(), lines).value, SawLines(NoneSeen(), lines));
  }

  /** The three dicts know the same 4-grams. */
  ghost predicate SameKeys(c: Counts) {
    forall g :: |g| == GramSize ==> (g in c.malay <==> g in c.indonesian) && (g in c.malay <==> g in c.tamil)
  }

  /** Dicts in step with the grams seen know the same 4-grams. */
  lemma TracksSameKeys(c: Counts, s: Seen)
    requires Tracks(c, s)
    ensures SameKeys(c)
  {
    TracksLangOf(c, s, Malay);
    TracksLangOf(c, s, Indonesian);
    TracksLangOf(c, s, Tamil);
    forall g | |g| == GramSize ensures (g in c.malay <==> g in c.indonesian) && (g in c.malay <==> g in c.tamil) {
      GramNotCounter(g, Malay);
      GramNotCounter(g, Indonesian);
      GramNotCounter(g, Tamil);
      assert c.malay == Table(c, Malay) && c.indonesian == Table(c, Indonesian) && c.tamil == Table(c, Tamil);
    }
  }

  /** Each language's label names it. */
  lemma LabelNamesLang(l: Lang)
    ensures LangOf(Label(l)) == Some(l)
  {
  }

  /** While training, a gram first seen under a language's label gets 1 in
      that language's dict and 0 in the other two; a known gram goes up by
      one in its language's dict only. */
  lemma AddGramCounts(c: Counts, l: Lang, g: string)
    requires CounterKey(l) in Table(c, l) && SameKeys(c) && |g| == GramSize
    ensures AddGram(c, Label(l), g).Ok?
    ensures var c' := AddGram(c, Label(l), g).value;
      && (g !in c.malay ==> Table(c', l)[g] == 1 && forall l2 :: l2 != l ==> Table(c', l2)[g] == 0)
      && (g in c.malay ==> Table(c', l)[g] == Table(c, l)[g] + 1 && forall l2 :: l2 != l ==> Table(c', l2)[g] == Table(c, l2)[g])
  {
    LabelNamesLang(l);
    AddGramToShape(c, l, g);
    GramNotCounter(g, l);
  }

  // ---------------------------------------------------------------------
  // Add-one smoothing (lines 80-93)
  // ---------------------------------------------------------------------

  /** One turn of the smoothing loop. */
  function SmoothKey(t: map<string, int>, counter: string, k: string): (r: map<string, int>)
    requires counter in t && k in t
    ensures r.Keys == t.Keys
    ensures k != counter ==> r[k] == t[k] + 1 && r[counter] == t[counter] + 1
    ensures forall x :: x in t && x != k && x != counter ==> r[x] == t[x]
    ensures k == counter ==> r == t
  {
    if k != counter then (var t1 := t[k := t[k] + 1]; t1[counter := t1[counter] + 1]) else t
  }

  /** The smoothing loop over the keys in the dict's order: every key other
      than the counter goes up by one, and the counter with it. */
  function SmoothOver(t: map<string, int>, counter: string, keys: seq<string>): map<string, int>
    requires counter in t && forall k :: k in keys ==> k in t
    decreases |keys|
  {
    if keys == [] then t
    else SmoothOver(SmoothKey(t, counter, keys[0]), counter, keys[1..])
  }

  /** The smoothed dict: each gram's count plus one, the counter plus the
      number of grams. */
  function Smoothed(t: map<string, int>, counter: string): (r: map<string, int>)
    requires counter in t
    ensures r.Keys == t.Keys
  {
    map k | k in t :: if k == counter then t[counter] + |t.Keys - {counter}| else t[k] + 1
  }

  lemma DistinctTail(keys: seq<string>)
    requires Distinct(keys) && keys != []
    ensures Distinct(keys[1..]) && keys[0] !in keys[1..]
    ensures Elements(keys) == {keys[0]} + Elements(keys[1..])
  {
    forall i, j | 0 <= i < j < |keys| - 1 ensures keys[1..][i] != keys[1..][j] {
      assert keys[i + 1] != keys[j + 1];
    }
    forall j | 0 <= j < |keys| - 1 ensures keys[1..][j] != keys[0] {
      assert keys[0] != keys[j + 1];
    }
    assert keys == [keys[0]] + keys[1..];
  }

  /** The loop keeps the keys and raises each gram among `keys` by one. */
  lemma {:induction false} SmoothOverGrams(t: map<string, int>, counter: string, keys: seq<string>)
    requires counter in t && Distinct(keys) && forall k :: k in keys ==> k in t
    ensures var r := SmoothOver(t, counter, keys);
      && r.Keys == t.Keys
      && forall k :: k in t && k != counter ==> r[k] == (if k in keys then t[k] + 1 else t[k])
    decreases |keys|
  {
    if keys != [] {
      var k := keys[0];
      DistinctTail(keys);
      SmoothOverGrams(SmoothKey(t, counter, k), counter, keys[1..]);
      var r := SmoothOver(t, counter, keys);
      forall x | x in t && x != counter ensures r[x] == (if x in keys then t[x] + 1 else t[x]) {
        assert x in keys <==> x == k || x in keys[1..];
      }
    }
  }

  /** The loop raises the counter once per gram among `keys`. */
  lemma {:induction false} SmoothOverCounter(t: map<string, int>, counter: string, keys: seq<string>)
    requires counter in t && Distinct(keys) && forall k :: k in keys ==> k in t
    ensures var r := SmoothOver(t, counter, keys);
      counter in r && r[counter] == t[counter] + |Elements(keys) - {counter}|
    decreases |keys|
  {
    if keys != [] {
      var k := keys[0];
      DistinctTail(keys);
      SmoothOverCounter(SmoothKey(t, counter, k), counter, keys[1..]);
      GramsAfterFirst(keys, counter);
    }
  }

  /** The grams among distinct keys: the first key, unless it is the
      counter, and the grams among the rest. */
  lemma GramsAfterFirst(keys: seq<string>, counter: string)
    requires Distinct(keys) && keys != []
    ensures |Elements(keys) - {counter}| == |Elements(keys[1..]) - {counter}| + (if keys[0] != counter then 1 else 0)
  {
    DistinctTail(keys);
    if keys[0] != counter {
      assert Elements(keys) - {counter} == {keys[0]} + (Elements(keys[1..]) - {counter});
    } else {
      assert Elements(keys) - {counter} == Elements(keys[1..]) - {counter};
    }
  }

  /** Whatever order the dict's keys come in, the loop gives the smoothed
      dict: every gram one more, the counter raised by the number of
      grams. */
  lemma SmoothingAnyOrder(t: map<string, int>, counter: string, keys: seq<string>)
    requires counter in t && Distinct(keys) && Elements(keys) == t.Keys
    ensures SmoothOver(t, counter, keys) == Smoothed(t, counter)
  {
    SmoothOverGrams(t, counter, keys);
    SmoothOverCounter(t, counter, keys);
    var r := SmoothOver(t, counter, keys);
    var sm := Smoothed(t, counter);
    assert r.Keys == sm.Keys;
    forall k | k in r ensures r[k] == sm[k] {
      if k != counter {
        assert k in Elements(keys);
      }
    }
  }

  // ---------------------------------------------------------------------
  // Log probabilities (lines 99-112)
  // ---------------------------------------------------------------------

  /** `math.log`, which the model takes as a parameter. */
  function Ln(log: real -> real, x: real): real {
    log(x)
  }

  /** `a / b` on integers, which Python evaluates as a float; callers
      rule out `b == 0`, where Python raises. */
  function Ratio(a: int, b: int): real {
    if b == 0 then 0.0 else a as real / b as real
  }

  /** `math.log` of a number that is not positive. */
  const MathDomainError: string := "ValueError: math domain error"

  /** Every gram's count over the counter, through `log`; the counter keeps
      its value. With any gram in the dict, a zero counter divides by zero,
      and a ratio that is not positive has no logarithm. */
  function LogProbabilities(t: map<string, int>, counter: string, log: real -> real)
    : (r: Result<map<string, real>, string>)
    requires counter in t
    ensures r.Ok? ==> r.value.Keys == t.Keys
  {
    if t[counter] == 0 && exists k :: k in t && k != counter then Err(IntZeroDivision)
    else if exists k :: k in t && k != counter && Ratio(t[k], t[counter]) <= 0.0 then Err(MathDomainError)
    else
      Ok(map k | k in t :: if k == counter then t[k] as real else Ln(log, Ratio(t[k], t[counter])))
  }

  /** The log probabilities exist exactly when the counter is not zero
      and every gram's ratio is positive, or there is no gram; then each
      gram maps to the log of its ratio and the counter keeps its value.
      Otherwise a zero counter divides by zero, and a ratio that is not
      positive has no logarithm. */
  lemma LogProbabilitiesMeaning(t: map<string, int>, counter: string, log: real -> real)
    requires counter in t
    ensures var r := LogProbabilities(t, counter, log);
      && (r.Ok? <==> forall k :: k in t && k != counter ==> t[counter] != 0 && Ratio(t[k], t[counter]) > 0.0)
      && (r.Err? ==> r.error == (if t[counter] == 0 then IntZeroDivision else MathDomainError))
      && (r.Ok? ==> r.value[counter] == t[counter] as real)
      && (r.Ok? ==> forall k :: k in t && k != counter ==> r.value[k] == Ln(log, Ratio(t[k], t[counter])))
  {
  }

  /** The trained model: one table of log probabilities per language. */
  datatype Model = Model(malay: map<string, real>, indonesian: map<string, real>, tamil: map<string, real>)

  function ModelTable(m: Model, l: Lang): map<string, real> {
    match l
    case Malay => m.malay
    case Indonesian => m.indonesian
    case Tamil => m.tamil
  }

  /** Smoothing and log probabilities for one language's dict. */
  function Finish(c: Counts, l: Lang, log: real -> real): Result<map<string, real>, string>
    requires CounterKey(l) in Table(c, l)
  {
    LogProbabilities(Smoothed(Table(c, l), CounterKey(l)), CounterKey(l), log)
  }

  /** Smoothing and log probabilities for the three counted dicts. */
  function BuildFrom(c: Counts, log: real -> real): Result<Model, string> {
    if CounterKey(Malay) !in c.malay || CounterKey(Indonesian) !in c.indonesian || CounterKey(Tamil) !in c.tamil
    then Err(KeyError)
    else
      match Finish(c, Malay, log)
      case Err(e) => Err(e)
      case Ok(mt) =>
        match Finish(c, Indonesian, log)
        case Err(e) => Err(e)
        case Ok(it) =>
          match Finish(c, Tamil, log)
          case Err(e) => Err(e)
          case Ok(tt) => Ok(Model(mt, it, tt))
  }

  /** `build_LM` without reading the file. */
  function BuildLM(lines: seq<TrainingLine>, log: real -> real): Result<Model, string> {
    match CountLines(InitialCounts(), lines)
    case Err(e) => Err(e)
    case Ok(c) => BuildFrom(c, log)
  }

  /** `build_LM` with the reading of the file: split the lines, then build. */
  function BuildLMFromText(raw: seq<string>, log: real -> real): Result<Model, string> {
    match ParseLines(raw)
    case Err(e) => Err(e)
    case Ok(lines) => BuildLM(lines, log)
  }

  /** A count never exceeds the number of grams it is counted among. */
  lemma {:induction false} CountAtMostLength(s: seq<string>, g: string)
    ensures Count(s, g) <= |s|
    decreases |s|
  {
    if s != [] {
      CountAtMostLength(s[1..], g);
    }
  }

  /** Every gram of a language's lines is 4 characters long. */
  lemma {:induction false} LangGramsFour(lines: seq<TrainingLine>, l: Lang, g: string)
    requires g in LangGrams(lines, l)
    ensures |g| == GramSize
    decreases |lines|
  {
    var own := LineGrams(lines[0], l);
    assert LangGrams(lines, l) == own + LangGrams(lines[1..], l);
    if g in own {
      GramsAreFour(lines[0].sentence);
    } else {
      LangGramsFour(lines[1..], l, g);
    }
  }

  lemma KnownFour(lines: seq<TrainingLine>, g: string)
    requires g in KnownGrams(lines)
    ensures |g| == GramSize
  {
    if g in LangGrams(lines, Malay) {
      LangGramsFour(lines, Malay, g);
    } else if g in LangGrams(lines, Indonesian) {
      LangGramsFour(lines, Indonesian, g);
    } else {
      LangGramsFour(lines, Tamil, g);
    }
  }

  /** A dict as training leaves it: the counter is the number of the
      language's grams, and the other keys are the known grams, each
      counting its occurrences among the language's grams. */
  ghost predicate Trained(t: map<string, int>, l: Lang, grams: seq<string>, known: set<string>) {
    && CounterKey(l) in t
    && CounterKey(l) !in known
    && t[CounterKey(l)] == |grams|
    && t.Keys == known + {CounterKey(l)}
    && forall g :: g in known ==> t[g] == Count(grams, g)
  }

  /** After add-one smoothing of a trained dict, every known gram counts
      one more than its occurrences, and the counter is the number of the
      language's grams plus the number of known grams, so it is at least
      every gram's count. */
  lemma SmoothedCounts(t: map<string, int>, l: Lang, grams: seq<string>, known: set<string>)
    requires Trained(t, l, grams, known)
    ensures var sm := Smoothed(t, CounterKey(l));
      && sm.Keys == known + {CounterKey(l)}
      && sm[CounterKey(l)] == |grams| + |known|
      && forall g :: g in known ==> sm[g] == Count(grams, g) + 1 <= sm[CounterKey(l)]
  {
    assert t.Keys - {CounterKey(l)} == known;
    forall g | g in known ensures Count(grams, g) + 1 <= |grams| + |known| {
      CountAtMostLength(grams, g);
      assert |known| >= 1 by {
        assert g in known;
      }
    }
  }

  /** Smoothing and log probabilities of a trained dict never raise, and
      keep the counter and the known grams as keys. */
  lemma SmoothedLogs(t: map<string, int>, l: Lang, grams: seq<string>, known: set<string>, log: real -> real)
    requires Trained(t, l, grams, known)
    ensures var r := LogProbabilities(Smoothed(t, CounterKey(l)), CounterKey(l), log);
      r.Ok? && r.value.Keys == known + {CounterKey(l)}
  {
    SmoothedCounts(t, l, grams, known);
    var c := CounterKey(l);
    var sm := Smoothed(t, c);
    forall k | k in sm && k != c ensures sm[c] != 0 && Ratio(sm[k], sm[c]) > 0.0 {
      PositiveRatio(sm[k], sm[c]);
    }
    LogProbabilitiesMeaning(sm, c, log);
  }

  /** In the smoothed log probabilities of a trained dict, a known gram
      gets the log of (its count among the language's grams plus one) over
      (the number of the language's grams plus the number of known
      grams). */
  lemma SmoothedLog(t: map<string, int>, l: Lang, grams: seq<string>, known: set<string>, log: real -> real, g: string)
    requires Trained(t, l, grams, known) && g in known
    ensures var r := LogProbabilities(Smoothed(t, CounterKey(l)), CounterKey(l), log);
      r.Ok? && g in r.value && r.value[g] == Ln(log, Ratio(Count(grams, g) + 1, |grams| + |known|))
  {
    SmoothedLogs(t, l, grams, known, log);
    SmoothedCounts(t, l, grams, known);
    var c := CounterKey(l);
    var sm := Smoothed(t, c);
    LogProbabilitiesMeaning(sm, c, log);
    assert sm[g] == Count(grams, g) + 1 && sm[c] == |grams| + |known|;
  }

  lemma PositiveRatio(a: int, b: int)
    requires 1 <= a <= b
    ensures Ratio(a, b) > 0.0
  {
  }

  /** The trained dict of each language. */
  lemma TrainedTable(lines: seq<TrainingLine>, l: Lang)
    ensures CountLines(InitialCounts(), lines).Ok?
    ensures Trained(Table(CountLines(InitialCounts(), lines).value, l), l, LangGrams(lines, l), KnownGrams(lines))
  {
    TrainCounts(lines, l);
    assert CounterKey(l) !in KnownGrams(lines) by {
      if CounterKey(l) in KnownGrams(lines) {
        KnownFour(lines, CounterKey(l));
        GramNotCounter(CounterKey(l), l);
      }
    }
  }

  /** All three dicts as training leaves them. */
  ghost predicate TrainedAll(c: Counts, s: Seen, known: set<string>) {
    && Trained(c.malay, Malay, s.malay, known)
    && Trained(c.indonesian, Indonesian, s.indonesian, known)
    && Trained(c.tamil, Tamil, s.tamil, known)
  }

  /** From trained dicts, smoothing and log probabilities never raise, and
      each table keeps the counter and the known grams. */
  lemma BuildFromCorrect(c: Counts, s: Seen, known: set<string>, log: real -> real, l: Lang)
    requires TrainedAll(c, s, known)
    ensures BuildFrom(c, log).Ok?
    ensures ModelTable(BuildFrom(c, log).value, l).Keys == known + {CounterKey(l)}
  {
    SmoothedLogs(c.malay, Malay, s.malay, known, log);
    SmoothedLogs(c.indonesian, Indonesian, s.indonesian, known, log);
    SmoothedLogs(c.tamil, Tamil, s.tamil, known, log);
    BuildFromTable(c, log, l);
  }

  /** Each table of the built model is its dict, smoothed and logged. */
  lemma BuildFromTable(c: Counts, log: real -> real, l: Lang)
    requires BuildFrom(c, log).Ok?
    ensures CounterKey(l) in Table(c, l)
    ensures ModelTable(BuildFrom(c, log).value, l) == LogProbabilities(Smoothed(Table(c, l), CounterKey(l)), CounterKey(l), log).value
  {
    var m := BuildFrom(c, log).value;
    assert Finish(c, Malay, log).Ok? && Finish(c, Indonesian, log).Ok? && Finish(c, Tamil, log).Ok?;
    assert m == Model(Finish(c, Malay, log).value, Finish(c, Indonesian, log).value, Finish(c, Tamil, log).value);
  }

  /** A built table gives a known gram the log of its smoothed share. */
  lemma BuildFromAt(c: Counts, log: real -> real, l: Lang, grams: seq<string>, known: set<string>, g: string)
    requires BuildFrom(c, log).Ok? && Trained(Table(c, l), l, grams, known) && g in known
    ensures var p := ModelTable(BuildFrom(c, log).value, l);
      g in p && p[g] == Ln(log, Ratio(Count(grams, g) + 1, |grams| + |known|))
  {
    BuildFromTable(c, log, l);
    SmoothedLog(Table(c, l), l, grams, known, log, g);
  }

  /** The grams of each language's lines. */
  function TrainedGrams(lines: seq<TrainingLine>): (s: Seen)
    ensures forall l :: SeenOf(s, l) == LangGrams(lines, l)
  {
    Seen(LangGrams(lines, Malay), LangGrams(lines, Indonesian), LangGrams(lines, Tamil))
  }

  /** Once the lines are split, `build_LM` never raises, and each
      language's table holds its counter and exactly the known 4-grams. */
  lemma BuildLMCorrect(lines: seq<TrainingLine>, log: real -> real, l: Lang)
    ensures BuildLM(lines, log).Ok?
    ensures ModelTable(BuildLM(lines, log).value, l).Keys == KnownGrams(lines) + {CounterKey(l)}
  {
    TrainedTable(lines, Malay);
    TrainedTable(lines, Indonesian);
    TrainedTable(lines, Tamil);
    BuildFromCorrect(CountLines(InitialCounts(), lines).value, TrainedGrams(lines), KnownGrams(lines), log, l);
  }

  /** `build_LM` from the training file's lines: it raises exactly when a
      line is blank, with IndexError, and otherwise each table holds its
      counter and exactly the 4-grams of the labelled sentences. */
  lemma BuildLMFromTextCorrect(raw: seq<string>, log: real -> real, l: Lang)
    ensures var r := BuildLMFromText(raw, log);
      && (r.Ok? <==> forall k :: 0 <= k < |raw| ==> !QueryParser.Blank(raw[k]))
      && (r.Err? ==> r.error == IndexError)
      && (r.Ok? ==> ModelTable(r.value, l).Keys == KnownGrams(ParseLines(raw).value) + {CounterKey(l)})
  {
    var p := ParseLines(raw);
    if p.Ok? {
      BuildLMCorrect(p.value, log, l);
      assert BuildLMFromText(raw, log) == BuildLM(p.value, log);
    } else {
      assert BuildLMFromText(raw, log) == Err(p.error);
    }
  }

  // ---------------------------------------------------------------------
  // Testing (test_LM, lines 135-166)
  // ---------------------------------------------------------------------

  /** The loop over a test line's 4-grams: a gram `malay_dict` knows adds
      its log probability in each language; reading it from another table
      raises if that table lacks it. */
  function Score(m: Model, grams: seq<string>, mp: real, ip: real, tp: real): Result<(real, real, real), string>
    decreases |grams|
  {
    if grams == [] then Ok((mp, ip, tp))
    else
      var g := grams[0];
      if g in m.malay then
        if g !in m.indonesian || g !in m.tamil then Err(KeyError)
        else Score(m, grams[1..], mp + m.malay[g], ip + m.indonesian[g], tp + m.tamil[g])
      else Score(m, grams[1..], mp, ip, tp)
  }

  /** `max(a, b, c)`. */
  function Max3(a: real, b: real, c: real): real {
    var ab := if b > a then b else a;
    if c > ab then c else ab
  }

  /** The label rule of lines 151-163. */
  function ChooseLabel(mp: real, ip: real, tp: real): string {
    var best := Max3(mp, ip, tp);
    if best == 1.0 then "other"
    else if mp == best then "malaysian"
    else if ip == best then "indonesian"
    else if tp == best then "tamil"
    else "other"
  }

  /** The label rule without `max`: `other` exactly when the best score is
      1; otherwise the first language, in the order malay, indonesian,
      tamil, whose score no other exceeds. The last `else` never fires. */
  lemma ChooseLabelMeaning(mp: real, ip: real, tp: real)
    ensures var top := mp <= 1.0 && ip <= 1.0 && tp <= 1.0 && (mp == 1.0 || ip == 1.0 || tp == 1.0);
      && (ChooseLabel(mp, ip, tp) == "other" <==> top)
      && (ChooseLabel(mp, ip, tp) == "malaysian" <==> !top && mp >= ip && mp >= tp)
      && (ChooseLabel(mp, ip, tp) == "indonesian" <==> !top && ip > mp && ip >= tp)
      && (ChooseLabel(mp, ip, tp) == "tamil" <==> !top && tp > mp && tp > ip)
  {
  }

  /** A test line and its 4-grams: the chosen label, a space, the line. */
  function TestLine(m: Model, line: string): Result<string, string> {
    match Score(m, NGrams(line, GramSize), 1.0, 1.0, 1.0)
    case Err(e) => Err(e)
    case Ok(p) => Ok(ChooseLabel(p.0, p.1, p.2) + " " + line)
  }

  /** `test_LM` without the files: the output text for all lines. */
  function TestLM(m: Model, lines: seq<string>): Result<string, string>
    decreases |lines|
  {
    if lines == [] then Ok("")
    else
      match TestLine(m, lines[0])
      case Err(e) => Err(e)
      case Ok(out) =>
        match TestLM(m, lines[1..])
        case Err(e) => Err(e)
        case Ok(rest) => Ok(out + rest)
  }

  /** Scores add up gram by gram: scoring a concatenation scores the second
      part from where the first left off. */
  lemma {:induction false} ScoreAppend(m: Model, a: seq<string>, b: seq<string>, mp: real, ip: real, tp: real)
    ensures Score(m, a + b, mp, ip, tp) ==
      match Score(m, a, mp, ip, tp)
      case Err(e) => Err(e)
      case Ok(p) => Score(m, b, p.0, p.1, p.2)
    decreases |a|
  {
    if a == [] {
      assert a + b == b;
    } else {
      assert (a + b)[0] == a[0] && (a + b)[1..] == a[1..] + b;
      var g := a[0];
      if g in m.malay && g in m.indonesian && g in m.tamil {
        ScoreAppend(m, a[1..], b, mp + m.malay[g], ip + m.indonesian[g], tp + m.tamil[g]);
      } else if g !in m.malay {
        ScoreAppend(m, a[1..], b, mp, ip, tp);
      }
    }
  }

  /** A line none of whose 4-grams was seen in training keeps all three
      scores at 1 and is labelled `other`. */
  lemma {:induction false} NoKnownGram(m: Model, grams: seq<string>, mp: real, ip: real, tp: real)
    requires forall i :: 0 <= i < |grams| ==> grams[i] !in m.malay
    ensures Score(m, grams, mp, ip, tp) == Ok((mp, ip, tp))
    decreases |grams|
  {
    if grams != [] {
      NoKnownGram(m, grams[1..], mp, ip, tp);
    }
  }

  lemma UnknownLineIsOther(m: Model, line: string)
    requires forall i :: 0 <= i < |NGrams(line, GramSize)| ==> NGrams(line, GramSize)[i] !in m.malay
    ensures TestLine(m, line) == Ok("other " + line)
  {
    NoKnownGram(m, NGrams(line, GramSize), 1.0, 1.0, 1.0);
    assert ChooseLabel(1.0, 1.0, 1.0) == "other";
    assert "other" + " " == "other ";
  }

  /** The three tables know the same 4-grams. */
  ghost predicate SameGrams(m: Model) {
    forall g :: |g| == GramSize ==> (g in m.malay <==> g in m.indonesian) && (g in m.malay <==> g in m.tamil)
  }

  /** With tables that know the same 4-grams, scoring never raises. */
  lemma {:induction false} ScoreOk(m: Model, grams: seq<string>, mp: real, ip: real, tp: real)
    requires SameGrams(m) && forall g :: g in grams ==> |g| == GramSize
    ensures Score(m, grams, mp, ip, tp).Ok?
    decreases |grams|
  {
    if grams != [] {
      var g := grams[0];
      if g in m.malay {
        ScoreOk(m, grams[1..], mp + m.malay[g], ip + m.indonesian[g], tp + m.tamil[g]);
      } else {
        ScoreOk(m, grams[1..], mp, ip, tp);
      }
    }
  }

  /** A model `build_LM` produces knows the same 4-grams in all three
      tables. */
  lemma BuiltSameGrams(lines: seq<TrainingLine>, log: real -> real)
    ensures BuildLM(lines, log).Ok?
    ensures SameGrams(BuildLM(lines, log).value)
  {
    forall l ensures BuildLM(lines, log).Ok? && ModelTable(BuildLM(lines, log).value, l).Keys == KnownGrams(lines) + {CounterKey(l)} {
      BuildLMCorrect(lines, log, l);
    }
    BuildLMCorrect(lines, log, Malay);
    KeysSameGrams(BuildLM(lines, log).value, KnownGrams(lines));
  }

  /** Tables whose keys are the same grams plus each one's counter know the
      same 4-grams. */
  lemma KeysSameGrams(m: Model, known: set<string>)
    requires forall l :: ModelTable(m, l).Keys == known + {CounterKey(l)}
    ensures SameGrams(m)
  {
    assert m.malay.Keys == ModelTable(m, Malay).Keys;
    assert m.indonesian.Keys == ModelTable(m, Indonesian).Keys;
    assert m.tamil.Keys == ModelTable(m, Tamil).Keys;
    forall g | |g| == GramSize
      ensures (g in m.malay <==> g in m.indonesian) && (g in m.malay <==> g in m.tamil)
    {
      GramNotCounter(g, Malay);
      GramNotCounter(g, Indonesian);
      GramNotCounter(g, Tamil);
    }
  }

  /** Testing any lines with a model `build_LM` builds from split lines never raises. */
  lemma TrainedModelTests(lines: seq<TrainingLine>, log: real -> real, tests: seq<string>)
    ensures BuildLM(lines, log).Ok?
    ensures TestLM(BuildLM(lines, log).value, tests).Ok?
  {
    BuiltSameGrams(lines, log);
    TestLMOk(BuildLM(lines, log).value, tests);
  }

  lemma {:induction false} TestLMOk(m: Model, tests: seq<string>)
    requires SameGrams(m)
    ensures TestLM(m, tests).Ok?
    decreases |tests|
  {
    if tests != [] {
      GramsAreFour(tests[0]);
      ScoreOk(m, NGrams(tests[0], GramSize), 1.0, 1.0, 1.0);
      TestLMOk(m, tests[1..]);
    }
  }
}

=== FILE: ngrams.dfy ===
/** Character n-grams as both HW1 (`build_LM`, `test_LM`) and HW4
    (`create_ngram`) compute them: `[s[i:i + n] for i in range(len(s) - n + 1)]`.
    Python's slice rules are written out, so the model also covers the
    `n <= 0` inputs the comprehension accepts. */
module Grams {

  /** Python's bound normalisation for a slice of a sequence of length `len`:
      a negative index counts from the end, and the result is clamped to
      `[0, len]`. */
  function SliceBound(i: int, len: nat): (r: nat)
    ensures r <= len
    ensures 0 <= i <= len ==> r == i
  {
    if i < 0 then (if i + len < 0 then 0 else i + len)
    else if i > len then len
    else i
  }

  /** `s[a:b]`. */
  function PySlice<T>(s: seq<T>, a: int, b: int): (r: seq<T>)
    ensures 0 <= a <= b <= |s| ==> r == s[a..b]
  {
    var lo := SliceBound(a, |s|);
    var hi := SliceBound(b, |s|);
    if hi <= lo then [] else s[lo..hi]
  }

  /** `len(range(k))`. */
  function RangeLength(k: int): nat {
    if k < 0 then 0 else k
  }

  /** The comprehension itself. */
  function NGrams<T>(s: seq<T>, n: int): (r: seq<seq<T>>)
    ensures |r| == RangeLength(|s| - n + 1)
  {
    seq(RangeLength(|s| - n + 1), i requires 0 <= i < RangeLength(|s| - n + 1) => PySlice(s, i, i + n))
  }

  /** For a positive `n`, there is one gram per window start, each exactly
      the `n` elements starting there, and no gram when `s` is shorter than
      `n`; neighbouring windows overlap in all but one element. */
  lemma NGramsWindows<T>(s: seq<T>, n: int)
    requires n >= 1
    ensures |NGrams(s, n)| == (if |s| >= n then |s| - n + 1 else 0)
    ensures forall i :: 0 <= i < |NGrams(s, n)| ==> NGrams(s, n)[i] == s[i..i + n] && |NGrams(s, n)[i]| == n
    ensures forall i :: 0 <= i && i + 1 < |NGrams(s, n)| ==> NGrams(s, n)[i][1..] == NGrams(s, n)[i + 1][..n - 1]
  {
    var gs := NGrams(s, n);
    forall i | 0 <= i < |gs| ensures gs[i] == s[i..i + n] && |gs[i]| == n {
      assert gs[i] == PySlice(s, i, i + n);
    }
  }

  /** With `n == 0` the comprehension yields `len(s) + 1` empty strings; with a
      negative `n` it yields even more grams than `s` has elements. */
  lemma NGramsNonPositive<T>(s: seq<T>, n: int)
    requires n <= 0
    ensures |NGrams(s, n)| == |s| - n + 1 > |s|
    ensures n == 0 ==> forall i :: 0 <= i < |NGrams(s, n)| ==> NGrams(s, n)[i] == []
  {
  }

  /** A concrete case of the negative-`n` behaviour: `"abc"` with `n == -1`
      gives `["ab", "", "", "", ""]`. */
  lemma NegativeN()
    ensures NGrams("abc", -1) == ["ab", "", "", "", ""]
  {
    assert PySlice("abc", 0, -1) == "ab";
  }

  /** Rebuild the text from its windows: the first window, then the last
      element of every later window. */
  function Reassemble<T>(gs: seq<seq<T>>): seq<T> {
    if |gs| == 0 then []
    else if |gs| == 1 then gs[0]
    else
      var g := gs[|gs| - 1];
      Reassemble(gs[..|gs| - 1]) + (if g == [] then [] else [g[|g| - 1]])
  }

  /** The windows of a text at least `n` long determine it: reassembling
      them gives the text back. */
  lemma {:induction false} ReassembleNGrams<T>(s: seq<T>, n: int)
    requires n >= 1 && |s| >= n
    ensures Reassemble(NGrams(s, n)) == s
    decreases |s|
  {
    NGramsWindows(s, n);
    var gs := NGrams(s, n);
    if |s| == n {
      assert gs == [s[0..n]];
      assert s[0..n] == s;
    } else {
      var s' := s[..|s| - 1];
      NGramsWindows(s', n);
      assert forall i :: 0 <= i < |gs| - 1 ==> gs[i] == s'[i..i + n];
      assert gs[..|gs| - 1] == NGrams(s', n);
      ReassembleNGrams(s', n);
      var g := gs[|gs| - 1];
      assert g == s[|s| - n..|s|];
      assert s == s' + [g[|g| - 1]];
    }
  }
}

=== FILE: phrase_search.dfy ===
/** HW4's search side (HW4/search.py): the skip-pointer intersection of two
    written lists, the positional intersection used for phrases, and
    `handle_phrase_query`, which orders a phrase's lists by document
    frequency before intersecting them. A written list is a sequence of
    `SkipEntry` values (`[doc_id, count, positions, skip]`). Reading lists
    from the postings file is a lookup in `PositionalFiles.lists`. */
module PhraseSearch {
  import opened Base
  import opened TermIds
  import opened RankedIndex
  import opened PositionalIndex
  import opened PositionalIndexFacts
  import opened PositionalBuild
  import opened Weights

  /** The document ids of a list, in order. */
  function Docs(s: seq<SkipEntry>): (r: seq<int>)
    ensures |r| == |s|
  {
    seq(|s|, i requires 0 <= i < |s| => s[i].doc)
  }

  /** Every skip pointer leads forwards and stays inside the list, as the
      pointers `add_skip_ptrs` writes do. */
  predicate ForwardSkips(s: seq<SkipEntry>) {
    forall i :: 0 <= i < |s| ==> s[i].skip == 0 || i < s[i].skip < |s|
  }

  /** A list the merge can walk: pointers lead forwards and documents are in
      increasing order. */
  predicate Walkable(s: seq<SkipEntry>) {
    ForwardSkips(s) && StrictlyIncreasing(Docs(s))
  }

  // ---------------------------------------------------------------------
  // handle_boolean_query
  // ---------------------------------------------------------------------

  /** The `while` loop of `handle_boolean_query` from indices `ai`, `bi` with
      `acc` collected so far. A match keeps `a`'s entry (and `b`'s when
      `both`) and moves only in `a`; otherwise the smaller side moves, along
      the NEXT entry's skip pointer when that pointer's target is not past
      the other side's document, and the loop returns early when the smaller
      side is on its last entry. */
  function MergeFrom(a: seq<SkipEntry>, b: seq<SkipEntry>, both: bool, ai: nat, bi: nat, acc: seq<SkipEntry>)
    : (r: seq<SkipEntry>)
    requires ForwardSkips(a) && ForwardSkips(b) && ai <= |a| && bi <= |b|
    ensures both && |acc| % 2 == 0 ==> |r| % 2 == 0
    decreases |a| - ai + |b| - bi
  {
    if ai == |a| || bi == |b| then acc
    else if a[ai].doc == b[bi].doc then
      MergeFrom(a, b, both, ai + 1, bi, acc + (if both then [a[ai], b[bi]] else [a[ai]]))
    else if a[ai].doc < b[bi].doc then
      if ai + 1 == |a| then acc
      else if a[ai + 1].skip != 0 && b[bi].doc - a[a[ai + 1].skip].doc >= 0 then
        MergeFrom(a, b, both, a[ai + 1].skip, bi, acc)
      else MergeFrom(a, b, both, ai + 1, bi, acc)
    else
      if bi + 1 == |b| then acc
      else if b[bi + 1].skip != 0 && a[ai].doc - b[b[bi + 1].skip].doc >= 0 then
        MergeFrom(a, b, both, ai, b[bi + 1].skip, acc)
      else MergeFrom(a, b, both, ai, bi + 1, acc)
  }

  /** `handle_boolean_query(a, b, save_both_docs)`. */
  function HandleBooleanQuery(a: seq<SkipEntry>, b: seq<SkipEntry>, both: bool): (r: seq<SkipEntry>)
    requires ForwardSkips(a) && ForwardSkips(b)
    ensures both ==> |r| % 2 == 0
  {
    if a == [] || b == [] then [] else MergeFrom(a, b, both, 0, 0, [])
  }

  /** The first entry of `s` for document `doc`, if any. */
  function Lookup(s: seq<SkipEntry>, doc: int): (r: Option<SkipEntry>)
    ensures r.Some? <==> doc in Docs(s)
    ensures r.Some? ==> r.value in s && r.value.doc == doc
  {
    if s == [] then None
    else
      assert Docs(s) == [s[0].doc] + Docs(s[1..]);
      if s[0].doc == doc then Some(s[0]) else Lookup(s[1..], doc)
  }

  /** In a list with distinct documents, looking up an entry's document finds
      that entry. */
  lemma {:induction false} LookupFinds(s: seq<SkipEntry>, j: nat)
    requires StrictlyIncreasing(Docs(s)) && j < |s|
    ensures Lookup(s, s[j].doc) == Some(s[j])
    decreases j
  {
    if j > 0 {
      assert Docs(s)[0] < Docs(s)[j];
      assert StrictlyIncreasing(Docs(s[1..])) by {
        assert forall k :: 0 <= k < |s| - 1 ==> Docs(s[1..])[k] == Docs(s)[k + 1];
      }
      LookupFinds(s[1..], j - 1);
    }
  }

  /** What `a`'s entry `x` contributes to the intersection. */
  function Emit(x: SkipEntry, b: seq<SkipEntry>, both: bool): seq<SkipEntry> {
    match Lookup(b, x.doc)
    case None => []
    case Some(y) => if both then [x, y] else [x]
  }

  /** The intersection as a reference definition: `a`'s entries whose
      document `b` holds, in `a`'s order, each followed by `b`'s entry when
      `both`. */
  function Common(a: seq<SkipEntry>, b: seq<SkipEntry>, both: bool): seq<SkipEntry>
    decreases |a|
  {
    if a == [] then [] else Common(a[..|a| - 1], b, both) + Emit(a[|a| - 1], b, both)
  }

  /** Entries of `a` from `i` to `k` whose documents are not in `b` add
      nothing to the intersection. */
  lemma {:induction false} CommonSkip(a: seq<SkipEntry>, b: seq<SkipEntry>, both: bool, i: nat, k: nat)
    requires i <= k <= |a|
    requires forall j :: i <= j < k ==> a[j].doc !in Docs(b)
    ensures Common(a[..k], b, both) == Common(a[..i], b, both)
    decreases k
  {
    if k > i {
      assert a[..k][..k - 1] == a[..k - 1];
      CommonSkip(a, b, both, i, k - 1);
    }
  }

  /** The merge's loop invariant: `acc` is the intersection of `a`'s entries
      before `ai`, and every document of `b` before `bi` is below `a[ai]`. */
  lemma {:induction false} MergeFromCorrect(a: seq<SkipEntry>, b: seq<SkipEntry>, both: bool, ai: nat, bi: nat,
                                            acc: seq<SkipEntry>)
    requires Walkable(a) && Walkable(b) && ai <= |a| && bi <= |b|
    requires acc == Common(a[..ai], b, both)
    requires ai < |a| ==> forall j :: 0 <= j < bi ==> b[j].doc < a[ai].doc
    ensures MergeFrom(a, b, both, ai, bi, acc) == Common(a, b, both)
    decreases |a| - ai + |b| - bi
  {
    assert a[..|a|] == a;
    if ai == |a| {
    } else if bi == |b| || (a[ai].doc > b[bi].doc && bi + 1 == |b|) {
      forall j | ai <= j < |a| ensures a[j].doc !in Docs(b) {
        assert Docs(a)[ai] <= Docs(a)[j];
        forall k | 0 <= k < |b| ensures b[k].doc < a[j].doc {
          if k == bi {
          } else {
            assert k < bi;
          }
        }
      }
      CommonSkip(a, b, both, ai, |a|);
    } else if a[ai].doc == b[bi].doc {
      LookupFinds(b, bi);
      assert a[..ai + 1][..ai] == a[..ai];
      if ai + 1 < |a| {
        assert Docs(a)[ai] < Docs(a)[ai + 1];
      }
      MergeFromCorrect(a, b, both, ai + 1, bi, acc + (if both then [a[ai], b[bi]] else [a[ai]]));
    } else if a[ai].doc < b[bi].doc {
      assert a[ai].doc !in Docs(b) by {
        forall k | 0 <= k < |b| ensures b[k].doc != a[ai].doc {
          if k >= bi {
            assert Docs(b)[bi] <= Docs(b)[k];
          }
        }
      }
      if ai + 1 == |a| {
        CommonSkip(a, b, both, ai, |a|);
      } else {
        var s := if a[ai + 1].skip != 0 && b[bi].doc - a[a[ai + 1].skip].doc >= 0 then a[ai + 1].skip else ai + 1;
        forall j | ai <= j < s ensures a[j].doc !in Docs(b) {
          if j > ai {
            assert Docs(a)[j] < Docs(a)[s];
            forall k | 0 <= k < |b| ensures b[k].doc != a[j].doc {
              if k >= bi {
                assert Docs(b)[bi] <= Docs(b)[k];
              } else {
                assert Docs(a)[ai] < Docs(a)[j];
              }
            }
          }
        }
        CommonSkip(a, b, both, ai, s);
        forall j | 0 <= j < bi ensures b[j].doc < a[s].doc {
          assert Docs(a)[ai] < Docs(a)[s];
        }
        MergeFromCorrect(a, b, both, s, bi, acc);
      }
    } else {
      var s := if b[bi + 1].skip != 0 && a[ai].doc - b[b[bi + 1].skip].doc >= 0 then b[bi + 1].skip else bi + 1;
      forall j | 0 <= j < s ensures b[j].doc < a[ai].doc {
        if bi <= j < s && s != bi + 1 {
          assert Docs(b)[j] < Docs(b)[s];
        }
      }
      MergeFromCorrect(a, b, both, ai, s, acc);
    }
  }

  /** On walkable lists the skip pointers change nothing: the merge is the
      intersection, `a`'s entries whose document `b` holds, each followed by
      `b`'s entry for it when `save_both_docs` is set. */
  lemma HandleBooleanQueryCorrect(a: seq<SkipEntry>, b: seq<SkipEntry>, both: bool)
    requires Walkable(a) && Walkable(b)
    ensures HandleBooleanQuery(a, b, both) == Common(a, b, both)
  {
    if a == [] {
    } else if b == [] {
      CommonSkip(a, b, both, 0, |a|);
      assert a[..|a|] == a;
    } else {
      MergeFromCorrect(a, b, both, 0, 0, []);
    }
  }

  /** Read as sets, the plain intersection holds exactly the entries of `a`
      whose documents are also in `b`. */
  lemma {:induction false} CommonMembers(a: seq<SkipEntry>, b: seq<SkipEntry>)
    ensures forall x :: x in Common(a, b, false) <==> x in a && x.doc in Docs(b)
    decreases |a|
  {
    if a != [] {
      var a' := a[..|a| - 1];
      CommonMembers(a', b);
      assert a == a' + [a[|a| - 1]];
    }
  }

  // ---------------------------------------------------------------------
  // phrase_intersection
  // ---------------------------------------------------------------------

  /** `[y for x in xs for y in ys if x == y - 1]`, in the loops' order. */
  function Follow(xs: seq<int>, ys: seq<int>): (r: seq<int>)
    decreases |xs|
  {
    if xs == [] then [] else Successors(xs[0], ys) + Follow(xs[1..], ys)
  }

  /** The positions of `ys` one after `x`. */
  function Successors(x: int, ys: seq<int>): (r: seq<int>)
    decreases |ys|
  {
    if ys == [] then [] else (if x == ys[0] - 1 then [ys[0]] else []) + Successors(x, ys[1..])
  }

  lemma {:induction false} SuccessorsMembers(x: int, ys: seq<int>)
    ensures forall q :: q in Successors(x, ys) <==> q in ys && q == x + 1
    decreases |ys|
  {
    if ys != [] {
      SuccessorsMembers(x, ys[1..]);
      assert ys == [ys[0]] + ys[1..];
    }
  }

  /** A position is kept exactly when the second word is there and the first
      word is one before it. */
  lemma {:induction false} FollowMembers(xs: seq<int>, ys: seq<int>)
    ensures forall q :: q in Follow(xs, ys) <==> q in ys && q - 1 in xs
    decreases |xs|
  {
    if xs != [] {
      SuccessorsMembers(xs[0], ys);
      FollowMembers(xs[1..], ys);
      assert xs == [xs[0]] + xs[1..];
    }
  }

  /** The entry the loop body writes for one merged pair, if the pair's
      document is relevant. */
  function Keep(x: SkipEntry, y: SkipEntry): seq<SkipEntry> {
    var ps := Follow(x.positions, y.positions);
    if ps != [] then [SkipEntry(x.doc, 0, ps, 0)] else []
  }

  /** The `while` loop over the merged list, two entries at a time. Lists
      the merge produces with `save_both_docs` always have even length. */
  function PairWalk(merged: seq<SkipEntry>): (r: seq<SkipEntry>)
    requires |merged| % 2 == 0
    ensures forall i :: 0 <= i < |r| ==> r[i].skip == 0
    decreases |merged|
  {
    if merged == [] then []
    else PairWalk(merged[..|merged| - 2]) + Keep(merged[|merged| - 2], merged[|merged| - 1])
  }

  /** `phrase_intersection(p_1, p_2)`. */
  function PhraseIntersection(p1: seq<SkipEntry>, p2: seq<SkipEntry>): (r: seq<SkipEntry>)
    requires ForwardSkips(p1) && ForwardSkips(p2)
    ensures ForwardSkips(r)
  {
    PairWalk(HandleBooleanQuery(p1, p2, true))
  }

  /** The positions list `s` holds for document `doc` (none when absent). */
  function PositionsOf(s: seq<SkipEntry>, doc: int): seq<int> {
    match Lookup(s, doc)
    case None => []
    case Some(e) => e.positions
  }

  /** Phrase intersection as a reference definition, one step per entry of
      `a`. */
  function PhraseRef(a: seq<SkipEntry>, b: seq<SkipEntry>): seq<SkipEntry>
    decreases |a|
  {
    if a == [] then []
    else
      var x := a[|a| - 1];
      PhraseRef(a[..|a| - 1], b) + (match Lookup(b, x.doc) case None => [] case Some(y) => Keep(x, y))
  }

  lemma {:induction false} PairWalkCommon(a: seq<SkipEntry>, b: seq<SkipEntry>)
    ensures |Common(a, b, true)| % 2 == 0
    ensures PairWalk(Common(a, b, true)) == PhraseRef(a, b)
    decreases |a|
  {
    if a != [] {
      var a' := a[..|a| - 1];
      PairWalkCommon(a', b);
      PairWalkEmit(Common(a', b, true), a[|a| - 1], b);
    }
  }

  /** One more entry of `a`: the pair it emits, if any, is walked as one
      step. */
  lemma PairWalkEmit(c: seq<SkipEntry>, x: SkipEntry, b: seq<SkipEntry>)
    requires |c| % 2 == 0
    ensures |c + Emit(x, b, true)| % 2 == 0
    ensures PairWalk(c + Emit(x, b, true))
      == PairWalk(c) + (match Lookup(b, x.doc) case None => [] case Some(y) => Keep(x, y))
  {
    var e := Emit(x, b, true);
    if e != [] {
      assert (c + e)[..|c + e| - 2] == c;
    } else {
      assert c + e == c;
    }
  }

  lemma {:induction false} LookupAppend(s: seq<SkipEntry>, t: seq<SkipEntry>, doc: int)
    ensures Lookup(s + t, doc) == if Lookup(s, doc).Some? then Lookup(s, doc) else Lookup(t, doc)
    decreases |s|
  {
    if s != [] {
      assert (s + t)[0] == s[0];
      assert (s + t)[1..] == s[1..] + t;
      LookupAppend(s[1..], t, doc);
    } else {
      assert s + t == t;
    }
  }

  lemma PrefixIncreasing(s: seq<SkipEntry>, n: nat)
    requires StrictlyIncreasing(Docs(s)) && n <= |s|
    ensures StrictlyIncreasing(Docs(s[..n]))
  {
    assert forall k :: 0 <= k < n ==> Docs(s[..n])[k] == Docs(s)[k];
  }

  /** In a list with increasing documents, the last document is above all
      the others. */
  lemma LastAbove(a: seq<SkipEntry>, x: SkipEntry)
    requires StrictlyIncreasing(Docs(a + [x]))
    ensures forall t :: t in Docs(a) ==> t < x.doc
  {
    forall t | t in Docs(a) ensures t < x.doc {
      var i :| 0 <= i < |a| && Docs(a)[i] == t;
      assert Docs(a + [x])[i] < Docs(a + [x])[|a|];
    }
  }

  /** The reference phrase intersection writes entries for documents of `a`
      only, with count and pointer 0 and at least one position. */
  lemma {:induction false} PhraseRefEntries(a: seq<SkipEntry>, b: seq<SkipEntry>)
    ensures forall e :: e in PhraseRef(a, b) ==> e.doc in Docs(a) && e.count == 0 && e.skip == 0 && e.positions != []
    decreases |a|
  {
    if a != [] {
      var a' := a[..|a| - 1];
      PhraseRefEntries(a', b);
      forall e | e in PhraseRef(a', b) ensures e.doc in Docs(a) {
        var i :| 0 <= i < |a'| && Docs(a')[i] == e.doc;
        assert Docs(a)[i] == e.doc;
      }
      assert Docs(a)[|a| - 1] == a[|a| - 1].doc;
    }
  }

  /** The reference phrase intersection keeps `a`'s increasing order of
      documents. */
  lemma {:induction false} PhraseRefIncreasing(a: seq<SkipEntry>, b: seq<SkipEntry>)
    requires StrictlyIncreasing(Docs(a))
    ensures StrictlyIncreasing(Docs(PhraseRef(a, b)))
    decreases |a|
  {
    if a != [] {
      var a' := a[..|a| - 1];
      var x := a[|a| - 1];
      PrefixIncreasing(a, |a| - 1);
      PhraseRefIncreasing(a', b);
      PhraseRefEntries(a', b);
      assert a == a' + [x];
      LastAbove(a', x);
      var r' := PhraseRef(a', b);
      var k := match Lookup(b, x.doc) case None => [] case Some(y) => Keep(x, y);
      var r := r' + k;
      assert PhraseRef(a, b) == r;
      forall i, j | 0 <= i < j < |r| ensures Docs(r)[i] < Docs(r)[j] {
        if j >= |r'| {
          assert r[i] in r';
        } else {
          assert Docs(r')[i] < Docs(r')[j];
        }
      }
    }
  }

  /** One step of the reference phrase intersection, for one document `d`:
      appending an entry of a new document `x` keeps the positions of every
      document. */
  lemma PhraseRefPositionsStep(a: seq<SkipEntry>, x: SkipEntry, b: seq<SkipEntry>, d: int)
    requires x.doc !in Docs(a) && x.doc !in Docs(PhraseRef(a, b))
    requires forall q :: q in PositionsOf(PhraseRef(a, b), d) <==> q in PositionsOf(b, d) && q - 1 in PositionsOf(a, d)
    ensures forall q :: q in PositionsOf(PhraseRef(a + [x], b), d) <==> q in PositionsOf(b, d) && q - 1 in PositionsOf(a + [x], d)
  {
    if d == x.doc {
      PhraseRefNewDoc(a, x, b);
    } else {
      PhraseRefOtherDoc(a, x, b, d);
    }
  }

  /** The step's own entry, if `b` holds its document. */
  function KeepFor(x: SkipEntry, b: seq<SkipEntry>): seq<SkipEntry> {
    match Lookup(b, x.doc) case None => [] case Some(y) => Keep(x, y)
  }

  lemma PhraseRefSnoc(a: seq<SkipEntry>, x: SkipEntry, b: seq<SkipEntry>)
    ensures PhraseRef(a + [x], b) == PhraseRef(a, b) + KeepFor(x, b)
  {
    assert (a + [x])[..|a + [x]| - 1] == a;
  }

  /** The new last entry's document: its positions are those of the new
      entry, and the phrase positions there are its followers in `b`. */
  lemma PhraseRefNewDoc(a: seq<SkipEntry>, x: SkipEntry, b: seq<SkipEntry>)
    requires x.doc !in Docs(a) && x.doc !in Docs(PhraseRef(a, b))
    ensures forall q :: q in PositionsOf(PhraseRef(a + [x], b), x.doc) <==> q in PositionsOf(b, x.doc) && q - 1 in PositionsOf(a + [x], x.doc)
  {
    var r' := PhraseRef(a, b);
    var k := KeepFor(x, b);
    var d := x.doc;
    PhraseRefSnoc(a, x, b);
    LookupAppend(r', k, d);
    LookupAppend(a, [x], d);
    assert Lookup(r', d) == None && Lookup(a, d) == None;
    assert PositionsOf(a + [x], d) == x.positions;
    match Lookup(b, d)
    case None =>
      assert PositionsOf(r' + k, d) == [];
    case Some(y) =>
      FollowMembers(x.positions, y.positions);
      assert PositionsOf(r' + k, d) == Follow(x.positions, y.positions);
  }

  /** Any other document: neither side changes. */
  lemma PhraseRefOtherDoc(a: seq<SkipEntry>, x: SkipEntry, b: seq<SkipEntry>, d: int)
    requires d != x.doc
    ensures PositionsOf(PhraseRef(a + [x], b), d) == PositionsOf(PhraseRef(a, b), d)
    ensures PositionsOf(a + [x], d) == PositionsOf(a, d)
  {
    var r' := PhraseRef(a, b);
    var k := KeepFor(x, b);
    PhraseRefSnoc(a, x, b);
    LookupAppend(r', k, d);
    LookupAppend(a, [x], d);
    assert Lookup(k, d).None? && Lookup([x], d).None?;
  }

  lemma NewLastDoc(a: seq<SkipEntry>, x: SkipEntry, b: seq<SkipEntry>)
    requires StrictlyIncreasing(Docs(a + [x]))
    ensures x.doc !in Docs(a) && x.doc !in Docs(PhraseRef(a, b))
  {
    PhraseRefEntries(a, b);
    LastAbove(a, x);
    var r := PhraseRef(a, b);
    forall i | 0 <= i < |r| ensures Docs(r)[i] != x.doc {
      assert r[i] in r;
    }
  }

  lemma {:induction false} PhraseRefPositionsAt(a: seq<SkipEntry>, b: seq<SkipEntry>, d: int)
    requires StrictlyIncreasing(Docs(a))
    ensures forall q :: q in PositionsOf(PhraseRef(a, b), d) <==> q in PositionsOf(b, d) && q - 1 in PositionsOf(a, d)
    decreases |a|
  {
    if a != [] {
      var a' := a[..|a| - 1];
      var x := a[|a| - 1];
      assert a == a' + [x];
      PrefixIncreasing(a, |a| - 1);
      PhraseRefPositionsAt(a', b, d);
      NewLastDoc(a', x, b);
      PhraseRefPositionsStep(a', x, b, d);
    }
  }

  lemma PhraseRefPositions(a: seq<SkipEntry>, b: seq<SkipEntry>)
    requires StrictlyIncreasing(Docs(a))
    ensures forall d, q :: q in PositionsOf(PhraseRef(a, b), d) <==> q in PositionsOf(b, d) && q - 1 in PositionsOf(a, d)
  {
    forall d ensures forall q :: q in PositionsOf(PhraseRef(a, b), d) <==> q in PositionsOf(b, d) && q - 1 in PositionsOf(a, d) {
      PhraseRefPositionsAt(a, b, d);
    }
  }

  /** `phrase_intersection` on walkable lists: its result is again walkable
      (every pointer 0, documents increasing), and for every document its
      positions are exactly those of the second list that directly follow a
      position of the first. */
  lemma PhraseIntersectionMeaning(p1: seq<SkipEntry>, p2: seq<SkipEntry>)
    requires Walkable(p1) && Walkable(p2)
    ensures var r := PhraseIntersection(p1, p2);
      && Walkable(r)
      && (forall e :: e in r ==> e.doc in Docs(p1) && e.count == 0 && e.positions != [])
      && (forall d, q :: q in PositionsOf(r, d) <==> q in PositionsOf(p2, d) && q - 1 in PositionsOf(p1, d))
  {
    HandleBooleanQueryCorrect(p1, p2, true);
    PairWalkCommon(p1, p2);
    PhraseRefEntries(p1, p2);
    PhraseRefIncreasing(p1, p2);
    PhraseRefPositions(p1, p2);
    var r := PhraseIntersection(p1, p2);
    forall i | 0 <= i < |r| ensures r[i].skip == 0 {
      assert r[i] in r;
    }
  }

  // ---------------------------------------------------------------------
  // handle_phrase_query
  // ---------------------------------------------------------------------

  /** `s.split(c)`: the pieces between separators, empty ones included. */
  function SplitOn(s: string, c: char): (r: seq<string>)
    ensures |r| >= 1
    decreases |s|
  {
    if s == [] then [[]]
    else
      var rest := SplitOn(s[1..], c);
      if s[0] == c then [[]] + rest else [[s[0]] + rest[0]] + rest[1..]
  }

  /** `c.join(parts)`. */
  function JoinWith(parts: seq<string>, c: char): string
    requires |parts| >= 1
    decreases |parts|
  {
    if |parts| == 1 then parts[0] else parts[0] + [c] + JoinWith(parts[1..], c)
  }

  /** Splitting loses nothing: the pieces hold no separator and joining them
      gives the text back. */
  lemma {:induction false} SplitJoin(s: string, c: char)
    ensures JoinWith(SplitOn(s, c), c) == s
    ensures forall p :: p in SplitOn(s, c) ==> c !in p
    decreases |s|
  {
    if s != [] {
      var rest := SplitOn(s[1..], c);
      SplitJoin(s[1..], c);
      if s[0] == c {
        assert SplitOn(s, c)[1..] == rest;
        assert s == [c] + s[1..];
      } else {
        var r := SplitOn(s, c);
        if |rest| == 1 {
          assert s == [s[0]] + rest[0];
        } else {
          assert r[1..] == rest[1..];
          assert JoinWith(rest, c) == rest[0] + [c] + JoinWith(rest[1..], c);
          assert s == [s[0]] + rest[0] + [c] + JoinWith(rest[1..], c);
        }
        forall p | p in r ensures c !in p {
          if p == r[0] {
            assert rest[0] in rest;
          } else {
            assert p in rest;
          }
        }
      }
    }
  }

  /** Text without the separator is one piece. */
  lemma {:induction false} SplitOnNone(s: string, c: char)
    requires c !in s
    ensures SplitOn(s, c) == [s]
    decreases |s|
  {
    if s != [] {
      SplitOnNone(s[1..], c);
      assert s == [s[0]] + s[1..];
    }
  }

  /** The piece before the first separator comes first. */
  lemma {:induction false} SplitOnFirst(a: string, b: string, c: char)
    requires c !in a
    ensures SplitOn(a + [c] + b, c) == [a] + SplitOn(b, c)
    decreases |a|
  {
    if a == [] {
      assert a + [c] + b == [c] + b;
      assert ([c] + b)[1..] == b;
    } else {
      SplitOnFirst(a[1..], b, c);
      assert (a + [c] + b)[1..] == a[1..] + [c] + b;
      assert a == [a[0]] + a[1..];
    }
  }

  /** A phrase term paired with its document frequency, the tuple
      `zip(term_frequencies, postings)` yields. */
  type TermLists = (nat, seq<SkipEntry>)

  /** Three-way comparison of Python values: -1, 0 or 1 as `x < y`, `x == y`
      or `x > y`. */
  function CmpInt(x: int, y: int): int {
    if x < y then -1 else if x == y then 0 else 1
  }

  /** Python's comparison of two lists of integers: the first differing
      element decides, and a proper prefix is smaller. */
  function CmpInts(a: seq<int>, b: seq<int>): int
    decreases |a|
  {
    if a == [] then (if b == [] then 0 else -1)
    else if b == [] then 1
    else if a[0] != b[0] then CmpInt(a[0], b[0])
    else CmpInts(a[1..], b[1..])
  }

  /** Comparison of two written entries `[doc_id, count, positions, skip]`. */
  function CmpEntry(x: SkipEntry, y: SkipEntry): int {
    if x.doc != y.doc then CmpInt(x.doc, y.doc)
    else if x.count != y.count then CmpInt(x.count, y.count)
    else if x.positions != y.positions then CmpInts(x.positions, y.positions)
    else CmpInt(x.skip, y.skip)
  }

  /** Comparison of two written lists, entry by entry. */
  function CmpList(a: seq<SkipEntry>, b: seq<SkipEntry>): int
    decreases |a|
  {
    if a == [] then (if b == [] then 0 else -1)
    else if b == [] then 1
    else if a[0] != b[0] then CmpEntry(a[0], b[0])
    else CmpList(a[1..], b[1..])
  }

  /** Comparison of two `(df, postings)` tuples: df first, the lists on a
      tie. */
  function CmpTerm(x: TermLists, y: TermLists): int {
    if x.0 != y.0 then CmpInt(x.0, y.0) else CmpList(x.1, y.1)
  }

  lemma {:induction false} CmpIntsFlip(a: seq<int>, b: seq<int>)
    ensures CmpInts(a, b) == -CmpInts(b, a)
    decreases |a|
  {
    if a != [] && b != [] && a[0] == b[0] {
      CmpIntsFlip(a[1..], b[1..]);
    }
  }

  lemma CmpEntryFlip(x: SkipEntry, y: SkipEntry)
    ensures CmpEntry(x, y) == -CmpEntry(y, x)
  {
    CmpIntsFlip(x.positions, y.positions);
  }

  lemma {:induction false} CmpListFlip(a: seq<SkipEntry>, b: seq<SkipEntry>)
    ensures CmpList(a, b) == -CmpList(b, a)
    decreases |a|
  {
    if a != [] && b != [] {
      if a[0] != b[0] {
        CmpEntryFlip(a[0], b[0]);
      } else {
        CmpListFlip(a[1..], b[1..]);
      }
    }
  }

  /** Swapping the operands negates the comparison, so of two tuples one is
      always at most the other. */
  lemma CmpTermFlip(x: TermLists, y: TermLists)
    ensures CmpTerm(x, y) == -CmpTerm(y, x)
  {
    CmpListFlip(x.1, y.1);
  }

  /** Each tuple is at most its successor. */
  predicate SortedTerms(s: seq<TermLists>) {
    forall i :: 0 <= i && i + 1 < |s| ==> CmpTerm(s[i], s[i + 1]) <= 0
  }

  /** `x` inserted into a sorted sequence before the first element it does
      not exceed. */
  function Insert(x: TermLists, s: seq<TermLists>): (r: seq<TermLists>)
    ensures multiset(r) == multiset(s) + multiset{x}
    ensures s != [] ==> r[0] == x || r[0] == s[0]
    decreases |s|
  {
    if s == [] then [x]
    else if CmpTerm(x, s[0]) <= 0 then [x] + s
    else
      assert s == [s[0]] + s[1..];
      [s[0]] + Insert(x, s[1..])
  }

  /** Insertion keeps a sorted sequence sorted. */
  lemma {:induction false} InsertSorted(x: TermLists, s: seq<TermLists>)
    requires SortedTerms(s)
    ensures SortedTerms(Insert(x, s))
    decreases |s|
  {
    if s != [] && CmpTerm(x, s[0]) > 0 {
      CmpTermFlip(x, s[0]);
      var rest := Insert(x, s[1..]);
      InsertSorted(x, s[1..]);
      assert SortedTerms(s[1..]) by {
        forall i | 0 <= i && i + 1 < |s[1..]| ensures CmpTerm(s[1..][i], s[1..][i + 1]) <= 0 {
          assert s[1..][i] == s[i + 1] && s[1..][i + 1] == s[i + 2];
        }
      }
      var r := [s[0]] + rest;
      forall i | 0 <= i && i + 1 < |r| ensures CmpTerm(r[i], r[i + 1]) <= 0 {
        if i > 0 {
          assert r[i] == rest[i - 1] && r[i + 1] == rest[i];
        }
      }
    }
  }

  /** `sorted(...)` of the tuples: a permutation of its input in which each
      tuple is at most the next. */
  function SortTerms(s: seq<TermLists>): (r: seq<TermLists>)
    ensures multiset(r) == multiset(s)
    ensures SortedTerms(r)
    decreases |s|
  {
    if s == [] then []
    else
      assert s == [s[0]] + s[1..];
      InsertSorted(s[0], SortTerms(s[1..]));
      Insert(s[0], SortTerms(s[1..]))
  }

  /** After the sort the document frequencies never decrease. */
  lemma {:induction false} SortedByDf(s: seq<TermLists>)
    requires SortedTerms(s)
    ensures forall i, j :: 0 <= i <= j < |s| ==> s[i].0 <= s[j].0
    decreases |s|
  {
    if |s| > 1 {
      SortedByDf(s[..|s| - 1]);
      forall i, j | 0 <= i <= j < |s| ensures s[i].0 <= s[j].0 {
        if j == |s| - 1 && i < j {
          assert s[..|s| - 1][i].0 <= s[..|s| - 1][|s| - 2].0;
          assert CmpTerm(s[|s| - 2], s[|s| - 1]) <= 0;
        } else if i < j {
          assert s[..|s| - 1][i].0 <= s[..|s| - 1][j].0;
        }
      }
    }
  }

  /** Every written list of the index has forward pointers. */
  predicate ListsForward(f: PositionalFiles) {
    forall id :: id in f.lists ==> ForwardSkips(f.lists[id])
  }

  /** `add_skip_ptrs` over a whole dict writes forward pointers. */
  lemma SkipPtrsForward(pl: OrderedMap<seq<int>>, len: nat)
    requires len == |pl.keys| && len > 0
    ensures AddSkipPtrs(pl, len).Ok? && ForwardSkips(AddSkipPtrs(pl, len).value)
  {
    SkipDistancePositive(len);
  }

  /** Every list `build_index` writes has forward pointers. */
  lemma BuiltListsForward(m: Maths, rows: seq<Row>)
    requires BuildPositional(m, rows).Ok?
    ensures ListsForward(BuildPositional(m, rows).value)
  {
    var done := ProcessRows(m, EmptyPosIndex(), map[], Head(rows)).value;
    var ix := done.0;
    forall id | id in ix.postings ensures ForwardSkips(WriteLists(ix).value[id]) {
      SkipPtrsForward(ix.postings[id], |ix.postings[id].keys|);
    }
  }

  /** `search_dictionary` then `search_term` for one phrase term: an unknown
      term or an empty list ends the query with no result (`None`); a term
      id missing from the dictionary or the postings raises. */
  function TermList(f: PositionalFiles, term: string): (r: Result<Option<TermLists>, string>)
    ensures r.Ok? && r.value.Some? ==>
      && term in f.table.toId && f.table.toId[term] in f.df && f.table.toId[term] in f.lists
      && r.value.value == (f.df[f.table.toId[term]], f.lists[f.table.toId[term]])
      && r.value.value.1 != []
  {
    if term !in f.table.toId then Ok(None)
    else
      var id := f.table.toId[term];
      if id !in f.df || id !in f.lists then Err(KeyError)
      else if f.lists[id] == [] then Ok(None)
      else Ok(Some((f.df[id], f.lists[id])))
  }

  /** The loop over the phrase's terms: the `(df, postings)` tuple of every
      term in order, unless some term ends the query first. */
  function Gather(f: PositionalFiles, terms: seq<string>): (r: Result<Option<seq<TermLists>>, string>)
    ensures r.Ok? && r.value.Some? ==>
      && |r.value.value| == |terms|
      && forall i :: 0 <= i < |terms| ==> TermList(f, terms[i]) == Ok(Some(r.value.value[i]))
    decreases |terms|
  {
    if terms == [] then Ok(Some([]))
    else
      match TermList(f, terms[0])
      case Err(e) => Err(e)
      case Ok(None) => Ok(None)
      case Ok(Some(p)) =>
        match Gather(f, terms[1..])
        case Err(e) => Err(e)
        case Ok(None) => Ok(None)
        case Ok(Some(ps)) => Ok(Some([p] + ps))
  }

  lemma GatherCons(f: PositionalFiles, t: string, rest: seq<string>, p: TermLists, ps: seq<TermLists>)
    requires TermList(f, t) == Ok(Some(p)) && Gather(f, rest) == Ok(Some(ps))
    ensures Gather(f, [t] + rest) == Ok(Some([p] + ps))
  {
    assert ([t] + rest)[0] == t && ([t] + rest)[1..] == rest;
  }

  /** The lists of some tuples, in order. */
  function ListsOf(ps: seq<TermLists>): (r: seq<seq<SkipEntry>>)
    ensures |r| == |ps|
  {
    seq(|ps|, i requires 0 <= i < |ps| => ps[i].1)
  }

  /** Two or three lists are intersected left to right; any other number
      gives no result. */
  function IntersectLists(ls: seq<seq<SkipEntry>>): seq<SkipEntry>
    requires forall i :: 0 <= i < |ls| ==> ForwardSkips(ls[i])
  {
    if |ls| == 2 then PhraseIntersection(ls[0], ls[1])
    else if |ls| == 3 then PhraseIntersection(PhraseIntersection(ls[0], ls[1]), ls[2])
    else []
  }

  /** Gathered lists come from the index, so their pointers lead forwards. */
  lemma GatheredForward(f: PositionalFiles, ps: seq<TermLists>, terms: seq<string>)
    requires ListsForward(f)
    requires Gather(f, terms) == Ok(Some(ps))
    ensures forall p :: p in ps ==> ForwardSkips(p.1)
  {
    forall p | p in ps ensures ForwardSkips(p.1) {
      var i :| 0 <= i < |ps| && ps[i] == p;
      assert TermList(f, terms[i]) == Ok(Some(p));
    }
  }

  /** `handle_phrase_query` as written: the lists are ordered by document
      frequency before they are intersected. */
  function HandlePhraseQuery(f: PositionalFiles, phrase: string): Result<seq<SkipEntry>, string>
    requires ListsForward(f)
  {
    var terms := SplitOn(phrase, '%');
    match Gather(f, terms)
    case Err(e) => Err(e)
    case Ok(None) => Ok([])
    case Ok(Some(ps)) =>
      var sorted := SortTerms(ps);
      GatheredForward(f, ps, terms);
      assert forall i :: 0 <= i < |sorted| ==> sorted[i] in multiset(ps);
      Ok(IntersectLists(ListsOf(sorted)))
  }

  /** `handle_phrase_query` with the lists intersected in the phrase's own
      word order. */
  function HandlePhraseQueryInOrder(f: PositionalFiles, phrase: string): Result<seq<SkipEntry>, string>
    requires ListsForward(f)
  {
    var terms := SplitOn(phrase, '%');
    match Gather(f, terms)
    case Err(e) => Err(e)
    case Ok(None) => Ok([])
    case Ok(Some(ps)) =>
      GatheredForward(f, ps, terms);
      Ok(IntersectLists(ListsOf(ps)))
  }

  /** Every written list of the index can be walked by the merge. */
  predicate ListsWalkable(f: PositionalFiles) {
    forall id :: id in f.lists ==> Walkable(f.lists[id])
  }

  /** Read against a document's tokens: when two lists hold the document's
      positions of `w1` and `w2`, their phrase intersection holds exactly the
      positions where `w2` directly follows `w1`. */
  lemma PhraseInText(p1: seq<SkipEntry>, p2: seq<SkipEntry>, d: int, content: seq<string>, w1: string, w2: string)
    requires Walkable(p1) && Walkable(p2)
    requires PositionsOf(p1, d) == Positions(content, w1) && PositionsOf(p2, d) == Positions(content, w2)
    ensures forall q :: q in PositionsOf(PhraseIntersection(p1, p2), d) <==>
      2 <= q <= |content| && content[q - 2] == w1 && content[q - 1] == w2
  {
    PhraseIntersectionMeaning(p1, p2);
    PositionsFacts(content, w1);
    PositionsFacts(content, w2);
    forall q | 2 <= q <= |content| && content[q - 2] == w1 && content[q - 1] == w2
      ensures q in PositionsOf(PhraseIntersection(p1, p2), d)
    {
      assert q - 1 in Positions(content, w1);
      assert q in Positions(content, w2);
    }
  }

  /** The corrected query on a two-word phrase whose words both have lists:
      for every document, the result holds exactly the positions of the
      second word that directly follow the first. */
  lemma PhraseInOrderTwo(f: PositionalFiles, phrase: string, w1: string, w2: string, t1: TermLists, t2: TermLists)
    requires ListsWalkable(f)
    requires SplitOn(phrase, '%') == [w1, w2]
    requires TermList(f, w1) == Ok(Some(t1)) && TermList(f, w2) == Ok(Some(t2))
    ensures ListsForward(f) && HandlePhraseQueryInOrder(f, phrase).Ok?
    ensures forall d, q :: q in PositionsOf(HandlePhraseQueryInOrder(f, phrase).value, d) <==>
      q in PositionsOf(t2.1, d) && q - 1 in PositionsOf(t1.1, d)
  {
    GatherCons(f, w2, [], t2, []);
    assert [w2] + [] == [w2] && [t2] + [] == [t2];
    GatherCons(f, w1, [w2], t1, [t2]);
    assert [w1] + [w2] == [w1, w2] && [t1] + [t2] == [t1, t2];
    PhraseIntersectionMeaning(t1.1, t2.1);
  }

  /** The corrected query on a three-word phrase: a position is kept exactly
      when the three words occur there in the phrase's order, ending at it. */
  lemma PhraseInOrderThree(f: PositionalFiles, phrase: string, w1: string, w2: string, w3: string,
                           t1: TermLists, t2: TermLists, t3: TermLists)
    requires ListsWalkable(f)
    requires SplitOn(phrase, '%') == [w1, w2, w3]
    requires TermList(f, w1) == Ok(Some(t1)) && TermList(f, w2) == Ok(Some(t2)) && TermList(f, w3) == Ok(Some(t3))
    ensures ListsForward(f) && HandlePhraseQueryInOrder(f, phrase).Ok?
    ensures forall d, q :: q in PositionsOf(HandlePhraseQueryInOrder(f, phrase).value, d) <==>
      q in PositionsOf(t3.1, d) && q - 1 in PositionsOf(t2.1, d) && q - 2 in PositionsOf(t1.1, d)
  {
    GatherCons(f, w3, [], t3, []);
    assert [w3] + [] == [w3] && [t3] + [] == [t3];
    GatherCons(f, w2, [w3], t2, [t3]);
    assert [w2] + [w3] == [w2, w3] && [t2] + [t3] == [t2, t3];
    GatherCons(f, w1, [w2, w3], t1, [t2, t3]);
    assert [w1] + [w2, w3] == [w1, w2, w3] && [t1] + [t2, t3] == [t1, t2, t3];
    PhraseIntersectionMeaning(t1.1, t2.1);
    var inner := PhraseIntersection(t1.1, t2.1);
    PhraseIntersectionMeaning(inner, t3.1);
  }

  /** A phrase with an unknown word, or with other than two or three words,
      gives no documents. */
  lemma PhraseQueryEmpty(f: PositionalFiles, phrase: string)
    requires ListsForward(f)
    requires (exists w :: w in SplitOn(phrase, '%') && w !in f.table.toId) || |SplitOn(phrase, '%')| !in {2, 3}
    ensures HandlePhraseQuery(f, phrase).Ok? ==> HandlePhraseQuery(f, phrase).value == []
    ensures HandlePhraseQueryInOrder(f, phrase).Ok? ==> HandlePhraseQueryInOrder(f, phrase).value == []
  {
    var terms := SplitOn(phrase, '%');
    match Gather(f, terms)
    case Err(_) =>
    case Ok(None) =>
    case Ok(Some(ps)) =>
      forall w | w in terms ensures w in f.table.toId {
        var i :| 0 <= i < |terms| && terms[i] == w;
        assert TermList(f, terms[i]) == Ok(Some(ps[i]));
      }
      assert |SortTerms(ps)| == |ps| by {
        assert |multiset(SortTerms(ps))| == |multiset(ps)|;
      }
  }

  /** Sorting tuples that are already in order leaves them in place. */
  lemma {:induction false} SortKeepsSorted(s: seq<TermLists>)
    requires SortedTerms(s)
    ensures SortTerms(s) == s
    decreases |s|
  {
    if s != [] {
      SortKeepsSorted(s[1..]);
      if |s| > 1 {
        assert CmpTerm(s[0], s[1]) <= 0;
      }
    }
  }

  /** When the phrase's words already come in order of document frequency,
      the query as written and the corrected one agree. */
  lemma AgreeWhenDfOrdered(f: PositionalFiles, phrase: string, ps: seq<TermLists>)
    requires ListsForward(f)
    requires Gather(f, SplitOn(phrase, '%')) == Ok(Some(ps)) && SortedTerms(ps)
    ensures HandlePhraseQuery(f, phrase) == HandlePhraseQueryInOrder(f, phrase)
  {
    SortKeepsSorted(ps);
  }

  /** The list of "new": documents 1 and 2, position 1 in each. */
  function NewList(): seq<SkipEntry> {
    [SkipEntry(1, 1, [1], 0), SkipEntry(2, 1, [1], 0)]
  }

  /** The list of "york": document 1, position 2. */
  function YorkList(): seq<SkipEntry> {
    [SkipEntry(1, 1, [2], 0)]
  }

  /** The written index for the rows `1: "new york"` and `2: "new"`: "new"
      has id 1 and df 2, "york" id 2 and df 1; lists this short carry no
      skip pointers. */
  function NewYorkFiles(): PositionalFiles {
    PositionalFiles(
      TermTable(map["new" := 1, "york" := 2], map[1 := "new", 2 := "york"], 3),
      map[1 := 2, 2 := 1],
      map[1 := NewList(), 2 := YorkList()],
      map[])
  }

  lemma NewYorkGathered()
    ensures Gather(NewYorkFiles(), SplitOn("new%york", '%')) == Ok(Some([(2, NewList()), (1, YorkList())]))
  {
    var f := NewYorkFiles();
    var tn := (2, NewList());
    var ty := (1, YorkList());
    NewYorkSplit();
    NewYorkTerms();
    GatherCons(f, "york", [], ty, []);
    assert ["york"] + [] == ["york"] && [ty] + [] == [ty];
    GatherCons(f, "new", ["york"], tn, [ty]);
    assert ["new"] + ["york"] == ["new", "york"] && [tn] + [ty] == [tn, ty];
  }

  lemma NewYorkForward()
    ensures ListsForward(NewYorkFiles())
  {
    var f := NewYorkFiles();
    assert ForwardSkips(NewList()) && ForwardSkips(YorkList());
    assert f.lists.Keys == {1, 2};
    forall id | id in f.lists ensures ForwardSkips(f.lists[id]) {
      assert id == 1 || id == 2;
    }
  }

  lemma NewYorkSplit()
    ensures SplitOn("new%york", '%') == ["new", "york"]
  {
    assert "new%york" == "new" + ['%'] + "york";
    SplitOnFirst("new", "york", '%');
    SplitOnNone("york", '%');
  }

  lemma NewYorkTerms()
    ensures TermList(NewYorkFiles(), "york") == Ok(Some((1, YorkList())))
    ensures TermList(NewYorkFiles(), "new") == Ok(Some((2, NewList())))
  {
  }


  /** "new" before "york": document 1 holds the phrase, ending at 2. */
  lemma NewThenYork()
    ensures PhraseIntersection(NewList(), YorkList()) == [SkipEntry(1, 0, [2], 0)]
  {
    var a := NewList();
    var b := YorkList();
    assert MergeFrom(a, b, true, 1, 0, [a[0], b[0]]) == [a[0], b[0]];
    assert HandleBooleanQuery(a, b, true) == [a[0], b[0]];
    assert Follow([1], [2]) == [2];
    assert [a[0], b[0]][..0] == [];
  }

  /** "york" before "new": no document has "new" right after "york". */
  lemma YorkThenNew()
    ensures PhraseIntersection(YorkList(), NewList()) == []
  {
    var a := YorkList();
    var b := NewList();
    assert HandleBooleanQuery(a, b, true) == [a[0], b[0]];
    assert Follow([2], [1]) == [];
    assert [a[0], b[0]][..0] == [];
  }

  /** Ordered by df, "york" comes first. */
  lemma NewYorkSorted()
    ensures SortTerms([(2, NewList()), (1, YorkList())]) == [(1, YorkList()), (2, NewList())]
    ensures ListsOf([(1, YorkList()), (2, NewList())]) == [YorkList(), NewList()]
    ensures ListsOf([(2, NewList()), (1, YorkList())]) == [NewList(), YorkList()]
  {
    var tn: TermLists, ty: TermLists := (2, NewList()), (1, YorkList());
    assert [tn, ty][1..] == [ty];
    assert SortTerms([ty]) == [ty] by {
      assert [ty][1..] == [];
    }
    assert CmpTerm(tn, ty) > 0;
    assert Insert(tn, [ty]) == [ty] + Insert(tn, []);
  }


  /** The phrase "new york": ordered by df, "york" (df 1) comes before "new"
      (df 2), so the query as written looks for "york new" and finds
      nothing, while document 1 holds the phrase, as the corrected query
      reports. */
  lemma PhraseOrderLost()
    ensures ListsForward(NewYorkFiles())
    ensures HandlePhraseQuery(NewYorkFiles(), "new%york") == Ok([])
    ensures HandlePhraseQueryInOrder(NewYorkFiles(), "new%york") == Ok([SkipEntry(1, 0, [2], 0)])
  {
    NewYorkForward();
    NewYorkGathered();
    NewYorkSorted();
    YorkThenNew();
    NewThenYork();
  }
}

=== FILE: positional_build.dfy ===
/** HW4's `build_index` as a whole: skip pointers point forward by one fixed
    distance and exist exactly when a list has at least four documents;
    indexing a row whose document id is new keeps the index well formed; so
    a CSV whose first twenty rows have distinct document ids is indexed
    without raising, every term's df is the number of documents in its
    written list, and every row's length is its weighted length. */
module PositionalBuild {
  import opened Base
  import opened TermIds
  import opened Weights
  import opened RankedIndex
  import opened RankedIndexFacts
  import opened PositionalIndex
  import opened PositionalIndexFacts

  // ---------------------------------------------------------------------
  // add_skip_ptrs
  // ---------------------------------------------------------------------

  /** A quotient of a positive number by a divisor no larger than it. */
  lemma QuotientBounds(a: int, b: int)
    requires 1 <= b <= a
    ensures 1 <= a / b <= a
  {
    var q := a / b;
    var rr := a % b;
    assert a == q * b + rr && 0 <= rr < b;
  }

  lemma SkipDistancePositive(len: nat)
    requires len > 0
    ensures 1 <= SkipDistance(len) <= len
  {
    var r := ISqrt(len);
    assert r * r <= len < (r + 1) * (r + 1);
    assert r >= 1;
    assert r <= r * r;
    QuotientBounds(len, r);
  }

  /** One entry per document of the dict, in its order, carrying the
      document's positions and their number; a pointer is set exactly at the
      indices that are multiples of the skip distance and have an entry that
      far ahead (the `!= L - 1` test never decides anything), and then leads
      exactly that far ahead. */
  lemma SkipPtrsMeaning(pl: OrderedMap<seq<int>>, len: nat)
    requires ValidOrderedMap(pl) && len > 0
    ensures AddSkipPtrs(pl, len).Ok?
    ensures var r := AddSkipPtrs(pl, len).value;
      var d := SkipDistance(len);
      && |r| == |pl.keys|
      && forall i :: 0 <= i < |r| ==>
           && r[i].doc == pl.keys[i]
           && pl.keys[i] in pl.values
           && r[i].positions == pl.values[pl.keys[i]]
           && r[i].count == |r[i].positions|
           && (r[i].skip != 0 <==> i % d == 0 && i + d < len)
           && (r[i].skip != 0 ==> r[i].skip == i + d && i < r[i].skip < len)
  {
    SkipDistancePositive(len);
    var r := AddSkipPtrs(pl, len).value;
    forall i | 0 <= i < |r| ensures pl.keys[i] in pl.values {
      assert pl.keys[i] in pl.keys;
    }
  }

  /** From four documents on, the skip distance is shorter than the list. */
  lemma DistanceBelowLength(len: nat)
    requires len >= 4
    ensures SkipDistance(len) < len
  {
    ISqrtAtLeastTwo(len);
    QuotientBelow(len, ISqrt(len));
  }

  lemma {:induction false} QuotientBelow(a: int, b: int)
    requires a >= 1 && b >= 2
    ensures a / b < a
  {
    var q := a / b;
    assert q * b + a % b == a && 0 <= a % b;
    assert q >= 0;
    MulMono(q, 2, b);
  }

  lemma {:induction false} MulMono(x: nat, y: int, z: int)
    requires y <= z
    ensures x * y <= x * z
    decreases x
  {
    if x > 0 {
      MulMono(x - 1, y, z);
      assert x * y == (x - 1) * y + y && x * z == (x - 1) * z + z;
    }
  }

  /** Below four documents, the skip distance is the whole length. */
  lemma DistanceIsLength(len: nat)
    requires 1 <= len < 4
    ensures SkipDistance(len) == len
  {
    ISqrtAtLeastTwo(len);
    SkipDistancePositive(len);
    assert ISqrt(len) == 1;
  }

  /** A list of `len` documents gets at least one skip pointer exactly when
      `len >= 4`. */
  lemma SkipPointersIffFour(pl: OrderedMap<seq<int>>, len: nat)
    requires ValidOrderedMap(pl) && len > 0 && |pl.keys| == len
    ensures AddSkipPtrs(pl, len).Ok?
    ensures (exists i :: 0 <= i < len && AddSkipPtrs(pl, len).value[i].skip != 0) <==> len >= 4
  {
    SkipPtrsMeaning(pl, len);
    var r := AddSkipPtrs(pl, len).value;
    var d := SkipDistance(len);
    if len >= 4 {
      DistanceBelowLength(len);
      assert r[0].skip != 0;
    } else {
      DistanceIsLength(len);
      forall i | 0 <= i < len ensures r[i].skip == 0 {
      }
    }
  }

  // ---------------------------------------------------------------------
  // Rows
  // ---------------------------------------------------------------------

  /** The index after the rows whose ids are `docs`: tables agree on their
      keys, every dict is well formed, non-empty, as long as its df, and
      holds only documents already read. */
  ghost predicate RowsInv(ix: PosIndex, docs: set<int>) {
    && ValidTable(ix.table)
    && ix.df.Keys == ix.postings.Keys == ix.table.toTerm.Keys
    && (forall id :: id in ix.postings ==> DictOk(ix, id, docs))
  }

  /** The dict of term `id` is well formed, non-empty, as long as its df, and
      holds only documents of `docs`. */
  ghost predicate DictOk(ix: PosIndex, id: nat, docs: set<int>)
    requires id in ix.postings
  {
    && ValidOrderedMap(ix.postings[id])
    && |ix.postings[id].keys| >= 1
    && id in ix.df && ix.df[id] == |ix.postings[id].keys|
    && (forall d :: d in ix.postings[id].values ==> d in docs)
  }

  lemma EmptyRowsInv()
    ensures RowsInv(EmptyPosIndex(), {})
  {
  }

  /** A term of the row: its dict gained the row's document at the end. */
  lemma RowTermDict(ix: PosIndex, docs: set<int>, doc: int, pl: OrderedMap<seq<int>>, id: nat, ps: seq<int>)
    requires RowsInv(ix, docs) && doc !in docs
    requires pl == Put(Before(ix, id), doc, ps)
    ensures ValidOrderedMap(pl) && |pl.keys| >= 1 && |pl.keys| == DfBefore(ix, id) + 1
    ensures forall d :: d in pl.values ==> d in docs + {doc}
  {
    if id in ix.postings {
      assert doc !in ix.postings[id].values;
    }
  }

  /** Indexing a row whose document is new keeps `RowsInv`, and its stored
      length is the row's weighted length. */
  lemma RowStep(m: Maths, ix: PosIndex, lengths: map<int, real>, docs: set<int>, row: Row)
    requires RowsInv(ix, docs) && row.doc !in docs
    ensures CreatePositionalIndex(ix, EmptyOrderedMap(), row.doc, row.content).Ok?
    ensures var r := CreatePositionalIndex(ix, EmptyOrderedMap(), row.doc, row.content).value;
      && RowsInv(r.0, docs + {row.doc})
      && CalculateDocumentWeight(m, r.1, lengths, row.doc)[row.doc] == DocLength(m, row.content)
  {
    assert DocStart(ix, row.doc);
    CreatePositionalIndexCorrect(ix, row.doc, row.content);
    var r := CreatePositionalIndex(ix, EmptyOrderedMap(), row.doc, row.content).value;
    forall id | id in r.0.postings ensures DictOk(r.0, id, docs + {row.doc}) {
      RowDict(ix, docs, row, id);
    }
  }

  /** After a new row, every dict of the index is still well formed. */
  lemma RowDict(ix: PosIndex, docs: set<int>, row: Row, id: nat)
    requires RowsInv(ix, docs) && row.doc !in docs
    requires CreatePositionalIndex(ix, EmptyOrderedMap(), row.doc, row.content).Ok?
    requires id in CreatePositionalIndex(ix, EmptyOrderedMap(), row.doc, row.content).value.0.postings
    ensures DictOk(CreatePositionalIndex(ix, EmptyOrderedMap(), row.doc, row.content).value.0, id, docs + {row.doc})
  {
    assert DocStart(ix, row.doc);
    CreatePositionalIndexCorrect(ix, row.doc, row.content);
    var r := CreatePositionalIndex(ix, EmptyOrderedMap(), row.doc, row.content).value;
    var t := r.0.table;
    var v := t.toTerm[id];
    assert v in t.toId && t.toId[v] == id;
    if v in row.content {
      RowTermDict(ix, docs, row.doc, r.0.postings[id], id, Positions(row.content, v));
      DictOfRowTerm(ix, docs, row.doc, r.0, id);
    } else {
      assert v in ix.table.toId;
      assert ix.table.toId[v] == id;
      DictKept(ix, docs, row.doc, r.0, id);
    }
  }

  /** A dict the row extended, at its new length. */
  lemma DictOfRowTerm(ix: PosIndex, docs: set<int>, doc: int, ix1: PosIndex, id: nat)
    requires id in ix1.postings && id in ix1.df
    requires var pl := ix1.postings[id];
      && ValidOrderedMap(pl) && |pl.keys| >= 1 && |pl.keys| == DfBefore(ix, id) + 1
      && (forall d :: d in pl.values ==> d in docs + {doc})
    requires ix1.df[id] == DfBefore(ix, id) + 1
    ensures DictOk(ix1, id, docs + {doc})
  {
  }

  /** A dict the row did not touch. */
  lemma DictKept(ix: PosIndex, docs: set<int>, doc: int, ix1: PosIndex, id: nat)
    requires id in ix.postings && DictOk(ix, id, docs)
    requires id in ix1.postings && id in ix1.df
    requires ix1.postings[id] == ix.postings[id] && ix1.df[id] == ix.df[id]
    ensures DictOk(ix1, id, docs + {doc})
  {
  }

  /** The document ids of some rows. Rows are not list entries, so this is a
      function of its own beside `PhraseSearch.Docs` and `BlockIndex.Docs`. */
  function DocIds(rows: seq<Row>): (r: seq<int>)
    ensures |r| == |rows|
  {
    seq(|rows|, i requires 0 <= i < |rows| => rows[i].doc)
  }

  /** Rows with new, distinct ids are all indexed without raising; each row's
      length is its weighted length, and other lengths are kept. */
  lemma {:induction false} ProcessRowsOk(m: Maths, ix: PosIndex, lengths: map<int, real>, docs: set<int>,
                                         rows: seq<Row>)
    requires RowsInv(ix, docs)
    requires Distinct(DocIds(rows)) && forall i :: 0 <= i < |rows| ==> rows[i].doc !in docs
    ensures ProcessRows(m, ix, lengths, rows).Ok?
    ensures var r := ProcessRows(m, ix, lengths, rows).value;
      && RowsInv(r.0, docs + Elements(DocIds(rows)))
      && r.1.Keys == lengths.Keys + Elements(DocIds(rows))
      && (forall i :: 0 <= i < |rows| ==> rows[i].doc in r.1 && r.1[rows[i].doc] == DocLength(m, rows[i].content))
      && (forall d :: d in lengths && d !in Elements(DocIds(rows)) ==> r.1[d] == lengths[d])
    decreases |rows|
  {
    if rows == [] {
      assert Elements(DocIds(rows)) == {};
    } else {
      var row := rows[0];
      var rest := rows[1..];
      RowStep(m, ix, lengths, docs, row);
      var c := CreatePositionalIndex(ix, EmptyOrderedMap(), row.doc, row.content).value;
      var l1 := CalculateDocumentWeight(m, c.1, lengths, row.doc);
      RestOfRows(docs, rows);
      ProcessRowsOk(m, c.0, l1, docs + {row.doc}, rest);
      assert ProcessRows(m, ix, lengths, rows) == ProcessRows(m, c.0, l1, rest);
      var r := ProcessRows(m, c.0, l1, rest).value;
      assert docs + {row.doc} + Elements(DocIds(rest)) == docs + Elements(DocIds(rows));
      forall i | 0 <= i < |rows|
        ensures rows[i].doc in r.1 && r.1[rows[i].doc] == DocLength(m, rows[i].content)
      {
        if i == 0 {
          assert row.doc in l1 && row.doc !in Elements(DocIds(rest));
        } else {
          assert rows[i] == rest[i - 1];
        }
      }
    }
  }

  /** The rows after the first still have new, distinct ids once the first
      row's id is counted as read. */
  lemma RestOfRows(docs: set<int>, rows: seq<Row>)
    requires rows != [] && Distinct(DocIds(rows)) && forall i :: 0 <= i < |rows| ==> rows[i].doc !in docs
    ensures var rest := rows[1..];
      && Distinct(DocIds(rest))
      && (forall i :: 0 <= i < |rest| ==> rest[i].doc !in docs + {rows[0].doc})
      && Elements(DocIds(rows)) == {rows[0].doc} + Elements(DocIds(rest))
      && rows[0].doc !in Elements(DocIds(rest))
  {
    var rest := rows[1..];
    assert DocIds(rows) == [rows[0].doc] + DocIds(rest);
    forall i, j | 0 <= i < j < |rest| ensures DocIds(rest)[i] != DocIds(rest)[j] {
      assert DocIds(rows)[i + 1] != DocIds(rows)[j + 1];
    }
    forall i | 0 <= i < |rest| ensures rest[i].doc != rows[0].doc {
      assert DocIds(rows)[i + 1] != DocIds(rows)[0];
    }
  }

  /** Only the first twenty rows are read: what follows them changes
      nothing. */
  lemma OnlyTwentyRows(m: Maths, rows: seq<Row>, more: seq<Row>)
    requires |rows| >= MaxRows
    ensures BuildPositional(m, rows + more) == BuildPositional(m, rows)
  {
    assert (rows + more)[..MaxRows] == rows[..MaxRows];
    assert Head(rows + more) == Head(rows);
  }

  /** After rows with distinct ids every dict is non-empty, so writing the
      lists never raises; each list is as long as its term's df. */
  lemma WriteListsOk(ix: PosIndex, docs: set<int>)
    requires RowsInv(ix, docs)
    ensures WriteLists(ix).Ok?
    ensures var lists := WriteLists(ix).value;
      && lists.Keys == ix.df.Keys
      && forall id :: id in lists ==> |lists[id]| == ix.df[id] >= 1
  {
    assert !exists id :: id in ix.postings && |ix.postings[id].keys| == 0;
    var lists := WriteLists(ix).value;
    forall id | id in lists ensures |lists[id]| == ix.df[id] >= 1 {
      SkipPtrsMeaning(ix.postings[id], |ix.postings[id].keys|);
    }
  }

  /** `build_index` on a CSV whose first twenty rows have distinct document
      ids never raises; the written lists are the skip lists of the dicts,
      one per known term, each as long as the term's df; and the lengths are
      exactly those of the rows read. */
  lemma BuildPositionalCorrect(m: Maths, rows: seq<Row>)
    requires Distinct(DocIds(Head(rows)))
    ensures BuildPositional(m, rows).Ok?
    ensures var f := BuildPositional(m, rows).value;
      && ValidTable(f.table)
      && f.lists.Keys == f.df.Keys == f.table.toTerm.Keys
      && (forall id :: id in f.lists ==> |f.lists[id]| == f.df[id] >= 1)
      && f.lengths.Keys == Elements(DocIds(Head(rows)))
      && (forall i :: 0 <= i < |Head(rows)| ==>
            Head(rows)[i].doc in f.lengths && f.lengths[Head(rows)[i].doc] == DocLength(m, Head(rows)[i].content))
  {
    var rs := Head(rows);
    EmptyRowsInv();
    ProcessRowsOk(m, EmptyPosIndex(), map[], {}, rs);
    var done := ProcessRows(m, EmptyPosIndex(), map[], rs).value;
    var docs := {} + Elements(DocIds(rs));
    assert RowsInv(done.0, docs);
    WriteListsOk(done.0, docs);
    var lists := WriteLists(done.0).value;
    assert BuildPositional(m, rows) == Ok(PositionalFiles(done.0.table, done.0.df, lists, done.1));
    assert done.1.Keys == Elements(DocIds(rs));
  }

  /** Two rows with the same document id and a common term: the second
      row's repeat of the term finds the document in the term's dict but
      not in the fresh `document_weights`, and raises. */
  lemma DuplicateDocumentRaises(m: Maths)
    ensures BuildPositional(m, [Row(7, ["a"]), Row(7, ["a"])]).Err?
  {
    var rows := [Row(7, ["a"]), Row(7, ["a"])];
    var first := AddPosition(EmptyPosIndex(), EmptyOrderedMap(), 7, 1, "a");
    assert first.Ok?;
    var ix1 := first.value.0;
    assert ["a"][1..] == [];
    assert CreatePositionalIndex(EmptyPosIndex(), EmptyOrderedMap(), 7, ["a"]) == Ok(first.value);
    assert ix1.table.toId["a"] == 1 && 1 in ix1.df && 1 in ix1.postings;
    assert 7 in ix1.postings[1].values;
    assert AddPosition(ix1, EmptyOrderedMap(), 7, 1, "a") == Err(KeyError);
    assert CreatePositionalIndex(ix1, EmptyOrderedMap(), 7, ["a"]) == Err(KeyError);
    assert Head(rows) == rows;
    assert rows[1..] == [Row(7, ["a"])];
  }
}

=== FILE: positional_index.dfy ===
/** HW4's positional indexer (HW4/index.py): each row's tokens are numbered
    from 1, every term keeps, per document, the list of positions where it
    occurs, a document frequency, and a per-document count used for the
    weighted document length. At the end every term's documents become a
    list of `[doc_id, count, positions, skip]` entries with skip pointers.
    Reading the CSV and tokenising are outside the model: a row arrives as a
    document id and its normalised tokens. Where the Python code would raise,
    the model returns `Err`. */
module PositionalIndex {
  import opened Base
  import opened TermIds
  import opened Weights
  import opened RankedIndex

  /** `dictionary` (term id to document frequency), `postings_list` (term id
      to an insertion-ordered dict from document id to positions), and the
      term table with its running `term_id`. */
  datatype PosIndex = PosIndex(
    table: TermTable,
    df: map<nat, nat>,
    postings: map<nat, OrderedMap<seq<int>>>)

  function EmptyPosIndex(): PosIndex {
    PosIndex(EmptyTable(), map[], map[])
  }

  /** Every per-term dict is a well-formed dict. */
  ghost predicate ListsValid(ix: PosIndex) {
    forall id :: id in ix.postings ==> ValidOrderedMap(ix.postings[id])
  }

  /** One token at 1-based position `pos` of document `doc` (lines 78-112):
      a term seen for the first time anywhere gets a fresh per-document dict;
      the first occurrence in this document adds the document; a repeat
      appends the position. `document_weights` follows the same three cases,
      and the last one raises when the document was indexed by an earlier
      row, since `document_weights` starts empty for every row. */
  function AddPosition(ix: PosIndex, wt: OrderedMap<nat>, doc: int, pos: int, token: string)
    : (r: Result<(PosIndex, OrderedMap<nat>), string>)
    ensures r.Ok? ==> r.value.0.table == Intern(ix.table, token)
    ensures r.Ok? && ListsValid(ix) ==> ListsValid(r.value.0)
  {
    var t := Intern(ix.table, token);
    var id := t.toId[token];
    if id !in ix.df then
      Ok((PosIndex(t, ix.df[id := 1], ix.postings[id := Put(EmptyOrderedMap(), doc, [pos])]), Put(wt, id, 1)))
    else if id !in ix.postings then Err(KeyError)
    else
      var pl := ix.postings[id];
      if doc !in pl.values then
        Ok((PosIndex(t, ix.df[id := ix.df[id] + 1], ix.postings[id := Put(pl, doc, [pos])]), Put(wt, id, 1)))
      else if id !in wt.values then Err(KeyError)
      else
        Ok((PosIndex(t, ix.df, ix.postings[id := Put(pl, doc, pl.values[doc] + [pos])]),
            Put(wt, id, wt.values[id] + 1)))
  }

  /** The tokens after the first `pos` ones, numbered from `pos + 1`. */
  function IndexPositions(ix: PosIndex, wt: OrderedMap<nat>, doc: int, tokens: seq<string>, pos: int)
    : Result<(PosIndex, OrderedMap<nat>), string>
    decreases |tokens|
  {
    if tokens == [] then Ok((ix, wt))
    else
      match AddPosition(ix, wt, doc, pos + 1, tokens[0])
      case Err(e) => Err(e)
      case Ok(next) => IndexPositions(next.0, next.1, doc, tokens[1..], pos + 1)
  }

  /** `create_positional_index`: the whole row; the `term_id` it returns is
      the table's `next` in the result. */
  function CreatePositionalIndex(ix: PosIndex, wt: OrderedMap<nat>, doc: int, content: seq<string>)
    : Result<(PosIndex, OrderedMap<nat>), string>
  {
    IndexPositions(ix, wt, doc, content, 0)
  }

  /** `calculate_document_weight`: the sum of squared tf weights of the
      row's per-term counts is stored for the document; no other length
      changes. */
  function CalculateDocumentWeight(m: Maths, wt: OrderedMap<nat>, lengths: map<int, real>, doc: int)
    : (r: map<int, real>)
    ensures r.Keys == lengths.Keys + {doc}
    ensures forall d :: d in lengths && d != doc ==> r[d] == lengths[d]
  {
    lengths[doc := SumSquaredTf(m, Values(wt))]
  }

  /** One posting of a written list: `[doc_id, count, positions, skip]`,
      where `skip` is the index of the entry the pointer leads to, or 0. */
  datatype SkipEntry = SkipEntry(doc: int, count: int, positions: seq<int>, skip: int)

  /** The pointer rule of lines 42-45 for index `i` of a list of length `len`
      with skip distance `d`. */
  function SkipAt(i: int, len: int, d: int): int
    requires d > 0
  {
    if i % d == 0 && i != len - 1 && i + d < len then i + d else 0
  }

  /** The value of a key the dict holds (a well-formed dict holds every key
      it lists). */
  function ValueAt(pl: OrderedMap<seq<int>>, k: int): seq<int> {
    if k in pl.values then pl.values[k] else []
  }

  /** `add_skip_ptrs`: floor(sqrt(L)) pointers spread floor(L / that) apart,
      one entry per document in the dict's order. A zero length makes the
      divisor zero. */
  function AddSkipPtrs(pl: OrderedMap<seq<int>>, len: nat): (r: Result<seq<SkipEntry>, string>)
    ensures r.Err? <==> len == 0
    ensures r.Ok? ==> |r.value| == |pl.keys|
  {
    var skips := ISqrt(len);
    if skips == 0 then Err(IntZeroDivision)
    else
      var d := len / skips;
      Ok(seq(|pl.keys|, i requires 0 <= i < |pl.keys| =>
        SkipEntry(pl.keys[i], |ValueAt(pl, pl.keys[i])|, ValueAt(pl, pl.keys[i]), SkipAt(i, len, d))))
  }

  /** The skip distance `add_skip_ptrs` uses for a list of length `len`. */
  function SkipDistance(len: nat): int
    requires len > 0
  {
    len / ISqrt(len)
  }

  /** One CSV row: `document_id` and the normalised tokens of `content`. */
  datatype Row = Row(doc: int, content: seq<string>)

  /** `pd.read_csv(in_file, nrows=20)`: only the first twenty rows are read. */
  const MaxRows: nat := 20

  function Head(rows: seq<Row>): (r: seq<Row>)
    ensures |r| <= MaxRows
  {
    if |rows| <= MaxRows then rows else rows[..MaxRows]
  }

  /** The row loop of `build_index` (lines 151-163): a fresh
      `document_weights` per row, the row's positions, then its length. */
  function ProcessRows(m: Maths, ix: PosIndex, lengths: map<int, real>, rows: seq<Row>)
    : Result<(PosIndex, map<int, real>), string>
    decreases |rows|
  {
    if rows == [] then Ok((ix, lengths))
    else
      match CreatePositionalIndex(ix, EmptyOrderedMap(), rows[0].doc, rows[0].content)
      case Err(e) => Err(e)
      case Ok(done) =>
        ProcessRows(m, done.0, CalculateDocumentWeight(m, done.1, lengths, rows[0].doc), rows[1..])
  }

  /** What `build_index` writes: the term table, document frequencies, one
      skip list per term and the document lengths. */
  datatype PositionalFiles = PositionalFiles(
    table: TermTable,
    df: map<nat, nat>,
    lists: map<nat, seq<SkipEntry>>,
    lengths: map<int, real>)

  /** Every term's dict becomes a skip list of its own length (lines 172-177);
      an empty dict would divide by zero. */
  function WriteLists(ix: PosIndex): Result<map<nat, seq<SkipEntry>>, string> {
    if exists id :: id in ix.postings && |ix.postings[id].keys| == 0 then Err(IntZeroDivision)
    else Ok(map id | id in ix.postings :: AddSkipPtrs(ix.postings[id], |ix.postings[id].keys|).value)
  }

  /** `build_index` without the file output. */
  function BuildPositional(m: Maths, rows: seq<Row>): Result<PositionalFiles, string> {
    match ProcessRows(m, EmptyPosIndex(), map[], Head(rows))
    case Err(e) => Err(e)
    case Ok(done) =>
      match WriteLists(done.0)
      case Err(e) => Err(e)
      case Ok(lists) => Ok(PositionalFiles(done.0.table, done.0.df, lists, done.1))
  }
}

=== FILE: positional_index_facts.dfy ===
/** What `create_positional_index` computes for one row, stated against
    reference definitions: every term of the row gets, for the row's
    document, exactly the 1-based positions where it occurs, its df grows by
    one, and its per-document count is the number of those positions; terms
    not in the row keep everything. */
module PositionalIndexFacts {
  import opened Base
  import opened TermIds
  import opened Weights
  import opened RankedIndex
  import opened RankedIndexFacts
  import opened PositionalIndex

  /** The 1-based positions of `w` in `s`, in increasing order. */
  function Positions(s: seq<string>, w: string): seq<int> {
    if s == [] then []
    else Positions(s[..|s| - 1], w) + (if s[|s| - 1] == w then [|s|] else [])
  }

  lemma PositionsSnoc(s: seq<string>, x: string, w: string)
    ensures Positions(s + [x], w) == Positions(s, w) + (if x == w then [|s| + 1] else [])
  {
    assert (s + [x])[..|s|] == s;
  }

  /** The positions are increasing, lie in `1 .. |s|`, point at `w`, include
      every occurrence of `w`, and there are as many as `w` occurs. */
  lemma {:induction false} PositionsFacts(s: seq<string>, w: string)
    ensures StrictlyIncreasing(Positions(s, w))
    ensures forall p :: p in Positions(s, w) ==> 1 <= p <= |s| && s[p - 1] == w
    ensures forall i :: 0 <= i < |s| && s[i] == w ==> i + 1 in Positions(s, w)
    ensures |Positions(s, w)| == Count(s, w)
  {
    if s != [] {
      var init := s[..|s| - 1];
      PositionsFacts(init, w);
      PositionsSnoc(init, s[|s| - 1], w);
      assert init + [s[|s| - 1]] == s;
      CountSnoc(init, s[|s| - 1], w);
      var ps := Positions(init, w);
      forall i | 0 <= i < |ps|
        ensures ps[i] <= |init|
      {
        assert ps[i] in ps;
      }
    }
  }

  /** A term's per-document dict and df before the row. */
  function Before(ix0: PosIndex, id: nat): OrderedMap<seq<int>> {
    if id in ix0.postings then ix0.postings[id] else EmptyOrderedMap()
  }

  function DfBefore(ix0: PosIndex, id: nat): nat {
    if id in ix0.df then ix0.df[id] else 0
  }

  /** The state `build_index` hands to `create_positional_index` for a
      document no earlier row had: the tables agree on their keys and no
      per-term dict holds the document yet. */
  ghost predicate DocStart(ix0: PosIndex, doc: int) {
    && ValidTable(ix0.table)
    && ix0.df.Keys == ix0.postings.Keys == ix0.table.toTerm.Keys
    && (forall id :: id in ix0.postings ==> doc !in ix0.postings[id].values)
  }

  /** After the prefix `pre` of the row: the table has interned `pre`, every
      term of `pre` has the positions it has in `pre` for this document and
      one more document in its df, and other known terms are untouched. */
  ghost predicate PosInv(ix0: PosIndex, ix: PosIndex, wt: OrderedMap<nat>, doc: int, pre: seq<string>) {
    && ix.table == InternAll(ix0.table, pre)
    && ix.df.Keys == ix.postings.Keys == ix.table.toTerm.Keys
    && WeightsInv(ix.table, wt, pre)
    && PrefixTermsInv(ix0, ix, doc, pre)
    && OtherTermsInv(ix0, ix, pre)
  }

  /** Terms of the prefix: this document's positions so far, one more df. */
  ghost predicate PrefixTermsInv(ix0: PosIndex, ix: PosIndex, doc: int, pre: seq<string>) {
    forall w :: w in pre ==>
      && w in ix.table.toId
      && ix.table.toId[w] in ix.postings && ix.table.toId[w] in ix.df
      && ix.postings[ix.table.toId[w]] == Put(Before(ix0, ix.table.toId[w]), doc, Positions(pre, w))
      && ix.df[ix.table.toId[w]] == DfBefore(ix0, ix.table.toId[w]) + 1
  }

  /** Known terms not in the prefix: untouched. */
  ghost predicate OtherTermsInv(ix0: PosIndex, ix: PosIndex, pre: seq<string>) {
    forall w :: w in ix0.table.toId && w !in pre ==>
      && ix0.table.toId[w] in ix.postings && ix0.table.toId[w] in ix.df
      && ix0.table.toId[w] in ix0.postings && ix0.table.toId[w] in ix0.df
      && ix.postings[ix0.table.toId[w]] == ix0.postings[ix0.table.toId[w]]
      && ix.df[ix0.table.toId[w]] == ix0.df[ix0.table.toId[w]]
  }

  lemma PutTwice<V>(m: OrderedMap<V>, k: int, a: V, b: V)
    ensures Put(Put(m, k, a), k, b) == Put(m, k, b)
  {
  }

  /** What one token does to the state, in all three cases. */
  function Stepped(ix0: PosIndex, ix: PosIndex, wt: OrderedMap<nat>, doc: int, pre: seq<string>, w: string)
    : (PosIndex, OrderedMap<nat>)
  {
    var t := Intern(ix.table, w);
    SteppedTo(ix0, ix, wt, doc, pre, w, t, t.toId[w])
  }

  /** The state after `w`, given the table after it and the id `w` has there. */
  function SteppedTo(ix0: PosIndex, ix: PosIndex, wt: OrderedMap<nat>, doc: int, pre: seq<string>, w: string,
                     t: TermTable, id: nat): (PosIndex, OrderedMap<nat>)
  {
    (PosIndex(t, ix.df[id := DfBefore(ix0, id) + 1],
              ix.postings[id := Put(Before(ix0, id), doc, Positions(pre + [w], w))]),
     Put(wt, id, Count(pre, w) + 1))
  }

  /** Ids of the row's table that the starting table already had. */
  lemma OldIdsKept(ix0: PosIndex, ix: PosIndex, wt: OrderedMap<nat>, doc: int, pre: seq<string>, id: nat)
    requires DocStart(ix0, doc) && PosInv(ix0, ix, wt, doc, pre)
    requires id in ix0.table.toTerm
    ensures id in ix.table.toTerm
  {
    var w := ix0.table.toTerm[id];
    assert ix.table.toId[w] == id;
  }

  lemma {:induction false} NotInPrefix(pre: seq<string>, w: string)
    requires w !in pre
    ensures Positions(pre, w) == [] && Count(pre, w) == 0
  {
    PositionsFacts(pre, w);
    CountPositiveIffMember(pre, w);
  }

  /** A term never seen before. */
  lemma StepNew(ix0: PosIndex, ix: PosIndex, wt: OrderedMap<nat>, doc: int, pre: seq<string>, w: string)
    requires ValidTable(ix.table) && ix.df.Keys == ix.table.toTerm.Keys
    requires w !in ix.table.toId && w !in pre
    requires ix.table.next !in ix0.postings && ix.table.next !in ix0.df
    ensures AddPosition(ix, wt, doc, |pre| + 1, w) == Ok(Stepped(ix0, ix, wt, doc, pre, w))
  {
    NotInPrefix(pre, w);
    PositionsSnoc(pre, w, w);
    var t := Intern(ix.table, w);
    var id := t.toId[w];
    assert id == ix.table.next && id !in ix.df;
    assert Before(ix0, id) == EmptyOrderedMap() && DfBefore(ix0, id) == 0;
    assert Positions(pre + [w], w) == [|pre| + 1];
  }

  /** A known term met for the first time in this row. */
  lemma StepFirstInDoc(ix0: PosIndex, ix: PosIndex, wt: OrderedMap<nat>, doc: int, pre: seq<string>, w: string)
    requires w in ix.table.toId && w !in pre
    requires var id := ix.table.toId[w];
      && id in ix.df && id in ix.postings && id in ix0.postings && id in ix0.df
      && ix.postings[id] == ix0.postings[id] && ix.df[id] == ix0.df[id]
      && doc !in ix0.postings[id].values
    ensures AddPosition(ix, wt, doc, |pre| + 1, w) == Ok(Stepped(ix0, ix, wt, doc, pre, w))
  {
    NotInPrefix(pre, w);
    PositionsSnoc(pre, w, w);
    var t := Intern(ix.table, w);
    var id := t.toId[w];
    assert t == ix.table;
    assert Before(ix0, id) == ix.postings[id] && DfBefore(ix0, id) == ix.df[id];
    assert Positions(pre + [w], w) == [|pre| + 1];
  }

  /** The third case of `AddPosition`, spelled out. */
  lemma AddPositionRepeat(ix: PosIndex, wt: OrderedMap<nat>, doc: int, pos: int, w: string)
    requires w in ix.table.toId
    requires var id := ix.table.toId[w];
      id in ix.df && id in ix.postings && doc in ix.postings[id].values && id in wt.values
    ensures var id := ix.table.toId[w];
      var pl := ix.postings[id];
      AddPosition(ix, wt, doc, pos, w)
        == Ok((PosIndex(ix.table, ix.df, ix.postings[id := Put(pl, doc, pl.values[doc] + [pos])]),
               Put(wt, id, wt.values[id] + 1)))
  {
    assert Intern(ix.table, w) == ix.table;
  }

  /** `Stepped` for a term the table already knows: the table stays. */
  lemma SteppedKnown(ix0: PosIndex, ix: PosIndex, wt: OrderedMap<nat>, doc: int, pre: seq<string>, w: string)
    requires w in ix.table.toId
    ensures Stepped(ix0, ix, wt, doc, pre, w) == SteppedTo(ix0, ix, wt, doc, pre, w, ix.table, ix.table.toId[w])
  {
    assert Intern(ix.table, w) == ix.table;
  }

  /** A term already met in this row. */
  lemma StepRepeat(ix0: PosIndex, ix: PosIndex, wt: OrderedMap<nat>, doc: int, pre: seq<string>, w: string)
    requires w in ix.table.toId
    requires var id := ix.table.toId[w];
      && id in ix.df && id in ix.postings
      && ix.postings[id] == Put(Before(ix0, id), doc, Positions(pre, w))
      && ix.df[id] == DfBefore(ix0, id) + 1
      && id in wt.values && wt.values[id] == Count(pre, w)
    ensures AddPosition(ix, wt, doc, |pre| + 1, w) == Ok(Stepped(ix0, ix, wt, doc, pre, w))
  {
    var id := ix.table.toId[w];
    var pl := ix.postings[id];
    RepeatList(pl, Before(ix0, id), doc, pre, w);
    var list := Put(pl, doc, pl.values[doc] + [|pre| + 1]);
    var weights := Put(wt, id, Count(pre, w) + 1);
    AddPositionRepeat(ix, wt, doc, |pre| + 1, w);
    assert AddPosition(ix, wt, doc, |pre| + 1, w) == Ok((PosIndex(ix.table, ix.df, ix.postings[id := list]), weights));
    SteppedKnown(ix0, ix, wt, doc, pre, w);
    UpdateSame(ix.df, id, DfBefore(ix0, id) + 1);
    assert SteppedTo(ix0, ix, wt, doc, pre, w, ix.table, id) == (PosIndex(ix.table, ix.df, ix.postings[id := list]), weights);
  }

  /** Appending the next position to a document's list of a term. */
  lemma RepeatList(pl: OrderedMap<seq<int>>, before: OrderedMap<seq<int>>, doc: int, pre: seq<string>, w: string)
    requires pl == Put(before, doc, Positions(pre, w))
    ensures doc in pl.values
    ensures Put(pl, doc, pl.values[doc] + [|pre| + 1]) == Put(before, doc, Positions(pre + [w], w))
  {
    PositionsSnoc(pre, w, w);
    PutTwice(before, doc, Positions(pre, w), Positions(pre + [w], w));
  }

  lemma ValidTableAfter(ix0: PosIndex, ix: PosIndex, wt: OrderedMap<nat>, doc: int, pre: seq<string>)
    requires DocStart(ix0, doc) && PosInv(ix0, ix, wt, doc, pre)
    ensures ValidTable(ix.table)
  {
  }

  /** The next id is not one the starting table had. */
  lemma NextIsFresh(ix0: PosIndex, ix: PosIndex, wt: OrderedMap<nat>, doc: int, pre: seq<string>)
    requires DocStart(ix0, doc) && PosInv(ix0, ix, wt, doc, pre)
    ensures ix.table.next !in ix0.postings && ix.table.next !in ix0.df
  {
    ValidTableAfter(ix0, ix, wt, doc, pre);
    var id := ix.table.next;
    if id in ix0.table.toTerm {
      OldIdsKept(ix0, ix, wt, doc, pre, id);
    }
  }

  /** Whatever the case, one token moves the state to `Stepped`. */
  lemma StepShape(ix0: PosIndex, ix: PosIndex, wt: OrderedMap<nat>, doc: int, pre: seq<string>, w: string)
    requires DocStart(ix0, doc) && PosInv(ix0, ix, wt, doc, pre)
    ensures AddPosition(ix, wt, doc, |pre| + 1, w) == Ok(Stepped(ix0, ix, wt, doc, pre, w))
  {
    ValidTableAfter(ix0, ix, wt, doc, pre);
    if w !in ix.table.toId {
      NextIsFresh(ix0, ix, wt, doc, pre);
      StepNew(ix0, ix, wt, doc, pre, w);
    } else if w !in pre {
      assert w in ix0.table.toId;
      assert ix.table.toId[w] == ix0.table.toId[w];
      StepFirstInDoc(ix0, ix, wt, doc, pre, w);
    } else {
      WeightsKeys(ix.table, wt, pre, w);
      StepRepeat(ix0, ix, wt, doc, pre, w);
    }
  }

  lemma StepPrefixTerms(ix0: PosIndex, ix: PosIndex, wt: OrderedMap<nat>, doc: int, pre: seq<string>, w: string)
    requires ValidTable(ix.table) && PrefixTermsInv(ix0, ix, doc, pre)
    ensures PrefixTermsInv(ix0, Stepped(ix0, ix, wt, doc, pre, w).0, doc, pre + [w])
  {
    var s := Stepped(ix0, ix, wt, doc, pre, w);
    var t := Intern(ix.table, w);
    var id := t.toId[w];
    forall v | v in pre + [w]
      ensures && v in s.0.table.toId
              && s.0.table.toId[v] in s.0.postings && s.0.table.toId[v] in s.0.df
              && s.0.postings[s.0.table.toId[v]] == Put(Before(ix0, s.0.table.toId[v]), doc, Positions(pre + [w], v))
              && s.0.df[s.0.table.toId[v]] == DfBefore(ix0, s.0.table.toId[v]) + 1
    {
      if v != w {
        assert v in pre;
        PositionsSnoc(pre, w, v);
        assert Positions(pre + [w], v) == Positions(pre, v) + [] == Positions(pre, v);
        assert t.toTerm[t.toId[v]] == v && t.toTerm[id] == w;
        assert t.toId[v] == ix.table.toId[v] != id;
        var idv := t.toId[v];
        assert s.0.postings[idv] == ix.postings[idv];
        assert ix.postings[idv] == Put(Before(ix0, idv), doc, Positions(pre, v));
        assert s.0.postings[idv] == Put(Before(ix0, idv), doc, Positions(pre + [w], v));
      } else {
        assert s.0.table.toId[v] == id;
        assert s.0.postings[id] == Put(Before(ix0, id), doc, Positions(pre + [w], w));
      }
    }
  }

  lemma StepOtherTerms(ix0: PosIndex, ix: PosIndex, wt: OrderedMap<nat>, doc: int, pre: seq<string>, w: string)
    requires ValidTable(ix.table) && OtherTermsInv(ix0, ix, pre)
    requires forall v :: v in ix0.table.toId ==> v in ix.table.toId && ix.table.toId[v] == ix0.table.toId[v]
    ensures OtherTermsInv(ix0, Stepped(ix0, ix, wt, doc, pre, w).0, pre + [w])
  {
    var s := Stepped(ix0, ix, wt, doc, pre, w);
    var t := Intern(ix.table, w);
    var id := t.toId[w];
    forall v | v in ix0.table.toId && v !in pre + [w]
      ensures && ix0.table.toId[v] in s.0.postings && ix0.table.toId[v] in s.0.df
              && ix0.table.toId[v] in ix0.postings && ix0.table.toId[v] in ix0.df
              && s.0.postings[ix0.table.toId[v]] == ix0.postings[ix0.table.toId[v]]
              && s.0.df[ix0.table.toId[v]] == ix0.df[ix0.table.toId[v]]
    {
      assert v !in pre && v != w;
      assert t.toId[v] != id;
    }
  }

  lemma StepTable(ix0: PosIndex, ix: PosIndex, wt: OrderedMap<nat>, doc: int, pre: seq<string>, w: string)
    requires ix.table == InternAll(ix0.table, pre)
    ensures Stepped(ix0, ix, wt, doc, pre, w).0.table == InternAll(ix0.table, pre + [w])
  {
    InternAllSnoc(ix0.table, pre, w);
  }

  lemma StepKeys(ix0: PosIndex, ix: PosIndex, wt: OrderedMap<nat>, doc: int, pre: seq<string>, w: string)
    requires ValidTable(ix.table) && ix.df.Keys == ix.postings.Keys == ix.table.toTerm.Keys
    ensures var s := Stepped(ix0, ix, wt, doc, pre, w).0;
      s.df.Keys == s.postings.Keys == s.table.toTerm.Keys
  {
    var t := Intern(ix.table, w);
    var id := t.toId[w];
    if w in ix.table.toId {
      assert t == ix.table && id in ix.table.toTerm;
      KeysKept(ix.df, id, DfBefore(ix0, id) + 1);
      KeysKept(ix.postings, id, Put(Before(ix0, id), doc, Positions(pre + [w], w)));
    }
  }

  lemma StepWeights(ix0: PosIndex, ix: PosIndex, wt: OrderedMap<nat>, doc: int, pre: seq<string>, w: string)
    requires ValidTable(ix.table) && WeightsInv(ix.table, wt, pre)
    ensures var s := Stepped(ix0, ix, wt, doc, pre, w);
      WeightsInv(s.0.table, s.1, pre + [w])
  {
    WeightsStep(ix.table, wt, pre, w);
  }

  /** `Stepped` keeps the invariant with the token added to the prefix. */
  lemma StepInv(ix0: PosIndex, ix: PosIndex, wt: OrderedMap<nat>, doc: int, pre: seq<string>, w: string)
    requires ValidTable(ix0.table) && PosInv(ix0, ix, wt, doc, pre)
    ensures var s := Stepped(ix0, ix, wt, doc, pre, w);
      PosInv(ix0, s.0, s.1, doc, pre + [w])
  {
    assert ValidTable(ix.table);
    StepTable(ix0, ix, wt, doc, pre, w);
    StepKeys(ix0, ix, wt, doc, pre, w);
    StepWeights(ix0, ix, wt, doc, pre, w);
    StepPrefixTerms(ix0, ix, wt, doc, pre, w);
    StepOtherTerms(ix0, ix, wt, doc, pre, w);
  }

  /** The token after the prefix `p`, at position `|p| + 1`. */
  function StepAt(ix: PosIndex, wt: OrderedMap<nat>, doc: int, p: seq<string>, w: string)
    : Result<(PosIndex, OrderedMap<nat>), string>
  {
    AddPosition(ix, wt, doc, |p| + 1, w)
  }

  lemma IndexPositionsUnfold(ix: PosIndex, wt: OrderedMap<nat>, doc: int, pre: seq<string>, rest: seq<string>)
    requires rest != [] && StepAt(ix, wt, doc, pre, rest[0]).Ok?
    ensures var next := StepAt(ix, wt, doc, pre, rest[0]).value;
      IndexPositions(ix, wt, doc, rest, |pre|) == IndexPositions(next.0, next.1, doc, rest[1..], |pre + [rest[0]]|)
  {
  }

  /** The row's tokens, whatever they are, keep any invariant that a single
      token keeps; none of them raises. */
  lemma {:induction false} IndexPositionsKeeps(inv: (PosIndex, OrderedMap<nat>, seq<string>) -> bool,
                                               ix: PosIndex, wt: OrderedMap<nat>, doc: int,
                                               pre: seq<string>, rest: seq<string>)
    requires inv(ix, wt, pre)
    requires forall ix1, wt1, p1, w {:trigger inv(ix1, wt1, p1), StepAt(ix1, wt1, doc, p1, w)} ::
      inv(ix1, wt1, p1) ==>
      && StepAt(ix1, wt1, doc, p1, w).Ok?
      && inv(StepAt(ix1, wt1, doc, p1, w).value.0, StepAt(ix1, wt1, doc, p1, w).value.1, p1 + [w])
    ensures IndexPositions(ix, wt, doc, rest, |pre|).Ok?
    ensures inv(IndexPositions(ix, wt, doc, rest, |pre|).value.0, IndexPositions(ix, wt, doc, rest, |pre|).value.1,
                pre + rest)
    decreases |rest|
  {
    if rest == [] {
      assert pre + rest == pre;
    } else {
      var r := StepAt(ix, wt, doc, pre, rest[0]);
      assert r.Ok? && inv(r.value.0, r.value.1, pre + [rest[0]]);
      var next := r.value;
      IndexPositionsUnfold(ix, wt, doc, pre, rest);
      ShiftHead(pre, rest);
      IndexPositionsKeeps(inv, next.0, next.1, doc, pre + [rest[0]], rest[1..]);
    }
  }

  lemma InitialPosInv(ix0: PosIndex, doc: int)
    requires DocStart(ix0, doc)
    ensures PosInv(ix0, ix0, EmptyOrderedMap(), doc, [])
  {
  }

  /** `create_positional_index` on a document no earlier row had, with a
      fresh `document_weights`: it never raises; the returned `term_id` is
      the table after interning the row; each term of the row has exactly its
      1-based positions for the document, added after the documents it had,
      one more document in its df and a count equal to its number of
      positions; every other known term keeps its dict and df. */
  lemma CreatePositionalIndexCorrect(ix0: PosIndex, doc: int, content: seq<string>)
    requires DocStart(ix0, doc)
    ensures CreatePositionalIndex(ix0, EmptyOrderedMap(), doc, content).Ok?
    ensures var r := CreatePositionalIndex(ix0, EmptyOrderedMap(), doc, content).value;
      && r.0.table == InternAll(ix0.table, content)
      && r.0.df.Keys == r.0.postings.Keys == r.0.table.toTerm.Keys
      && (forall w :: w in content ==>
            && r.0.table.toId[w] in r.0.postings && r.0.table.toId[w] in r.0.df
            && r.0.postings[r.0.table.toId[w]] == Put(Before(ix0, r.0.table.toId[w]), doc, Positions(content, w))
            && r.0.df[r.0.table.toId[w]] == DfBefore(ix0, r.0.table.toId[w]) + 1
            && r.0.table.toId[w] in r.1.values
            && r.1.values[r.0.table.toId[w]] == |Positions(content, w)|)
      && (forall w :: w in ix0.table.toId && w !in content ==>
            && ix0.table.toId[w] in r.0.postings && ix0.table.toId[w] in ix0.postings
            && r.0.postings[ix0.table.toId[w]] == ix0.postings[ix0.table.toId[w]]
            && r.0.df[ix0.table.toId[w]] == ix0.df[ix0.table.toId[w]])
      && Values(r.1) == Counts(content)
  {
    var inv := (ix: PosIndex, wt: OrderedMap<nat>, p: seq<string>) => PosInv(ix0, ix, wt, doc, p);
    forall ix, wt, p, w {:trigger inv(ix, wt, p), StepAt(ix, wt, doc, p, w)} | inv(ix, wt, p)
      ensures StepAt(ix, wt, doc, p, w).Ok?
      ensures inv(StepAt(ix, wt, doc, p, w).value.0, StepAt(ix, wt, doc, p, w).value.1, p + [w])
    {
      StepShape(ix0, ix, wt, doc, p, w);
      StepInv(ix0, ix, wt, doc, p, w);
    }
    InitialPosInv(ix0, doc);
    IndexPositionsKeeps(inv, ix0, EmptyOrderedMap(), doc, [], content);
    assert [] + content == content;
    var r := CreatePositionalIndex(ix0, EmptyOrderedMap(), doc, content).value;
    assert PosInv(ix0, r.0, r.1, doc, content);
    ValidTableAfter(ix0, r.0, r.1, doc, content);
    forall w | w in content
      ensures r.0.table.toId[w] in r.1.values && r.1.values[r.0.table.toId[w]] == |Positions(content, w)|
    {
      WeightsKeys(r.0.table, r.1, content, w);
      PositionsFacts(content, w);
    }
    WeightsComplete(r.0.table, r.1, content);
  }
}

=== FILE: query_parser.dfy ===
/** The Boolean query parser of HW2/search.py: `shunting_yard` turns an infix
    query into postfix (reverse Polish) order with NOT binding tighter than
    AND, and AND tighter than OR. The query is first split into tokens after a
    space is put after every '(' and before every ')'. The stemmer that
    normalises search terms is a parameter. */
module QueryParser {
  import opened Base

  // ---------------------------------------------------------------------------
  // Tokens

  datatype Op = Not | And | Or

  /** PRECEDENCE_DICT. */
  function Precedence(op: Op): nat {
    match op
    case Not => 3
    case And => 2
    case Or => 1
  }

  function Name(op: Op): string {
    match op
    case Not => "NOT"
    case And => "AND"
    case Or => "OR"
  }

  datatype Token = Word(w: string) | Operator(op: Op) | Open | Close

  /** A token is an operator when it is one of OPERATORS, a parenthesis when
      it is exactly "(" or ")", and a search term otherwise. */
  function Classify(tok: string): (r: Token)
    ensures r.Word? ==> r.w == tok
    ensures r.Operator? ==> Name(r.op) == tok
    ensures r.Open? <==> tok == "("
    ensures r.Close? <==> tok == ")"
  {
    if tok == "NOT" then Operator(Not)
    else if tok == "AND" then Operator(And)
    else if tok == "OR" then Operator(Or)
    else if tok == "(" then Open
    else if tok == ")" then Close
    else Word(tok)
  }

  /** The characters Python's str.split() treats as whitespace. */
  predicate IsSpace(c: char) {
    c in {'\U{0009}', '\U{000A}', '\U{000B}', '\U{000C}', '\U{000D}', '\U{001C}', '\U{001D}', '\U{001E}',
          '\U{001F}', '\U{0020}', '\U{0085}', '\U{00A0}', '\U{1680}', '\U{2000}', '\U{2001}', '\U{2002}',
          '\U{2003}', '\U{2004}', '\U{2005}', '\U{2006}', '\U{2007}', '\U{2008}', '\U{2009}', '\U{200A}',
          '\U{2028}', '\U{2029}', '\U{202F}', '\U{205F}', '\U{3000}'}
  }

  /** q.replace('(', '( ').replace(')', ' )'). Dropping the inserted spaces
      gives the query back. */
  function Pad(q: string): (r: string)
    ensures forall i :: 0 <= i < |r| && r[i] == '(' ==> i + 1 < |r| && r[i + 1] == ' '
    ensures forall i :: 0 <= i < |r| && r[i] == ')' ==> 0 < i && r[i - 1] == ' '
    ensures Unpad(r) == q
  {
    if q == [] then []
    else
      var head := if q[0] == '(' then "( " else if q[0] == ')' then " )" else [q[0]];
      var rest := Pad(q[1..]);
      assert (head + rest)[|head|..] == rest;
      head + rest
  }

  /** Reads padded text back: "( " becomes "(", " )" becomes ")", and every
      other character stays. */
  function Unpad(r: string): string
    decreases |r|
  {
    if r == [] then []
    else if |r| >= 2 && r[0] == '(' && r[1] == ' ' then "(" + Unpad(r[2..])
    else if |r| >= 2 && r[0] == ' ' && r[1] == ')' then ")" + Unpad(r[2..])
    else [r[0]] + Unpad(r[1..])
  }

  /** The longest prefix of s without whitespace. */
  function TakeWord(s: string): (r: string)
    ensures |r| <= |s| && r == s[..|r|]
    ensures forall i :: 0 <= i < |r| ==> !IsSpace(r[i])
    ensures |r| < |s| ==> IsSpace(s[|r|])
  {
    if s == [] || IsSpace(s[0]) then [] else [s[0]] + TakeWord(s[1..])
  }

  /** " ".join(pieces). */
  function Join(pieces: seq<string>): string {
    if pieces == [] then []
    else if |pieces| == 1 then pieces[0]
    else pieces[0] + " " + Join(pieces[1..])
  }

  /** s without leading or trailing whitespace and with every inner run of
      whitespace written as one space. `started`: a word has been read;
      `gap`: whitespace has been read since the last word. */
  function Squeeze(s: string, started: bool, gap: bool): string
    decreases |s|
  {
    if s == [] then []
    else if IsSpace(s[0]) then Squeeze(s[1..], started, started)
    else (if gap then " " else "") + [s[0]] + Squeeze(s[1..], true, false)
  }

  /** One space before the text, unless it is empty. */
  function Gap(t: string): string {
    if t == [] then [] else " " + t
  }

  /** After a word, whitespace becomes one space before the next word. */
  lemma {:induction false} SqueezeGap(s: string)
    ensures Squeeze(s, true, true) == Gap(Squeeze(s, false, false))
    decreases |s|
  {
    if s != [] {
      if IsSpace(s[0]) {
        SqueezeGap(s[1..]);
      } else {
        AppendAssoc(" ", [s[0]], Squeeze(s[1..], true, false));
      }
    }
  }

  /** A word is copied through, and what follows it is read after a word. */
  lemma {:induction false} SqueezeWord(w: string, rest: string, gap: bool)
    requires w != [] && forall i :: 0 <= i < |w| ==> !IsSpace(w[i])
    ensures Squeeze(w + rest, gap, gap) == (if gap then " " else "") + w + Squeeze(rest, true, false)
    decreases |w|
  {
    var pre: string := if gap then " " else "";
    assert (w + rest)[0] == w[0] && (w + rest)[1..] == w[1..] + rest;
    if |w| > 1 {
      SqueezeWord(w[1..], rest, false);
      assert w == [w[0]] + w[1..];
      AppendAssoc(pre + [w[0]], w[1..], Squeeze(rest, true, false));
    } else {
      assert w == [w[0]];
      assert w[1..] + rest == rest;
    }
  }

  /** str.split(): the maximal runs of non-whitespace characters, in order.
      Joined with single spaces they give s with its whitespace squeezed. */
  function Split(s: string): (r: seq<string>)
    ensures forall k :: 0 <= k < |r| ==> r[k] != [] && forall i :: 0 <= i < |r[k]| ==> !IsSpace(r[k][i])
    ensures Join(r) == Squeeze(s, false, false)
    decreases |s|
  {
    if s == [] then []
    else if IsSpace(s[0]) then Split(s[1..])
    else
      var w := TakeWord(s);
      var rest := s[|w|..];
      assert s == w + rest;
      SqueezeWord(w, rest, false);
      SqueezeGap(rest);
      assert Squeeze(rest, true, false) == Squeeze(rest, true, true);
      var tail := Split(rest);
      assert tail == [] <==> Join(tail) == [] by {
        if tail != [] {
          JoinNonEmpty(tail);
        }
      }
      [w] + tail
  }

  /** Text of whitespace only (or none at all). */
  predicate Blank(s: string) {
    forall i :: 0 <= i < |s| ==> IsSpace(s[i])
  }

  /** split() finds no piece exactly in blank text. */
  lemma {:induction false} SplitBlank(s: string)
    ensures Split(s) == [] <==> Blank(s)
    decreases |s|
  {
    if s != [] && IsSpace(s[0]) {
      SplitBlank(s[1..]);
      forall i | 1 <= i < |s|
        ensures s[i] == s[1..][i - 1]
      {
      }
    }
  }

  /** Joining non-empty pieces gives non-empty text. */
  lemma JoinNonEmpty(pieces: seq<string>)
    requires pieces != [] && pieces[0] != []
    ensures Join(pieces) != []
  {
  }

  /** The tokens shunting_yard works through. */
  function Tokens(q: string): seq<string> {
    Split(Pad(q))
  }

  // ---------------------------------------------------------------------------
  // The algorithm

  /** An entry of the output queue: a search term or an operator. */
  datatype Item = Term(term: string) | OpItem(op: Op)

  /** An entry of the operator stack. */
  datatype Sym = OpenSym | OpSym(op: Op)

  /** The operator on top of the stack is popped before `op` is pushed when it
      binds tighter, or equally tight and `op` is not NOT (AND and OR are
      left-associative, NOT is right-associative). */
  predicate PopsBefore(top: Op, op: Op) {
    Precedence(top) > Precedence(op) || (Precedence(top) == Precedence(op) && op != Not)
  }

  function Last<T>(s: seq<T>): T
    requires s != []
  {
    s[|s| - 1]
  }

  function Init<T>(s: seq<T>): seq<T>
    requires s != []
  {
    s[..|s| - 1]
  }

  /** Moves operators from the top of the stack to the output while they are
      popped before `op`; stops at a parenthesis. */
  function PopBefore(out: seq<Item>, stack: seq<Sym>, op: Op): (r: (seq<Item>, seq<Sym>))
    ensures |r.1| <= |stack| && r.1 == stack[..|r.1|]
    ensures r.1 == [] || Last(r.1).OpenSym? || !PopsBefore(Last(r.1).op, op)
    decreases |stack|
  {
    if stack == [] || Last(stack).OpenSym? || !PopsBefore(Last(stack).op, op) then (out, stack)
    else PopBefore(out + [OpItem(Last(stack).op)], Init(stack), op)
  }

  /** `raise "MismatchError"` raises a string, which Python 3 refuses: what
      is raised is a TypeError. */
  const MismatchMessage := "TypeError: exceptions must derive from BaseException"

  /** On ')': moves operators to the output until the nearest '(' and
      discards it. Without one, reading the top of the empty stack fails. */
  function PopToOpen(out: seq<Item>, stack: seq<Sym>): (r: Result<(seq<Item>, seq<Sym>), string>)
    ensures r.Ok? ==> |r.value.1| < |stack| && r.value.1 == stack[..|r.value.1|]
    decreases |stack|
  {
    if stack == [] then Err(IndexError)
    else if Last(stack).OpenSym? then Ok((out, Init(stack)))
    else PopToOpen(out + [OpItem(Last(stack).op)], Init(stack))
  }

  /** After the last token: pops every operator to the output; a '(' left on
      the stack raises. */
  function Flush(out: seq<Item>, stack: seq<Sym>): Result<seq<Item>, string>
    decreases |stack|
  {
    if stack == [] then Ok(out)
    else if Last(stack).OpenSym? then Err(MismatchMessage)
    else Flush(out + [OpItem(Last(stack).op)], Init(stack))
  }

  /** The main loop over the tokens, from a given output queue and stack. */
  function Run(tokens: seq<string>, out: seq<Item>, stack: seq<Sym>): Result<seq<Item>, string>
    decreases |tokens|
  {
    if tokens == [] then Flush(out, stack)
    else match Classify(tokens[0])
      case Operator(op) =>
        var p := PopBefore(out, stack, op);
        Run(tokens[1..], p.0, p.1 + [OpSym(op)])
      case Open => Run(tokens[1..], out, stack + [OpenSym])
      case Close =>
        (match PopToOpen(out, stack)
         case Err(e) => Err(e)
         case Ok(p) => Run(tokens[1..], p.0, p.1))
      case Word(w) => Run(tokens[1..], out + [Term(w)], stack)
  }

  /** Postfix order of a token list. */
  function Parse(tokens: seq<string>): Result<seq<Item>, string> {
    Run(tokens, [], [])
  }

  function Render(items: seq<Item>, normalize: string -> string): (r: seq<string>)
    ensures |r| == |items|
  {
    seq(|items|, i requires 0 <= i < |items| =>
      match items[i]
      case Term(t) => normalize(t)
      case OpItem(op) => Name(op))
  }

  /** shunting_yard: fails exactly when the query's parentheses do not
      match. Otherwise the output is a sequence of search terms, normalised,
      and operators, by name: the terms are the query's in their input
      order, each operator of the query is output once, and no parenthesis
      is output. */
  function ShuntingYard(q: string, normalize: string -> string): (r: Result<seq<string>, string>)
    ensures r.Ok? <==> Balanced(Tokens(q))
    ensures r.Ok? ==> |r.value| == |TokenWords(Tokens(q))| + |TokenOps(Tokens(q))|
    ensures r.Ok? ==> exists items ::
              && r.value == Render(items, normalize)
              && ItemTerms(items) == TokenWords(Tokens(q))
              && multiset(ItemOps(items)) == multiset(TokenOps(Tokens(q)))
  {
    ParseFacts(Tokens(q));
    match Parse(Tokens(q))
    case Ok(items) =>
      ItemsSplit(items);
      assert |ItemOps(items)| == |multiset(ItemOps(items))|;
      Ok(Render(items, normalize))
    case Err(e) => Err(e)
  }

  // ---------------------------------------------------------------------------
  // Counting views

  /** Parenthesis balance: no ')' closes more than has been opened, and all
      are closed at the end. `depth` counts the ones open so far. */
  predicate BalancedFrom(tokens: seq<string>, depth: nat)
    decreases |tokens|
  {
    if tokens == [] then depth == 0
    else if Classify(tokens[0]).Close? then depth > 0 && BalancedFrom(tokens[1..], depth - 1)
    else if Classify(tokens[0]).Open? then BalancedFrom(tokens[1..], depth + 1)
    else BalancedFrom(tokens[1..], depth)
  }

  predicate Balanced(tokens: seq<string>) {
    BalancedFrom(tokens, 0)
  }

  function OpenCount(stack: seq<Sym>): nat {
    if stack == [] then 0 else OpenCount(Init(stack)) + (if Last(stack).OpenSym? then 1 else 0)
  }

  /** The operators of a stack, bottom to top. */
  function StackOps(stack: seq<Sym>): seq<Op> {
    if stack == [] then [] else StackOps(Init(stack)) + (if Last(stack).OpSym? then [Last(stack).op] else [])
  }

  function ItemOps(items: seq<Item>): seq<Op> {
    if items == [] then [] else ItemOps(Init(items)) + (if Last(items).OpItem? then [Last(items).op] else [])
  }

  function ItemTerms(items: seq<Item>): seq<string> {
    if items == [] then [] else ItemTerms(Init(items)) + (if Last(items).Term? then [Last(items).term] else [])
  }

  function TokenOps(tokens: seq<string>): seq<Op> {
    if tokens == [] then []
    else (if Classify(tokens[0]).Operator? then [Classify(tokens[0]).op] else []) + TokenOps(tokens[1..])
  }

  /** The search terms of a token list, in order. */
  function TokenWords(tokens: seq<string>): seq<string> {
    if tokens == [] then []
    else (if Classify(tokens[0]).Word? then [tokens[0]] else []) + TokenWords(tokens[1..])
  }

  /** Every output entry is a term or an operator. */
  lemma {:induction false} ItemsSplit(items: seq<Item>)
    ensures |items| == |ItemTerms(items)| + |ItemOps(items)|
    decreases |items|
  {
    if items != [] {
      ItemsSplit(Init(items));
    }
  }

  lemma Snoc<T>(s: seq<T>, x: T)
    ensures s + [x] != [] && Init(s + [x]) == s && Last(s + [x]) == x
  {
    assert (s + [x])[..|s|] == s;
  }

  /** Popping operators to the output moves them and nothing else. */
  lemma {:induction false} PopBeforeMoves(out: seq<Item>, stack: seq<Sym>, op: Op)
    ensures var p := PopBefore(out, stack, op);
            && ItemTerms(p.0) == ItemTerms(out)
            && multiset(ItemOps(p.0)) + multiset(StackOps(p.1)) == multiset(ItemOps(out)) + multiset(StackOps(stack))
            && OpenCount(p.1) == OpenCount(stack)
    decreases |stack|
  {
    if !(stack == [] || Last(stack).OpenSym? || !PopsBefore(Last(stack).op, op)) {
      var top := Last(stack).op;
      Snoc(out, OpItem(top));
      PopBeforeMoves(out + [OpItem(top)], Init(stack), op);
    }
  }

  lemma {:induction false} PopToOpenMoves(out: seq<Item>, stack: seq<Sym>)
    ensures PopToOpen(out, stack).Ok? <==> OpenCount(stack) > 0
    ensures var r := PopToOpen(out, stack);
            r.Ok? ==>
              && ItemTerms(r.value.0) == ItemTerms(out)
              && multiset(ItemOps(r.value.0)) + multiset(StackOps(r.value.1)) == multiset(ItemOps(out)) + multiset(StackOps(stack))
              && OpenCount(r.value.1) + 1 == OpenCount(stack)
    decreases |stack|
  {
    if stack != [] && Last(stack).OpSym? {
      var top := Last(stack).op;
      Snoc(out, OpItem(top));
      PopToOpenMoves(out + [OpItem(top)], Init(stack));
    }
  }

  lemma {:induction false} FlushMoves(out: seq<Item>, stack: seq<Sym>)
    ensures Flush(out, stack).Ok? <==> OpenCount(stack) == 0
    ensures var r := Flush(out, stack);
            r.Ok? ==>
              && ItemTerms(r.value) == ItemTerms(out)
              && multiset(ItemOps(r.value)) == multiset(ItemOps(out)) + multiset(StackOps(stack))
    decreases |stack|
  {
    if stack != [] && Last(stack).OpSym? {
      var top := Last(stack).op;
      Snoc(out, OpItem(top));
      FlushMoves(out + [OpItem(top)], Init(stack));
    }
  }

  /** What the first token adds to the search terms output. */
  function WordOf(tok: string): seq<string> {
    if Classify(tok).Word? then [tok] else []
  }

  /** What the first token adds to the operators. */
  function OpOf(tok: string): multiset<Op> {
    if Classify(tok).Operator? then multiset{Classify(tok).op} else multiset{}
  }

  /** How the first token changes the number of open parentheses. */
  function DepthChange(tok: string): int {
    if Classify(tok).Open? then 1 else if Classify(tok).Close? then -1 else 0
  }

  /** The state after one turn of the loop moves the token's search term
      and operator along, and tracks its parenthesis. */
  ghost predicate Moved(tok: string, out: seq<Item>, stack: seq<Sym>, out2: seq<Item>, stack2: seq<Sym>) {
    && ItemTerms(out2) == ItemTerms(out) + WordOf(tok)
    && multiset(ItemOps(out2)) + multiset(StackOps(stack2))
       == multiset(ItemOps(out)) + multiset(StackOps(stack)) + OpOf(tok)
    && OpenCount(stack2) == OpenCount(stack) + DepthChange(tok)
  }

  /** One turn of the loop: it fails exactly on a ')' with no '(' open, and
      otherwise goes on from a state that moved the token along. */
  lemma RunStep(tokens: seq<string>, out: seq<Item>, stack: seq<Sym>) returns (ok: bool, out2: seq<Item>, stack2: seq<Sym>)
    requires tokens != []
    ensures ok <==> !(Classify(tokens[0]).Close? && OpenCount(stack) == 0)
    ensures !ok ==> Run(tokens, out, stack).Err?
    ensures ok ==> Run(tokens, out, stack) == Run(tokens[1..], out2, stack2) && Moved(tokens[0], out, stack, out2, stack2)
  {
    match Classify(tokens[0])
    case Operator(op) =>
      var p := PopBefore(out, stack, op);
      PopBeforeMoves(out, stack, op);
      Snoc(p.1, OpSym(op));
      ok, out2, stack2 := true, p.0, p.1 + [OpSym(op)];
    case Open =>
      Snoc(stack, OpenSym);
      ok, out2, stack2 := true, out, stack + [OpenSym];
    case Close =>
      PopToOpenMoves(out, stack);
      ok := PopToOpen(out, stack).Ok?;
      if ok {
        out2, stack2 := PopToOpen(out, stack).value.0, PopToOpen(out, stack).value.1;
      } else {
        out2, stack2 := out, stack;
      }
    case Word(w) =>
      Snoc(out, Term(w));
      ok, out2, stack2 := true, out + [Term(w)], stack;
  }

  /** Balance after the first token: a ')' needs an open '(', and the rest
      must balance from the new depth. */
  lemma BalancedStep(tokens: seq<string>, depth: nat)
    requires tokens != []
    ensures BalancedFrom(tokens, depth)
      <==> !(Classify(tokens[0]).Close? && depth == 0) && BalancedFrom(tokens[1..], depth + DepthChange(tokens[0]))
  {
  }

  /** The loop fails exactly on unbalanced parentheses. */
  lemma {:induction false} RunOkIffBalanced(tokens: seq<string>, out: seq<Item>, stack: seq<Sym>)
    ensures Run(tokens, out, stack).Ok? <==> BalancedFrom(tokens, OpenCount(stack))
    decreases |tokens|
  {
    if tokens == [] {
      FlushMoves(out, stack);
    } else {
      var ok, out2, stack2 := RunStep(tokens, out, stack);
      BalancedStep(tokens, OpenCount(stack));
      if ok {
        RunOkIffBalanced(tokens[1..], out2, stack2);
      }
    }
  }

  /** On success the output holds the remaining search terms in input order
      after those already output. */
  lemma {:induction false} RunTerms(tokens: seq<string>, out: seq<Item>, stack: seq<Sym>)
    ensures var r := Run(tokens, out, stack);
            r.Ok? ==> ItemTerms(r.value) == ItemTerms(out) + TokenWords(tokens)
    decreases |tokens|
  {
    if tokens == [] {
      FlushMoves(out, stack);
    } else {
      var ok, out2, stack2 := RunStep(tokens, out, stack);
      if ok {
        RunTerms(tokens[1..], out2, stack2);
        assert TokenWords(tokens) == WordOf(tokens[0]) + TokenWords(tokens[1..]);
        AppendAssoc(ItemTerms(out), WordOf(tokens[0]), TokenWords(tokens[1..]));
      }
    }
  }

  /** On success every operator, whether already output, on the stack or
      still to come, is output exactly once. */
  lemma {:induction false} RunOps(tokens: seq<string>, out: seq<Item>, stack: seq<Sym>)
    ensures var r := Run(tokens, out, stack);
            r.Ok? ==>
              multiset(ItemOps(r.value)) == multiset(ItemOps(out)) + multiset(StackOps(stack)) + multiset(TokenOps(tokens))
    decreases |tokens|
  {
    if tokens == [] {
      FlushMoves(out, stack);
    } else {
      var ok, out2, stack2 := RunStep(tokens, out, stack);
      if ok {
        RunOps(tokens[1..], out2, stack2);
        assert multiset(TokenOps(tokens)) == OpOf(tokens[0]) + multiset(TokenOps(tokens[1..]));
      }
    }
  }

  /** shunting_yard fails exactly when the query's parentheses do not match;
      otherwise its output lists the query's search terms in their input
      order and each of its operators once, and no parenthesis. */
  lemma ParseFacts(tokens: seq<string>)
    ensures Parse(tokens).Ok? <==> Balanced(tokens)
    ensures Parse(tokens).Ok? ==>
              && ItemTerms(Parse(tokens).value) == TokenWords(tokens)
              && multiset(ItemOps(Parse(tokens).value)) == multiset(TokenOps(tokens))
  {
    RunOkIffBalanced(tokens, [], []);
    RunTerms(tokens, [], []);
    RunOps(tokens, [], []);
  }

  // ---------------------------------------------------------------------------
  // The operator stack's order

  /** Reading the stack upwards between parentheses, no operator is popped
      before the one above it: precedences rise, and only NOT repeats. */
  predicate StackOrdered(stack: seq<Sym>) {
    forall i :: 0 <= i < |stack| - 1 && stack[i].OpSym? && stack[i + 1].OpSym? ==>
      !PopsBefore(stack[i].op, stack[i + 1].op)
  }

  /** Pushing an operator after the pops keeps the stack ordered. */
  lemma PushKeepsOrder(out: seq<Item>, stack: seq<Sym>, op: Op)
    requires StackOrdered(stack)
    ensures StackOrdered(PopBefore(out, stack, op).1 + [OpSym(op)])
  {
    var s := PopBefore(out, stack, op).1;
    assert forall i :: 0 <= i < |s| ==> s[i] == stack[i];
  }

  /** Opening a parenthesis, or closing one, keeps the stack ordered. */
  lemma ParenthesesKeepOrder(out: seq<Item>, stack: seq<Sym>)
    requires StackOrdered(stack)
    ensures StackOrdered(stack + [OpenSym])
    ensures PopToOpen(out, stack).Ok? ==> StackOrdered(PopToOpen(out, stack).value.1)
  {
    if PopToOpen(out, stack).Ok? {
      var s := PopToOpen(out, stack).value.1;
      assert forall i :: 0 <= i < |s| ==> s[i] == stack[i];
    }
  }

  // ---------------------------------------------------------------------------
  // Precedence and associativity

  /** A token that is a search term. */
  predicate IsWord(w: string) {
    Classify(w).Word?
  }

  // Single steps of the loop, each naming the state it leads to.

  lemma RunWordStep(tokens: seq<string>, rest: seq<string>, out: seq<Item>, out2: seq<Item>, stack: seq<Sym>)
    requires tokens != [] && IsWord(tokens[0]) && rest == tokens[1..]
    requires out2 == out + [Term(tokens[0])]
    ensures Run(tokens, out, stack) == Run(rest, out2, stack)
  {
  }

  lemma RunOpStep(tokens: seq<string>, rest: seq<string>, out: seq<Item>, stack: seq<Sym>, op: Op,
                  out2: seq<Item>, stack2: seq<Sym>)
    requires tokens != [] && tokens[0] == Name(op) && rest == tokens[1..]
    requires PopBefore(out, stack, op).0 == out2 && PopBefore(out, stack, op).1 + [OpSym(op)] == stack2
    ensures Run(tokens, out, stack) == Run(rest, out2, stack2)
  {
    assert Classify(Name(op)) == Operator(op);
  }

  lemma RunOpenStep(tokens: seq<string>, rest: seq<string>, out: seq<Item>, stack: seq<Sym>, stack2: seq<Sym>)
    requires tokens != [] && tokens[0] == "(" && rest == tokens[1..]
    requires stack2 == stack + [OpenSym]
    ensures Run(tokens, out, stack) == Run(rest, out, stack2)
  {
  }

  lemma RunCloseStep(tokens: seq<string>, rest: seq<string>, out: seq<Item>, stack: seq<Sym>,
                     out2: seq<Item>, stack2: seq<Sym>)
    requires tokens != [] && tokens[0] == ")" && rest == tokens[1..]
    requires PopToOpen(out, stack) == Ok((out2, stack2))
    ensures Run(tokens, out, stack) == Run(rest, out2, stack2)
  {
  }

  lemma PopBeforeStops(out: seq<Item>, stack: seq<Sym>, op: Op)
    requires stack == [] || Last(stack).OpenSym? || !PopsBefore(Last(stack).op, op)
    ensures PopBefore(out, stack, op) == (out, stack)
  {
  }

  lemma PopBeforePops(out: seq<Item>, stack: seq<Sym>, op: Op, out2: seq<Item>, stack2: seq<Sym>)
    requires stack != [] && Last(stack).OpSym? && PopsBefore(Last(stack).op, op)
    requires out2 == out + [OpItem(Last(stack).op)] && stack2 == Init(stack)
    ensures PopBefore(out, stack, op) == PopBefore(out2, stack2, op)
  {
  }

  lemma PopToOpenPops(out: seq<Item>, stack: seq<Sym>, out2: seq<Item>, stack2: seq<Sym>)
    requires stack != [] && Last(stack).OpSym?
    requires out2 == out + [OpItem(Last(stack).op)] && stack2 == Init(stack)
    ensures PopToOpen(out, stack) == PopToOpen(out2, stack2)
  {
  }

  lemma PopToOpenFinds(out: seq<Item>, stack: seq<Sym>, stack2: seq<Sym>)
    requires stack != [] && Last(stack).OpenSym? && stack2 == Init(stack)
    ensures PopToOpen(out, stack) == Ok((out, stack2))
  {
  }

  lemma FlushPops(out: seq<Item>, stack: seq<Sym>, out2: seq<Item>, stack2: seq<Sym>)
    requires stack != [] && Last(stack).OpSym?
    requires out2 == out + [OpItem(Last(stack).op)] && stack2 == Init(stack)
    ensures Flush(out, stack) == Flush(out2, stack2)
  {
  }

  lemma RunEnd(out: seq<Item>, stack: seq<Sym>)
    ensures Run([], out, stack) == Flush(out, stack)
    ensures Flush(out, []) == Ok(out)
  {
  }

  /** Of two binary operators without parentheses, the tighter-binding one is
      applied first, and between equals the left one is (left
      associativity). */
  lemma BinaryPrecedence(a: string, b: string, c: string, o1: Op, o2: Op)
    requires IsWord(a) && IsWord(b) && IsWord(c)
    requires o1 != Not && o2 != Not
    ensures Parse([a, Name(o1), b, Name(o2), c])
            == if Precedence(o2) > Precedence(o1)
               then Ok([Term(a), Term(b), Term(c), OpItem(o2), OpItem(o1)])
               else Ok([Term(a), Term(b), OpItem(o1), Term(c), OpItem(o2)])
  {
    BinaryPrefix(a, b, c, o1, o2);
    if Precedence(o2) > Precedence(o1) {
      SecondBindsTighter(b, c, o1, o2, Term(a));
    } else {
      FirstAppliedFirst(b, c, o1, o2, Term(a));
    }
  }

  /** The first three tokens of `a o1 b o2 c`. */
  lemma BinaryPrefix(a: string, b: string, c: string, o1: Op, o2: Op)
    requires IsWord(a) && IsWord(b)
    ensures Parse([a, Name(o1), b, Name(o2), c]) == Run([Name(o2), c], [Term(a), Term(b)], [OpSym(o1)])
  {
    var ta, tb := Term(a), Term(b);
    RunWordStep([a, Name(o1), b, Name(o2), c], [Name(o1), b, Name(o2), c], [], [ta], []);
    PopBeforeStops([ta], [], o1);
    RunOpStep([Name(o1), b, Name(o2), c], [b, Name(o2), c], [ta], [], o1, [ta], [OpSym(o1)]);
    RunWordStep([b, Name(o2), c], [Name(o2), c], [ta], [ta, tb], [OpSym(o1)]);
  }

  lemma SecondBindsTighter(b: string, c: string, o1: Op, o2: Op, ta: Item)
    requires IsWord(c) && o2 != Not && Precedence(o2) > Precedence(o1)
    ensures Run([Name(o2), c], [ta, Term(b)], [OpSym(o1)]) == Ok([ta, Term(b), Term(c), OpItem(o2), OpItem(o1)])
  {
    var tb, tc := Term(b), Term(c);
    var s1, s2 := OpSym(o1), OpSym(o2);
    PopBeforeStops([ta, tb], [s1], o2);
    RunOpStep([Name(o2), c], [c], [ta, tb], [s1], o2, [ta, tb], [s1, s2]);
    RunWordStep([c], [], [ta, tb], [ta, tb, tc], [s1, s2]);
    RunEnd([ta, tb, tc], [s1, s2]);
    FlushPops([ta, tb, tc], [s1, s2], [ta, tb, tc, OpItem(o2)], [s1]);
    FlushPops([ta, tb, tc, OpItem(o2)], [s1], [ta, tb, tc, OpItem(o2), OpItem(o1)], []);
    RunEnd([ta, tb, tc, OpItem(o2), OpItem(o1)], []);
  }

  lemma FirstAppliedFirst(b: string, c: string, o1: Op, o2: Op, ta: Item)
    requires IsWord(c) && o1 != Not && o2 != Not && Precedence(o2) <= Precedence(o1)
    ensures Run([Name(o2), c], [ta, Term(b)], [OpSym(o1)]) == Ok([ta, Term(b), OpItem(o1), Term(c), OpItem(o2)])
  {
    var tb, tc := Term(b), Term(c);
    var s2 := OpSym(o2);
    PopBeforePops([ta, tb], [OpSym(o1)], o2, [ta, tb, OpItem(o1)], []);
    PopBeforeStops([ta, tb, OpItem(o1)], [], o2);
    RunOpStep([Name(o2), c], [c], [ta, tb], [OpSym(o1)], o2, [ta, tb, OpItem(o1)], [s2]);
    RunWordStep([c], [], [ta, tb, OpItem(o1)], [ta, tb, OpItem(o1), tc], [s2]);
    RunEnd([ta, tb, OpItem(o1), tc], [s2]);
    FlushPops([ta, tb, OpItem(o1), tc], [s2], [ta, tb, OpItem(o1), tc, OpItem(o2)], []);
    RunEnd([ta, tb, OpItem(o1), tc, OpItem(o2)], []);
  }

  /** NOT is right-associative: NOT NOT a keeps both negations, in order. */
  lemma DoubleNegation(a: string)
    requires IsWord(a)
    ensures Parse(["NOT", "NOT", a]) == Ok([Term(a), OpItem(Not), OpItem(Not)])
  {
    var ta, n, nn := Term(a), OpSym(Not), OpItem(Not);
    PopBeforeStops([], [], Not);
    RunOpStep(["NOT", "NOT", a], ["NOT", a], [], [], Not, [], [n]);
    PopBeforeStops([], [n], Not);
    RunOpStep(["NOT", a], [a], [], [n], Not, [], [n, n]);
    RunWordStep([a], [], [], [ta], [n, n]);
    RunEnd([ta], [n, n]);
    FlushPops([ta], [n, n], [ta, nn], [n]);
    FlushPops([ta, nn], [n], [ta, nn, nn], []);
    RunEnd([ta, nn, nn], []);
  }

  /** NOT binds tighter than a following AND. */
  lemma NegationBeforeAnd(a: string, b: string)
    requires IsWord(a) && IsWord(b)
    ensures Parse(["NOT", a, "AND", b]) == Ok([Term(a), OpItem(Not), Term(b), OpItem(And)])
  {
    var ta, tb, n, an := Term(a), Term(b), OpSym(Not), OpSym(And);
    PopBeforeStops([], [], Not);
    RunOpStep(["NOT", a, "AND", b], [a, "AND", b], [], [], Not, [], [n]);
    RunWordStep([a, "AND", b], ["AND", b], [], [ta], [n]);
    PopBeforePops([ta], [n], And, [ta, OpItem(Not)], []);
    PopBeforeStops([ta, OpItem(Not)], [], And);
    RunOpStep(["AND", b], [b], [ta], [n], And, [ta, OpItem(Not)], [an]);
    RunWordStep([b], [], [ta, OpItem(Not)], [ta, OpItem(Not), tb], [an]);
    RunEnd([ta, OpItem(Not), tb], [an]);
    FlushPops([ta, OpItem(Not), tb], [an], [ta, OpItem(Not), tb, OpItem(And)], []);
    RunEnd([ta, OpItem(Not), tb, OpItem(And)], []);
  }

  /** NOT binds tighter than a preceding AND. */
  lemma NegationAfterAnd(a: string, b: string)
    requires IsWord(a) && IsWord(b)
    ensures Parse([a, "AND", "NOT", b]) == Ok([Term(a), Term(b), OpItem(Not), OpItem(And)])
  {
    var ta, tb, n, an := Term(a), Term(b), OpSym(Not), OpSym(And);
    RunWordStep([a, "AND", "NOT", b], ["AND", "NOT", b], [], [ta], []);
    PopBeforeStops([ta], [], And);
    RunOpStep(["AND", "NOT", b], ["NOT", b], [ta], [], And, [ta], [an]);
    PopBeforeStops([ta], [an], Not);
    RunOpStep(["NOT", b], [b], [ta], [an], Not, [ta], [an, n]);
    RunWordStep([b], [], [ta], [ta, tb], [an, n]);
    RunEnd([ta, tb], [an, n]);
    FlushPops([ta, tb], [an, n], [ta, tb, OpItem(Not)], [an]);
    FlushPops([ta, tb, OpItem(Not)], [an], [ta, tb, OpItem(Not), OpItem(And)], []);
    RunEnd([ta, tb, OpItem(Not), OpItem(And)], []);
  }

  /** Parentheses override precedence. */
  lemma ParenthesesGroup(a: string, b: string, c: string)
    requires IsWord(a) && IsWord(b) && IsWord(c)
    ensures Parse(["(", a, "OR", b, ")", "AND", c]) == Ok([Term(a), Term(b), OpItem(Or), Term(c), OpItem(And)])
  {
    GroupInside(a, b, c);
    GroupAfter(c, [Term(a), Term(b), OpItem(Or)]);
    assert [Term(a), Term(b), OpItem(Or)] + [Term(c), OpItem(And)] == [Term(a), Term(b), OpItem(Or), Term(c), OpItem(And)];
  }

  /** `( a OR b )` outputs `a b OR` and leaves the stack empty. */
  lemma GroupInside(a: string, b: string, c: string)
    requires IsWord(a) && IsWord(b)
    ensures Parse(["(", a, "OR", b, ")", "AND", c]) == Run(["AND", c], [Term(a), Term(b), OpItem(Or)], [])
  {
    var ta, tb, o := Term(a), Term(b), OpSym(Or);
    RunOpenStep(["(", a, "OR", b, ")", "AND", c], [a, "OR", b, ")", "AND", c], [], [], [OpenSym]);
    RunWordStep([a, "OR", b, ")", "AND", c], ["OR", b, ")", "AND", c], [], [ta], [OpenSym]);
    PopBeforeStops([ta], [OpenSym], Or);
    RunOpStep(["OR", b, ")", "AND", c], [b, ")", "AND", c], [ta], [OpenSym], Or, [ta], [OpenSym, o]);
    RunWordStep([b, ")", "AND", c], [")", "AND", c], [ta], [ta, tb], [OpenSym, o]);
    PopToOpenPops([ta, tb], [OpenSym, o], [ta, tb, OpItem(Or)], [OpenSym]);
    PopToOpenFinds([ta, tb, OpItem(Or)], [OpenSym], []);
    RunCloseStep([")", "AND", c], ["AND", c], [ta, tb], [OpenSym, o], [ta, tb, OpItem(Or)], []);
  }

  /** `AND c` on an empty stack appends `c AND`. */
  lemma GroupAfter(c: string, out: seq<Item>)
    requires IsWord(c)
    ensures Run(["AND", c], out, []) == Ok(out + [Term(c), OpItem(And)])
  {
    var tc, an := Term(c), OpSym(And);
    PopBeforeStops(out, [], And);
    RunOpStep(["AND", c], [c], out, [], And, out, [an]);
    RunWordStep([c], [], out, out + [tc], [an]);
    RunEnd(out + [tc], [an]);
    FlushPops(out + [tc], [an], out + [tc, OpItem(And)], []);
    RunEnd(out + [tc, OpItem(And)], []);
    assert out + [tc] + [OpItem(And)] == out + [tc, OpItem(And)];
  }

  /** A ')' without an open '(' fails, as does a '(' never closed. */
  lemma UnmatchedParentheses(a: string)
    requires IsWord(a)
    ensures Parse([a, ")"]).Err?
    ensures Parse(["(", a]).Err?
  {
    ParseFacts([a, ")"]);
    assert [a, ")"][1..] == [")"];
    assert !BalancedFrom([")"], 0);
    ParseFacts(["(", a]);
    assert ["(", a][1..] == [a];
    assert [a][1..] == [];
    assert !BalancedFrom([a], 1);
  }
}

=== FILE: ranked_index.dfy ===
/** HW3's single-pass indexer (`build_index` in HW3/index.py): documents are
    read in ascending id order, every token is interned, and each term keeps a
    posting list of (document, term frequency) pairs, a document frequency,
    and, per document, a running count used for the weighted document length.
    Tokenising and stemming are outside the model: `contents` maps a document
    id to its normalised token sequence. Where the Python code would raise,
    the model returns `Err`. */
module RankedIndex {
  import opened Base
  import opened TermIds
  import opened Weights
  import IndexBuild

  /** `(doc_id, term_freq)`. */
  datatype Posting = Posting(doc: int, tf: nat)

  /** The loop's state: the term table, `dictionary` (term id to document
      frequency), `postings_list` and `documents_lengths`. */
  datatype Collection = Collection(
    table: TermTable,
    df: map<nat, nat>,
    postings: map<nat, seq<Posting>>,
    lengths: map<int, real>)

  function EmptyCollection(): Collection {
    Collection(EmptyTable(), map[], map[], map[])
  }


  function LastPosting(ps: seq<Posting>): Posting
    requires ps != []
  {
    ps[|ps| - 1]
  }

  /** The state the Python loop relies on not to raise: `dictionary` and
      `postings_list` have the same keys, no list is empty, and every term
      whose last posting is for document `doc` has an entry in `doc_wt`. */
  ghost predicate Safe(c: Collection, wt: OrderedMap<nat>, doc: int) {
    && c.df.Keys == c.postings.Keys
    && (forall id :: id in c.postings ==> c.postings[id] != [])
    && (forall id :: id in c.postings && LastPosting(c.postings[id]).doc == doc ==> id in wt.values)
  }

  /** One token of document `doc` (HW3/index.py lines 74-111): a term seen
      for the first time anywhere gets a new list; the first occurrence in
      this document appends a posting; a repeat occurrence bumps the last
      posting's tf. `doc_wt` follows the same three cases. */
  function AddToken(c: Collection, wt: OrderedMap<nat>, doc: int, token: string)
    : (r: Result<(Collection, OrderedMap<nat>), string>)
    ensures Safe(c, wt, doc) ==> r.Ok?
    ensures r.Ok? ==> r.value.0.table == Intern(c.table, token) && r.value.0.lengths == c.lengths
  {
    var t := Intern(c.table, token);
    var id := t.toId[token];
    if id !in c.df then
      Ok((Collection(t, c.df[id := 1], c.postings[id := [Posting(doc, 1)]], c.lengths), Put(wt, id, 1)))
    else if id !in c.postings then Err(KeyError)
    else if c.postings[id] == [] then Err(IndexError)
    else
      var ps := c.postings[id];
      var last := LastPosting(ps);
      if doc != last.doc then
        Ok((Collection(t, c.df[id := c.df[id] + 1], c.postings[id := ps + [Posting(doc, 1)]], c.lengths),
            Put(wt, id, 1)))
      else if id !in wt.values then Err(KeyError)
      else
        Ok((Collection(t, c.df, c.postings[id := ps[..|ps| - 1] + [Posting(last.doc, last.tf + 1)]], c.lengths),
            Put(wt, id, wt.values[id] + 1)))
  }

  /** The tokens of one document, left to right, stopping at the first error. */
  function IndexTokens(c: Collection, wt: OrderedMap<nat>, doc: int, tokens: seq<string>)
    : Result<(Collection, OrderedMap<nat>), string>
    decreases |tokens|
  {
    if tokens == [] then Ok((c, wt))
    else
      match AddToken(c, wt, doc, tokens[0])
      case Err(e) => Err(e)
      case Ok(next) => IndexTokens(next.0, next.1, doc, tokens[1..])
  }

  /** `doc_wt.values()` in insertion order (a key always has a value in a
      well-formed map; 0 stands in otherwise). */
  function Values(wt: OrderedMap<nat>): (r: seq<nat>)
    ensures |r| == |wt.keys|
  {
    seq(|wt.keys|, i requires 0 <= i < |wt.keys| =>
      if wt.keys[i] in wt.values then wt.values[wt.keys[i]] else 0)
  }

  /** One document: a fresh `doc_wt`, its tokens, then the document's weighted
      length sum of (1 + log10 tf)^2 over its distinct terms (lines 70-118). */
  function ProcessDocument(m: Maths, c: Collection, doc: int, tokens: seq<string>): (r: Result<Collection, string>)
    ensures r.Ok? ==> doc in r.value.lengths
  {
    match IndexTokens(c, EmptyOrderedMap(), doc, tokens)
    case Err(e) => Err(e)
    case Ok(done) => Ok(done.0.(lengths := done.0.lengths[doc := SumSquaredTf(m, Values(done.1))]))
  }

  /** The documents in the given order, stopping at the first error. */
  function ProcessAll(m: Maths, c: Collection, docs: seq<int>, contents: int -> seq<string>): Result<Collection, string>
    decreases |docs|
  {
    if docs == [] then Ok(c)
    else
      match ProcessDocument(m, c, docs[0], contents(docs[0]))
      case Err(e) => Err(e)
      case Ok(c1) => ProcessAll(m, c1, docs[1..], contents)
  }

  /** `build_index` without the file output: sort the document ids, then
      index them one after another. */
  function BuildRanked(m: Maths, all: seq<int>, contents: int -> seq<string>): Result<Collection, string> {
    ProcessAll(m, EmptyCollection(), IndexBuild.SortDocs(all), contents)
  }
}

=== FILE: ranked_index_facts.dfy ===
/** What HW3's indexer computes, stated against reference definitions read
    straight off the documents: a term's posting list is the documents that
    contain it, in ascending order, each with the term's number of
    occurrences; its df is the length of that list; a document's weighted
    length sums (1 + log10 tf)^2 over its distinct terms. */
module RankedIndexFacts {
  import opened Base
  import opened TermIds
  import opened Weights
  import opened RankedIndex
  import IndexBuild

  // ---------------------------------------------------------------------
  // Reference definitions
  // ---------------------------------------------------------------------

  /** The posting list a term should have after `docs`: one posting per
      document containing it, with its number of occurrences there. */
  function Expected(docs: seq<int>, contents: int -> seq<string>, w: string): seq<Posting> {
    if docs == [] then []
    else
      var d := docs[|docs| - 1];
      Expected(docs[..|docs| - 1], contents, w)
        + (if w in contents(d) then [Posting(d, Count(contents(d), w))] else [])
  }

  /** The posting of the document being read, once `pre` has been seen. */
  function Current(d: int, pre: seq<string>, w: string): seq<Posting> {
    if w in pre then [Posting(d, Count(pre, w))] else []
  }

  /** Distinct tokens in order of first occurrence. */
  function FirstSeen(s: seq<string>): seq<string> {
    if s == [] then []
    else
      var init := s[..|s| - 1];
      FirstSeen(init) + (if s[|s| - 1] in init then [] else [s[|s| - 1]])
  }

  /** The number of occurrences of each distinct token, in first-seen order. */
  function Counts(s: seq<string>): (r: seq<nat>)
    ensures |r| == |FirstSeen(s)|
  {
    seq(|FirstSeen(s)|, i requires 0 <= i < |FirstSeen(s)| => Count(s, FirstSeen(s)[i]))
  }

  /** The weighted length a document should get. */
  function DocLength(m: Maths, tokens: seq<string>): real {
    SumSquaredTf(m, Counts(tokens))
  }

  // ---------------------------------------------------------------------
  // Facts about the reference definitions
  // ---------------------------------------------------------------------

  lemma {:induction false} FirstSeenFacts(s: seq<string>)
    ensures forall w :: w in FirstSeen(s) <==> w in s
    ensures Distinct(FirstSeen(s))
  {
    if s != [] {
      var init := s[..|s| - 1];
      FirstSeenFacts(init);
      assert s == init + [s[|s| - 1]];
    }
  }

  lemma CountSnoc(s: seq<string>, w: string, x: string)
    ensures Count(s + [w], x) == Count(s, x) + (if x == w then 1 else 0)
  {
    CountAppend(s, [w], x);
    assert [w][1..] == [];
  }

  lemma ExpectedSnoc(docs: seq<int>, d: int, contents: int -> seq<string>, w: string)
    ensures Expected(docs + [d], contents, w) == Expected(docs, contents, w) + Current(d, contents(d), w)
  {
    assert (docs + [d])[..|docs|] == docs;
  }

  /** A term has postings exactly when some document contains it, and every
      posting is for one of the documents. */
  lemma {:induction false} ExpectedFacts(docs: seq<int>, contents: int -> seq<string>, w: string)
    ensures Expected(docs, contents, w) != [] <==> w in Flatten(docs, contents)
    ensures forall p :: p in Expected(docs, contents, w) ==> p.doc in docs
  {
    if docs != [] {
      var init := docs[..|docs| - 1];
      ExpectedFacts(init, contents, w);
      assert docs == init + [docs[|docs| - 1]];
    }
  }

  lemma {:induction false} InternAllSnoc(t: TermTable, s: seq<string>, w: string)
    ensures InternAll(t, s + [w]) == Intern(InternAll(t, s), w)
    decreases |s|
  {
    if s == [] {
      assert [w][1..] == [];
    } else {
      assert (s + [w])[1..] == s[1..] + [w];
      InternAllSnoc(Intern(t, s[0]), s[1..], w);
    }
  }

  // ---------------------------------------------------------------------
  // The term table
  // ---------------------------------------------------------------------

  /** The token loop interns the document's tokens in order. */
  lemma {:induction false} IndexTokensTable(c: Collection, wt: OrderedMap<nat>, d: int, tokens: seq<string>)
    ensures IndexTokens(c, wt, d, tokens).Ok? ==> IndexTokens(c, wt, d, tokens).value.0.table == InternAll(c.table, tokens)
    decreases |tokens|
  {
    if tokens != [] {
      match AddToken(c, wt, d, tokens[0])
      case Err(_) =>
      case Ok(next) => IndexTokensTable(next.0, next.1, d, tokens[1..]);
    }
  }

  /** One document interns its tokens on top of the table. */
  lemma ProcessDocumentTable(m: Maths, c: Collection, d: int, tokens: seq<string>)
    ensures ProcessDocument(m, c, d, tokens).Ok? ==> ProcessDocument(m, c, d, tokens).value.table == InternAll(c.table, tokens)
  {
    IndexTokensTable(c, EmptyOrderedMap(), d, tokens);
  }

  /** One document's tokens go on top of the table of the documents
      before it. */
  lemma DocumentTable(m: Maths, t0: TermTable, c: Collection, done: seq<int>, d: int, contents: int -> seq<string>)
    requires c.table == InternAll(t0, Flatten(done, contents))
    ensures ProcessDocument(m, c, d, contents(d)).Ok? ==>
      ProcessDocument(m, c, d, contents(d)).value.table == InternAll(t0, Flatten(done + [d], contents))
  {
    ProcessDocumentTable(m, c, d, contents(d));
    InternAllAppend(t0, Flatten(done, contents), contents(d));
    FlattenSnoc(done, d, contents);
  }

  // ---------------------------------------------------------------------
  // The loop invariant
  // ---------------------------------------------------------------------

  /** The term table holds exactly the terms read so far, and the
      dictionary and postings are keyed by exactly its ids. */
  ghost predicate TableInv(c: Collection, done: seq<int>, contents: int -> seq<string>, pre: seq<string>) {
    && ValidTable(c.table)
    && c.table.toId.Keys == Elements(Flatten(done, contents) + pre)
    && c.df.Keys == c.postings.Keys == c.table.toTerm.Keys
  }

  /** Every known term's list is the reference list for the finished
      documents plus the posting of the current one, and its df is the
      list's length. */
  ghost predicate PostingsInv(c: Collection, done: seq<int>, contents: int -> seq<string>, d: int, pre: seq<string>) {
    forall w :: w in c.table.toId && c.table.toId[w] in c.postings && c.table.toId[w] in c.df ==>
      && c.postings[c.table.toId[w]] == Expected(done, contents, w) + Current(d, pre, w)
      && c.df[c.table.toId[w]] == |c.postings[c.table.toId[w]]|
  }

  /** `doc_wt` holds, in first-seen order, the id of each distinct token read
      from the current document and its number of occurrences so far. */
  ghost predicate WeightsInv(t: TermTable, wt: OrderedMap<nat>, pre: seq<string>) {
    && ValidOrderedMap(wt)
    && |wt.keys| == |FirstSeen(pre)|
    && (forall i :: 0 <= i < |wt.keys| ==>
          && FirstSeen(pre)[i] in t.toId
          && wt.keys[i] == t.toId[FirstSeen(pre)[i]]
          && wt.keys[i] in wt.values
          && wt.values[wt.keys[i]] == Count(pre, FirstSeen(pre)[i]))
  }

  /** Finished documents come in ascending order, all before `d`. */
  ghost predicate OrderInv(done: seq<int>, d: int) {
    && StrictlyIncreasing(done)
    && (forall e :: e in done ==> e < d)
  }

  /** Every finished document has its reference weighted length. */
  ghost predicate LengthsInv(m: Maths, c: Collection, done: seq<int>, contents: int -> seq<string>) {
    && c.lengths.Keys == Elements(done)
    && (forall e :: e in done ==> c.lengths[e] == DocLength(m, contents(e)))
  }

  ghost predicate DocInv(c: Collection, wt: OrderedMap<nat>, done: seq<int>, contents: int -> seq<string>,
                         d: int, pre: seq<string>) {
    && TableInv(c, done, contents, pre)
    && PostingsInv(c, done, contents, d, pre)
    && WeightsInv(c.table, wt, pre)
    && OrderInv(done, d)
  }

  // ---------------------------------------------------------------------
  // One token
  // ---------------------------------------------------------------------

  /** Term ids are injective: different terms, different ids. */
  lemma IdsDiffer(t: TermTable, x: string, y: string)
    requires ValidTable(t)
    requires x in t.toId && y in t.toId && x != y
    ensures t.toId[x] != t.toId[y]
  {
    assert t.toTerm[t.toId[x]] == x;
    assert t.toTerm[t.toId[y]] == y;
  }

  /** The ids in `doc_wt` are exactly those of the terms read so far from the
      current document. */
  lemma WeightsKeys(t: TermTable, wt: OrderedMap<nat>, pre: seq<string>, w: string)
    requires ValidTable(t) && WeightsInv(t, wt, pre)
    requires w in t.toId
    ensures t.toId[w] in wt.values <==> w in pre
    ensures w in pre ==> wt.values[t.toId[w]] == Count(pre, w)
  {
    FirstSeenFacts(pre);
    var id := t.toId[w];
    if w in pre {
      var i :| 0 <= i < |FirstSeen(pre)| && FirstSeen(pre)[i] == w;
      assert wt.keys[i] == id;
    } else {
      forall i | 0 <= i < |wt.keys|
        ensures wt.keys[i] != id
      {
        assert FirstSeen(pre)[i] in FirstSeen(pre);
        IdsDiffer(t, FirstSeen(pre)[i], w);
      }
      assert id !in wt.keys;
    }
  }

  /** A known term's list is never empty, and its last posting is for the
      current document exactly when the term has occurred in it. */
  lemma KnownTermFacts(c: Collection, done: seq<int>, contents: int -> seq<string>,
                       d: int, pre: seq<string>, w: string)
    requires TableInv(c, done, contents, pre) && PostingsInv(c, done, contents, d, pre) && OrderInv(done, d)
    requires w in c.table.toId
    ensures c.table.toId[w] in c.postings && c.table.toId[w] in c.df
    ensures c.postings[c.table.toId[w]] == Expected(done, contents, w) + Current(d, pre, w) != []
    ensures c.df[c.table.toId[w]] == |c.postings[c.table.toId[w]]|
    ensures LastPosting(c.postings[c.table.toId[w]]).doc == d <==> w in pre
  {
    var id := c.table.toId[w];
    assert id in c.table.toTerm;
    assert id in c.postings && id in c.df;
    var exp := Expected(done, contents, w);
    var cur := Current(d, pre, w);
    var ps := c.postings[id];
    assert ps == exp + cur;
    assert w in Elements(Flatten(done, contents) + pre);
    if w in pre {
      assert LastPosting(ps) == cur[0];
    } else {
      assert w in Flatten(done, contents);
      ExpectedFacts(done, contents, w);
      assert cur == [];
      assert ps == exp;
      assert exp != [];
      assert |ps| == |exp|;
      assert ps[|ps| - 1] == exp[|exp| - 1];
      assert exp[|exp| - 1] in exp;
      assert exp[|exp| - 1].doc in done;
    }
  }

  /** The list a term should have once `w` has been read from document `d`. */
  function NextList(done: seq<int>, contents: int -> seq<string>, d: int, pre: seq<string>, w: string): seq<Posting> {
    Expected(done, contents, w) + Current(d, pre + [w], w)
  }

  /** The state after reading `w`, as the reference definitions describe it:
      the term's list is its reference value, its df that list's length, and
      its `doc_wt` count one higher. */
  function Stepped(c: Collection, wt: OrderedMap<nat>, done: seq<int>, contents: int -> seq<string>,
                   d: int, pre: seq<string>, w: string): (Collection, OrderedMap<nat>)
  {
    var t := Intern(c.table, w);
    var id := t.toId[w];
    var list := NextList(done, contents, d, pre, w);
    (Collection(t, c.df[id := |list|], c.postings[id := list], c.lengths), Put(wt, id, Count(pre, w) + 1))
  }

  /** A term never seen before gets a one-posting list. */
  lemma ShapeNewTerm(c: Collection, wt: OrderedMap<nat>, done: seq<int>,
                     contents: int -> seq<string>, d: int, pre: seq<string>, w: string)
    requires ValidTable(c.table) && c.df.Keys == c.postings.Keys == c.table.toTerm.Keys
    requires w !in c.table.toId
    requires Expected(done, contents, w) == [] && w !in pre
    ensures AddToken(c, wt, d, w) == Ok(Stepped(c, wt, done, contents, d, pre, w))
  {
    var t := Intern(c.table, w);
    var id := t.toId[w];
    var list := NextList(done, contents, d, pre, w);
    CountSnoc(pre, w, w);
    assert Count(pre, w) == 0 by { CountPositiveIffMember(pre, w); }
    assert id !in c.table.toTerm;
    assert list == [Posting(d, 1)];
    var c1 := Collection(t, c.df[id := 1], c.postings[id := list], c.lengths);
    var wt1 := Put(wt, id, 1);
    assert AddToken(c, wt, d, w) == Ok((c1, wt1));
    assert Stepped(c, wt, done, contents, d, pre, w) == (c1, wt1);
  }

  /** A repeat occurrence in the current document bumps the last posting. */
  lemma ShapeRepeat(c: Collection, wt: OrderedMap<nat>, done: seq<int>,
                    contents: int -> seq<string>, d: int, pre: seq<string>, w: string)
    requires w in c.table.toId && w in pre
    requires var id := c.table.toId[w];
      && id in c.df && id in c.postings
      && c.postings[id] == Expected(done, contents, w) + [Posting(d, Count(pre, w))]
      && c.df[id] == |c.postings[id]|
      && id in wt.values && wt.values[id] == Count(pre, w)
    ensures AddToken(c, wt, d, w) == Ok(Stepped(c, wt, done, contents, d, pre, w))
  {
    var t := Intern(c.table, w);
    var id := t.toId[w];
    var list := NextList(done, contents, d, pre, w);
    CountSnoc(pre, w, w);
    var ps := c.postings[id];
    var exp := Expected(done, contents, w);
    assert LastPosting(ps) == Posting(d, Count(pre, w));
    assert ps[..|ps| - 1] == exp;
    assert list == ps[..|ps| - 1] + [Posting(d, Count(pre, w) + 1)];
    assert c.df == c.df[id := |list|];
    var c1 := Collection(t, c.df, c.postings[id := list], c.lengths);
    var wt1 := Put(wt, id, Count(pre, w) + 1);
    assert AddToken(c, wt, d, w) == Ok((c1, wt1));
    assert Stepped(c, wt, done, contents, d, pre, w) == (c1, wt1);
  }

  /** The first occurrence in the current document of a known term appends a
      posting. */
  lemma ShapeFirstInDoc(c: Collection, wt: OrderedMap<nat>, done: seq<int>,
                        contents: int -> seq<string>, d: int, pre: seq<string>, w: string)
    requires w in c.table.toId && w !in pre
    requires var id := c.table.toId[w];
      && id in c.df && id in c.postings
      && c.postings[id] == Expected(done, contents, w) != []
      && LastPosting(c.postings[id]).doc != d
      && c.df[id] == |c.postings[id]|
    ensures AddToken(c, wt, d, w) == Ok(Stepped(c, wt, done, contents, d, pre, w))
  {
    var t := Intern(c.table, w);
    var id := t.toId[w];
    var list := NextList(done, contents, d, pre, w);
    CountSnoc(pre, w, w);
    var ps := c.postings[id];
    assert Count(pre, w) == 0 by { CountPositiveIffMember(pre, w); }
    assert list == ps + [Posting(d, 1)];
    var c1 := Collection(t, c.df[id := |list|], c.postings[id := list], c.lengths);
    var wt1 := Put(wt, id, 1);
    assert AddToken(c, wt, d, w) == Ok((c1, wt1));
    assert Stepped(c, wt, done, contents, d, pre, w) == (c1, wt1);
  }

  /** Whatever branch the Python code takes, reading one token yields the
      reference state. */
  lemma AddTokenShape(c: Collection, wt: OrderedMap<nat>, done: seq<int>,
                      contents: int -> seq<string>, d: int, pre: seq<string>, w: string)
    requires DocInv(c, wt, done, contents, d, pre)
    ensures AddToken(c, wt, d, w) == Ok(Stepped(c, wt, done, contents, d, pre, w))
  {
    if w !in c.table.toId {
      assert w !in Elements(Flatten(done, contents) + pre);
      ExpectedFacts(done, contents, w);
      ShapeNewTerm(c, wt, done, contents, d, pre, w);
    } else {
      KnownTermFacts(c, done, contents, d, pre, w);
      WeightsKeys(c.table, wt, pre, w);
      if w in pre {
        ShapeRepeat(c, wt, done, contents, d, pre, w);
      } else {
        ShapeFirstInDoc(c, wt, done, contents, d, pre, w);
      }
    }
  }

  /** Reading `w` keeps the table invariant. */
  lemma TableStep(c: Collection, done: seq<int>, contents: int -> seq<string>, pre: seq<string>, w: string,
                  list: seq<Posting>)
    requires TableInv(c, done, contents, pre)
    ensures var t := Intern(c.table, w);
      var id := t.toId[w];
      TableInv(Collection(t, c.df[id := |list|], c.postings[id := list], c.lengths), done, contents, pre + [w])
  {
    var flat := Flatten(done, contents);
    assert flat + pre + [w] == flat + (pre + [w]);
    assert Elements(flat + pre + [w]) == Elements(flat + pre) + {w};
  }

  /** Reading `w` keeps every list at its reference value. */
  lemma PostingsStep(c: Collection, done: seq<int>, contents: int -> seq<string>, d: int,
                     pre: seq<string>, w: string)
    requires TableInv(c, done, contents, pre) && PostingsInv(c, done, contents, d, pre)
    ensures var t := Intern(c.table, w);
      var id := t.toId[w];
      var list := NextList(done, contents, d, pre, w);
      PostingsInv(Collection(t, c.df[id := |list|], c.postings[id := list], c.lengths), done, contents, d, pre + [w])
  {
    var t := Intern(c.table, w);
    var id := t.toId[w];
    var list := NextList(done, contents, d, pre, w);
    var c1 := Collection(t, c.df[id := |list|], c.postings[id := list], c.lengths);
    forall x | x in t.toId && t.toId[x] in c1.postings && t.toId[x] in c1.df
      ensures c1.postings[t.toId[x]] == Expected(done, contents, x) + Current(d, pre + [w], x)
      ensures c1.df[t.toId[x]] == |c1.postings[t.toId[x]]|
    {
      if x != w {
        PostingsStepOther(c, done, contents, d, pre, w, x, list);
      }
    }
  }

  /** Reading `w` leaves another term's list and df where they were. */
  lemma PostingsStepOther(c: Collection, done: seq<int>, contents: int -> seq<string>, d: int,
                          pre: seq<string>, w: string, x: string, list: seq<Posting>)
    requires ValidTable(c.table) && PostingsInv(c, done, contents, d, pre)
    requires x != w && x in Intern(c.table, w).toId
    ensures var t := Intern(c.table, w);
      var id := t.toId[w];
      var c1 := Collection(t, c.df[id := |list|], c.postings[id := list], c.lengths);
      t.toId[x] in c1.postings && t.toId[x] in c1.df ==>
        && c1.postings[t.toId[x]] == Expected(done, contents, x) + Current(d, pre + [w], x)
        && c1.df[t.toId[x]] == |c1.postings[t.toId[x]]|
  {
    var t := Intern(c.table, w);
    CurrentOther(d, pre, w, x);
    IdsDiffer(t, x, w);
    assert x in c.table.toId && t.toId[x] == c.table.toId[x];
  }

  lemma CurrentOther(d: int, pre: seq<string>, w: string, x: string)
    requires x != w
    ensures Current(d, pre + [w], x) == Current(d, pre, x)
  {
    CountSnoc(pre, w, x);
  }

  lemma FirstSeenSnoc(pre: seq<string>, w: string)
    ensures FirstSeen(pre + [w]) == FirstSeen(pre) + (if w in pre then [] else [w])
  {
    assert (pre + [w])[..|pre|] == pre;
  }

  /** The id of a token that `doc_wt` already holds or has just been given. */
  lemma WeightsIdSlot(t: TermTable, wt: OrderedMap<nat>, pre: seq<string>, w: string)
    requires ValidTable(t) && WeightsInv(t, wt, pre)
    ensures var id := Intern(t, w).toId[w];
      (id in wt.values <==> w in pre) && (w in pre ==> wt.values[id] == Count(pre, w))
  {
    var id := Intern(t, w).toId[w];
    if w in t.toId {
      WeightsKeys(t, wt, pre, w);
    } else {
      FirstSeenFacts(pre);
      forall i | 0 <= i < |wt.keys| ensures wt.keys[i] != id {
        assert wt.keys[i] in t.toTerm;
      }
      assert w !in FirstSeen(pre) by {
        forall i | 0 <= i < |FirstSeen(pre)| ensures FirstSeen(pre)[i] != w {
          assert FirstSeen(pre)[i] in t.toId;
        }
      }
    }
  }

  /** Reading `w` keeps `doc_wt` a first-seen-order occurrence count. */
  lemma WeightsStep(t: TermTable, wt: OrderedMap<nat>, pre: seq<string>, w: string)
    requires ValidTable(t) && WeightsInv(t, wt, pre)
    ensures var t1 := Intern(t, w);
      WeightsInv(t1, Put(wt, t1.toId[w], Count(pre, w) + 1), pre + [w])
  {
    var t1 := Intern(t, w);
    var id := t1.toId[w];
    var wt1 := Put(wt, id, Count(pre, w) + 1);
    var fs := FirstSeen(pre);
    var fs1 := FirstSeen(pre + [w]);
    FirstSeenSnoc(pre, w);
    WeightsIdSlot(t, wt, pre, w);
    CountSnoc(pre, w, w);
    assert fs1 == fs + (if w in pre then [] else [w]);
    assert wt1.keys == wt.keys + (if w in pre then [] else [id]);
    forall i | 0 <= i < |wt1.keys|
      ensures fs1[i] in t1.toId
      ensures wt1.keys[i] == t1.toId[fs1[i]]
      ensures wt1.keys[i] in wt1.values
      ensures wt1.values[wt1.keys[i]] == Count(pre + [w], fs1[i])
    {
      if i < |wt.keys| {
        var x := fs[i];
        assert fs1[i] == x && wt1.keys[i] == wt.keys[i];
        CountSnoc(pre, w, x);
        if x != w {
          IdsDiffer(t1, x, w);
        }
      } else {
        assert fs1[i] == w && wt1.keys[i] == id;
      }
    }
  }

  /** One token keeps the whole invariant and never raises. */
  lemma TokenStep(c: Collection, wt: OrderedMap<nat>, done: seq<int>,
                  contents: int -> seq<string>, d: int, pre: seq<string>, w: string)
    requires DocInv(c, wt, done, contents, d, pre)
    ensures AddToken(c, wt, d, w) == Ok(Stepped(c, wt, done, contents, d, pre, w))
    ensures DocInv(Stepped(c, wt, done, contents, d, pre, w).0, Stepped(c, wt, done, contents, d, pre, w).1,
                   done, contents, d, pre + [w])
    ensures Stepped(c, wt, done, contents, d, pre, w).0.lengths == c.lengths
  {
    AddTokenShape(c, wt, done, contents, d, pre, w);
    TableStep(c, done, contents, pre, w, NextList(done, contents, d, pre, w));
    PostingsStep(c, done, contents, d, pre, w);
    WeightsStep(c.table, wt, pre, w);
    assert OrderInv(done, d);
  }

  // ---------------------------------------------------------------------
  // One document, all documents
  // ---------------------------------------------------------------------

  /** Any property of the state that one token keeps and that lets the token
      through is kept by the whole token loop, which then never raises. */
  lemma {:induction false} IndexTokensKeeps(inv: (Collection, OrderedMap<nat>, seq<string>) -> bool,
                                            c: Collection, wt: OrderedMap<nat>, d: int,
                                            pre: seq<string>, rest: seq<string>)
    requires inv(c, wt, pre)
    requires forall c0, wt0, p0, w :: inv(c0, wt0, p0) ==>
      && AddToken(c0, wt0, d, w).Ok?
      && inv(AddToken(c0, wt0, d, w).value.0, AddToken(c0, wt0, d, w).value.1, p0 + [w])
    ensures IndexTokens(c, wt, d, rest).Ok?
    ensures inv(IndexTokens(c, wt, d, rest).value.0, IndexTokens(c, wt, d, rest).value.1, pre + rest)
    decreases |rest|
  {
    if rest == [] {
      assert pre + rest == pre;
    } else {
      var next := AddToken(c, wt, d, rest[0]).value;
      assert pre + [rest[0]] + rest[1..] == pre + rest;
      IndexTokensKeeps(inv, next.0, next.1, d, pre + [rest[0]], rest[1..]);
    }
  }

  /** The tokens of one document keep the invariant and never raise. */
  lemma IndexTokensInv(c: Collection, wt: OrderedMap<nat>, done: seq<int>,
                       contents: int -> seq<string>, d: int, pre: seq<string>, rest: seq<string>)
    requires DocInv(c, wt, done, contents, d, pre)
    ensures IndexTokens(c, wt, d, rest).Ok?
    ensures var r := IndexTokens(c, wt, d, rest).value;
      DocInv(r.0, r.1, done, contents, d, pre + rest) && r.0.lengths == c.lengths
  {
    var inv := (c0: Collection, wt0: OrderedMap<nat>, p0: seq<string>) =>
      DocInv(c0, wt0, done, contents, d, p0) && c0.lengths == c.lengths;
    forall c0, wt0, p0, w | inv(c0, wt0, p0)
      ensures AddToken(c0, wt0, d, w).Ok?
      ensures inv(AddToken(c0, wt0, d, w).value.0, AddToken(c0, wt0, d, w).value.1, p0 + [w])
    {
      TokenStep(c0, wt0, done, contents, d, p0, w);
    }
    IndexTokensKeeps(inv, c, wt, d, pre, rest);
  }

  /** Every known term's list is the reference list of the finished
      documents, and its df is the list's length. */
  ghost predicate ListsInv(c: Collection, done: seq<int>, contents: int -> seq<string>) {
    forall w :: w in c.table.toId && c.table.toId[w] in c.postings && c.table.toId[w] in c.df ==>
      && c.postings[c.table.toId[w]] == Expected(done, contents, w)
      && c.df[c.table.toId[w]] == |c.postings[c.table.toId[w]]|
  }

  /** Between documents: every known term's list is its reference list and
      every finished document has its reference length. */
  ghost predicate BuildInv(m: Maths, c: Collection, done: seq<int>, contents: int -> seq<string>) {
    && TableInv(c, done, contents, [])
    && ListsInv(c, done, contents)
    && LengthsInv(m, c, done, contents)
    && StrictlyIncreasing(done)
  }

  lemma StartDocument(m: Maths, c: Collection, done: seq<int>, contents: int -> seq<string>, d: int)
    requires BuildInv(m, c, done, contents)
    requires forall e :: e in done ==> e < d
    ensures DocInv(c, EmptyOrderedMap(), done, contents, d, [])
  {
    assert Flatten(done, contents) + [] == Flatten(done, contents);
  }

  /** After the last token, `doc_wt`'s values are the reference counts. */
  lemma WeightsComplete(t: TermTable, wt: OrderedMap<nat>, tokens: seq<string>)
    requires WeightsInv(t, wt, tokens)
    ensures Values(wt) == Counts(tokens)
  {
  }

  /** At the end of a document the table covers it as a finished one. */
  lemma FinishTable(c: Collection, done: seq<int>, contents: int -> seq<string>, d: int, lengths: map<int, real>)
    requires TableInv(c, done, contents, contents(d))
    ensures TableInv(c.(lengths := lengths), done + [d], contents, [])
  {
    FlattenSnoc(done, d, contents);
    assert Flatten(done + [d], contents) + [] == Flatten(done, contents) + contents(d);
  }

  /** At the end of a document its postings become part of the reference lists. */
  lemma FinishLists(c: Collection, done: seq<int>, contents: int -> seq<string>, d: int, lengths: map<int, real>)
    requires PostingsInv(c, done, contents, d, contents(d))
    ensures ListsInv(c.(lengths := lengths), done + [d], contents)
  {
    forall w | w in c.table.toId && c.table.toId[w] in c.postings && c.table.toId[w] in c.df
      ensures c.postings[c.table.toId[w]] == Expected(done + [d], contents, w)
    {
      ExpectedSnoc(done, d, contents, w);
    }
  }

  /** Recording the document's length keeps every other length. */
  lemma FinishLengths(m: Maths, c: Collection, done: seq<int>, contents: int -> seq<string>, d: int, len: real)
    requires LengthsInv(m, c, done, contents)
    requires len == DocLength(m, contents(d))
    ensures LengthsInv(m, c.(lengths := c.lengths[d := len]), done + [d], contents)
  {
    assert Elements(done + [d]) == Elements(done) + {d};
    forall e | e in done + [d]
      ensures c.lengths[d := len][e] == DocLength(m, contents(e))
    {
      if e != d {
        assert e in done;
      }
    }
  }

  lemma IncreasingSnoc(done: seq<int>, d: int)
    requires StrictlyIncreasing(done)
    requires forall e :: e in done ==> e < d
    ensures StrictlyIncreasing(done + [d])
  {
    forall i, j | 0 <= i < j < |done| + 1
      ensures (done + [d])[i] < (done + [d])[j]
    {
      if j == |done| {
        assert done[i] in done;
      }
    }
  }

  /** One document keeps the between-documents invariant and never raises. */
  lemma DocumentStep(m: Maths, c: Collection, done: seq<int>, contents: int -> seq<string>, d: int)
    requires BuildInv(m, c, done, contents)
    requires forall e :: e in done ==> e < d
    ensures ProcessDocument(m, c, d, contents(d)).Ok?
    ensures BuildInv(m, ProcessDocument(m, c, d, contents(d)).value, done + [d], contents)
  {
    var tokens := contents(d);
    StartDocument(m, c, done, contents, d);
    IndexTokensInv(c, EmptyOrderedMap(), done, contents, d, [], tokens);
    assert [] + tokens == tokens;
    var r := IndexTokens(c, EmptyOrderedMap(), d, tokens).value;
    WeightsComplete(r.0.table, r.1, tokens);
    var len := SumSquaredTf(m, Values(r.1));
    var c1 := r.0.(lengths := r.0.lengths[d := len]);
    assert ProcessDocument(m, c, d, tokens) == Ok(c1);
    FinishTable(r.0, done, contents, d, c1.lengths);
    FinishLists(r.0, done, contents, d, c1.lengths);
    FinishLengths(m, r.0, done, contents, d, len);
    IncreasingSnoc(done, d);
  }

  /** A strictly increasing sequence stays so when cut after one more element. */
  lemma IncreasingPrefix(done: seq<int>, rest: seq<int>)
    requires rest != [] && StrictlyIncreasing(done + rest)
    ensures StrictlyIncreasing(done + [rest[0]])
    ensures StrictlyIncreasing(done + [rest[0]] + rest[1..])
    ensures done + [rest[0]] + rest[1..] == done + rest
  {
    assert done + [rest[0]] == (done + rest)[..|done| + 1];
    assert done + [rest[0]] + rest[1..] == done + rest;
  }

  /** Any property of the state that one document keeps, when it comes after
      every finished one, is kept by the whole document loop, which then never
      raises. */
  lemma {:induction false} ProcessAllKeeps(inv: (Collection, seq<int>) -> bool, m: Maths,
                                           c: Collection, done: seq<int>, rest: seq<int>,
                                           contents: int -> seq<string>)
    requires inv(c, done)
    requires StrictlyIncreasing(done + rest)
    requires forall c0, done0, d {:trigger inv(c0, done0), ProcessDocument(m, c0, d, contents(d))} ::
      inv(c0, done0) && StrictlyIncreasing(done0 + [d]) ==>
      && ProcessDocument(m, c0, d, contents(d)).Ok?
      && inv(ProcessDocument(m, c0, d, contents(d)).value, done0 + [d])
    ensures ProcessAll(m, c, rest, contents).Ok?
    ensures inv(ProcessAll(m, c, rest, contents).value, done + rest)
    decreases |rest|
  {
    if rest == [] {
      assert done + rest == done;
    } else {
      var d := rest[0];
      IncreasingPrefix(done, rest);
      var c1 := ProcessDocument(m, c, d, contents(d)).value;
      assert ProcessAll(m, c, rest, contents) == ProcessAll(m, c1, rest[1..], contents);
      ProcessAllKeeps(inv, m, c1, done + [d], rest[1..], contents);
    }
  }

  /** The remaining documents, in strictly increasing order, keep the
      invariant and never raise. */
  lemma ProcessAllInv(m: Maths, c: Collection, done: seq<int>, rest: seq<int>, contents: int -> seq<string>)
    requires BuildInv(m, c, done, contents)
    requires StrictlyIncreasing(done + rest)
    ensures ProcessAll(m, c, rest, contents).Ok?
    ensures BuildInv(m, ProcessAll(m, c, rest, contents).value, done + rest, contents)
  {
    var inv := (c0: Collection, done0: seq<int>) => BuildInv(m, c0, done0, contents);
    forall c0, done0, d | inv(c0, done0) && StrictlyIncreasing(done0 + [d])
      ensures ProcessDocument(m, c0, d, contents(d)).Ok?
      ensures inv(ProcessDocument(m, c0, d, contents(d)).value, done0 + [d])
    {
      forall e | e in done0 ensures e < d {
        var i :| 0 <= i < |done0| && done0[i] == e;
        assert (done0 + [d])[i] == e && (done0 + [d])[|done0|] == d;
      }
      DocumentStep(m, c0, done0, contents, d);
    }
    ProcessAllKeeps(inv, m, c, done, rest, contents);
  }

  /** The document loop interns every document's tokens, document after
      document, on top of the table of the documents done. */
  lemma ProcessAllTable(m: Maths, c: Collection, done: seq<int>, rest: seq<int>, contents: int -> seq<string>)
    requires BuildInv(m, c, done, contents)
    requires c.table == InternAll(EmptyTable(), Flatten(done, contents))
    requires StrictlyIncreasing(done + rest)
    ensures ProcessAll(m, c, rest, contents).Ok?
    ensures ProcessAll(m, c, rest, contents).value.table == InternAll(EmptyTable(), Flatten(done + rest, contents))
  {
    var inv := (c0: Collection, done0: seq<int>) =>
      BuildInv(m, c0, done0, contents) && c0.table == InternAll(EmptyTable(), Flatten(done0, contents));
    forall c0, done0, d | inv(c0, done0) && StrictlyIncreasing(done0 + [d])
      ensures ProcessDocument(m, c0, d, contents(d)).Ok?
      ensures inv(ProcessDocument(m, c0, d, contents(d)).value, done0 + [d])
    {
      forall e | e in done0 ensures e < d {
        var i :| 0 <= i < |done0| && done0[i] == e;
        assert (done0 + [d])[i] == e && (done0 + [d])[|done0|] == d;
      }
      DocumentStep(m, c0, done0, contents, d);
      DocumentTable(m, EmptyTable(), c0, done0, d, contents);
    }
    ProcessAllKeeps(inv, m, c, done, rest, contents);
  }

  // ---------------------------------------------------------------------
  // The whole index
  // ---------------------------------------------------------------------

  /** Every reference posting is for one of the documents, which contains
      the term, and carries the term's number of occurrences there. */
  lemma {:induction false} ExpectedPostings(docs: seq<int>, contents: int -> seq<string>, w: string)
    ensures forall p :: p in Expected(docs, contents, w) ==>
      p.doc in docs && w in contents(p.doc) && p.tf == Count(contents(p.doc), w) > 0
  {
    if docs != [] {
      var init := docs[..|docs| - 1];
      var d := docs[|docs| - 1];
      assert docs == init + [d];
      ExpectedPostings(init, contents, w);
      CountPositiveIffMember(contents(d), w);
      var e0 := Expected(init, contents, w);
      var e := Expected(docs, contents, w);
      assert e == e0 + (if w in contents(d) then [Posting(d, Count(contents(d), w))] else []);
      forall p | p in e
        ensures p.doc in docs && w in contents(p.doc) && p.tf == Count(contents(p.doc), w) > 0
      {
        if p in e0 {
          assert p.doc in init;
        }
      }
    }
  }

  /** On ascending documents the reference list is ascending. */
  lemma {:induction false} ExpectedAscending(docs: seq<int>, contents: int -> seq<string>, w: string)
    requires StrictlyIncreasing(docs)
    ensures var e := Expected(docs, contents, w);
      forall i, j :: 0 <= i < j < |e| ==> e[i].doc < e[j].doc
  {
    if docs != [] {
      var init := docs[..|docs| - 1];
      var d := docs[|docs| - 1];
      assert docs == init + [d];
      ExpectedAscending(init, contents, w);
      ExpectedFacts(init, contents, w);
      var e0 := Expected(init, contents, w);
      var e := Expected(docs, contents, w);
      assert e == e0 + (if w in contents(d) then [Posting(d, Count(contents(d), w))] else []);
      forall i | 0 <= i < |e0| ensures e0[i].doc < d {
        assert e0[i] in e0;
        var k :| 0 <= k < |init| && init[k] == e0[i].doc;
        assert docs[k] == init[k];
      }
      forall i, j | 0 <= i < j < |e| ensures e[i].doc < e[j].doc {
        assert e[i] == e0[i];
        if j < |e0| {
          assert e[j] == e0[j];
        }
      }
    }
  }

  /** Every document containing the term has a reference posting. */
  lemma {:induction false} ExpectedComplete(docs: seq<int>, contents: int -> seq<string>, w: string)
    ensures forall d :: d in docs && w in contents(d) ==>
      exists p :: p in Expected(docs, contents, w) && p.doc == d
  {
    if docs != [] {
      var init := docs[..|docs| - 1];
      var d := docs[|docs| - 1];
      assert docs == init + [d];
      ExpectedComplete(init, contents, w);
      var e0 := Expected(init, contents, w);
      var e := Expected(docs, contents, w);
      assert e == e0 + (if w in contents(d) then [Posting(d, Count(contents(d), w))] else []);
      forall x | x in docs && w in contents(x)
        ensures exists p :: p in e && p.doc == x
      {
        if x != d {
          assert x in init;
          var p :| p in e0 && p.doc == x;
          assert p in e;
        } else {
          assert e[|e| - 1] in e;
        }
      }
    }
  }

  lemma InitialBuildInv(m: Maths, contents: int -> seq<string>)
    ensures BuildInv(m, EmptyCollection(), [], contents)
  {
    EmptyTableValid();
  }

  /** `build_index` on distinct document ids never raises; every term read
      gets an id, and its posting list, df and every document's weighted
      length are the reference values. */
  lemma BuildRankedCorrect(m: Maths, all: seq<int>, contents: int -> seq<string>)
    requires Distinct(all)
    ensures var docs := IndexBuild.SortDocs(all);
      var r := BuildRanked(m, all, contents);
      && r.Ok?
      && ValidTable(r.value.table)
      && r.value.table == InternAll(EmptyTable(), Flatten(docs, contents))
      && r.value.table.toId.Keys == Elements(Flatten(docs, contents))
      && (forall w :: w in r.value.table.toId ==>
            && r.value.table.toId[w] in r.value.postings && r.value.table.toId[w] in r.value.df
            && r.value.postings[r.value.table.toId[w]] == Expected(docs, contents, w)
            && r.value.df[r.value.table.toId[w]] == |Expected(docs, contents, w)|)
      && r.value.lengths.Keys == Elements(all)
      && (forall d :: d in all ==> r.value.lengths[d] == DocLength(m, contents(d)))
  {
    var docs := IndexBuild.SortDocs(all);
    IndexBuild.SortDocsIncreasing(all);
    InitialBuildInv(m, contents);
    assert [] + docs == docs;
    ProcessAllInv(m, EmptyCollection(), [], docs, contents);
    ProcessAllTable(m, EmptyCollection(), [], docs, contents);
    SameMultisetSameElements(docs, all);
    var c := BuildRanked(m, all, contents).value;
    assert BuildInv(m, c, docs, contents);
    assert Flatten(docs, contents) + [] == Flatten(docs, contents);
  }

  /** The indexer numbers terms from 1 in the order they are first read,
      document after document in ascending id order: the k-th distinct
      token of the sorted corpus gets id k + 1, and no other id is used. */
  lemma BuildRankedIds(m: Maths, all: seq<int>, contents: int -> seq<string>)
    requires Distinct(all)
    ensures var r := BuildRanked(m, all, contents);
      var added := NewTerms({}, Flatten(IndexBuild.SortDocs(all), contents));
      && r.Ok?
      && r.value.table.next == |added| + 1
      && (forall id :: id in r.value.table.toTerm <==> 1 <= id <= |added|)
      && forall k :: 0 <= k < |added| ==> added[k] in r.value.table.toId && r.value.table.toId[added[k]] == k + 1
  {
    BuildRankedCorrect(m, all, contents);
    IdsFromOne(Flatten(IndexBuild.SortDocs(all), contents));
  }

  /** A document id listed twice is indexed twice, and its first token then
      finds itself in the previous document's `doc_wt`-less state: the Python
      code raises `KeyError`. */
  lemma DuplicateDocumentRaises(m: Maths)
    ensures BuildRanked(m, [1, 1], (d: int) => ["a"]) == Err(KeyError)
  {
    var contents := (d: int) => ["a"];
    assert IndexBuild.SortDocs([1, 1]) == [1, 1];
    var c1 := ProcessDocument(m, EmptyCollection(), 1, ["a"]);
    assert c1.Ok?;
    assert ProcessDocument(m, c1.value, 1, ["a"]) == Err(KeyError);
  }

  /** A document without tokens is recorded with weighted length 0. */
  lemma EmptyDocumentLength(m: Maths)
    ensures DocLength(m, []) == 0.0
  {
  }
}

=== FILE: ranked_pipeline.dfy ===
/** HW3 end to end: the index `build_index` writes is one the search can
    always look terms up in, so the only way a search over it raises is the
    division by zero of the normalisation, which the corrected search does
    not have. */
module RankedPipeline {
  import opened Base
  import opened Weights
  import opened RankedIndex
  import opened RankedIndexFacts
  import opened RankedSearch
  import IndexBuild
  import TermIds

  /** Every known query term has a positive df and a posting list, and every
      document in those lists has a recorded length. */
  lemma BuiltIndexAnswerable(m: Maths, all: seq<int>, contents: int -> seq<string>, query: seq<string>)
    requires Distinct(all)
    ensures BuildRanked(m, all, contents).Ok?
    ensures var c := BuildRanked(m, all, contents).value;
      && Answerable(c, query)
      && forall d :: d in Hits(c, query) ==> d in c.lengths
  {
    BuildRankedCorrect(m, all, contents);
    var docs := IndexBuild.SortDocs(all);
    var c := BuildRanked(m, all, contents).value;
    SameMultisetSameElements(docs, all);
    forall t | t in query && t in c.table.toId
      ensures c.table.toId[t] in c.df && c.df[c.table.toId[t]] != 0 && c.table.toId[t] in c.postings
    {
      ExpectedFacts(docs, contents, t);
      assert t in Elements(TermIds.Flatten(docs, contents));
    }
    forall d | d in Hits(c, query) ensures d in c.lengths {
      var t, p :| t in query && p in PostingsOf(c, t) && p.doc == d;
      ExpectedPostings(docs, contents, t);
      assert p in Expected(docs, contents, t);
      assert d in docs;
    }
  }

  /** On a built index the original search raises exactly when some document
      is scored and the query's length or a scored document's length has a
      zero root; the corrected search never raises. */
  lemma BuiltIndexSearch(m: Maths, all: seq<int>, contents: int -> seq<string>, query: seq<string>)
    requires Distinct(all)
    ensures BuildRanked(m, all, contents).Ok?
    ensures var c := BuildRanked(m, all, contents).value;
      && (Search(m, c, |all|, query).Err? <==>
            Hits(c, query) != {} &&
            (|| m.sqrt(QueryNorm(m, c, |all|, query, query)) == 0.0
             || exists d :: d in Hits(c, query) && d in c.lengths && m.sqrt(c.lengths[d]) == 0.0))
      && SearchSafe(m, c, |all|, query).Ok?
  {
    BuiltIndexAnswerable(m, all, contents, query);
    var c := BuildRanked(m, all, contents).value;
    SearchFails(m, c, |all|, query);
    SearchSafeMeaning(m, c, |all|, query);
  }
}

=== FILE: ranked_search.dfy ===
/** HW3's ranked retrieval (`run_search` in HW3/search.py, lnc.ltc): every
    query term occurrence gets a tf-idf weight, each posting of a known term
    adds weight times the document's damped tf to that document's raw score,
    and the raw scores are cosine-normalised by the query's and the
    document's weighted lengths before the best ten are written. Tokens come
    already normalised; `n` is the number of indexed documents. */
module RankedSearch {
  import opened Base
  import opened TermIds
  import opened Weights
  import opened RankedIndex
  import opened Ranking

  // ---------------------------------------------------------------------
  // One query term
  // ---------------------------------------------------------------------

  /** The query idf of a term: log10(N / df) for a known term, 0 for a term
      the index has never seen (lines 139-149). */
  function QueryIdf(m: Maths, c: Collection, n: nat, t: string): (r: Result<real, string>)
    ensures t !in c.table.toId ==> r == Ok(0.0)
    ensures r.Err? <==> t in c.table.toId && (c.table.toId[t] !in c.df || c.df[c.table.toId[t]] == 0)
    ensures r.Err? ==> r.error == if c.table.toId[t] in c.df then IntZeroDivision else KeyError
  {
    if t !in c.table.toId then Ok(0.0)
    else
      var id := c.table.toId[t];
      if id !in c.df then Err(KeyError) else Idf(m, n as real, c.df[id] as real)
  }

  /** `calculate_tf_idf(calculate_tf(count), idf)`: the query-side weight of a
      term occurring `count` times in the query. The damping 1 + log10 is
      applied twice, as the code does (lines 152-156). */
  function QueryWeight(m: Maths, idf: real, count: nat): real {
    TfIdf(m, Tf(m, count as real), idf)
  }

  /** `search_term`: an unknown term has no postings (lines 88-98, 163). */
  function TermPostings(c: Collection, t: string): (r: Result<seq<Posting>, string>)
    ensures t !in c.table.toId ==> r == Ok([])
    ensures r.Err? <==> t in c.table.toId && c.table.toId[t] !in c.postings
  {
    if t !in c.table.toId then Ok([])
    else if c.table.toId[t] !in c.postings then Err(KeyError)
    else Ok(c.postings[c.table.toId[t]])
  }

  /** A document's raw score so far; a document not yet scored counts as 0. */
  function Get(s: OrderedMap<real>, d: int): real {
    if d in s.values then s.values[d] else 0.0
  }

  /** The documents of a posting list. */
  function PostingDocs(ps: seq<Posting>): set<int> {
    set p | p in ps :: p.doc
  }

  /** One posting adds weight * (1 + log10 tf) to its document's score, a
      document seen for the first time starting at 0 (lines 171-179). */
  function AddPosting(m: Maths, s: OrderedMap<real>, w: real, p: Posting): OrderedMap<real> {
    Put(s, p.doc, Get(s, p.doc) + w * Tf(m, p.tf as real))
  }

  /** Lines 167-179: the postings of one query term, in order. */
  function AddPostings(m: Maths, s: OrderedMap<real>, w: real, ps: seq<Posting>): OrderedMap<real>
    decreases |ps|
  {
    if ps == [] then s
    else AddPostings(m, AddPosting(m, s, w, ps[0]), w, ps[1..])
  }

  /** What a posting list should add to document `d`'s score. */
  function Contribution(m: Maths, w: real, ps: seq<Posting>, d: int): real
    decreases |ps|
  {
    if ps == [] then 0.0
    else (if ps[0].doc == d then w * Tf(m, ps[0].tf as real) else 0.0) + Contribution(m, w, ps[1..], d)
  }

  /** One posting's share of a document's score. */
  function Share(m: Maths, w: real, p: Posting, d: int): real {
    if p.doc == d then w * Tf(m, p.tf as real) else 0.0
  }

  /** Adding one posting keeps the earlier documents in place and raises
      only its own document's score. */
  lemma AddPostingMeaning(m: Maths, s: OrderedMap<real>, w: real, p: Posting)
    requires ValidOrderedMap(s)
    ensures var r := AddPosting(m, s, w, p);
      && ValidOrderedMap(r)
      && |s.keys| <= |r.keys| && r.keys[..|s.keys|] == s.keys
      && (forall d :: d in r.values <==> d in s.values || d == p.doc)
      && (forall d :: Get(r, d) == Get(s, d) + Share(m, w, p, d))
  {
  }

  /** Adding a posting list scores exactly its documents and keeps the
      insertion order of the documents scored before. */
  lemma {:induction false} AddPostingsKeys(m: Maths, s: OrderedMap<real>, w: real, ps: seq<Posting>)
    requires ValidOrderedMap(s)
    ensures var r := AddPostings(m, s, w, ps);
      && ValidOrderedMap(r)
      && |s.keys| <= |r.keys| && r.keys[..|s.keys|] == s.keys
      && (forall d :: d in r.values <==> d in s.values || d in PostingDocs(ps))
    decreases |ps|
  {
    if ps != [] {
      var s1 := AddPosting(m, s, w, ps[0]);
      AddPostingMeaning(m, s, w, ps[0]);
      AddPostingsKeys(m, s1, w, ps[1..]);
      var r := AddPostings(m, s, w, ps);
      assert r == AddPostings(m, s1, w, ps[1..]);
      assert r.keys[..|s.keys|] == r.keys[..|s1.keys|][..|s.keys|];
      assert PostingDocs(ps) == {ps[0].doc} + PostingDocs(ps[1..]) by {
        assert ps == [ps[0]] + ps[1..];
      }
    }
  }

  /** Adding a posting list adds its contribution to each score. */
  lemma {:induction false} AddPostingsScores(m: Maths, s: OrderedMap<real>, w: real, ps: seq<Posting>, d: int)
    requires ValidOrderedMap(s)
    ensures Get(AddPostings(m, s, w, ps), d) == Get(s, d) + Contribution(m, w, ps, d)
    decreases |ps|
  {
    if ps != [] {
      var s1 := AddPosting(m, s, w, ps[0]);
      AddPostingMeaning(m, s, w, ps[0]);
      AddPostingsScores(m, s1, w, ps[1..], d);
      assert AddPostings(m, s, w, ps) == AddPostings(m, s1, w, ps[1..]);
      assert Contribution(m, w, ps, d) == Share(m, w, ps[0], d) + Contribution(m, w, ps[1..], d);
    }
  }

  /** Adding a posting list scores exactly its documents, adds its
      contribution to each score, and keeps the insertion order of the
      documents scored before. */
  lemma AddPostingsMeaning(m: Maths, s: OrderedMap<real>, w: real, ps: seq<Posting>)
    requires ValidOrderedMap(s)
    ensures var r := AddPostings(m, s, w, ps);
      && ValidOrderedMap(r)
      && |s.keys| <= |r.keys| && r.keys[..|s.keys|] == s.keys
      && (forall d :: d in r.values <==> d in s.values || d in PostingDocs(ps))
      && (forall d :: Get(r, d) == Get(s, d) + Contribution(m, w, ps, d))
  {
    AddPostingsKeys(m, s, w, ps);
    forall d ensures Get(AddPostings(m, s, w, ps), d) == Get(s, d) + Contribution(m, w, ps, d) {
      AddPostingsScores(m, s, w, ps, d);
    }
  }

  /** Lines 138-179 for one term occurrence: the idf, the query weight, its
      square added to the query's length, then the postings. */
  function ScoreTerm(m: Maths, c: Collection, n: nat, query: seq<string>, t: string,
                     st: (OrderedMap<real>, real)): Result<(OrderedMap<real>, real), string>
  {
    match QueryIdf(m, c, n, t)
    case Err(e) => Err(e)
    case Ok(idf) =>
      var w := QueryWeight(m, idf, Count(query, t));
      match TermPostings(c, t)
      case Err(e) => Err(e)
      case Ok(ps) => Ok((AddPostings(m, st.0, w, ps), st.1 + Sq(w)))
  }

  /** A term the index does not know changes neither the scores nor the
      query's length. */
  lemma UnknownTermIgnored(m: Maths, c: Collection, n: nat, query: seq<string>, t: string,
                           st: (OrderedMap<real>, real))
    requires t !in c.table.toId
    ensures ScoreTerm(m, c, n, query, t, st) == Ok(st)
  {
  }

  /** The loop over `query_terms`, once per occurrence, stopping at the first
      error. */
  function ScoreTerms(m: Maths, c: Collection, n: nat, query: seq<string>, todo: seq<string>,
                      st: (OrderedMap<real>, real)): Result<(OrderedMap<real>, real), string>
    decreases |todo|
  {
    if todo == [] then Ok(st)
    else
      match ScoreTerm(m, c, n, query, todo[0], st)
      case Err(e) => Err(e)
      case Ok(st1) => ScoreTerms(m, c, n, query, todo[1..], st1)
  }

  // ---------------------------------------------------------------------
  // Reference definitions of the scores
  // ---------------------------------------------------------------------

  /** The weight a query term gets when its idf can be computed. */
  function Weight(m: Maths, c: Collection, n: nat, query: seq<string>, t: string): real {
    match QueryIdf(m, c, n, t)
    case Ok(idf) => QueryWeight(m, idf, Count(query, t))
    case Err(_) => 0.0
  }

  /** The postings a query term contributes. */
  function PostingsOf(c: Collection, t: string): seq<Posting> {
    if t in c.table.toId && c.table.toId[t] in c.postings then c.postings[c.table.toId[t]] else []
  }

  /** The lnc.ltc dot product of the query and document `d`: sum over the
      query's term occurrences of weight times the document's damped tf. */
  function RawScore(m: Maths, c: Collection, n: nat, query: seq<string>, todo: seq<string>, d: int): real
    decreases |todo|
  {
    if todo == [] then 0.0
    else
      Contribution(m, Weight(m, c, n, query, todo[0]), PostingsOf(c, todo[0]), d)
        + RawScore(m, c, n, query, todo[1..], d)
  }

  /** Sum of the squared query weights. */
  function QueryNorm(m: Maths, c: Collection, n: nat, query: seq<string>, todo: seq<string>): real
    decreases |todo|
  {
    if todo == [] then 0.0
    else Sq(Weight(m, c, n, query, todo[0])) + QueryNorm(m, c, n, query, todo[1..])
  }

  /** The documents that get a score: those in the posting list of some
      known query term. */
  function Hits(c: Collection, todo: seq<string>): set<int> {
    set t, p | t in todo && p in PostingsOf(c, t) :: p.doc
  }

  /** Every term can be looked up: known terms have a positive df and a
      posting list. */
  predicate Answerable(c: Collection, todo: seq<string>) {
    forall t :: t in todo && t in c.table.toId ==>
      c.table.toId[t] in c.df && c.df[c.table.toId[t]] != 0 && c.table.toId[t] in c.postings
  }

  lemma HitsCons(c: Collection, todo: seq<string>)
    requires todo != []
    ensures Hits(c, todo) == PostingDocs(PostingsOf(c, todo[0])) + Hits(c, todo[1..])
  {
    assert forall t :: t in todo <==> t == todo[0] || t in todo[1..];
  }

  /** The query loop raises exactly when some term cannot be looked up, and
      otherwise computes the reference scores, the reference query length
      and scores exactly the hit documents, each once. */
  lemma {:induction false} ScoreTermsMeaning(m: Maths, c: Collection, n: nat, query: seq<string>,
                                             todo: seq<string>, st: (OrderedMap<real>, real))
    requires ValidOrderedMap(st.0)
    ensures ScoreTerms(m, c, n, query, todo, st).Ok? <==> Answerable(c, todo)
    ensures ScoreTerms(m, c, n, query, todo, st).Ok? ==>
      var r := ScoreTerms(m, c, n, query, todo, st).value;
      && ValidOrderedMap(r.0)
      && r.1 == st.1 + QueryNorm(m, c, n, query, todo)
      && (forall d :: d in r.0.values <==> d in st.0.values || d in Hits(c, todo))
      && (forall d :: Get(r.0, d) == Get(st.0, d) + RawScore(m, c, n, query, todo, d))
    decreases |todo|
  {
    if todo != [] {
      var t := todo[0];
      assert forall x :: x in todo <==> x == t || x in todo[1..];
      if ScoreTerm(m, c, n, query, t, st).Ok? {
        var st1 := ScoreTerm(m, c, n, query, t, st).value;
        var w := Weight(m, c, n, query, t);
        var ps := PostingsOf(c, t);
        assert st1 == (AddPostings(m, st.0, w, ps), st.1 + Sq(w));
        AddPostingsMeaning(m, st.0, w, ps);
        ScoreTermsMeaning(m, c, n, query, todo[1..], st1);
        HitsCons(c, todo);
      }
    }
  }

  // ---------------------------------------------------------------------
  // Normalisation and the result
  // ---------------------------------------------------------------------

  /** `TrackScore(key, value * factor_q * factor_d)` (lines 192-195). */
  function Entry(s: OrderedMap<real>, k: int, fq: real, fd: real): TrackScore {
    TrackScore(k, Get(s, k) * fq * fd)
  }

  /** Lines 184-199: each scored document's raw score times
      1/sqrt(sum_weight_q) times 1/sqrt(its length), in the dict's order.
      Python evaluates the query factor before looking the length up. */
  function Normalise(m: Maths, c: Collection, sumq: real, s: OrderedMap<real>, keys: seq<int>)
    : Result<seq<TrackScore>, string>
    decreases |keys|
  {
    if keys == [] then Ok([])
    else
      match CosineFactor(m, sumq)
      case Err(e) => Err(e)
      case Ok(fq) =>
        if keys[0] !in c.lengths then Err(KeyError)
        else
          match CosineFactor(m, c.lengths[keys[0]])
          case Err(e) => Err(e)
          case Ok(fd) =>
            match Normalise(m, c, sumq, s, keys[1..])
            case Err(e) => Err(e)
            case Ok(rest) => Ok([Entry(s, keys[0], fq, fd)] + rest)
  }

  /** Normalisation raises exactly when there is a document to normalise and
      either the query's length or some document's length has a zero root,
      or a document has no recorded length. */
  lemma {:induction false} NormaliseFails(m: Maths, c: Collection, sumq: real, s: OrderedMap<real>, keys: seq<int>)
    ensures Normalise(m, c, sumq, s, keys).Err? <==>
      keys != [] && (m.sqrt(sumq) == 0.0 || exists k :: k in keys && (k !in c.lengths || m.sqrt(c.lengths[k]) == 0.0))
    decreases |keys|
  {
    if keys != [] {
      NormaliseFails(m, c, sumq, s, keys[1..]);
      assert forall k :: k in keys <==> k == keys[0] || k in keys[1..];
    }
  }

  /** Otherwise every scored document gets one heap entry, in the dict's
      order, whose score is its raw score divided by the query's and the
      document's root lengths: the cosine of the two weight vectors. */
  lemma {:induction false} NormaliseScores(m: Maths, c: Collection, sumq: real, s: OrderedMap<real>, keys: seq<int>)
    requires Normalise(m, c, sumq, s, keys).Ok?
    ensures var r := Normalise(m, c, sumq, s, keys).value;
      && |r| == |keys|
      && forall i :: 0 <= i < |r| ==>
           && r[i].doc == keys[i]
           && keys[i] in c.lengths
           && m.sqrt(sumq) != 0.0 && m.sqrt(c.lengths[keys[i]]) != 0.0
           && r[i].score == Get(s, keys[i]) / m.sqrt(sumq) / m.sqrt(c.lengths[keys[i]])
    decreases |keys|
  {
    if keys != [] {
      var fq := CosineFactor(m, sumq).value;
      var fd := CosineFactor(m, c.lengths[keys[0]]).value;
      var rest := Normalise(m, c, sumq, s, keys[1..]).value;
      NormaliseScores(m, c, sumq, s, keys[1..]);
      var r := Normalise(m, c, sumq, s, keys).value;
      assert r == [Entry(s, keys[0], fq, fd)] + rest;
      EntryScore(s, keys[0], fq, m.sqrt(sumq), fd, m.sqrt(c.lengths[keys[0]]));
      forall i | 0 <= i < |r|
        ensures r[i].doc == keys[i] && keys[i] in c.lengths
        ensures m.sqrt(sumq) != 0.0 && m.sqrt(c.lengths[keys[i]]) != 0.0
        ensures r[i].score == Get(s, keys[i]) / m.sqrt(sumq) / m.sqrt(c.lengths[keys[i]])
      {
        if i > 0 {
          assert r[i] == rest[i - 1];
        }
      }
    }
  }

  /** A factor times its root is one, so multiplying by it divides by the root. */
  lemma EntryScore(s: OrderedMap<real>, k: int, fq: real, a: real, fd: real, b: real)
    requires fq * a == 1.0 && fd * b == 1.0
    ensures a != 0.0 && b != 0.0
    ensures Entry(s, k, fq, fd).score == Get(s, k) / a / b
  {
    var x := Get(s, k);
    assert fq == 1.0 / a;
    assert fd == 1.0 / b;
    assert x * (1.0 / a) * (1.0 / b) == x / a / b;
  }

  /** One query: score, normalise into the heap, write the best ten. */
  function Search(m: Maths, c: Collection, n: nat, query: seq<string>): Result<seq<int>, string> {
    match ScoreTerms(m, c, n, query, query, (EmptyOrderedMap(), 0.0))
    case Err(e) => Err(e)
    case Ok(st) =>
      match Normalise(m, c, st.1, st.0, st.0.keys)
      case Err(e) => Err(e)
      case Ok(heap) => WriteResultsHw3(heap, 10)
  }

  /** The whole run: one line of results per query, stopping at the first
      query that raises. */
  function SearchAll(m: Maths, c: Collection, n: nat, queries: seq<seq<string>>): (r: Result<seq<seq<int>>, string>)
    ensures r.Ok? <==> forall i :: 0 <= i < |queries| ==> Search(m, c, n, queries[i]).Ok?
    ensures r.Ok? ==>
      && |r.value| == |queries|
      && forall i :: 0 <= i < |queries| ==> r.value[i] == Search(m, c, n, queries[i]).value
    decreases |queries|
  {
    if queries == [] then Ok([])
    else
      match Search(m, c, n, queries[0])
      case Err(e) => Err(e)
      case Ok(line) =>
        match SearchAll(m, c, n, queries[1..])
        case Err(e) => Err(e)
        case Ok(lines) => Ok([line] + lines)
  }

  // ---------------------------------------------------------------------
  // What a search returns
  // ---------------------------------------------------------------------

  /** The cosine score a scored document should get: its raw score divided
      by the root of the query's length and the root of its own. */
  function Cosine(m: Maths, c: Collection, n: nat, query: seq<string>, d: int): real {
    var q := m.sqrt(QueryNorm(m, c, n, query, query));
    if d in c.lengths && q != 0.0 && m.sqrt(c.lengths[d]) != 0.0 then
      RawScore(m, c, n, query, query, d) / q / m.sqrt(c.lengths[d])
    else 0.0
  }

  function Scored(m: Maths, c: Collection, n: nat, query: seq<string>, d: int): TrackScore {
    TrackScore(d, Cosine(m, c, n, query, d))
  }

  /** A sequence without repeats has as many elements as its set. */
  lemma {:induction false} DistinctCard(s: seq<int>)
    requires Distinct(s)
    ensures |Elements(s)| == |s|
  {
    if s != [] {
      DistinctCard(s[1..]);
      assert Elements(s) == {s[0]} + Elements(s[1..]);
      assert s[0] !in Elements(s[1..]);
    }
  }

  /** The scoring loop of a search that can look every term up. */
  lemma ScoresOf(m: Maths, c: Collection, n: nat, query: seq<string>)
    requires Answerable(c, query)
    ensures ScoreTerms(m, c, n, query, query, (EmptyOrderedMap(), 0.0)).Ok?
    ensures var st := ScoreTerms(m, c, n, query, query, (EmptyOrderedMap(), 0.0)).value;
      && Distinct(st.0.keys)
      && Elements(st.0.keys) == Hits(c, query)
      && |st.0.keys| == |Hits(c, query)|
      && st.1 == QueryNorm(m, c, n, query, query)
      && forall d :: Get(st.0, d) == RawScore(m, c, n, query, query, d)
  {
    ScoreTermsMeaning(m, c, n, query, query, (EmptyOrderedMap(), 0.0));
    var st := ScoreTerms(m, c, n, query, query, (EmptyOrderedMap(), 0.0)).value;
    assert Elements(st.0.keys) == Hits(c, query) by {
      forall d ensures d in st.0.keys <==> d in Hits(c, query) {
        assert d in st.0.values <==> d in st.0.keys;
      }
    }
    DistinctCard(st.0.keys);
  }

  /** The heap a successful search builds: one entry per scored document,
      carrying its cosine score. */
  lemma HeapOf(m: Maths, c: Collection, n: nat, query: seq<string>) returns (heap: seq<TrackScore>)
    requires Search(m, c, n, query).Ok?
    ensures Search(m, c, n, query) == WriteResultsHw3(heap, 10)
    ensures |heap| == |Hits(c, query)|
    ensures forall i :: 0 <= i < |heap| ==> heap[i].doc in Hits(c, query) && heap[i] == Scored(m, c, n, query, heap[i].doc)
    ensures forall i, j :: 0 <= i < j < |heap| ==> heap[i].doc != heap[j].doc
    ensures forall d :: d in Hits(c, query) ==> Scored(m, c, n, query, d) in heap
  {
    ScoreTermsMeaning(m, c, n, query, query, (EmptyOrderedMap(), 0.0));
    ScoresOf(m, c, n, query);
    var st := ScoreTerms(m, c, n, query, query, (EmptyOrderedMap(), 0.0)).value;
    heap := Normalise(m, c, st.1, st.0, st.0.keys).value;
    NormaliseScores(m, c, st.1, st.0, st.0.keys);
    forall i | 0 <= i < |heap|
      ensures heap[i].doc in Hits(c, query) && heap[i] == Scored(m, c, n, query, heap[i].doc)
    {
      assert st.0.keys[i] in Elements(st.0.keys);
    }
    forall d | d in Hits(c, query) ensures Scored(m, c, n, query, d) in heap {
      assert d in Elements(st.0.keys);
      var i :| 0 <= i < |st.0.keys| && st.0.keys[i] == d;
      assert heap[i] == Scored(m, c, n, query, d);
    }
  }

  /** A search raises exactly when a known term cannot be looked up, or when
      some document is scored and the query's length or a scored document's
      length has a zero root (or the document has no length). */
  lemma SearchFails(m: Maths, c: Collection, n: nat, query: seq<string>)
    ensures Search(m, c, n, query).Err? <==>
      || !Answerable(c, query)
      || (Hits(c, query) != {} &&
          (|| m.sqrt(QueryNorm(m, c, n, query, query)) == 0.0
           || exists d :: d in Hits(c, query) && (d !in c.lengths || m.sqrt(c.lengths[d]) == 0.0)))
  {
    ScoreTermsMeaning(m, c, n, query, query, (EmptyOrderedMap(), 0.0));
    if Answerable(c, query) {
      ScoresOf(m, c, n, query);
      var st := ScoreTerms(m, c, n, query, query, (EmptyOrderedMap(), 0.0)).value;
      NormaliseFails(m, c, st.1, st.0, st.0.keys);
      assert st.0.keys != [] <==> Hits(c, query) != {} by {
        if st.0.keys != [] {
          assert st.0.keys[0] in Elements(st.0.keys);
        }
      }
      assert forall d :: d in st.0.keys <==> d in Hits(c, query) by {
        forall d ensures d in st.0.keys <==> d in Hits(c, query) {
          assert d in st.0.keys <==> d in Elements(st.0.keys);
        }
      }
      WriteResultsHw3Ok(Normalise(m, c, st.1, st.0, st.0.keys));
    }
  }

  lemma WriteResultsHw3Ok(h: Result<seq<TrackScore>, string>)
    ensures h.Ok? ==> WriteResultsHw3(h.value, 10).Ok?
  {
    if h.Ok? {
      WriteResultsHw3TopTen(h.value);
    }
  }

  /** A successful search writes min(10, number of scored documents)
      distinct scored documents, best cosine score first (ties by ascending
      id), and no scored document left out ranks above one written. */
  lemma SearchTopTen(m: Maths, c: Collection, n: nat, query: seq<string>)
    requires Search(m, c, n, query).Ok?
    ensures var r := Search(m, c, n, query).value;
      && |r| == (if |Hits(c, query)| < 10 then |Hits(c, query)| else 10)
      && Distinct(r)
      && (forall i :: 0 <= i < |r| ==> r[i] in Hits(c, query))
      && (forall i, j :: 0 <= i < j < |r| ==> !Less(Scored(m, c, n, query, r[j]), Scored(m, c, n, query, r[i])))
      && (forall d, i :: d in Hits(c, query) && d !in r && 0 <= i < |r| ==>
            !Less(Scored(m, c, n, query, d), Scored(m, c, n, query, r[i])))
  {
    var heap := HeapOf(m, c, n, query);
    var f := (d: int) => Cosine(m, c, n, query, d);
    assert forall i :: 0 <= i < |heap| ==> heap[i].score == f(heap[i].doc);
    HeapCoversHits(m, c, n, query, heap);
    WriteResultsHw3Best(heap, f);
  }

  /** The documents of the heap `HeapOf` describes are exactly the scored ones. */
  lemma HeapCoversHits(m: Maths, c: Collection, n: nat, query: seq<string>, heap: seq<TrackScore>)
    requires forall i :: 0 <= i < |heap| ==> heap[i].doc in Hits(c, query)
    requires forall d :: d in Hits(c, query) ==> Scored(m, c, n, query, d) in heap
    ensures HeapDocs(heap) == Hits(c, query)
  {
    forall d | d in Hits(c, query) ensures d in HeapDocs(heap) {
      var x := Scored(m, c, n, query, d);
      assert x in heap && x.doc == d;
    }
    forall d | d in HeapDocs(heap) ensures d in Hits(c, query) {
      var x :| x in heap && x.doc == d;
      var i :| 0 <= i < |heap| && heap[i] == x;
    }
  }

  // ---------------------------------------------------------------------
  // A query whose weights are all zero
  // ---------------------------------------------------------------------

  /** With the real log10 and sqrt (log10 1 = 0, sqrt 0 = 0): one document
      "a", indexed, and the query "a". The term occurs in every document, so
      its idf is log10(1/1) = 0, the query's length is 0, and normalising the
      one scored document divides by zero. */
  lemma ZeroWeightQueryRaises(m: Maths)
    requires m.log10(1.0) == 0.0 && m.sqrt(0.0) == 0.0
    ensures var c := OneDocument(m);
      && BuildRanked(m, [1], (d: int) => ["a"]) == Ok(c)
      && Search(m, c, 1, ["a"]) == Err(ZeroDivision)
  {
    var c := OneDocument(m);
    var contents := (d: int) => ["a"];
    assert IndexBuild.SortDocs([1]) == [1];
    var st := (EmptyOrderedMap<real>(), 0.0);
    assert ProcessDocument(m, EmptyCollection(), 1, ["a"]) == Ok(c);
    assert QueryIdf(m, c, 1, "a") == Ok(0.0);
    assert Sq(QueryWeight(m, 0.0, 1)) == 0.0;
    assert ScoreTerm(m, c, 1, ["a"], "a", st) == Ok((AddPostings(m, st.0, 0.0, [Posting(1, 1)]), 0.0));
  }

  /** The collection HW3's indexer builds from the one document "a". */
  function OneDocument(m: Maths): Collection {
    Collection(TermTable(map["a" := 1], map[1 := "a"], 2), map[1 := 1], map[1 := [Posting(1, 1)]],
               map[1 := SumSquaredTf(m, [1])])
  }

  /** 1 / sqrt(s), or 0 when the root is zero: a query (or document) of zero
      length scores 0 instead of raising. */
  function SafeFactor(m: Maths, s: real): (r: real)
    ensures m.sqrt(s) != 0.0 ==> r * m.sqrt(s) == 1.0
    ensures m.sqrt(s) == 0.0 ==> r == 0.0
  {
    match CosineFactor(m, s)
    case Ok(f) => f
    case Err(_) => 0.0
  }

  /** Normalisation without the division by zero; a document without a
      recorded length still raises `KeyError`. */
  function NormaliseSafe(m: Maths, c: Collection, sumq: real, s: OrderedMap<real>, keys: seq<int>)
    : Result<seq<TrackScore>, string>
    decreases |keys|
  {
    if keys == [] then Ok([])
    else if keys[0] !in c.lengths then Err(KeyError)
    else
      match NormaliseSafe(m, c, sumq, s, keys[1..])
      case Err(e) => Err(e)
      case Ok(rest) => Ok([Entry(s, keys[0], SafeFactor(m, sumq), SafeFactor(m, c.lengths[keys[0]]))] + rest)
  }

  /** The search with the corrected normalisation. */
  function SearchSafe(m: Maths, c: Collection, n: nat, query: seq<string>): Result<seq<int>, string> {
    match ScoreTerms(m, c, n, query, query, (EmptyOrderedMap(), 0.0))
    case Err(e) => Err(e)
    case Ok(st) =>
      match NormaliseSafe(m, c, st.1, st.0, st.0.keys)
      case Err(e) => Err(e)
      case Ok(heap) => WriteResultsHw3(heap, 10)
  }

  /** The corrected normalisation only fails on a missing length, and agrees
      with the original wherever the original does not raise. */
  lemma {:induction false} NormaliseSafeMeaning(m: Maths, c: Collection, sumq: real, s: OrderedMap<real>, keys: seq<int>)
    ensures NormaliseSafe(m, c, sumq, s, keys).Ok? <==> forall k :: k in keys ==> k in c.lengths
    ensures Normalise(m, c, sumq, s, keys).Ok? ==> NormaliseSafe(m, c, sumq, s, keys) == Normalise(m, c, sumq, s, keys)
    decreases |keys|
  {
    if keys != [] {
      NormaliseSafeMeaning(m, c, sumq, s, keys[1..]);
      assert forall k :: k in keys <==> k == keys[0] || k in keys[1..];
    }
  }

  /** The corrected search never divides by zero: it raises only when a term
      cannot be looked up or a scored document has no length; where the
      original succeeds, both give the same result. */
  lemma SearchSafeMeaning(m: Maths, c: Collection, n: nat, query: seq<string>)
    ensures SearchSafe(m, c, n, query).Ok? <==>
      Answerable(c, query) && forall d :: d in Hits(c, query) ==> d in c.lengths
    ensures Search(m, c, n, query).Ok? ==> SearchSafe(m, c, n, query) == Search(m, c, n, query)
  {
    ScoreTermsMeaning(m, c, n, query, query, (EmptyOrderedMap(), 0.0));
    if Answerable(c, query) {
      ScoresOf(m, c, n, query);
      var st := ScoreTerms(m, c, n, query, query, (EmptyOrderedMap(), 0.0)).value;
      NormaliseSafeMeaning(m, c, st.1, st.0, st.0.keys);
      assert forall d :: d in st.0.keys <==> d in Hits(c, query) by {
        forall d ensures d in st.0.keys <==> d in Hits(c, query) {
          assert d in st.0.keys <==> d in Elements(st.0.keys);
        }
      }
      var h := NormaliseSafe(m, c, st.1, st.0, st.0.keys);
      WriteResultsHw3Ok(h);
    }
  }

  /** On the one-document collection the corrected search returns the
      document. */
  lemma ZeroWeightQueryAnswered(m: Maths)
    requires m.log10(1.0) == 0.0 && m.sqrt(0.0) == 0.0
    ensures SearchSafe(m, OneDocument(m), 1, ["a"]) == Ok([1])
  {
    var c := OneDocument(m);
    var st := (EmptyOrderedMap<real>(), 0.0);
    assert QueryIdf(m, c, 1, "a") == Ok(0.0);
    assert Sq(QueryWeight(m, 0.0, 1)) == 0.0;
    var s1 := AddPostings(m, st.0, 0.0, [Posting(1, 1)]);
    assert s1 == AddPosting(m, st.0, 0.0, Posting(1, 1));
    assert s1.keys == [1];
    assert ScoreTerm(m, c, 1, ["a"], "a", st) == Ok((s1, 0.0));
    var e := Entry(s1, 1, SafeFactor(m, 0.0), SafeFactor(m, c.lengths[1]));
    assert [1][1..] == [] && ["a"][1..] == [];
    assert NormaliseSafe(m, c, 0.0, s1, []) == Ok([]);
    assert NormaliseSafe(m, c, 0.0, s1, [1]) == Ok([e] + []);
    assert ScoreTerms(m, c, 1, ["a"], ["a"], st) == Ok((s1, 0.0));
    assert MinIndex([e]) == 0 && RemoveAt([e], 0) == [];
    assert Pops([], 0) == ([], []);
    assert Pops([e], 1) == ([e] + [], []);
    assert [e] + [] == [e];
    assert [e][1..] == [] && e.doc == 1;
    assert Ids([e]) == [1];
    assert PopMany([e], 1) == Ok([e]);
    assert WriteResultsHw3([e], 10) == Ok([1]);
    assert SearchSafe(m, c, 1, ["a"]) == WriteResultsHw3([e], 10);
  }
}

=== FILE: ranking.dfy ===
/** Result ordering shared by the ranked searches of HW3 and HW4: the
    `TrackScore` heap entry, its reversed comparison (which turns Python's
    min-heap into a max-heap on score), and `write_results_to_file`, which pops
    a number of entries off that heap. The heap is modelled by its contents:
    `heappop` hands back an entry that no other entry is less than. */
module Ranking {
  import opened Base

  /** A heap entry: a document id and its (real-valued) score. */
  datatype TrackScore = TrackScore(doc: int, score: real)

  /** `TrackScore.__lt__`: different scores compare reversed, equal scores by
      ascending document id. */
  predicate Less(a: TrackScore, b: TrackScore) {
    if a.score != b.score then a.score > b.score else a.doc < b.doc
  }

  /** Best first: no entry is `Less` than one before it. */
  predicate RankOrdered(r: seq<TrackScore>) {
    forall i, j :: 0 <= i < j < |r| ==> !Less(r[j], r[i])
  }

  /** Nothing in `left` is `Less` than anything in `taken`. */
  predicate NoneBetter(left: seq<TrackScore>, taken: seq<TrackScore>) {
    forall i, x :: 0 <= i < |taken| && x in left ==> !Less(x, taken[i])
  }

  /** The message Python's `heappop` raises on an empty heap. */
  const EmptyHeap: string := "IndexError: index out of range"

  // ---------------------------------------------------------------------
  // The order
  // ---------------------------------------------------------------------

  /** `Less` is a strict order, and it is total on entries with different
      documents, so a heap of distinct documents pops in one fixed order. */
  lemma LessIsStrictTotalOrder(a: TrackScore, b: TrackScore, c: TrackScore)
    ensures !Less(a, a)
    ensures Less(a, b) ==> !Less(b, a)
    ensures Less(a, b) && Less(b, c) ==> Less(a, c)
    ensures a.doc != b.doc ==> Less(a, b) || Less(b, a)
  {
  }

  /** The order ranks by score first: a strictly higher score always comes
      first, and the document id only decides between equal scores. */
  lemma LessRanksByScore(a: TrackScore, b: TrackScore)
    ensures a.score > b.score ==> Less(a, b)
    ensures Less(a, b) ==> a.score >= b.score
    ensures a.score == b.score ==> (Less(a, b) <==> a.doc < b.doc)
  {
  }

  // ---------------------------------------------------------------------
  // heappop
  // ---------------------------------------------------------------------

  /** Position of an entry that no entry of the heap is `Less` than: what
      `heappop` returns. */
  function MinIndex(h: seq<TrackScore>): (k: nat)
    requires h != []
    ensures k < |h|
    ensures forall x :: x in h ==> !Less(x, h[k])
  {
    if |h| == 1 then 0
    else
      var k := MinIndex(h[1..]) + 1;
      assert h[1..][k - 1] == h[k];
      assert forall x :: x in h ==> x == h[0] || x in h[1..];
      if Less(h[0], h[k]) then 0 else k
  }

  /** The heap without the entry at position `k`. */
  function RemoveAt(h: seq<TrackScore>, k: nat): (r: seq<TrackScore>)
    requires k < |h|
    ensures |r| == |h| - 1
    ensures multiset(r) + multiset{h[k]} == multiset(h)
  {
    assert h == h[..k] + [h[k]] + h[k + 1..];
    h[..k] + h[k + 1..]
  }

  /** Pops up to `count` entries: the entries taken, best first, and the
      entries left on the heap. */
  function Pops(h: seq<TrackScore>, count: int): (r: (seq<TrackScore>, seq<TrackScore>))
    ensures multiset(r.0) + multiset(r.1) == multiset(h)
    ensures |r.0| == if count <= 0 then 0 else if count < |h| then count else |h|
    decreases |h|
  {
    if count <= 0 || h == [] then ([], h)
    else
      var k := MinIndex(h);
      var p := Pops(RemoveAt(h, k), count - 1);
      assert multiset([h[k]] + p.0) == multiset{h[k]} + multiset(p.0);
      ([h[k]] + p.0, p.1)
  }

  /** `[heappop(heap) for _ in range(count)]`: a non-positive count pops
      nothing; popping past the last entry raises. */
  function PopMany(h: seq<TrackScore>, count: int): (r: Result<seq<TrackScore>, string>)
    ensures r.Ok? <==> count <= |h|
    ensures r.Ok? ==> |r.value| == if count <= 0 then 0 else count
    ensures r.Ok? ==> multiset(r.value) <= multiset(h)
    ensures r.Err? ==> r.error == EmptyHeap
  {
    if count <= |h| then Ok(Pops(h, count).0) else Err(EmptyHeap)
  }

  /** The entries still on the heap after `count` pops. */
  function Remaining(h: seq<TrackScore>, count: int): seq<TrackScore> {
    Pops(h, count).1
  }

  lemma MultisetMember(x: TrackScore, a: seq<TrackScore>, b: seq<TrackScore>)
    requires multiset(a) <= multiset(b)
    requires x in a
    ensures x in b
  {
    assert x in multiset(a);
  }

  /** Whatever is taken or left was on the heap. */
  lemma PopsFromHeap(h: seq<TrackScore>, count: int)
    ensures forall x :: x in Pops(h, count).0 ==> x in h
    ensures forall x :: x in Pops(h, count).1 ==> x in h
  {
    var p := Pops(h, count);
    assert multiset(p.0) + multiset(p.1) == multiset(h);
    forall x | x in p.0 ensures x in h {
      assert x in multiset(p.0);
      assert x in multiset(h);
    }
    forall x | x in p.1 ensures x in h {
      assert x in multiset(p.1);
      assert x in multiset(h);
    }
  }

  /** Entries come out best first: no later entry is `Less` than an earlier one. */
  lemma {:induction false} PopsSorted(h: seq<TrackScore>, count: int)
    ensures RankOrdered(Pops(h, count).0)
    decreases |h|
  {
    if count <= 0 || h == [] {
    } else {
      var k := MinIndex(h);
      var p1 := Pops(RemoveAt(h, k), count - 1);
      PopsSorted(RemoveAt(h, k), count - 1);
      PopsUnfold(h, count);
      TakenNotBetterThanMin(h, count);
      PrependSorted(h[k], p1.0);
    }
  }

  /** Nothing left on the heap is `Less` than anything taken. */
  lemma {:induction false} PopsTakeBest(h: seq<TrackScore>, count: int)
    ensures NoneBetter(Pops(h, count).1, Pops(h, count).0)
    decreases |h|
  {
    if count <= 0 || h == [] {
    } else {
      var k := MinIndex(h);
      var h1 := RemoveAt(h, k);
      var p1 := Pops(h1, count - 1);
      PopsTakeBest(h1, count - 1);
      PopsUnfold(h, count);
      LeftNotBetterThanMin(h, count);
      PrependBest(h[k], p1.0, Pops(h, count).1, Pops(h, count).0);
    }
  }

  /** Putting in front an entry that nothing left is `Less` than keeps
      `NoneBetter`. */
  lemma PrependBest(y: TrackScore, taken: seq<TrackScore>, left: seq<TrackScore>, r: seq<TrackScore>)
    requires r == [y] + taken
    requires NoneBetter(left, taken)
    requires forall x :: x in left ==> !Less(x, y)
    ensures NoneBetter(left, r)
  {
    forall i, x | 0 <= i < |r| && x in left ensures !Less(x, r[i]) {
      if i > 0 {
        assert r[i] == taken[i - 1];
      }
    }
  }

  /** One pop, then the rest. */
  lemma PopsUnfold(h: seq<TrackScore>, count: int)
    requires count > 0 && h != []
    ensures var k := MinIndex(h);
      var p1 := Pops(RemoveAt(h, k), count - 1);
      Pops(h, count) == ([h[k]] + p1.0, p1.1)
  {
  }

  /** Nothing the later pops take is `Less` than the first entry popped. */
  lemma TakenNotBetterThanMin(h: seq<TrackScore>, count: int)
    requires h != []
    ensures var k := MinIndex(h);
      forall x :: x in Pops(RemoveAt(h, k), count - 1).0 ==> !Less(x, h[k])
  {
    var k := MinIndex(h);
    PopsFromHeap(RemoveAt(h, k), count - 1);
    forall x | x in Pops(RemoveAt(h, k), count - 1).0 ensures !Less(x, h[k]) {
      RemovedWasOnHeap(h, k, x);
    }
  }

  /** Nothing the later pops leave is `Less` than the first entry popped. */
  lemma LeftNotBetterThanMin(h: seq<TrackScore>, count: int)
    requires h != []
    ensures var k := MinIndex(h);
      forall x :: x in Pops(RemoveAt(h, k), count - 1).1 ==> !Less(x, h[k])
  {
    var k := MinIndex(h);
    PopsFromHeap(RemoveAt(h, k), count - 1);
    forall x | x in Pops(RemoveAt(h, k), count - 1).1 ensures !Less(x, h[k]) {
      RemovedWasOnHeap(h, k, x);
    }
  }

  /** Putting in front an entry that nothing after it is `Less` than keeps the
      order. */
  lemma PrependSorted(y: TrackScore, rest: seq<TrackScore>)
    requires RankOrdered(rest)
    requires forall x :: x in rest ==> !Less(x, y)
    ensures RankOrdered([y] + rest)
  {
    var r := [y] + rest;
    forall i, j | 0 <= i < j < |r| ensures !Less(r[j], r[i]) {
      assert r[j] == rest[j - 1];
      if i > 0 {
        assert r[i] == rest[i - 1];
      }
    }
  }

  /** Whatever is left after removing one entry was on the heap. */
  lemma RemovedWasOnHeap(h: seq<TrackScore>, k: nat, x: TrackScore)
    requires k < |h| && x in RemoveAt(h, k)
    ensures x in h
  {
    assert x in multiset(RemoveAt(h, k));
  }

  /** `PopMany` in terms of the ranking: what comes out is ordered best first
      and is the best of the heap. */
  lemma PopManyRanked(h: seq<TrackScore>, count: int)
    requires PopMany(h, count).Ok?
    ensures var r := PopMany(h, count).value;
      && multiset(r) + multiset(Remaining(h, count)) == multiset(h)
      && RankOrdered(r)
      && NoneBetter(Remaining(h, count), r)
  {
    PopsSorted(h, count);
    PopsTakeBest(h, count);
  }

  /** Popping the whole heap yields every entry once, best first. */
  lemma PopAllSorts(h: seq<TrackScore>)
    ensures PopMany(h, |h|).Ok?
    ensures var r := PopMany(h, |h|).value;
      && multiset(r) == multiset(h)
      && RankOrdered(r)
  {
    var r := PopMany(h, |h|).value;
    assert |multiset(r)| == |r| == |h| == |multiset(h)|;
    MultisetSubsetSameSize(multiset(r), multiset(h));
    PopsSorted(h, |h|);
  }

  lemma MultisetSubsetSameSize(a: multiset<TrackScore>, b: multiset<TrackScore>)
    requires a <= b && |a| == |b|
    ensures a == b
  {
    var d := b - a;
    assert a + d == b;
    assert |d| == 0;
  }

  // ---------------------------------------------------------------------
  // write_results_to_file
  // ---------------------------------------------------------------------

  /** The document ids of heap entries, in order: `BlockIndex.Docs` and
      `PhraseSearch.Docs` do the same for their own element types. */
  function Ids(s: seq<TrackScore>): (r: seq<int>)
    ensures |r| == |s|
    ensures forall i :: 0 <= i < |s| ==> r[i] == s[i].doc
  {
    if s == [] then [] else [s[0].doc] + Ids(s[1..])
  }

  /** HW3's `write_results_to_file`: the requested count is used only when the
      heap holds more than ten entries; otherwise the whole heap is written. */
  function WriteResultsHw3(h: seq<TrackScore>, count: int): (r: Result<seq<int>, string>)
    ensures |h| <= 10 ==> r.Ok? && |r.value| == |h|
    ensures |h| > 10 ==> (r.Ok? <==> count <= |h|)
  {
    var n := if |h| > 10 then count else |h|;
    match PopMany(h, n)
    case Ok(popped) => Ok(Ids(popped))
    case Err(e) => Err(e)
  }

  /** With the count the search passes, HW3 writes min(10, |heap|) documents,
      best first, and every document left out ranks no better than those
      written. */
  lemma WriteResultsHw3TopTen(h: seq<TrackScore>)
    ensures var r := WriteResultsHw3(h, 10);
      && r.Ok?
      && |r.value| == (if |h| < 10 then |h| else 10)
      && r.value == Ids(PopMany(h, |r.value|).value)
  {
  }

  /** HW4's `write_results_to_file`: a missing or zero count writes the whole
      heap, a positive one caps it, a negative one writes nothing. */
  function WriteResultsHw4(h: seq<TrackScore>, count: Option<int>): (r: seq<int>)
    ensures count.None? || count.value == 0 ==> |r| == |h|
    ensures count.Some? && count.value > 0 ==> |r| == if count.value < |h| then count.value else |h|
    ensures count.Some? && count.value < 0 ==> r == []
  {
    var n := if count.Some? && count.value != 0 then
               (if |h| > count.value then count.value else |h|)
             else |h|;
    Ids(PopMany(h, n).value)
  }

  /** Every result of HW4's writer is the best of the heap in rank order. */
  lemma WriteResultsHw4Ranked(h: seq<TrackScore>, count: Option<int>)
    ensures var r := WriteResultsHw4(h, count);
      var n := |r|;
      && PopMany(h, n).Ok?
      && RankOrdered(PopMany(h, n).value)
      && NoneBetter(Remaining(h, n), PopMany(h, n).value)
      && r == Ids(PopMany(h, n).value)
  {
    var r := WriteResultsHw4(h, count);
    PopManyRanked(h, |r|);
  }

  /** An entry at two positions occurs twice. */
  lemma {:induction false} TwiceInMultiset(s: seq<TrackScore>, i: nat, j: nat)
    requires i < j < |s| && s[i] == s[j]
    ensures multiset(s)[s[i]] >= 2
  {
    var x := s[i];
    assert s == s[..i] + [x] + s[i + 1..j] + [x] + s[j + 1..];
    assert multiset(s) == multiset(s[..i]) + multiset{x} + multiset(s[i + 1..j]) + multiset{x} + multiset(s[j + 1..]);
  }

  /** Entries with pairwise different documents occur at most once. */
  lemma {:induction false} AtMostOnce(s: seq<TrackScore>, x: TrackScore)
    requires forall i, j :: 0 <= i < j < |s| ==> s[i].doc != s[j].doc
    ensures multiset(s)[x] <= 1
  {
    if s != [] {
      AtMostOnce(s[1..], x);
      assert s == [s[0]] + s[1..];
      assert multiset(s) == multiset{s[0]} + multiset(s[1..]);
      if s[0] == x {
        assert x !in s[1..] by {
          forall k | 0 <= k < |s[1..]| ensures s[1..][k] != x {
            assert s[1..][k] == s[k + 1];
          }
        }
      }
    }
  }

  /** The documents on a heap. */
  function HeapDocs(h: seq<TrackScore>): set<int> {
    set x | x in h :: x.doc
  }

  /** HW3's writer on a heap with one entry per document, each scored by
      `score`: it writes min(10, |heap|) distinct documents of the heap, best
      first, and none left out ranks above one written. */
  lemma WriteResultsHw3Best(h: seq<TrackScore>, score: int -> real)
    requires forall i, j :: 0 <= i < j < |h| ==> h[i].doc != h[j].doc
    requires forall i :: 0 <= i < |h| ==> h[i].score == score(h[i].doc)
    ensures WriteResultsHw3(h, 10).Ok?
    ensures var r := WriteResultsHw3(h, 10).value;
      && |r| == (if |h| < 10 then |h| else 10)
      && Distinct(r)
      && (forall i :: 0 <= i < |r| ==> r[i] in HeapDocs(h))
      && (forall i, j :: 0 <= i < j < |r| ==> !Less(TrackScore(r[j], score(r[j])), TrackScore(r[i], score(r[i]))))
      && (forall d, i :: d in HeapDocs(h) && d !in r && 0 <= i < |r| ==>
            !Less(TrackScore(d, score(d)), TrackScore(r[i], score(r[i]))))
  {
    WriteResultsHw3TopTen(h);
    var r := WriteResultsHw3(h, 10).value;
    var k := |r|;
    PopManyRanked(h, k);
    PoppedEntries(h, k, score);
    PoppedDistinct(h, k, score);
    LeftBehindAll(h, k, score);
  }

  /** Entries popped from a heap with one entry per document name different
      documents. */
  lemma PoppedDistinct(h: seq<TrackScore>, k: int, score: int -> real)
    requires forall i, j :: 0 <= i < j < |h| ==> h[i].doc != h[j].doc
    requires forall i :: 0 <= i < |h| ==> h[i].score == score(h[i].doc)
    requires PopMany(h, k).Ok?
    ensures Distinct(Ids(PopMany(h, k).value))
  {
    var popped := PopMany(h, k).value;
    var r := Ids(popped);
    PopManyRanked(h, k);
    PoppedEntries(h, k, score);
    forall i, j | 0 <= i < j < |r| ensures r[i] != r[j] {
      if r[i] == r[j] {
        assert popped[i] == popped[j];
        TwiceInMultiset(popped, i, j);
        AtMostOnce(h, popped[i]);
      }
    }
  }

  /** No heap document left unpopped ranks above a popped one. */
  lemma LeftBehindAll(h: seq<TrackScore>, k: int, score: int -> real)
    requires forall i :: 0 <= i < |h| ==> h[i].score == score(h[i].doc)
    requires PopMany(h, k).Ok?
    ensures var r := Ids(PopMany(h, k).value);
      forall d, i :: d in HeapDocs(h) && d !in r && 0 <= i < |r| ==>
        !Less(TrackScore(d, score(d)), TrackScore(r[i], score(r[i])))
  {
    var r := Ids(PopMany(h, k).value);
    PoppedEntries(h, k, score);
    forall d, i | d in HeapDocs(h) && d !in r && 0 <= i < |r|
      ensures !Less(TrackScore(d, score(d)), TrackScore(r[i], score(r[i])))
    {
      LeftBehind(h, k, score, d);
    }
  }

  /** What is popped are heap entries, each scored by `score`. */
  lemma PoppedEntries(h: seq<TrackScore>, k: int, score: int -> real)
    requires forall i :: 0 <= i < |h| ==> h[i].score == score(h[i].doc)
    requires PopMany(h, k).Ok?
    ensures var p := PopMany(h, k).value;
      forall i :: 0 <= i < |p| ==> p[i].doc in HeapDocs(h) && p[i] == TrackScore(p[i].doc, score(p[i].doc))
  {
    var p := PopMany(h, k).value;
    forall i | 0 <= i < |p|
      ensures p[i].doc in HeapDocs(h) && p[i] == TrackScore(p[i].doc, score(p[i].doc))
    {
      assert p[i] in multiset(p);
      assert p[i] in multiset(h);
      var j :| 0 <= j < |h| && h[j] == p[i];
    }
  }

  /** A heap document that is not popped stays on the heap, so it ranks no
      better than anything popped. */
  lemma LeftBehind(h: seq<TrackScore>, k: int, score: int -> real, d: int)
    requires forall i :: 0 <= i < |h| ==> h[i].score == score(h[i].doc)
    requires PopMany(h, k).Ok?
    requires d in HeapDocs(h) && d !in Ids(PopMany(h, k).value)
    ensures forall i :: 0 <= i < |PopMany(h, k).value| ==>
      !Less(TrackScore(d, score(d)), PopMany(h, k).value[i])
  {
    var p := PopMany(h, k).value;
    PopManyRanked(h, k);
    var left := Remaining(h, k);
    var x :| x in h && x.doc == d;
    assert x == TrackScore(d, score(d));
    assert x in multiset(h);
    assert x !in multiset(p);
    assert x in multiset(left);
    assert x in left;
    assert NoneBetter(left, p);
    forall i | 0 <= i < |p| ensures !Less(TrackScore(d, score(d)), p[i]) {
      assert !Less(x, p[i]);
    }
  }
}

=== FILE: term_ids.dfy ===
/** The term dictionary shared by every index revision: `term_to_term_id`,
    `term_id_to_term` and the running `term_id` counter. A term seen for the
    first time gets the counter's value and the counter moves on. */
module TermIds {
  import opened Base

  datatype TermTable = TermTable(toId: map<string, nat>, toTerm: map<nat, string>, next: nat)

  /** Both maps empty; the first id handed out is 1. */
  function EmptyTable(): TermTable {
    TermTable(map[], map[], 1)
  }

  /** Ids are exactly 1 .. next-1 and the two maps are mutual inverses. */
  ghost predicate ValidTable(t: TermTable) {
    && t.next >= 1
    && (forall id :: id in t.toTerm <==> 1 <= id < t.next)
    && (forall term :: term in t.toId ==> t.toId[term] in t.toTerm && t.toTerm[t.toId[term]] == term)
    && (forall id :: id in t.toTerm ==> t.toTerm[id] in t.toId && t.toId[t.toTerm[id]] == id)
  }

  lemma EmptyTableValid()
    ensures ValidTable(EmptyTable())
  {
  }

  /** Looks a token up, assigning the next id when it is new. */
  function Intern(t: TermTable, term: string): (r: TermTable)
    ensures term in r.toId
    ensures r.toId.Keys == t.toId.Keys + {term}
    ensures forall w :: w in t.toId ==> r.toId[w] == t.toId[w]
    ensures term in t.toId ==> r.next == t.next
    ensures term !in t.toId ==> r.toId[term] == t.next && r.next == t.next + 1
    ensures ValidTable(t) ==> ValidTable(r)
    ensures ValidTable(t) ==> r.toTerm.Keys == t.toTerm.Keys + {r.toId[term]}
  {
    if term in t.toId then t
    else TermTable(t.toId[term := t.next], t.toTerm[t.next := term], t.next + 1)
  }

  /** Interns every token of a sequence, left to right. */
  function InternAll(t: TermTable, tokens: seq<string>): (r: TermTable)
    ensures r.toId.Keys == t.toId.Keys + Elements(tokens)
    ensures forall w :: w in t.toId ==> r.toId[w] == t.toId[w]
    ensures ValidTable(t) ==> ValidTable(r)
    decreases |tokens|
  {
    if tokens == [] then t else InternAll(Intern(t, tokens[0]), tokens[1..])
  }

  /** Reference definition of first-seen order: the distinct tokens not yet in
      `known`, in the order of their first occurrence. */
  function NewTerms(known: set<string>, tokens: seq<string>): seq<string>
    decreases |tokens|
  {
    if tokens == [] then []
    else if tokens[0] in known then NewTerms(known, tokens[1..])
    else [tokens[0]] + NewTerms(known + {tokens[0]}, tokens[1..])
  }

  lemma {:induction false} NewTermsFresh(known: set<string>, tokens: seq<string>)
    ensures forall w :: w in NewTerms(known, tokens) ==> w !in known && w in tokens
    decreases |tokens|
  {
    if tokens != [] {
      NewTermsFresh(if tokens[0] in known then known else known + {tokens[0]}, tokens[1..]);
    }
  }

  /** Term ids are handed out consecutively in first-seen order: the k-th new
      term of `tokens` gets id t.next + k, and the counter ends just past the
      last of them. */
  lemma {:induction false} InternAllFirstSeenOrder(t: TermTable, tokens: seq<string>)
    ensures var r := InternAll(t, tokens);
            var added := NewTerms(t.toId.Keys, tokens);
            && r.next == t.next + |added|
            && forall k :: 0 <= k < |added| ==> added[k] in r.toId && r.toId[added[k]] == t.next + k
    decreases |tokens|
  {
    if tokens != [] {
      var t1 := Intern(t, tokens[0]);
      InternAllFirstSeenOrder(t1, tokens[1..]);
      if tokens[0] !in t.toId {
        FirstSeenNewToken(t, tokens);
      } else {
        assert t1 == t;
        assert NewTerms(t.toId.Keys, tokens) == NewTerms(t1.toId.Keys, tokens[1..]);
      }
    }
  }

  /** The inductive step of InternAllFirstSeenOrder for a token seen for the
      first time. */
  lemma FirstSeenNewToken(t: TermTable, tokens: seq<string>)
    requires tokens != [] && tokens[0] !in t.toId
    requires var t1 := Intern(t, tokens[0]);
             var r := InternAll(t1, tokens[1..]);
             var rest := NewTerms(t1.toId.Keys, tokens[1..]);
             && r.next == t1.next + |rest|
             && forall k :: 0 <= k < |rest| ==> rest[k] in r.toId && r.toId[rest[k]] == t1.next + k
    ensures var r := InternAll(t, tokens);
            var added := NewTerms(t.toId.Keys, tokens);
            && r.next == t.next + |added|
            && forall k :: 0 <= k < |added| ==> added[k] in r.toId && r.toId[added[k]] == t.next + k
  {
    var t1 := Intern(t, tokens[0]);
    var r := InternAll(t1, tokens[1..]);
    var rest := NewTerms(t1.toId.Keys, tokens[1..]);
    var added := NewTerms(t.toId.Keys, tokens);
    assert t1.toId.Keys == t.toId.Keys + {tokens[0]};
    assert added == [tokens[0]] + rest;
    assert tokens[0] in t1.toId;
    forall k | 0 <= k < |added|
      ensures added[k] in r.toId && r.toId[added[k]] == t.next + k
    {
      if k > 0 {
        assert added[k] == rest[k - 1];
      }
    }
  }

  /** From an empty table, the k-th distinct token of a stream gets id k + 1. */
  lemma IdsFromOne(tokens: seq<string>)
    ensures var r := InternAll(EmptyTable(), tokens);
            var added := NewTerms({}, tokens);
            && ValidTable(r)
            && r.next == |added| + 1
            && forall k :: 0 <= k < |added| ==> added[k] in r.toId && r.toId[added[k]] == k + 1
  {
    InternAllFirstSeenOrder(EmptyTable(), tokens);
    assert EmptyTable().toId.Keys == {};
  }

  /** All tokens of the documents, in processing order. */
  function Flatten(docs: seq<int>, contents: int -> seq<string>): seq<string> {
    if docs == [] then []
    else Flatten(docs[..|docs| - 1], contents) + contents(docs[|docs| - 1])
  }

  lemma {:induction false} FlattenSnoc(docs: seq<int>, d: int, contents: int -> seq<string>)
    ensures Flatten(docs + [d], contents) == Flatten(docs, contents) + contents(d)
  {
    assert (docs + [d])[..|docs|] == docs;
  }

  lemma {:induction false} FlattenCons(d: int, docs: seq<int>, contents: int -> seq<string>)
    ensures Flatten([d] + docs, contents) == contents(d) + Flatten(docs, contents)
    decreases |docs|
  {
    if docs == [] {
      assert [d] + docs == [] + [d];
      FlattenSnoc([], d, contents);
    } else {
      var front, last := docs[..|docs| - 1], docs[|docs| - 1];
      assert docs == front + [last];
      assert [d] + docs == ([d] + front) + [last];
      FlattenCons(d, front, contents);
      FlattenSnoc([d] + front, last, contents);
      FlattenSnoc(front, last, contents);
    }
  }

  lemma {:induction false} FlattenAppend(a: seq<int>, b: seq<int>, contents: int -> seq<string>)
    ensures Flatten(a + b, contents) == Flatten(a, contents) + Flatten(b, contents)
    decreases |b|
  {
    if b == [] {
      assert a + b == a;
    } else {
      var front, last := b[..|b| - 1], b[|b| - 1];
      assert b == front + [last];
      assert a + b == (a + front) + [last];
      FlattenAppend(a, front, contents);
      FlattenSnoc(a + front, last, contents);
      FlattenSnoc(front, last, contents);
    }
  }

  /** Interning a stream in two pieces is interning it whole. */
  lemma {:induction false} InternAllAppend(t: TermTable, a: seq<string>, b: seq<string>)
    ensures InternAll(t, a + b) == InternAll(InternAll(t, a), b)
    decreases |a|
  {
    if a == [] {
      assert a + b == b;
    } else {
      assert (a + b)[1..] == a[1..] + b;
      InternAllAppend(Intern(t, a[0]), a[1..], b);
    }
  }
}

=== FILE: weights.dfy ===
/** The tf-idf arithmetic of the ranked revisions (HW3 and HW4). Python's
    `math.log10` and `math.sqrt` are floating-point library calls; here they
    are parameters, so every statement about scores holds for whatever
    functions are supplied, and scores are exact reals. */
module Weights {
  import opened Base

  /** The two library functions the scoring uses. */
  datatype Maths = Maths(log10: real -> real, sqrt: real -> real)

  /** What Python raises when a float is divided by zero (`1 / math.sqrt(s)`). */
  const ZeroDivision: string := "ZeroDivisionError: float division by zero"

  function Sq(x: real): real {
    x * x
  }

  /** `calculate_tf`: 1 + log10(tf). */
  function Tf(m: Maths, tf: real): real {
    1.0 + m.log10(tf)
  }

  /** `calculate_idf`: log10(N / df). Both operands are Python ints (a
      document count and a stored df), so a zero df raises the integer
      division's ZeroDivisionError. */
  function Idf(m: Maths, n: real, df: real): (r: Result<real, string>)
    ensures r.Err? <==> df == 0.0
    ensures r.Err? ==> r.error == IntZeroDivision
  {
    if df == 0.0 then Err(IntZeroDivision) else Ok(m.log10(n / df))
  }

  /** `calculate_tf_idf`: (1 + log10(tf)) * idf. */
  function TfIdf(m: Maths, tf: real, idf: real): real {
    Tf(m, tf) * idf
  }

  /** `cosine_normalize_factor`: 1 / sqrt(s), an error when the root is zero. */
  function CosineFactor(m: Maths, s: real): (r: Result<real, string>)
    ensures r.Err? <==> m.sqrt(s) == 0.0
    ensures r.Ok? ==> r.value * m.sqrt(s) == 1.0
  {
    if m.sqrt(s) == 0.0 then Err(ZeroDivision) else Ok(1.0 / m.sqrt(s))
  }

  /** Sum of the squared tf weights of a list of term counts: the weighted
      length of a document before the square root. */
  function SumSquaredTf(m: Maths, counts: seq<nat>): real {
    if counts == [] then 0.0
    else SumSquaredTf(m, counts[..|counts| - 1]) + Sq(Tf(m, counts[|counts| - 1] as real))
  }
}
